=== FILE: README.md ===
# myst-sphinx-gallery, modelled in Dafny

myst-sphinx-gallery builds Sphinx example galleries from folders of Jupyter
notebooks, Markdown and reStructuredText files. For each example it finds the
images a document shows, chooses one as the gallery thumbnail and writes a grid
card pointing at the example. For each section it writes an index file with a
target, a toctree and a grid. This project models the decision logic and the
text processing behind that, as pure functions over sequences and strings:

- `Wrappers` (wrappers.dfy): `Option`, `Result` and the Python exception kinds
  the modelled code raises (`ValueError`, `TypeError`, `IndexError`, `KeyError`,
  `FileNotFoundError`), plus Python's negative indexing.
- `Text` (text.dfy): the `str` primitives the code relies on: `strip`,
  `lstrip`/`rstrip` of one character, `split`, `splitlines`, whitespace `split()`,
  `join`, `lower`, `isdigit`, `int()`.
- `Paths` (paths.dfy): paths as component lists, `name`/`stem`/`suffix`,
  `relative_to`, and the `resolve` and `rglob` branches of `utils.abs_path`.
- `Images` (images.dfy): `DocImages` with `len`, indexing, `+`, `where` and
  `sel_urls`; `strip_str`; the Markdown extractor (conventional `![alt](url)`
  images, then MyST `{image}`/`{figure}` blocks) and the reStructuredText
  extractor.
- `Grids` (grid.dfy): `TocTree`, `Grid` and `GridItemCard` as records of
  options, rendered pattern and an "no items yet" flag; `format_params`; the
  card template and `str.format` on it.
- `Headers` (headers.dfy): underline detection, `_parse_rst_title`, the Markdown
  and reStructuredText title/tooltip extractors, `to_section_title` and
  `remove_special_chars`. The reStructuredText extractor comes twice: as written
  (`RstScanAsWritten`, which raises IndexError where `_parse_rst_title` does, and
  which `ExtractTitleAndTooltip` uses) and corrected (`RstScan`, which treats that
  case as "no title here"); see "## Findings".
- `BaseGallery` (basegallery.dfy): the `base-gallery` block scanners for
  reStructuredText and MyST and the item filter applied to each block.
- `Naming` (naming.dfy): numeric-prefix removal, cross-reference ids
  and targets, example types, thumbnail links, example and section-index paths,
  and the create-then-append writing of index files.
- `Selection` (selection.dfy): `ExampleConverter`'s thumbnail choice: the index
  strategy, priority of images tagged `gallery_thumbnail`, the notebook
  fall-back between Markdown images and code-cell images, and the shared
  `no_image.webp` default, which is encoded at most once.
- `Config` (config.dfy): defaults of `ThumbnailConfig` and `GalleryConfig`, the
  normalisation in `GalleryConfig.__post_init__`, and `FilesConfig`.
- `Directives` (directives.dfy): `_media_option`, `row_columns_option`,
  `format_option`, `ensure_config`, and the part splitting of
  `create_title_node`.

Files are a map from path to text, the file system's "exists" is membership in
that map, and Pillow's image work is an abstract "encoding" record: which
source is encoded into which output file.

## Model

| member | source | states |
|---|---|---|
| Images.Urls | myst_sphinx_gallery/images.py:32-34 | one url per candidate (so `len` is the number of pairs), the url of pair i at position i |
| Images.GetItem | myst_sphinx_gallery/images.py:56-58 | `d[i]` succeeds exactly for Python indices in `[-len, len)` and gives the url of the pair it designates, counting from the end for negative indices |
| Images.Where | myst_sphinx_gallery/images.py:82-84 | every returned index is in range and has the requested alt, and the indices strictly increase |
| Images.WhereComplete | myst_sphinx_gallery/images.py:82-84 | every index whose alt matches is returned by `where` (with Where's contract: exactly the matching indices, in order) |
| Images.SelUrls | myst_sphinx_gallery/images.py:86-92 | the k-th selected url is the url at the k-th index of `where(alt)` |
| Images.SelUrlsEmpty | myst_sphinx_gallery/images.py:86-92 | `sel_urls(alt)` is `[]` exactly when no pair has that alt |
| Images.SelUrlsIsTaggedUrls | myst_sphinx_gallery/images.py:86-92 | `sel_urls` equals an independent filter definition: the urls of the pairs with that alt, in order |
| Images.Add | myst_sphinx_gallery/images.py:42-48 | `a + b` has `len(a)+len(b)` pairs, `a`'s first and then `b`'s |
| Images.WhereAdd | myst_sphinx_gallery/images.py:42-48 | `where` on `a + b` is `where` on `a` followed by `where` on `b` shifted by `len(a)` |
| Images.SelUrlsAdd | myst_sphinx_gallery/images.py:42-48 | `sel_urls` distributes over `+` |
| Images.StripStr | myst_sphinx_gallery/images.py:268-270 | the result never begins or ends with whitespace and is never longer than the input |
| Images.StripStrClean | myst_sphinx_gallery/images.py:268-270 | a string that is already stripped and not quoted is returned unchanged |
| Images.StripStrQuoted | myst_sphinx_gallery/images.py:268-270 | wrapping a clean string in one pair of `"`, `'` or backquotes and stripping gives the string back |
| Images.MdRoundTrip | myst_sphinx_gallery/images.py:191-206 | conventional images written first and MyST blocks written after them are read back as exactly those images, in that order |
| Images.InlineAtLine | myst_sphinx_gallery/images.py:193-196 | the conventional pattern matches a written `![alt](url)` exactly over its own length and captures its alt and url |
| Images.InlineRoundTrip | myst_sphinx_gallery/images.py:193-196 | conventional images written one per line are extracted back, in order |
| Images.AltLine | myst_sphinx_gallery/images.py:202-204 | when no earlier option line contains `:alt:`, the first `:alt:` line, at any indentation, gives its non-empty one-line alt; later lines are not read |
| Images.AltMissing | myst_sphinx_gallery/images.py:203-204 | a block none of whose option lines is `:alt:` gets alt `""` |
| Images.FencedNoAlt | myst_sphinx_gallery/images.py:198-206 | a MyST image block without options yields one candidate with alt `""`, not a missing entry |
| Images.FencedRoundTrip | myst_sphinx_gallery/images.py:198-206 | MyST image blocks written in sequence are extracted back, in order |
| Images.RstNoAlt | myst_sphinx_gallery/images.py:249-257 | a reStructuredText image directive followed by a blank line and a line that does not start with `:` yields one candidate with alt `""` |
| Images.RstRoundTrip | myst_sphinx_gallery/images.py:225-259 | reStructuredText image directives with non-empty alt texts, written in sequence, are extracted back, in order |
| Images.ParseMdImages | myst_sphinx_gallery/images.py:191-206 | a text without `!` holds no conventional image, so only its MyST blocks are found |
| Images.MdKindsNotInterleaved | myst_sphinx_gallery/images.py:191-206 | for a document whose MyST blocks precede its conventional images, the result still lists the conventional images first: the two kinds are never interleaved |
| Grids.FormatParams | myst_sphinx_gallery/grid.py:200-206 | fails with ValueError exactly for a single value that is not str, int or bool |
| Grids.FormatParamsWords | myst_sphinx_gallery/grid.py:200-206 | a list of integers renders as text whose whitespace-split words are the integers' decimal forms, in order |
| Grids.DictSetLookup | myst_sphinx_gallery/grid.py:111-114 | after recording an option, looking it up gives the new value, every other option is unchanged, and names stay unique |
| Grids.NewTocTree | myst_sphinx_gallery/grid.py:24-28 | a given non-empty pattern is used as is, otherwise the default toctree header |
| Grids.TocAddItem | myst_sphinx_gallery/grid.py:36-38 | the pattern is extended by exactly four spaces, the item and a newline |
| Grids.TocCopy | myst_sphinx_gallery/grid.py:53-58 | a copy is the default toctree, whatever was added before |
| Grids.TocRoundTrip | myst_sphinx_gallery/grid.py:36-38 | the entries read back from a toctree built from items are those items, in order |
| Grids.TocParseItemRoundTrip | myst_sphinx_gallery/grid.py:40-51 | a document `stem.ext` in folders `dirs` below the reference directory is listed as `dirs/stem`, which splits at `/` back into the folders and the stem; the reference directory itself raises ValueError |
| Grids.GridAddOption | myst_sphinx_gallery/grid.py:111-114 | records the option and appends `    :name: value` plus a newline, failing exactly when the value cannot be formatted |
| Grids.NewGridLines | myst_sphinx_gallery/grid.py:89-103 | a new grid is the header followed by one option line per truthy setting in field order (gutter, margin, padding, outline, reverse), with those settings as its options and no items; it raises ValueError exactly when the columns or one of those settings cannot be formatted |
| Grids.OptionLinesOk | myst_sphinx_gallery/grid.py:111-114 | the option lines can be written exactly when every value can be formatted |
| Grids.ZeroGutterIgnored | myst_sphinx_gallery/grid.py:95-103 | a falsy option (gutter 0) adds no option line |
| Grids.DefaultGridPattern | myst_sphinx_gallery/grid.py:72-91 | the default grid renders as `"\n\n.. grid:: 2 3 3 4\n"` with no options |
| Grids.GridItemsRoundTrip | myst_sphinx_gallery/grid.py:116-123 | items added to a grid that had none are read back from its text: after the old pattern, split at newlines, come an empty line, the items in order and a final empty piece; options and grid option are unchanged |
| Grids.GridAddOptionFresh | myst_sphinx_gallery/grid.py:111-114 | adding a new option to an item-free grid keeps it in the shape "header then option lines" |
| Grids.GridCopyKeepsOptions | myst_sphinx_gallery/grid.py:125-134 | a copy keeps the column option and every option and drops all items |
| Grids.GridCopyFresh | myst_sphinx_gallery/grid.py:125-134 | copying an item-free grid gives the same grid |
| Grids.GridCopyIdempotent | myst_sphinx_gallery/grid.py:125-134 | copying a copy changes nothing |
| Grids.CardAddOption | myst_sphinx_gallery/grid.py:170-173 | records the option and appends it indented by 8 spaces, failing exactly when the value cannot be formatted |
| Grids.NewCardLines | myst_sphinx_gallery/grid.py:152-162 | a new card is the template followed by one eight-space option line per truthy setting in field order (columns, margin, padding), with those settings as its options and no items; it raises ValueError exactly when one of those settings cannot be formatted |
| Grids.NewCard | myst_sphinx_gallery/grid.py:152-162 | without options a card is the bare template, and every new card starts with the template and has no items |
| Grids.CardItemsRoundTrip | myst_sphinx_gallery/grid.py:175-182 | items added to a card that had none are read back from its text: after the old pattern come an empty line, the items each indented by eight spaces, and a final empty piece; dropping the indentation gives the items; options are unchanged |
| Grids.CardCopyShape | myst_sphinx_gallery/grid.py:188-197 | a copy keeps every option, drops all items, and renders as the template followed by the option lines |
| Grids.FormatOfEscaped | myst_sphinx_gallery/grid.py:184-186 | `str.format` undoes brace doubling: text with its braces doubled formats back to itself |
| Grids.CardFormatFills | myst_sphinx_gallery/grid.py:11-16 | formatting a card fills the target ref into the card link and the title reference and the image path into the image line |
| Headers.SignLineIff | myst_sphinx_gallery/utils.py:252-254 | a stripped line is an underline exactly when its characters are all `-` or all `=` and it is non-empty |
| Headers.ParseRstTitleAsWritten | myst_sphinx_gallery/utils.py:257-294 | as written, the only failure is the IndexError of `title_list[0]` |
| Headers.ParseRstTitleRaises | myst_sphinx_gallery/utils.py:257-294 | as written, `_parse_rst_title` raises exactly when the candidates hold an underline and a non-underline line, and no non-underline line has the length of the last underline |
| Headers.ParseRstTitleIndexError | myst_sphinx_gallery/utils.py:284-293 | the lines `T` and `--` make the code as written raise IndexError, where the corrected function returns `("", [])` |
| Headers.ParseRstTitleSpec | myst_sphinx_gallery/utils.py:257-294 | over the stripped lines, the underline is the last sign line and the title the first other line of the same length; there is no title exactly when no other line is as long as the last sign line (or there is no sign line) |
| Headers.ParseRstTitle | myst_sphinx_gallery/utils.py:257-294 | either no title and no lines, or the title, a stripped non-underline line, together with an underline of the same length |
| Headers.ParseRstTitleAgrees | myst_sphinx_gallery/utils.py:257-294 | the corrected function agrees with the code wherever the code returns, and returns `("", [])` where it raises |
| Headers.ParseTitleBlock | myst_sphinx_gallery/utils.py:273-294 | a text line over an underline of its length is parsed as the title |
| Headers.MdTitleTooltipRoundTrip | myst_sphinx_gallery/utils.py:184-212 | for `# title`, a blank line and a paragraph, the title is read back and the tooltip is the paragraph's lines joined by single spaces |
| Headers.SectionTitleRoundTrip | myst_sphinx_gallery/utils.py:215-249 | a section title made by `to_section_title`, followed by a paragraph, gives back the title and the paragraph joined by spaces, also through `extract_title_and_tooltip`, which does not raise on it |
| Headers.SectionTitleLayout | myst_sphinx_gallery/utils.py:460-463 | split at newlines, a section title is two empty lines, the title, a dash line of the title's length and an empty rest |
| Headers.ExtractTitleAndTooltip | myst_sphinx_gallery/utils.py:150-181 | `.rst` either raises IndexError or gives what the corrected reStructuredText extractor gives, `.md` and `.ipynb` use the Markdown one, and any other suffix raises ValueError |
| Headers.RstScanAsWritten | myst_sphinx_gallery/utils.py:230-241 | the scan as written either raises IndexError or finds the same title and tooltip lines as the corrected scan |
| Headers.RstScanRaises | myst_sphinx_gallery/utils.py:230-241 | the scan as written raises exactly when it reaches a line where `_parse_rst_title` raises before any earlier line has given a title |
| Headers.TitleAtAsWritten | myst_sphinx_gallery/utils.py:232-241 | at one line, the code as written raises exactly at an underline whose candidate lines make `_parse_rst_title` raise, where the corrected version finds no title, and otherwise agrees with it |
| Headers.UnderlineLengthRaises | myst_sphinx_gallery/utils.py:284-293 | a title and an underline of another length make `_parse_rst_title` raise IndexError as written and give no title when corrected |
| Headers.UnderlineLengthExtract | myst_sphinx_gallery/utils.py:150-181 | a `.rst` file holding a title and an underline of another length makes `extract_title_and_tooltip` raise IndexError; the corrected extractor gives an empty title and tooltip |
| Headers.RemoveSpecialChars | myst_sphinx_gallery/utils.py:536-542 | the result has only allowed characters and is never longer |
| Headers.RemoveSpecialCharsKeeps | myst_sphinx_gallery/utils.py:536-542 | a string is unchanged exactly when all its characters are allowed |
| Headers.RemoveSpecialCharsAppend | myst_sphinx_gallery/utils.py:536-542 | the filter works character by character: it distributes over concatenation, so it keeps exactly the allowed characters in order |
| Headers.RemoveSpecialCharsIdempotent | myst_sphinx_gallery/utils.py:536-542 | removing twice is removing once |
| BaseGallery.ItemFilterExactly | myst_sphinx_gallery/utils.py:344-356 | a line is kept exactly when it is an item line: stripped, non-blank, not an option, not a fence and not the directive |
| BaseGallery.ItemFilterAppend | myst_sphinx_gallery/utils.py:344-356 | the filter keeps order: it distributes over concatenation |
| BaseGallery.FenceSigns | myst_sphinx_gallery/utils.py:402-409 | the count is 0 exactly for lines not starting with three backticks or colons, and otherwise is the length of the leading run |
| BaseGallery.RstScanDocument | myst_sphinx_gallery/utils.py:359-399 | scanning a document with one indented `base-gallery` block, ended by a line no deeper than the directive, collects exactly that block |
| BaseGallery.RstDirectivesOfDocument | myst_sphinx_gallery/utils.py:359-399 | such a document yields one directive: the directive line and its indented items |
| BaseGallery.RstItemsRoundTrip | myst_sphinx_gallery/utils.py:297-327 | the items written into a reStructuredText `base-gallery` block are read back, in order |
| BaseGallery.MdScanDocument | myst_sphinx_gallery/utils.py:418-457 | scanning a document with one fenced `base-gallery` block collects exactly that block, from its opener to the first fence line after it |
| BaseGallery.MdDirectivesOfDocument | myst_sphinx_gallery/utils.py:418-457 | such a document yields one directive: the opener, the items and the closing fence |
| BaseGallery.MdItemsRoundTrip | myst_sphinx_gallery/utils.py:297-327 | the items written into a MyST `base-gallery` block, with backtick or colon fences, are read back, in order |
| BaseGallery.GetBaseGalleryItems | myst_sphinx_gallery/utils.py:316-322 | succeeds exactly for style `rst` or `md`, and any other style raises ValueError |
| BaseGallery.GetBaseGalleryItemsAreItems | myst_sphinx_gallery/utils.py:323-327 | every returned item is an item line |
| Naming.WithoutNumPrefix | myst_sphinx_gallery/utils.py:466-473 | the name is unchanged, or its first `-` segment was all digits and was dropped |
| Naming.NumPrefixDropped | myst_sphinx_gallery/utils.py:466-473 | `digits-rest` becomes `rest` |
| Naming.DigitsOnlyEmptied | myst_sphinx_gallery/utils.py:466-473 | a name of digits only becomes empty |
| Naming.NoLeadingDigitKept | myst_sphinx_gallery/utils.py:466-473 | a name not starting with a digit is kept |
| Naming.RemoveNumPrefix | myst_sphinx_gallery/gallery.py:656-663 | folder stem and file name are each kept or lose an all-digit first segment |
| Naming.TargetRef | myst_sphinx_gallery/gallery.py:436-438 | each character of the reference is the lower-case form of the same character of prefix plus stem, so it is as long and has no upper-case letter |
| Naming.TargetRefCaseBlind | myst_sphinx_gallery/gallery.py:436-438 | two gallery files whose stems differ only in case get the same reference |
| Naming.ParseExampleType | myst_sphinx_gallery/gallery.py:388-400 | succeeds exactly for `.ipynb`, `.md` and `.rst`, with the type whose extension is the suffix, and raises ValueError otherwise |
| Naming.ExampleTypeOfName | myst_sphinx_gallery/gallery.py:388-400 | a name made of a stem and a type's extension is recognised as that type |
| Naming.TargetStrLabel | myst_sphinx_gallery/gallery.py:428-433 | the target written for any file type, `(ref)=` or `.. _ref:`, reads back as the reference |
| Naming.HeaderTargetLabel | myst_sphinx_gallery/gallery.py:257-262 | a section header target is a reStructuredText label that reads back as the section's reference |
| Naming.SectionTargetRef | myst_sphinx_gallery/gallery.py:118-123 | a section's reference is the lower-cased prefix, folder name and `_header` |
| Naming.ThumbFileRel | myst_sphinx_gallery/gallery.py:460-464 | succeeds exactly for a thumbnail below the gallery directory, and raises ValueError otherwise; the gallery directory itself gives `/<stem>/.` |
| Naming.ThumbFileRelParts | myst_sphinx_gallery/gallery.py:460-464 | the link splits on `/` into an empty root, the gallery folder and the path below it |
| Naming.ThumbLink | myst_sphinx_gallery/gallery.py:451-464 | a file in the `myst_sphinx_gallery_thumbs` directory is linked as `/<gallery stem>/myst_sphinx_gallery_thumbs/<name>` |
| Naming.ParsePaths | myst_sphinx_gallery/gallery.py:370-386 | the example lies at the returned relative path below the examples directory, and its gallery copy sits two levels below the gallery directory; `samefile` raises FileNotFoundError exactly when the copy's grandparent folder is missing |
| Naming.ParsePathsTooDeep | myst_sphinx_gallery/gallery.py:370-386 | an example three levels below the examples directory raises ValueError when its gallery folder exists and FileNotFoundError when it does not |
| Naming.ParsePathsLevels | myst_sphinx_gallery/gallery.py:370-386 | an example below the examples directory is accepted exactly when it is two levels deep |
| Naming.ParsePathsDropsNumbers | myst_sphinx_gallery/gallery.py:370-386 | numbered folder and file names map to their un-numbered names in the gallery |
| Naming.SectionIndexFile | myst_sphinx_gallery/gallery.py:233-239 | a section's index file is always named `index.rst` |
| Naming.SectionIndexOf | myst_sphinx_gallery/gallery.py:233-239 | the header file of numbered folder `d-folder` gives the index `gallery/folder/index.rst` |
| Naming.WriteIndexFile | myst_sphinx_gallery/gallery.py:604-631 | only the index file changes; an existing one keeps its text as a prefix followed by exactly `append`; a new one is as long as prepend, header and append plus three separating newlines |
| Naming.WriteIndexFileLayout | myst_sphinx_gallery/gallery.py:621-626 | split at newlines, a new index file is the `prepend` line, an empty line, the one-line header, then the lines of `append` |
| Naming.AppendTwice | myst_sphinx_gallery/gallery.py:621-631 | two appends to an existing index equal one append of both texts |
| Naming.ConvertIndexFileContent | myst_sphinx_gallery/gallery.py:302-308 | after converting a section header, the index is target, blank line, header, newline, toctree and grid, and no other file changes |
| Paths.StemSuffix | myst_sphinx_gallery/gallery.py:388-400 | a file name is its stem followed by its suffix |
| Paths.RelativeTo | myst_sphinx_gallery/grid.py:40-51 | a path is relative to a base exactly when the base is a prefix of it, and the base plus the relative part gives the path back |
| Paths.AbsPath | myst_sphinx_gallery/utils.py:37-81 | `resolve` resolves under the root, `rglob` returns the first match or raises FileNotFoundError, a missing root raises TypeError, and any other method raises ValueError |
| Paths.LeadingSlashStaysUnderRoot | myst_sphinx_gallery/utils.py:62-66 | a leading `/` is rewritten, so `/p` resolves like `p` |
| Paths.ResolveStaysUnderRoot | myst_sphinx_gallery/utils.py:62-66 | without `..` components the resolved path lies below the root |
| Selection.ThumbIdx | myst_sphinx_gallery/gallery.py:467-476 | `first` gives 0, `last` gives -1, and every other strategy is a ValueError |
| Selection.PickTagged | myst_sphinx_gallery/gallery.py:505-511 | with tagged candidates, first and last pick the first and last tagged url |
| Selection.PickUntagged | myst_sphinx_gallery/gallery.py:505-511 | without tagged candidates, first and last pick the first and last url of all candidates |
| Selection.PickIsTagged | myst_sphinx_gallery/gallery.py:505-511 | whenever a tagged candidate exists the chosen url belongs to a tagged candidate |
| Selection.UseDefault | myst_sphinx_gallery/gallery.py:485-494 | the card points at `no_image.webp` in the thumbs directory, which is encoded only when it does not exist yet |
| Selection.UseDefaultIdempotent | myst_sphinx_gallery/gallery.py:485-494 | falling back to the default twice is falling back once |
| Selection.ParseDocThumb | myst_sphinx_gallery/gallery.py:496-521 | reports success exactly when there are candidates, and uses the default without any; with strategy first or last and a root folder exactly one encoding is appended, of the first or last `gallery_thumbnail` image when there is one, else of the first or last image, resolved below the root folder and saved at the document's destination; an unknown strategy raises ValueError |
| Selection.ParseCellThumb | myst_sphinx_gallery/gallery.py:523-545 | reports success exactly when there are cell images; with strategy first or last exactly one encoding is appended, of the first or last cell image, saved as `<stem>.webp` in the thumbnail folder, and an unknown strategy raises ValueError |
| Selection.NotebookStrategyChecked | myst_sphinx_gallery/gallery.py:565-568 | a notebook strategy other than `markdown` or `code` raises ValueError |
| Selection.TextFilesIgnoreNotebookStrategy | myst_sphinx_gallery/gallery.py:550-555 | Markdown and reStructuredText examples do not depend on the notebook strategy |
| Selection.NoImagesNoStrategy | myst_sphinx_gallery/gallery.py:550-552 | a Markdown example without images gets the default thumbnail, whatever the index strategy |
| Selection.MarkdownFirst | myst_sphinx_gallery/gallery.py:557-560 | strategy `markdown` uses Markdown images if any, else code-cell images, else the default |
| Selection.CodeFirst | myst_sphinx_gallery/gallery.py:561-564 | strategy `code` uses code-cell images if any, else Markdown images, else the default |
| Selection.MarkdownMissEncodesDefault | myst_sphinx_gallery/gallery.py:557-560 | falling through from Markdown to code cells still encodes the default image once, because `_parse_doc_thumb` already fell back to it |
| Selection.ParseThumbKeeps | myst_sphinx_gallery/gallery.py:547-568 | choosing a thumbnail keeps the default image encoded at most once, loses no file, and adds no default encoding when `no_image.webp` is already present |
| Selection.DefaultEncodedOnce | myst_sphinx_gallery/gallery.py:485-494 | over any sequence of examples the default image is encoded at most once, no file is lost, and none is encoded when `no_image.webp` was already present |
| Selection.NoImageLink | myst_sphinx_gallery/gallery.py:456-464 | the default card links to `/<gallery stem>/myst_sphinx_gallery_thumbs/no_image.webp` |
| Config.ResolveAll | myst_sphinx_gallery/config.py:250-254 | every directory is resolved under the root, in order, and a missing root fails for a non-empty list |
| Config.NormaliseDirs | myst_sphinx_gallery/config.py:238-254 | nothing happens unless both directory settings are given, and only the directory fields change |
| Config.UnequalDirsRejected | myst_sphinx_gallery/config.py:246-248 | lists of unequal length raise ValueError |
| Config.SingleDirsWrapped | myst_sphinx_gallery/config.py:240-244 | a single examples directory and gallery directory become one-element resolved lists |
| Config.DirsPaired | myst_sphinx_gallery/config.py:240-254 | after normalisation both lists are resolved, equally long, and pairwise the resolved inputs |
| Config.UnsetDirsUntouched | myst_sphinx_gallery/config.py:240 | when either directory setting is missing, both are left untouched |
| Config.BuildersItemFree | myst_sphinx_gallery/config.py:256-259 | the grid and card are replaced by item-free copies with the same options |
| Config.BuildersStable | myst_sphinx_gallery/config.py:256-259 | copying the configured grid or toctree again changes nothing |
| Config.DefaultConfigOk | myst_sphinx_gallery/config.py:137-259 | the default configuration constructs and has no directories |
| Config.DefaultStrategies | myst_sphinx_gallery/config.py:63-97 | defaults: last image, Markdown before code, prefix `example_`, 320×224, 100 frames, qualities 80 and 50, and per-file defaults equal to the gallery's |
| Config.AddFiles | myst_sphinx_gallery/config.py:37-45 | adding a listing fails exactly when it names files and an unknown configuration |
| Config.FilesMapOk | myst_sphinx_gallery/config.py:37-45 | the mapping is built exactly when every listing that names files names a known configuration, and fails with KeyError otherwise |
| Config.FilesMapLastWins | myst_sphinx_gallery/config.py:37-45 | a file is mapped exactly when it is listed, and to the configuration of its last listing |
| Config.FilesGet | myst_sphinx_gallery/config.py:51-53 | a mapped file gets its configuration and any other file the default |
| Config.UnlistedGetsDefault | myst_sphinx_gallery/config.py:51-53 | a file no listing names gets the default configuration |
| Directives.MediaValues | myst_sphinx_gallery/directives.py:366-370 | a single value is replicated to four and otherwise the whitespace-split values are kept |
| Directives.MediaOption | myst_sphinx_gallery/directives.py:348-383 | succeeds exactly for a present argument with one or four valid values, and gives the five size classes |
| Directives.MediaFourValues | myst_sphinx_gallery/directives.py:366-383 | four valid values give the base class and the xs, sm, md and lg classes in order |
| Directives.MediaOneValue | myst_sphinx_gallery/directives.py:366-383 | one valid value is used for every size |
| Directives.MediaTwoOrThreeRejected | myst_sphinx_gallery/directives.py:368-370 | two or three values raise ValueError |
| Directives.RowColumnsClasses | myst_sphinx_gallery/directives.py:340-345 | a valid row-columns option gives five `sd-row-cols-` classes |
| Directives.RowColumnsAuto | myst_sphinx_gallery/directives.py:340-345 | `auto` is allowed and gives `auto` for every size |
| Directives.RowColumnsMissing | myst_sphinx_gallery/directives.py:364-365 | a missing argument raises ValueError |
| Directives.FormatOption | myst_sphinx_gallery/directives.py:330-337 | every key is kept, in order, and each value is normalised |
| Directives.FormatValue | myst_sphinx_gallery/directives.py:330-337 | lists stay lists of non-empty words without whitespace, and other values become strings |
| Directives.FormatOptionIdempotent | myst_sphinx_gallery/directives.py:330-337 | normalising twice is normalising once |
| Directives.EnsureConfig | myst_sphinx_gallery/directives.py:311-327 | a configuration is kept, None gives the default, and an unsupported argument raises TypeError |
| Directives.ThumbSettingsKept | myst_sphinx_gallery/directives.py:311-327 | a per-file thumbnail configuration carries its settings into the constructed configuration |
| Directives.EnsureConfigStable | myst_sphinx_gallery/directives.py:311-327 | applying it to its own result gives the same result |
| Directives.TitleParts | myst_sphinx_gallery/directives.py:623-628 | the split parts joined by the delimiter give the title back |
| Directives.SplitSpansJoin | myst_sphinx_gallery/directives.py:628 | splitting on delimited spans loses nothing: joining with the delimiter restores the text |
| Directives.TitleLiteralsAreSpans | myst_sphinx_gallery/directives.py:631-642 | the literals are exactly the non-empty delimited spans, and all nodes' text together is the title without delimiters |
| Directives.AsWrittenAgrees | myst_sphinx_gallery/directives.py:631-642 | when no plain part equals a captured one, the as-written membership test agrees with classifying parts by position |
| Directives.TitleCounterexample | myst_sphinx_gallery/directives.py:631-642 | for the title ``x`x` `` the code as written makes both `x` parts literals, while by position only the second is |

## Left out

- Pillow work: the `Thumbnail` class, resizing, encoding, frame subsampling and the keyword dictionaries of `ThumbnailConfig`. Encoding is an abstract record of source and output file.
- Notebook reading and `CellImages`: nbformat parsing and base64 decoding are left out. A notebook's Markdown is a given string and its code-cell images are an abstract list.
- Python regular expressions: the image extractors are line scanners rather than the regular expressions of images.py. They do not agree with the patterns on every input. For example, after an empty `:alt:` the pattern's `\s*` runs onto the next line and reads it as the alt. A `:alt:` in the middle of an option line is also found by the pattern but not by the scanner. The round-trip lemmas and the `AltLine` and `RstNoAlt` lemmas are restricted to inputs where the two agree. The `base-gallery` scanners use no regular expression and follow the source loops.
- File-system operations are parameters: `exists`, `glob`, `rglob`, directory creation and removal. File contents are a map from path to text; `rglob`'s matches are given.
- `samefile` in `_parse_paths` is modelled by the set of folders present: a missing folder raises FileNotFoundError, and two present folders are the same file exactly when their paths are equal (no links).
- Warnings (`warnings.warn`) carry no state and are not modelled; the values returned next to them are.
- `gallery.get_rst_title` delegates to docutils and is not part of this model.
- Sphinx directive `run` methods, docutils node construction (title parts become an abstract `TitleNode`), `CardDirectiveWrapper`, `sphinx_ext.py`, `gen_gallery.py`, `io_tools.py` and `patterns.py` are not part of this model.
- `isdigit` and `lower` are ASCII-only; Unicode digits and case mappings are not modelled.
- Directives.FormatOption: list elements are strings; Python's `str()` of other element types is not modelled.
- Images.MdKindsNotInterleaved: stated for documents whose MyST blocks precede the conventional images and contain no `!`, not for arbitrary documents.
- Images.InlineRoundTrip, Images.FencedRoundTrip and Images.RstRoundTrip: stated for images whose url and alt survive `strip_str` and contain no newline or closing delimiter.
- Images.RstRoundTrip: also requires every alt to be non-empty. For an empty alt, the source's `\s*` after `:alt:` runs across the newline and takes the next line as the alt.
- Images.AltLine: requires a non-empty alt without newline, and no `:alt:` anywhere in the earlier option lines. Otherwise the source's search finds an earlier mid-line `:alt:`, or after an empty alt it reads the next line.
- Images.RstNoAlt: requires that the line after the blank line does not start with `:`. Otherwise the source's option repetition crosses the blank line and reads that line as an option.
- Grids.Format: a replacement field is taken as a plain name (`{target_ref}`, `{img_path}`); a field with a conversion (`!r`), a format spec (`:>10`), an index (`[0]`) or an attribute (`.x`) is not parsed, so `{target_ref!r}` raises KeyError in the model where `str.format` would apply the conversion. The card template uses only plain fields.
- Paths: `resolve` is lexical; it removes `.` and `..` components but does not follow symbolic links.
- Paths.ResolveStaysUnderRoot: stated only for paths without `..` components, which `resolve` may lift above the root.

## Findings

| source | as written | input that shows it | evidently intended | confidence | as-written member | corrected member |
|---|---|---|---|---|---|---|
| myst_sphinx_gallery/utils.py:284-293 | `title_list[0]` is read even when no candidate line has the underline's length | a `.rst` example holding `T` underlined by `--` (any underline longer or shorter than every candidate line) | return `("", [])` as for the other "no title" cases | not executed | Headers.UnderlineLengthExtract | Headers.ParseRstTitleSpec |
| myst_sphinx_gallery/directives.py:631-641 | a part is made a literal when its text equals any captured span (`part in matches`) | the title ``x`x` ``: the plain `x` equals the captured `x` | only the captured spans (odd positions of the split) become literals | not executed | Directives.TitleCounterexample | Directives.TitleLiteralsAreSpans |

=== FILE: basegallery.dfy ===
/** The `base-gallery` directive as it appears in a gallery header file
    (`utils.py`): the scanners that cut the directive blocks out of a
    reStructuredText or Markdown document, and the extraction of the listed
    items from a block. */
module BaseGallery {
  import opened Wrappers
  import opened Text

  // ---------------------------------------------------------------------------
  // Items of one directive block

  const BaseGalleryMark: String := ".. base-gallery::"
  const Backticks: String := "```"
  const Colons: String := ":::"

  /** A stripped line `_get_base_gallery_items` keeps: not empty, not an option
      (`:`), not a fence and not the directive line itself. */
  predicate IsItemLine(c: String)
  {
    c != [] && !StartsWith(c, ":") && !StartsWith(c, Backticks) && !Contains(c, BaseGalleryMark)
  }

  /** The lines of `cs` that `keep` accepts, in order. */
  function Filter(cs: seq<String>, keep: String -> bool): (r: seq<String>)
    ensures |r| <= |cs|
  {
    if cs == [] then [] else (if keep(cs[0]) then [cs[0]] else []) + Filter(cs[1..], keep)
  }

  /** The loop of `_get_base_gallery_items` over the stripped lines. */
  function ItemFilter(cs: seq<String>): (r: seq<String>)
    ensures |r| <= |cs|
  {
    Filter(cs, IsItemLine)
  }

  /** `_get_base_gallery_items`: the stripped item lines of a directive block. */
  function DirectiveItems(content: String): seq<String>
  {
    ItemFilter(Strips(Split(content, '\n')))
  }

  lemma {:induction false} FilterKeeps(cs: seq<String>, keep: String -> bool)
    requires forall k :: 0 <= k < |cs| ==> keep(cs[k])
    ensures Filter(cs, keep) == cs
    decreases |cs|
  {
    if cs != [] {
      FilterKeeps(cs[1..], keep);
      assert cs == [cs[0]] + cs[1..];
    }
  }

  /** Item lines pass the filter unchanged. */
  lemma ItemFilterKeeps(cs: seq<String>)
    requires forall k :: 0 <= k < |cs| ==> IsItemLine(cs[k])
    ensures ItemFilter(cs) == cs
  {
    FilterKeeps(cs, IsItemLine);
  }

  lemma {:induction false} FilterExactly(cs: seq<String>, keep: String -> bool)
    ensures forall x :: x in Filter(cs, keep) <==> x in cs && keep(x)
    decreases |cs|
  {
    if cs != [] {
      FilterExactly(cs[1..], keep);
      assert cs == [cs[0]] + cs[1..];
    }
  }

  /** The filter keeps exactly the item lines: every kept line is an item line
      from the input, and every item line of the input is kept. */
  lemma ItemFilterExactly(cs: seq<String>)
    ensures forall x :: x in ItemFilter(cs) <==> x in cs && IsItemLine(x)
  {
    FilterExactly(cs, IsItemLine);
  }

  lemma {:induction false} FilterAppend(a: seq<String>, b: seq<String>, keep: String -> bool)
    ensures Filter(a + b, keep) == Filter(a, keep) + Filter(b, keep)
    decreases |a|
  {
    if a == [] {
      assert a + b == b;
    } else {
      var x, t := a[0], a[1..];
      var k := if keep(x) then [x] else [];
      FilterAppend(t, b, keep);
      assert Filter(a, keep) == k + Filter(t, keep);
      assert Filter(a + b, keep) == k + Filter(t + b, keep) by {
        assert (a + b)[0] == x && (a + b)[1..] == t + b;
      }
      assert k + (Filter(t, keep) + Filter(b, keep)) == (k + Filter(t, keep)) + Filter(b, keep);
    }
  }

  /** The filter works line by line. */
  lemma ItemFilterAppend(a: seq<String>, b: seq<String>)
    ensures ItemFilter(a + b) == ItemFilter(a) + ItemFilter(b)
  {
    FilterAppend(a, b, IsItemLine);
  }

  // ---------------------------------------------------------------------------
  // Markdown fences

  predicate IsFence(c: String)
  {
    StartsWith(c, Backticks) || StartsWith(c, Colons)
  }

  /** The length of the leading run of `` ` `` or `:` of a stripped fence line, 0 for
      any other line. */
  function FenceSigns(c: String): (r: nat)
    ensures r == 0 <==> !IsFence(c)
    ensures r > 0 ==> 3 <= r <= |c| && (forall i :: 0 <= i < r ==> c[i] == c[0])
    ensures r > 0 ==> (r == |c| || c[r] != c[0])
  {
    if StartsWith(c, Backticks) then
      FenceOpens(c, Backticks);
      RunFacts(c, '`');
      |c| - |LStripChar(c, '`')|
    else if StartsWith(c, Colons) then
      FenceOpens(c, Colons);
      RunFacts(c, ':');
      |c| - |LStripChar(c, ':')|
    else 0
  }

  lemma FenceOpens(c: String, f: String)
    requires f == Backticks || f == Colons
    requires StartsWith(c, f)
    ensures |c| >= 3 && c[0] == f[0] && c[1] == f[0] && c[2] == f[0]
  {
    assert f[1] == f[0] && f[2] == f[0];
  }

  /** The leading run of `ch` in a text starting with three of them. */
  lemma RunFacts(c: String, ch: char)
    requires |c| >= 3 && c[0] == ch && c[1] == ch && c[2] == ch
    ensures var r := |c| - |LStripChar(c, ch)|;
      3 <= r <= |c| && (forall i :: 0 <= i < r ==> c[i] == c[0]) && (r == |c| || c[r] != c[0])
  {
    var t := LStripChar(c, ch);
    var r := |c| - |t|;
    if r < |c| {
      assert c[r] == t[0];
    }
  }

  /** `_get_md_num_directive_signs`. */
  function NumDirectiveSigns(line: String): nat
  {
    FenceSigns(Strip(line))
  }

  /** `_is_md_directive_start` on a stripped line. */
  predicate IsDirectiveStart(c: String)
  {
    IsFence(c) && '{' in c
  }

  /** `_is_md_directive_start`. */
  predicate IsMdDirectiveStart(line: String)
  {
    IsDirectiveStart(Strip(line))
  }

  /** The Markdown helpers strip their argument again, which changes nothing on
      the stripped lines the scanner passes them. */
  lemma MdHelpersOfStripped(c: String)
    requires IsStripped(c)
    ensures NumDirectiveSigns(c) == FenceSigns(c)
    ensures IsMdDirectiveStart(c) <==> IsDirectiveStart(c)
  {
    StripOfStripped(c);
  }

  // ---------------------------------------------------------------------------
  // The scanners' state

  /** The loop variables of both scanners: the blocks collected so far, the index
      of the open block, and whether a block or another directive is open. */
  datatype Scan = Scan(galleries: seq<seq<String>>, idx: nat, inGallery: bool, inOther: bool,
                       otherWidth: nat, galleryWidth: nat)

  const Start := Scan([], 0, false, false, 0, 0)

  /** The index of the open block is in range. */
  predicate Valid(st: Scan)
  {
    st.idx <= |st.galleries| && (st.inGallery ==> st.idx < |st.galleries|)
  }

  /** Appends `line` to the open block. */
  function Extend(st: Scan, line: String): (r: Scan)
    requires st.idx < |st.galleries|
    ensures |r.galleries| == |st.galleries|
    ensures r.galleries[st.idx] == st.galleries[st.idx] + [line]
    ensures forall k :: 0 <= k < |st.galleries| && k != st.idx ==> r.galleries[k] == st.galleries[k]
  {
    st.(galleries := st.galleries[st.idx := st.galleries[st.idx] + [line]])
  }

  /** `"\n".join(gallery).strip()` for every block. */
  function Blocks(galleries: seq<seq<String>>): (r: seq<String>)
    ensures |r| == |galleries|
  {
    seq(|galleries|, k requires 0 <= k < |galleries| => Strip(Join(galleries[k], "\n")))
  }

  // ---------------------------------------------------------------------------
  // reStructuredText

  /** `len(line) - len(line.lstrip())`. */
  function Indentation(line: String): (r: nat)
    ensures r <= |line|
  {
    |line| - |LStrip(line)|
  }

  /** `line[n:]`, which is empty when `n` is past the end. */
  function DropPrefix(line: String, n: nat): String
  {
    if n <= |line| then line[n..] else []
  }

  /** One iteration of `_get_rst_base_gallery_directives`. */
  function RstStep(st: Scan, line: String): (r: Scan)
    requires Valid(st)
    ensures Valid(r)
    ensures |st.galleries| <= |r.galleries| <= |st.galleries| + 1
  {
    var n := Indentation(line);
    var c := Strip(line);
    if StartsWith(c, "..") && !StartsWith(c, BaseGalleryMark) then st.(otherWidth := n, inOther := true)
    else if st.inOther && !(n <= st.otherWidth && c != []) then st
    else
      var st := st.(inOther := false);
      if StartsWith(c, BaseGalleryMark) then
        st.(galleryWidth := n, inGallery := true, galleries := st.galleries + [[line[n..]]])
      else if !st.inGallery then st
      else if n <= st.galleryWidth && c != [] then st.(inGallery := false, otherWidth := 0, idx := st.idx + 1)
      else Extend(st, DropPrefix(line, st.galleryWidth))
  }

  function RstFold(st: Scan, lines: seq<String>): (r: Scan)
    requires Valid(st)
    ensures Valid(r)
    ensures |st.galleries| <= |r.galleries| <= |st.galleries| + |lines|
    decreases |lines|
  {
    if lines == [] then st else RstFold(RstStep(st, lines[0]), lines[1..])
  }

  /** `_get_rst_base_gallery_directives`. */
  function RstDirectives(content: String): seq<String>
  {
    Blocks(RstFold(Start, SplitLines(ExpandTabs(content))).galleries)
  }

  /** A line that the reStructuredText scanner passes over outside a block: no
      line break, no tab, and not a directive. */
  predicate RstPlain(line: String)
  {
    NoLineBreak(line) && '\t' !in line && !StartsWith(Strip(line), "..")
  }

  /** An item as written in a block: stripped, one line, no tab, and not read as a
      directive. */
  predicate RstItem(item: String)
  {
    IsItemLine(item) && IsStripped(item) && NoLineBreak(item) && '\t' !in item && !StartsWith(item, "..")
  }

  /** Neither scanner has a block or another directive open. */
  predicate Idle(st: Scan)
  {
    Valid(st) && !st.inGallery && !st.inOther
  }

  /** The state inside a block opened at column 0 and kept as the last block. */
  predicate InBlock(st: Scan)
  {
    Valid(st) && st.inGallery && !st.inOther && st.galleryWidth == 0 && st.idx == |st.galleries| - 1
  }

  const Indent: String := "    "

  /** The items indented by four spaces, as a block body is written. */
  function Indented(items: seq<String>): (r: seq<String>)
    ensures |r| == |items|
    ensures forall k :: 0 <= k < |items| ==> r[k] == Indent + items[k]
  {
    if items == [] then [] else [Indent + items[0]] + Indented(items[1..])
  }

  /** Scanning two pieces one after the other is scanning the whole. */
  lemma {:induction false} RstFoldAppend(st: Scan, a: seq<String>, b: seq<String>)
    requires Valid(st)
    ensures RstFold(st, a + b) == RstFold(RstFold(st, a), b)
    decreases |a|
  {
    if a == [] {
      assert a + b == b;
    } else {
      assert (a + b)[0] == a[0] && (a + b)[1..] == a[1..] + b;
      RstFoldAppend(RstStep(st, a[0]), a[1..], b);
    }
  }

  lemma MarkStartsDots(c: String)
    requires StartsWith(c, BaseGalleryMark)
    ensures StartsWith(c, "..")
  {
  }

  /** Lines without a directive leave an idle scanner as it is. */
  lemma {:induction false} RstIdleFold(st: Scan, lines: seq<String>)
    requires Idle(st)
    requires forall k :: 0 <= k < |lines| ==> RstPlain(lines[k])
    ensures RstFold(st, lines) == st
    decreases |lines|
  {
    if lines != [] {
      assert RstPlain(lines[0]);
      if StartsWith(Strip(lines[0]), BaseGalleryMark) {
        MarkStartsDots(Strip(lines[0]));
      }
      assert RstStep(st, lines[0]) == st;
      RstIdleFold(st, lines[1..]);
    }
  }

  lemma MarkIndentation()
    ensures Indentation(BaseGalleryMark) == 0
    ensures Strip(BaseGalleryMark) == BaseGalleryMark
  {
    var m := BaseGalleryMark;
    assert m[0] == '.' && m[|m| - 1] == ':';
    StripOfStripped(m);
  }

  /** The directive line at column 0 opens a new block. */
  lemma RstOpen(st: Scan)
    requires Idle(st)
    ensures RstStep(st, BaseGalleryMark) == st.(galleryWidth := 0, inGallery := true,
                                               galleries := st.galleries + [[BaseGalleryMark]])
  {
    MarkIndentation();
  }

  lemma IndentedLine(item: String)
    requires IsStripped(item)
    ensures Indentation(Indent + item) == 4 && Strip(Indent + item) == item
  {
    assert Indent == Repeat(' ', 4);
    LStripSpaces(4, item);
    StripIndented(4, item);
    assert LStrip(item) == item;
  }

  /** An indented item is added to the open block. */
  lemma RstItemStep(st: Scan, item: String)
    requires InBlock(st) && RstItem(item)
    ensures RstStep(st, Indent + item) == Extend(st, Indent + item)
  {
    IndentedLine(item);
    if StartsWith(item, BaseGalleryMark) {
      MarkStartsDots(item);
    }
  }

  /** Extending the open block by a line and then by more lines extends it by both. */
  lemma ExtendThen(st: Scan, l: String, rest: seq<String>)
    requires st.idx < |st.galleries|
    ensures var st' := Extend(st, l);
      st'.(galleries := st'.galleries[st.idx := st'.galleries[st.idx] + rest])
      == st.(galleries := st.galleries[st.idx := st.galleries[st.idx] + ([l] + rest)])
  {
    var g := st.galleries[st.idx];
    assert g + [l] + rest == g + ([l] + rest);
  }

  lemma RstFoldItem(st: Scan, items: seq<String>)
    requires InBlock(st) && items != [] && RstItem(items[0])
    ensures RstFold(st, Indented(items)) == RstFold(Extend(st, Indent + items[0]), Indented(items[1..]))
  {
    RstItemStep(st, items[0]);
    assert Indented(items)[1..] == Indented(items[1..]);
  }

  /** The indented items are added to the open block, in order. */
  lemma {:induction false} RstBody(st: Scan, items: seq<String>)
    requires InBlock(st)
    requires forall k :: 0 <= k < |items| ==> RstItem(items[k])
    ensures RstFold(st, Indented(items))
      == st.(galleries := st.galleries[st.idx := st.galleries[st.idx] + Indented(items)])
    decreases |items|
  {
    var g := st.galleries[st.idx];
    if items == [] {
      assert g + Indented(items) == g;
      assert st.galleries[st.idx := g] == st.galleries;
    } else {
      var l := Indent + items[0];
      RstFoldItem(st, items);
      RstBody(Extend(st, l), items[1..]);
      ExtendThen(st, l, Indented(items[1..]));
      assert Indented(items) == [l] + Indented(items[1..]);
    }
  }

  /** A line at column 0 that is not a directive closes the block. */
  lemma RstClose(st: Scan, post: seq<String>)
    requires InBlock(st)
    requires post != [] && post[0] != [] && !IsSpace(post[0][0])
    requires forall k :: 0 <= k < |post| ==> RstPlain(post[k])
    ensures RstFold(st, post) == st.(inGallery := false, otherWidth := 0, idx := st.idx + 1)
  {
    var l := post[0];
    assert LStrip(l) == l;
    assert Strip(l) != [];
    assert RstPlain(l);
    if StartsWith(Strip(l), BaseGalleryMark) {
      MarkStartsDots(Strip(l));
    }
    var st' := RstStep(st, l);
    assert st' == st.(inGallery := false, otherWidth := 0, idx := st.idx + 1);
    RstIdleFold(st', post[1..]);
  }

  /** The lines of a reStructuredText document holding one `base-gallery` block at
      column 0 with its items indented below it. */
  function RstDocument(pre: seq<String>, items: seq<String>, post: seq<String>): seq<String>
  {
    pre + [BaseGalleryMark] + Indented(items) + post
  }

  /** What a document needs for the scanner to find exactly its one block: no
      other directive around it, and the block ended by a line at column 0. */
  predicate RstDocumentParts(pre: seq<String>, items: seq<String>, post: seq<String>)
  {
    (forall k :: 0 <= k < |pre| ==> RstPlain(pre[k]))
    && (forall k :: 0 <= k < |items| ==> RstItem(items[k]))
    && (forall k :: 0 <= k < |post| ==> RstPlain(post[k]))
    && (post == [] || (post[0] != [] && !IsSpace(post[0][0])))
  }

  lemma RstFoldOne(st: Scan, line: String)
    requires Valid(st)
    ensures RstFold(st, [line]) == RstStep(st, line)
  {
    assert [line][1..] == [];
  }

  /** After lines without a directive, the directive line opens the first block. */
  lemma RstOpenAfter(pre: seq<String>)
    requires forall k :: 0 <= k < |pre| ==> RstPlain(pre[k])
    ensures RstFold(Start, pre + [BaseGalleryMark])
      == Start.(galleryWidth := 0, inGallery := true, galleries := [[BaseGalleryMark]])
  {
    RstFoldAppend(Start, pre, [BaseGalleryMark]);
    RstIdleFold(Start, pre);
    RstFoldOne(Start, BaseGalleryMark);
    RstOpen(Start);
  }

  /** The items and the closing lines complete the block. */
  lemma RstBlockAfter(st: Scan, items: seq<String>, post: seq<String>)
    requires st == Start.(galleryWidth := 0, inGallery := true, galleries := [[BaseGalleryMark]])
    requires forall k :: 0 <= k < |items| ==> RstItem(items[k])
    requires forall k :: 0 <= k < |post| ==> RstPlain(post[k])
    requires post == [] || (post[0] != [] && !IsSpace(post[0][0]))
    ensures RstFold(st, Indented(items) + post).galleries == [[BaseGalleryMark] + Indented(items)]
  {
    var body := Indented(items);
    RstFoldAppend(st, body, post);
    RstBody(st, items);
    var s2 := st.(galleries := [[BaseGalleryMark] + body]);
    assert [[BaseGalleryMark]][0 := [BaseGalleryMark] + body] == [[BaseGalleryMark] + body];
    assert RstFold(st, body) == s2;
    if post != [] {
      RstClose(s2, post);
    }
  }

  /** The scanner finds the one block, holding the directive line and the
      indented items. */
  lemma RstScanDocument(pre: seq<String>, items: seq<String>, post: seq<String>)
    requires RstDocumentParts(pre, items, post)
    ensures RstFold(Start, RstDocument(pre, items, post)).galleries == [[BaseGalleryMark] + Indented(items)]
  {
    var m, body := BaseGalleryMark, Indented(items);
    var a, b := pre + [m], body + post;
    var st := Start.(galleryWidth := 0, inGallery := true, galleries := [[m]]);
    assert RstDocument(pre, items, post) == a + b by {
      Regroup(pre, [m], body, post);
    }
    assert RstFold(Start, a) == st by {
      RstOpenAfter(pre);
    }
    assert RstFold(st, b).galleries == [[m] + body] by {
      RstBlockAfter(st, items, post);
    }
    FoldGlue(a, b, st, [[m] + body]);
  }

  lemma Regroup(w: seq<String>, x: seq<String>, y: seq<String>, z: seq<String>)
    ensures w + x + y + z == (w + x) + (y + z)
  {
  }

  lemma FoldGlue(a: seq<String>, b: seq<String>, st: Scan, g: seq<seq<String>>)
    requires Valid(st) && RstFold(Start, a) == st && RstFold(st, b).galleries == g
    ensures RstFold(Start, a + b).galleries == g
  {
    RstFoldAppend(Start, a, b);
  }

  lemma MarkNotItem()
    ensures !IsItemLine(BaseGalleryMark) && IsStripped(BaseGalleryMark) && '\n' !in BaseGalleryMark
  {
    var m := BaseGalleryMark;
    assert StartsWith(m, m);
    assert m[0] == '.' && m[|m| - 1] == ':';
  }

  /** The block's last line ends with a non-space. */
  lemma BlockLast(items: seq<String>)
    requires forall k :: 0 <= k < |items| ==> RstItem(items[k])
    ensures var block := [BaseGalleryMark] + Indented(items); var last := block[|block| - 1];
      last != [] && !IsSpace(last[|last| - 1])
  {
    if items != [] {
      var last := items[|items| - 1];
      assert RstItem(last);
      assert (Indent + last)[|Indent + last| - 1] == last[|last| - 1];
    } else {
      MarkNotItem();
    }
  }

  /** The block's lines hold no line feed. */
  lemma BlockNoNewline(items: seq<String>)
    requires forall k :: 0 <= k < |items| ==> RstItem(items[k])
    ensures var block := [BaseGalleryMark] + Indented(items);
      forall k :: 0 <= k < |block| ==> '\n' !in block[k]
  {
    var block := [BaseGalleryMark] + Indented(items);
    MarkNotItem();
    forall k | 0 <= k < |block|
      ensures '\n' !in block[k]
    {
      if k > 0 {
        assert block[k] == Indent + items[k - 1];
        assert NoLineBreak(items[k - 1]);
      }
    }
  }

  /** The block's joined text is already stripped and splits back into its lines. */
  lemma RstBlockText(items: seq<String>)
    requires forall k :: 0 <= k < |items| ==> RstItem(items[k])
    ensures var block := [BaseGalleryMark] + Indented(items);
      Strip(Join(block, "\n")) == Join(block, "\n") && Split(Join(block, "\n"), '\n') == block
  {
    var block := [BaseGalleryMark] + Indented(items);
    MarkNotItem();
    BlockLast(items);
    JoinStripped(block, "\n");
    StripOfStripped(Join(block, "\n"));
    BlockNoNewline(items);
    assert "\n" == ['\n'];
    SplitJoin(block, '\n');
  }

  /** Stripping and filtering the lines of a block under a head line that is not
      an item gives the block's items. */
  lemma HeadedBlockLines(m: String, items: seq<String>, block: seq<String>)
    requires IsStripped(m) && !IsItemLine(m)
    requires forall k :: 0 <= k < |items| ==> IsStripped(items[k])
    requires ItemFilter(items) == items
    requires block == [m] + Indented(items)
    ensures ItemFilter(Strips(block)) == items
  {
    BlockStrips(m, items);
    FilterAfterHead(m, items, Strips(block));
  }

  /** Stripping indented items gives the items. */
  lemma IndentedStrips(items: seq<String>)
    requires forall k :: 0 <= k < |items| ==> IsStripped(items[k])
    ensures Strips(Indented(items)) == items
  {
    forall k | 0 <= k < |items|
      ensures Strip(Indented(items)[k]) == items[k]
    {
      IndentedLine(items[k]);
    }
    StripsPointwise(Indented(items), items);
  }

  /** Stripping the block's lines gives the head line and the items. */
  lemma BlockStrips(m: String, items: seq<String>)
    requires IsStripped(m)
    requires forall k :: 0 <= k < |items| ==> IsStripped(items[k])
    ensures Strips([m] + Indented(items)) == [m] + items
  {
    var body := Indented(items);
    assert Strips(body) == items by {
      IndentedStrips(items);
    }
    assert Strips([m]) == [m] by {
      StripsOfStripped([m]);
    }
    StripsAppend([m], body);
  }

  lemma RstItemsKept(items: seq<String>)
    requires forall k :: 0 <= k < |items| ==> RstItem(items[k])
    ensures ItemFilter(items) == items
  {
    RstItemsAreItems(items);
    ItemFilterKeeps(items);
  }

  lemma RstItemsAreItems(items: seq<String>)
    requires forall k :: 0 <= k < |items| ==> RstItem(items[k])
    ensures forall k :: 0 <= k < |items| ==> IsItemLine(items[k])
  {
  }

  lemma RstItemsStripped(items: seq<String>)
    requires forall k :: 0 <= k < |items| ==> RstItem(items[k])
    ensures forall k :: 0 <= k < |items| ==> IsStripped(items[k])
  {
  }

  /** A head line that is not an item is dropped in front of the kept items. */
  lemma FilterAfterHead(head: String, items: seq<String>, cs: seq<String>)
    requires cs == [head] + items && !IsItemLine(head) && ItemFilter(items) == items
    ensures ItemFilter(cs) == items
  {
    assert cs[1..] == items;
  }

  /** A block's lines, joined, split and stripped again, give its items. */
  lemma RstBlockItems(items: seq<String>, block: seq<String>, text: String)
    requires forall k :: 0 <= k < |items| ==> RstItem(items[k])
    requires block == [BaseGalleryMark] + Indented(items) && text == Join(block, "\n")
    ensures DirectiveItems(Strip(text)) == items
  {
    RstBlockText(items);
    MarkBlockItems(items, text);
  }

  lemma MarkBlockItems(items: seq<String>, text: String)
    requires Split(text, '\n') == [BaseGalleryMark] + Indented(items)
    requires forall k :: 0 <= k < |items| ==> RstItem(items[k])
    ensures DirectiveItems(text) == items
  {
    MarkNotItem();
    RstItemsStripped(items);
    RstItemsKept(items);
    HeadedBlockItems(BaseGalleryMark, items, text);
  }

  /** A block text that splits into a head line and the indented items gives the
      items. */
  lemma HeadedBlockItems(m: String, items: seq<String>, text: String)
    requires Split(text, '\n') == [m] + Indented(items)
    requires IsStripped(m) && !IsItemLine(m)
    requires forall k :: 0 <= k < |items| ==> IsStripped(items[k])
    requires ItemFilter(items) == items
    ensures DirectiveItems(text) == items
  {
    HeadedBlockLines(m, items, [m] + Indented(items));
  }

  /** Lines that hold no line boundary and no tab. */
  predicate CleanLines(lines: seq<String>)
  {
    forall k :: 0 <= k < |lines| ==> NoLineBreak(lines[k]) && '\t' !in lines[k]
  }

  lemma CleanAppend(a: seq<String>, b: seq<String>)
    requires CleanLines(a) && CleanLines(b)
    ensures CleanLines(a + b)
  {
    forall k | 0 <= k < |a + b|
      ensures NoLineBreak((a + b)[k]) && '\t' !in (a + b)[k]
    {
      if k < |a| {
        assert (a + b)[k] == a[k];
      } else {
        assert (a + b)[k] == b[k - |a|];
      }
    }
  }

  lemma MarkClean()
    ensures CleanLines([BaseGalleryMark])
  {
    var m := BaseGalleryMark;
    assert forall i :: 0 <= i < |m| ==> m[i] != '\t' && !IsLineBreak(m[i]);
  }

  lemma IndentClean(x: String)
    requires NoLineBreak(x) && '\t' !in x
    ensures NoLineBreak(Indent + x) && '\t' !in Indent + x
  {
    var y := Indent + x;
    forall i | 0 <= i < |y|
      ensures y[i] != '\t' && !IsLineBreak(y[i])
    {
      if i >= |Indent| {
        assert y[i] == x[i - |Indent|];
      }
    }
  }

  lemma IndentedClean(items: seq<String>)
    requires CleanLines(items)
    ensures CleanLines(Indented(items))
  {
    forall k | 0 <= k < |items|
      ensures NoLineBreak(Indented(items)[k]) && '\t' !in Indented(items)[k]
    {
      IndentClean(items[k]);
    }
  }

  /** Every line of the document is one line without a tab. */
  lemma RstDocumentLines(pre: seq<String>, items: seq<String>, post: seq<String>)
    requires RstDocumentParts(pre, items, post)
    ensures CleanLines(RstDocument(pre, items, post))
  {
    assert CleanLines(pre) by {
      forall k | 0 <= k < |pre| ensures NoLineBreak(pre[k]) && '\t' !in pre[k] {
        assert RstPlain(pre[k]);
      }
    }
    assert CleanLines(post) by {
      forall k | 0 <= k < |post| ensures NoLineBreak(post[k]) && '\t' !in post[k] {
        assert RstPlain(post[k]);
      }
    }
    assert CleanLines(items) by {
      forall k | 0 <= k < |items| ensures NoLineBreak(items[k]) && '\t' !in items[k] {
        assert RstItem(items[k]);
      }
    }
    MarkClean();
    IndentedClean(items);
    CleanAppend(pre, [BaseGalleryMark]);
    CleanAppend(pre + [BaseGalleryMark], Indented(items));
    CleanAppend(pre + [BaseGalleryMark] + Indented(items), post);
  }

  /** A document of lines without a break or a tab reads back as those lines. */
  lemma ContentLines(lines: seq<String>)
    requires forall k :: 0 <= k < |lines| ==> NoLineBreak(lines[k]) && '\t' !in lines[k]
    requires lines == [] || lines[|lines| - 1] != []
    ensures SplitLines(ExpandTabs(Join(lines, "\n"))) == lines
  {
    JoinNoChar(lines, "\n", '\t');
    ExpandTabsNoTab(Join(lines, "\n"), 0);
    SplitLinesJoin(lines);
  }

  lemma RstDocumentLast(pre: seq<String>, items: seq<String>, post: seq<String>)
    requires post == [] || post[|post| - 1] != []
    ensures var doc := RstDocument(pre, items, post); doc[|doc| - 1] != []
  {
    var doc := RstDocument(pre, items, post);
    if post == [] && items != [] {
      assert doc[|doc| - 1] == Indent + items[|items| - 1];
    } else if post == [] {
      assert doc[|doc| - 1] == BaseGalleryMark;
    }
  }

  /** The scanner reads the block back out of the written document. */
  lemma RstDirectivesOfDocument(pre: seq<String>, items: seq<String>, post: seq<String>)
    requires RstDocumentParts(pre, items, post)
    requires post == [] || post[|post| - 1] != []
    ensures RstDirectives(Join(RstDocument(pre, items, post), "\n"))
      == [Strip(Join([BaseGalleryMark] + Indented(items), "\n"))]
  {
    var doc := RstDocument(pre, items, post);
    var block := [BaseGalleryMark] + Indented(items);
    assert SplitLines(ExpandTabs(Join(doc, "\n"))) == doc by {
      RstDocumentLines(pre, items, post);
      RstDocumentLast(pre, items, post);
      ContentLines(doc);
    }
    assert RstFold(Start, doc).galleries == [block] by {
      RstScanDocument(pre, items, post);
    }
    assert Blocks([block]) == [Strip(Join(block, "\n"))];
  }

  lemma AllItemsOne(d: String)
    ensures AllItems([d]) == DirectiveItems(d)
  {
    assert AllItems([d]) == DirectiveItems(d) + AllItems([]);
  }

  /** One block found in a reStructuredText document gives that block's items. */
  lemma RstOneBlock(content: String, d: String, items: seq<String>)
    requires RstDirectives(content) == [d] && DirectiveItems(d) == items
    ensures GetBaseGalleryItems(content, "rst") == Ok(items)
  {
    AllItemsOne(d);
  }

  /** `get_base_gallery_items` returns the items of a reStructuredText document's one
      `base-gallery` block, in order. */
  lemma RstItemsRoundTrip(pre: seq<String>, items: seq<String>, post: seq<String>)
    requires RstDocumentParts(pre, items, post)
    requires post == [] || post[|post| - 1] != []
    ensures GetBaseGalleryItems(Join(RstDocument(pre, items, post), "\n"), "rst") == Ok(items)
  {
    RstDirectivesOfDocument(pre, items, post);
    RstBlockItems(items, [BaseGalleryMark] + Indented(items), Join([BaseGalleryMark] + Indented(items), "\n"));
    RstOneBlock(Join(RstDocument(pre, items, post), "\n"),
                Strip(Join([BaseGalleryMark] + Indented(items), "\n")), items);
  }

  // ---------------------------------------------------------------------------
  // Markdown

  const GalleryName: String := "base-gallery"
  const MdBacktickOpen: String := "```{base-gallery}"
  const MdColonOpen: String := ":::{base-gallery}"

  /** One iteration of `_get_md_base_gallery_directives`, on the stripped line. */
  function MdStep(st: Scan, c: String): (r: Scan)
    requires Valid(st)
    ensures Valid(r)
    ensures |st.galleries| <= |r.galleries| <= |st.galleries| + 1
  {
    var signs := FenceSigns(c);
    if st.inOther then
      if IsFence(c) && signs == st.otherWidth then st.(inOther := false) else st
    else if IsDirectiveStart(c) && !Contains(c, GalleryName) then st.(inOther := true, otherWidth := signs)
    else if StartsWith(c, MdBacktickOpen) || StartsWith(c, MdColonOpen) then
      st.(inGallery := true, galleries := st.galleries + [[c]])
    else if !st.inGallery then st
    else if IsFence(c) then Extend(st, c).(inGallery := false, idx := st.idx + 1)
    else Extend(st, c)
  }

  function MdFold(st: Scan, cs: seq<String>): (r: Scan)
    requires Valid(st)
    ensures Valid(r)
    ensures |st.galleries| <= |r.galleries| <= |st.galleries| + |cs|
    decreases |cs|
  {
    if cs == [] then st else MdFold(MdStep(st, cs[0]), cs[1..])
  }

  /** `_get_md_base_gallery_directives`. */
  function MdDirectives(content: String): seq<String>
  {
    Blocks(MdFold(Start, Strips(SplitLines(ExpandTabs(content)))).galleries)
  }

  /** A line that the Markdown scanner passes over outside a block: no line break,
      no tab, and not a fence. */
  predicate MdPlain(line: String)
  {
    NoLineBreak(line) && '\t' !in line && !IsFence(Strip(line))
  }

  /** An item as written in a Markdown block. */
  predicate MdItem(item: String)
  {
    IsItemLine(item) && IsStripped(item) && NoLineBreak(item) && '\t' !in item
  }

  /** The state inside a block that is the last one collected. */
  predicate InMdBlock(st: Scan)
  {
    Valid(st) && st.inGallery && !st.inOther && st.idx == |st.galleries| - 1
  }

  /** What the scanner needs to know of a closing fence. */
  predicate FenceLine(fence: String)
  {
    IsStripped(fence) && IsFence(fence) && '{' !in fence && |fence| == 3
    && NoLineBreak(fence) && '\t' !in fence
  }

  /** What the scanner needs to know of a block's opening line. */
  predicate OpenLine(open: String)
  {
    IsStripped(open) && Contains(open, GalleryName)
    && (StartsWith(open, MdBacktickOpen) || StartsWith(open, MdColonOpen))
    && NoLineBreak(open) && '\t' !in open
  }

  /** A fence is never an item. */
  lemma FenceNotItem(c: String)
    requires IsFence(c)
    ensures !IsItemLine(c)
  {
    if StartsWith(c, Colons) {
      assert StartsWith(c, ":");
    }
  }

  /** A block's opening line `open` with its closing fence `fence`. */
  predicate FencePair(fence: String, open: String)
  {
    FenceLine(fence) && OpenLine(open)
  }

  /** A line that opens a block is a fence. */
  lemma OpenIsFence(c: String)
    requires StartsWith(c, MdBacktickOpen) || StartsWith(c, MdColonOpen)
    ensures IsFence(c)
  {
    if StartsWith(c, MdBacktickOpen) {
      assert MdBacktickOpen[..3] == Backticks;
    } else {
      assert MdColonOpen[..3] == Colons;
    }
  }

  lemma OpenNamesGallery(open: String)
    requires |open| == 17 && open[4..] == GalleryName + "}"
    ensures Contains(open, GalleryName)
  {
    assert StartsWith(open[4..], GalleryName);
    ContainsAt(open, GalleryName, 4);
  }

  lemma BacktickFence()
    ensures FenceLine(Backticks)
  {
    assert StartsWith(Backticks, Backticks);
  }

  lemma ColonFence()
    ensures FenceLine(Colons)
  {
    assert StartsWith(Colons, Colons);
  }

  /** Both openers name the gallery, so neither is skipped as another directive. */
  lemma OpenersNameGallery()
    ensures Contains(MdBacktickOpen, GalleryName) && Contains(MdColonOpen, GalleryName)
  {
    OpenNamesGallery(MdBacktickOpen);
    OpenNamesGallery(MdColonOpen);
  }

  /** Scanning two pieces one after the other is scanning the whole. */
  lemma {:induction false} MdFoldAppend(st: Scan, a: seq<String>, b: seq<String>)
    requires Valid(st)
    ensures MdFold(st, a + b) == MdFold(MdFold(st, a), b)
    decreases |a|
  {
    if a == [] {
      assert a + b == b;
    } else {
      assert (a + b)[0] == a[0] && (a + b)[1..] == a[1..] + b;
      MdFoldAppend(MdStep(st, a[0]), a[1..], b);
    }
  }

  lemma MdFoldOne(st: Scan, c: String)
    requires Valid(st)
    ensures MdFold(st, [c]) == MdStep(st, c)
  {
    assert [c][1..] == [];
  }

  /** Stripped lines without a fence leave an idle scanner as it is. */
  lemma {:induction false} MdIdleFold(st: Scan, cs: seq<String>)
    requires Idle(st)
    requires forall k :: 0 <= k < |cs| ==> !IsFence(cs[k])
    ensures MdFold(st, cs) == st
    decreases |cs|
  {
    if cs != [] {
      if StartsWith(cs[0], MdBacktickOpen) || StartsWith(cs[0], MdColonOpen) {
        OpenIsFence(cs[0]);
      }
      assert MdStep(st, cs[0]) == st;
      MdIdleFold(st, cs[1..]);
    }
  }

  /** The opening line opens a new block. */
  lemma MdOpen(st: Scan, open: String)
    requires Idle(st) && OpenLine(open)
    ensures MdStep(st, open) == st.(inGallery := true, galleries := st.galleries + [[open]])
  {
  }

  lemma ColonsStartColon(c: String)
    ensures StartsWith(c, Colons) ==> StartsWith(c, ":")
  {
    if StartsWith(c, Colons) {
      assert c[0] == Colons[0];
    }
  }

  /** An item is added to the open block. */
  lemma MdItemStep(st: Scan, c: String)
    requires InMdBlock(st) && IsItemLine(c)
    ensures MdStep(st, c) == Extend(st, c)
  {
    ColonsStartColon(c);
    if StartsWith(c, MdBacktickOpen) || StartsWith(c, MdColonOpen) {
      OpenIsFence(c);
    }
  }

  /** The items are added to the open block, in order. */
  lemma {:induction false} MdBody(st: Scan, items: seq<String>)
    requires InMdBlock(st)
    requires forall k :: 0 <= k < |items| ==> IsItemLine(items[k])
    ensures MdFold(st, items) == st.(galleries := st.galleries[st.idx := st.galleries[st.idx] + items])
    decreases |items|
  {
    var g := st.galleries[st.idx];
    if items == [] {
      assert g + items == g;
      assert st.galleries[st.idx := g] == st.galleries;
    } else {
      MdItemStep(st, items[0]);
      MdBody(Extend(st, items[0]), items[1..]);
      ExtendThen(st, items[0], items[1..]);
      assert [items[0]] + items[1..] == items;
    }
  }

  /** The closing fence is added to the block and ends it, and lines without a
      fence after it change nothing. */
  lemma MdClose(st: Scan, fence: String, post: seq<String>)
    requires InMdBlock(st) && FenceLine(fence)
    requires forall k :: 0 <= k < |post| ==> !IsFence(post[k])
    ensures MdFold(st, [fence] + post) == Extend(st, fence).(inGallery := false, idx := st.idx + 1)
  {
    var st' := Extend(st, fence).(inGallery := false, idx := st.idx + 1);
    assert MdStep(st, fence) == st';
    assert ([fence] + post)[0] == fence && ([fence] + post)[1..] == post;
    MdIdleFold(st', post);
  }

  /** After lines without a fence, the opening line opens the first block. */
  lemma MdOpenAfter(pre: seq<String>, open: String)
    requires OpenLine(open)
    requires forall k :: 0 <= k < |pre| ==> !IsFence(pre[k])
    ensures MdFold(Start, pre + [open]) == Start.(inGallery := true, galleries := [[open]])
  {
    MdFoldAppend(Start, pre, [open]);
    MdIdleFold(Start, pre);
    MdFoldOne(Start, open);
    MdOpen(Start, open);
  }

  /** The items and the closing fence complete the block. */
  lemma MdBlockAfter(st: Scan, open: String, items: seq<String>, fence: String, post: seq<String>)
    requires st == Start.(inGallery := true, galleries := [[open]])
    requires FenceLine(fence)
    requires forall k :: 0 <= k < |items| ==> IsItemLine(items[k])
    requires forall k :: 0 <= k < |post| ==> !IsFence(post[k])
    ensures MdFold(st, items + ([fence] + post)).galleries == [[open] + items + [fence]]
  {
    MdFoldAppend(st, items, [fence] + post);
    MdBody(st, items);
    var s2 := st.(galleries := [[open] + items]);
    assert [[open]][0 := [open] + items] == [[open] + items];
    assert MdFold(st, items) == s2;
    MdClose(s2, fence, post);
    assert [[open] + items][0 := [open] + items + [fence]] == [[open] + items + [fence]];
  }

  /** The Markdown scanner finds the one block, from its opening line to its
      closing fence. */
  lemma MdScanLines(fence: String, open: String, pre: seq<String>, items: seq<String>, post: seq<String>)
    requires FencePair(fence, open)
    requires forall k :: 0 <= k < |pre| ==> !IsFence(pre[k])
    requires forall k :: 0 <= k < |items| ==> IsItemLine(items[k])
    requires forall k :: 0 <= k < |post| ==> !IsFence(post[k])
    ensures MdFold(Start, pre + [open] + items + ([fence] + post)).galleries == [[open] + items + [fence]]
  {
    assert pre + [open] + items + ([fence] + post) == (pre + [open]) + (items + ([fence] + post));
    MdFoldAppend(Start, pre + [open], items + ([fence] + post));
    MdOpenAfter(pre, open);
    MdBlockAfter(MdFold(Start, pre + [open]), open, items, fence, post);
  }

  /** The lines of a Markdown document holding one `base-gallery` block, from the
      opening line `open` to the closing `fence`. */
  function MdDocument(fence: String, open: String, pre: seq<String>, items: seq<String>, post: seq<String>): seq<String>
  {
    pre + [open] + items + ([fence] + post)
  }

  /** What a Markdown document needs for the scanner to find exactly its one block. */
  predicate MdDocumentParts(pre: seq<String>, items: seq<String>, post: seq<String>)
  {
    (forall k :: 0 <= k < |pre| ==> MdPlain(pre[k]))
    && (forall k :: 0 <= k < |items| ==> MdItem(items[k]))
    && (forall k :: 0 <= k < |post| ==> MdPlain(post[k]))
  }

  lemma MdItemsFacts(items: seq<String>)
    requires forall k :: 0 <= k < |items| ==> MdItem(items[k])
    ensures forall k :: 0 <= k < |items| ==> IsStripped(items[k]) && IsItemLine(items[k])
    ensures forall k :: 0 <= k < |items| ==> NoLineBreak(items[k]) && '\t' !in items[k]
  {
  }

  /** Lines that are not fences once stripped. */
  lemma PlainStrips(lines: seq<String>)
    requires forall k :: 0 <= k < |lines| ==> MdPlain(lines[k])
    ensures forall k :: 0 <= k < |Strips(lines)| ==> !IsFence(Strips(lines)[k])
  {
    forall k | 0 <= k < |lines|
      ensures !IsFence(Strips(lines)[k])
    {
      StripsAt(lines, k);
    }
  }

  /** Stripping the document's lines leaves the block's lines as they are. */
  lemma MdDocumentStrips(fence: String, open: String, pre: seq<String>, items: seq<String>, post: seq<String>)
    requires IsStripped(fence) && IsStripped(open)
    requires forall k :: 0 <= k < |items| ==> IsStripped(items[k])
    ensures Strips(MdDocument(fence, open, pre, items, post))
      == Strips(pre) + [open] + items + ([fence] + Strips(post))
  {
    StripsAppend(pre + [open] + items, [fence] + post);
    StripsAppend(pre + [open], items);
    StripsAppend(pre, [open]);
    StripsAppend([fence], post);
    StripsOfStripped([open]);
    StripsOfStripped([fence]);
    StripsOfStripped(items);
  }

  /** The Markdown scanner finds the one block in the document's lines. */
  lemma MdScanDocument(fence: String, open: String, pre: seq<String>, items: seq<String>, post: seq<String>)
    requires FencePair(fence, open) && MdDocumentParts(pre, items, post)
    ensures MdFold(Start, Strips(MdDocument(fence, open, pre, items, post))).galleries
      == [[open] + items + [fence]]
  {
    MdItemsFacts(items);
    MdDocumentStrips(fence, open, pre, items, post);
    PlainStrips(pre);
    PlainStrips(post);
    MdScanLines(fence, open, Strips(pre), items, Strips(post));
  }

  /** The block's joined text is already stripped and gives back its items. */
  lemma MdBlockText(fence: String, open: String, items: seq<String>)
    requires FencePair(fence, open)
    requires forall k :: 0 <= k < |items| ==> MdItem(items[k])
    ensures var block := [open] + items + [fence];
      Strip(Join(block, "\n")) == Join(block, "\n") && Split(Join(block, "\n"), '\n') == block
  {
    var block := [open] + items + [fence];
    assert open != [] by {
      assert StartsWith(open, MdBacktickOpen) || StartsWith(open, MdColonOpen);
    }
    JoinStripped(block, "\n");
    StripOfStripped(Join(block, "\n"));
    MdItemsFacts(items);
    forall k | 0 <= k < |block|
      ensures '\n' !in block[k]
    {
      if 0 < k < |block| - 1 {
        assert block[k] == items[k - 1];
      }
    }
    assert "\n" == ['\n'];
    SplitJoin(block, '\n');
  }

  /** A block of stripped lines is left as it is by stripping. */
  lemma MdBlockStrips(fence: String, open: String, items: seq<String>)
    requires IsStripped(fence) && IsStripped(open)
    requires forall k :: 0 <= k < |items| ==> IsStripped(items[k])
    ensures Strips([open] + items + [fence]) == [open] + items + [fence]
  {
    var block := [open] + items + [fence];
    forall k | 0 <= k < |block|
      ensures IsStripped(block[k])
    {
      if 0 < k < |block| - 1 {
        assert block[k] == items[k - 1];
      }
    }
    StripsOfStripped(block);
  }

  /** Lines that are not items around the items are dropped. */
  lemma FilterAround(open: String, items: seq<String>, fence: String)
    requires !IsItemLine(open) && !IsItemLine(fence) && ItemFilter(items) == items
    ensures ItemFilter([open] + items + [fence]) == items
  {
    ItemFilterAppend([open] + items, [fence]);
    ItemFilterAppend([open], items);
    assert ItemFilter([open]) == [] && ItemFilter([fence]) == [];
  }

  /** The block's lines, stripped and filtered, give its items. */
  lemma MdBlockLines(fence: String, open: String, items: seq<String>)
    requires FencePair(fence, open)
    requires forall k :: 0 <= k < |items| ==> MdItem(items[k])
    ensures ItemFilter(Strips([open] + items + [fence])) == items
  {
    MdItemsFacts(items);
    OpenIsFence(open);
    FenceNotItem(open);
    FenceNotItem(fence);
    MdBlockStrips(fence, open, items);
    ItemFilterKeeps(items);
    FilterAround(open, items, fence);
  }

  lemma MdBlockItems(fence: String, open: String, items: seq<String>, block: seq<String>, text: String)
    requires FencePair(fence, open)
    requires forall k :: 0 <= k < |items| ==> MdItem(items[k])
    requires block == [open] + items + [fence] && text == Join(block, "\n")
    ensures DirectiveItems(Strip(text)) == items
  {
    MdBlockText(fence, open, items);
    MdBlockLines(fence, open, items);
    BlockTextItems(text, block, items);
  }

  /** A block text that splits into lines filtering to the items gives the items. */
  lemma BlockTextItems(text: String, block: seq<String>, items: seq<String>)
    requires Strip(text) == text && Split(text, '\n') == block && ItemFilter(Strips(block)) == items
    ensures DirectiveItems(Strip(text)) == items
  {
  }

  /** Every line of the document is one line without a tab, and the last is not
      empty. */
  lemma MdDocumentLines(fence: String, open: String, pre: seq<String>, items: seq<String>, post: seq<String>)
    requires FencePair(fence, open) && MdDocumentParts(pre, items, post)
    requires post == [] || post[|post| - 1] != []
    ensures var doc := MdDocument(fence, open, pre, items, post);
      (forall k :: 0 <= k < |doc| ==> NoLineBreak(doc[k]) && '\t' !in doc[k]) && doc[|doc| - 1] != []
  {
    var doc := MdDocument(fence, open, pre, items, post);
    MdItemsFacts(items);
    forall k | 0 <= k < |doc|
      ensures NoLineBreak(doc[k]) && '\t' !in doc[k]
    {
      if k < |pre| {
        assert doc[k] == pre[k] && MdPlain(pre[k]);
      } else if k == |pre| {
        assert doc[k] == open;
      } else if k < |pre| + 1 + |items| {
        assert doc[k] == items[k - |pre| - 1];
      } else if k == |pre| + 1 + |items| {
        assert doc[k] == fence;
      } else {
        assert doc[k] == post[k - |pre| - 2 - |items|];
        assert MdPlain(post[k - |pre| - 2 - |items|]);
      }
    }
    if post == [] {
      assert doc[|doc| - 1] == fence;
    } else {
      assert doc[|doc| - 1] == post[|post| - 1];
    }
  }

  /** The Markdown scanner reads the block back out of the written document. */
  lemma MdDirectivesOfDocument(fence: String, open: String, pre: seq<String>, items: seq<String>, post: seq<String>)
    requires FencePair(fence, open) && MdDocumentParts(pre, items, post)
    requires post == [] || post[|post| - 1] != []
    ensures MdDirectives(Join(MdDocument(fence, open, pre, items, post), "\n"))
      == [Strip(Join([open] + items + [fence], "\n"))]
  {
    MdDocumentLines(fence, open, pre, items, post);
    ContentLines(MdDocument(fence, open, pre, items, post));
    MdScanDocument(fence, open, pre, items, post);
  }

  /** One block found in a Markdown document gives that block's items. */
  lemma MdOneBlock(content: String, d: String, items: seq<String>)
    requires MdDirectives(content) == [d] && DirectiveItems(d) == items
    ensures GetBaseGalleryItems(content, "md") == Ok(items)
  {
    AllItemsOne(d);
  }

  /** `get_base_gallery_items` returns the items of a Markdown document's one
      `base-gallery` block, in order. */
  lemma MdItemsRoundTrip(fence: String, open: String, pre: seq<String>, items: seq<String>, post: seq<String>)
    requires FencePair(fence, open) && MdDocumentParts(pre, items, post)
    requires post == [] || post[|post| - 1] != []
    ensures GetBaseGalleryItems(Join(MdDocument(fence, open, pre, items, post), "\n"), "md") == Ok(items)
  {
    MdDirectivesOfDocument(fence, open, pre, items, post);
    MdBlockItems(fence, open, items, [open] + items + [fence], Join([open] + items + [fence], "\n"));
    MdOneBlock(Join(MdDocument(fence, open, pre, items, post), "\n"),
               Strip(Join([open] + items + [fence], "\n")), items);
  }

  // ---------------------------------------------------------------------------
  // `get_base_gallery_items`

  /** The items of every block, in order. */
  function AllItems(directives: seq<String>): seq<String>
  {
    if directives == [] then [] else DirectiveItems(directives[0]) + AllItems(directives[1..])
  }

  /** `get_base_gallery_items`: ValueError for a style other than `rst` and `md`. */
  function GetBaseGalleryItems(content: String, style: String): (r: Result<seq<String>>)
    ensures r.Ok? <==> style == "rst" || style == "md"
    ensures r.Err? ==> r.error == ValueError
  {
    if style == "rst" then Ok(AllItems(RstDirectives(content)))
    else if style == "md" then Ok(AllItems(MdDirectives(content)))
    else Err(ValueError)
  }

  /** Every item returned is an item line. */
  lemma {:induction false} AllItemsAreItems(directives: seq<String>)
    ensures forall x :: x in AllItems(directives) ==> IsItemLine(x)
    decreases |directives|
  {
    if directives != [] {
      ItemFilterExactly(Strips(Split(directives[0], '\n')));
      AllItemsAreItems(directives[1..]);
    }
  }

  /** `get_base_gallery_items` never returns an empty line, an option, a fence or a
      directive line. */
  lemma GetBaseGalleryItemsAreItems(content: String, style: String)
    requires GetBaseGalleryItems(content, style).Ok?
    ensures forall x :: x in GetBaseGalleryItems(content, style).value ==> IsItemLine(x)
  {
    if style == "rst" {
      AllItemsAreItems(RstDirectives(content));
    } else {
      AllItemsAreItems(MdDirectives(content));
    }
  }
}

=== FILE: config.dfy ===
/** The configuration records of `config.py`: `ThumbnailConfig`, `GalleryConfig`
    with the normalisation its `__post_init__` applies, `GalleryThumbnailConfig`,
    and the file-to-configuration mapping of `FilesConfig`. */
module Config {
  import opened Wrappers
  import opened Text
  import opened Paths
  import opened Grids
  import opened Selection

  /** `ThumbnailConfig`; the keyword dictionaries handed to Pillow are left out. */
  datatype ThumbnailConfig = ThumbnailConfig(refSize: (int, int), operation: String,
                                             maxAnimationFrames: int, qualityStatic: int,
                                             qualityAnimated: int)

  const DefaultThumbnailConfig: ThumbnailConfig := ThumbnailConfig((320, 224), "pad", 100, 80, 50)

  /** The value of `examples_dirs` or `gallery_dirs`: not given, one path, a list
      of paths, or (after normalisation) the resolved list. */
  datatype Dirs = Unset | Single(path: String) | Listed(paths: seq<String>) | Resolved(files: seq<Path>)

  /** A file setting: as given, or resolved against the root folder. */
  datatype FileRef = Given(path: String) | ResolvedFile(file: Path)

  datatype GalleryConfig = GalleryConfig(
    examplesDirs: Dirs,
    galleryDirs: Dirs,
    rootDir: Option<String>,
    thumbnailStrategy: String,
    notebookThumbnailStrategy: String,
    defaultThumbnailFile: Option<FileRef>,
    thumbnailConfig: ThumbnailConfig,
    removeThumbnailAfterBuild: bool,
    baseGallery: bool,
    targetPrefix: String,
    tocTree: TocTree,
    grid: Grid,
    gridItemCard: Card)

  /** `Grid()` with no arguments. */
  function DefaultGrid(): (g: Grid)
    ensures g.gridOption == DefaultGridOption && g.options == []
  {
    DefaultGridPattern();
    NewGrid(DefaultGridOption, None, None, None, None, None).value
  }

  /** The field defaults of `GalleryConfig`, before `__post_init__`. */
  function DefaultFields(): GalleryConfig
  {
    GalleryConfig(Unset, Unset, None, "last", "markdown", None, DefaultThumbnailConfig, true, false,
                  "example_", NewTocTree(None), DefaultGrid(), Card([], CardTemplate, true))
  }

  /** The text of a path, as `str(path)` gives it. */
  function PathText(p: Path): String
  {
    "/" + Join(p.parts, "/")
  }

  /** A dir setting as the list `__post_init__` makes of it. */
  function AsList(d: Dirs): (r: seq<String>)
    ensures d.Single? ==> r == [d.path]
    ensures d.Listed? ==> r == d.paths
  {
    match d
    case Unset => []
    case Single(p) => [p]
    case Listed(ps) => ps
    case Resolved(fs) => seq(|fs|, k requires 0 <= k < |fs| => PathText(fs[k]))
  }

  /** `[self.abs_path(d) for d in paths]`: without a root folder the first call
      raises TypeError; an empty list makes no call. */
  function ResolveAll(paths: seq<String>, rootDir: Option<String>, cwd: Path): (r: Result<seq<Path>>)
    ensures r.Ok? ==> |r.value| == |paths|
    ensures r.Ok? && paths != [] ==> rootDir.Some? && forall k :: 0 <= k < |paths| ==> r.value[k] == AbsResolve(paths[k], rootDir.value, cwd)
    ensures r.Err? <==> paths != [] && rootDir.None?
  {
    if paths == [] then Ok([])
    else if rootDir.None? then Err(TypeError)
    else Ok(seq(|paths|, k requires 0 <= k < |paths| => AbsResolve(paths[k], rootDir.value, cwd)))
  }

  /** The first half of `__post_init__`: when both dir settings are given, they
      become lists of equal length resolved against the root folder, and so does
      the default thumbnail file. */
  function NormaliseDirs(c: GalleryConfig, cwd: Path): (r: Result<GalleryConfig>)
    ensures c.examplesDirs.Unset? || c.galleryDirs.Unset? ==> r == Ok(c)
    ensures r.Ok? ==> r.value.(examplesDirs := c.examplesDirs, galleryDirs := c.galleryDirs,
                                defaultThumbnailFile := c.defaultThumbnailFile) == c
  {
    if c.examplesDirs.Unset? || c.galleryDirs.Unset? then Ok(c)
    else
      var ex := AsList(c.examplesDirs);
      var ga := AsList(c.galleryDirs);
      if |ex| != |ga| then Err(ValueError)
      else
        match ResolveAll(ex, c.rootDir, cwd)
        case Err(e) => Err(e)
        case Ok(exR) =>
          match ResolveAll(ga, c.rootDir, cwd)
          case Err(e) => Err(e)
          case Ok(gaR) =>
            match ResolveThumb(c.defaultThumbnailFile, c.rootDir, cwd)
            case Err(e) => Err(e)
            case Ok(thumb) => Ok(c.(examplesDirs := Resolved(exR), galleryDirs := Resolved(gaR),
                                    defaultThumbnailFile := thumb))
  }

  function ResolveThumb(f: Option<FileRef>, rootDir: Option<String>, cwd: Path): Result<Option<FileRef>>
  {
    match f
    case None => Ok(None)
    case Some(ref) =>
      var text := match ref case Given(p) => p case ResolvedFile(p) => PathText(p);
      if rootDir.None? then Err(TypeError) else Ok(Some(ResolvedFile(AbsResolve(text, rootDir.value, cwd))))
  }

  /** `GalleryConfig.__post_init__`: dir normalisation, then item-free copies of the
      toc tree, grid and card. */
  function PostInit(c: GalleryConfig, cwd: Path): (r: Result<GalleryConfig>)
    ensures r.Ok? ==> r.value.tocTree == NewTocTree(None)
  {
    match NormaliseDirs(c, cwd)
    case Err(e) => Err(e)
    case Ok(n) =>
      match GridCopy(n.grid)
      case Err(e) => Err(e)
      case Ok(g) =>
        match CardCopy(n.gridItemCard)
        case Err(e) => Err(e)
        case Ok(card) => Ok(n.(tocTree := TocCopy(n.tocTree), grid := g, gridItemCard := card))
  }

  // ---------------------------------------------------------------------------
  // Properties of `__post_init__`

  /** Dir lists of different lengths are rejected. */
  lemma UnequalDirsRejected(c: GalleryConfig, cwd: Path)
    requires !c.examplesDirs.Unset? && !c.galleryDirs.Unset?
    requires |AsList(c.examplesDirs)| != |AsList(c.galleryDirs)|
    ensures PostInit(c, cwd) == Err(ValueError)
  {
  }

  /** Options a grid or card copy can replay. */
  predicate Replayable(d: Dict)
  {
    UniqueKeys(d) && forall k :: 0 <= k < |d| ==> FormatParams(d[k].value).Ok?
  }

  predicate CopiesOk(c: GalleryConfig)
  {
    Replayable(c.grid.options) && FormatParams(c.grid.gridOption).Ok? && Replayable(c.gridItemCard.options)
  }

  lemma CopiesSucceed(c: GalleryConfig)
    requires CopiesOk(c)
    ensures GridCopy(c.grid).Ok? && CardCopy(c.gridItemCard).Ok?
  {
    GridCopyKeepsOptions(c.grid);
    CardCopyShape(c.gridItemCard);
  }

  /** Two single dirs become one-element lists of resolved paths. */
  lemma SingleDirsWrapped(c: GalleryConfig, cwd: Path)
    requires c.examplesDirs.Single? && c.galleryDirs.Single? && c.rootDir.Some?
    requires c.defaultThumbnailFile.None? && CopiesOk(c)
    ensures PostInit(c, cwd).Ok?
    ensures PostInit(c, cwd).value.examplesDirs == Resolved([AbsResolve(c.examplesDirs.path, c.rootDir.value, cwd)])
    ensures PostInit(c, cwd).value.galleryDirs == Resolved([AbsResolve(c.galleryDirs.path, c.rootDir.value, cwd)])
  {
    var n := NormaliseDirs(c, cwd);
    assert n.Ok? && n.value.examplesDirs == Resolved([AbsResolve(c.examplesDirs.path, c.rootDir.value, cwd)])
      && n.value.galleryDirs == Resolved([AbsResolve(c.galleryDirs.path, c.rootDir.value, cwd)]) by {
      SingleDirsNormalised(c, cwd);
    }
    assert n.value.grid == c.grid && n.value.gridItemCard == c.gridItemCard;
    CopiesSucceed(c);
  }

  lemma SingleDirsNormalised(c: GalleryConfig, cwd: Path)
    requires c.examplesDirs.Single? && c.galleryDirs.Single? && c.rootDir.Some?
    requires c.defaultThumbnailFile.None?
    ensures NormaliseDirs(c, cwd).Ok?
    ensures NormaliseDirs(c, cwd).value.examplesDirs == Resolved([AbsResolve(c.examplesDirs.path, c.rootDir.value, cwd)])
    ensures NormaliseDirs(c, cwd).value.galleryDirs == Resolved([AbsResolve(c.galleryDirs.path, c.rootDir.value, cwd)])
  {
    var ex := ResolveAll([c.examplesDirs.path], c.rootDir, cwd).value;
    assert ex == [AbsResolve(c.examplesDirs.path, c.rootDir.value, cwd)];
    var ga := ResolveAll([c.galleryDirs.path], c.rootDir, cwd).value;
    assert ga == [AbsResolve(c.galleryDirs.path, c.rootDir.value, cwd)];
  }

  /** After normalisation with both dirs given, the i-th examples dir and the i-th
      gallery dir are the given ones resolved, paired by position. */
  lemma DirsPaired(c: GalleryConfig, cwd: Path)
    requires !c.examplesDirs.Unset? && !c.galleryDirs.Unset?
    requires PostInit(c, cwd).Ok?
    ensures var r := PostInit(c, cwd).value;
      r.examplesDirs.Resolved? && r.galleryDirs.Resolved? &&
      |r.examplesDirs.files| == |r.galleryDirs.files| == |AsList(c.examplesDirs)| &&
      (|r.examplesDirs.files| > 0 ==> c.rootDir.Some?) &&
      forall k :: 0 <= k < |r.examplesDirs.files| ==>
        r.examplesDirs.files[k] == AbsResolve(AsList(c.examplesDirs)[k], c.rootDir.value, cwd) &&
        r.galleryDirs.files[k] == AbsResolve(AsList(c.galleryDirs)[k], c.rootDir.value, cwd)
  {
  }

  /** Without both dir settings nothing but the builders changes. */
  lemma UnsetDirsUntouched(c: GalleryConfig, cwd: Path)
    requires c.examplesDirs.Unset? || c.galleryDirs.Unset?
    requires PostInit(c, cwd).Ok?
    ensures var r := PostInit(c, cwd).value;
      r.examplesDirs == c.examplesDirs && r.galleryDirs == c.galleryDirs &&
      r.defaultThumbnailFile == c.defaultThumbnailFile
  {
  }

  /** The builders come out of `__post_init__` without items and with their
      options kept. */
  lemma BuildersItemFree(c: GalleryConfig, cwd: Path)
    requires CopiesOk(c) && NormaliseDirs(c, cwd).Ok?
    ensures PostInit(c, cwd).Ok?
    ensures var r := PostInit(c, cwd).value;
      GridFresh(r.grid) && r.grid.options == c.grid.options && r.grid.gridOption == c.grid.gridOption &&
      r.gridItemCard.noItems && r.gridItemCard.options == c.gridItemCard.options &&
      OptionLines(8, c.gridItemCard.options).Ok? &&
      r.gridItemCard.pattern == CardTemplate + OptionLines(8, c.gridItemCard.options).value
  {
    var n := NormaliseDirs(c, cwd).value;
    assert n.grid == c.grid && n.gridItemCard == c.gridItemCard;
    GridCopyKeepsOptions(n.grid);
    CardCopyShape(n.gridItemCard);
  }

  /** `__post_init__` applied again to its own result changes nothing but what a
      second resolution of the dirs would (the builders are already item-free). */
  lemma BuildersStable(c: GalleryConfig, cwd: Path)
    requires CopiesOk(c) && NormaliseDirs(c, cwd).Ok?
    ensures PostInit(c, cwd).Ok?
    ensures var r := PostInit(c, cwd).value;
      GridCopy(r.grid) == Ok(r.grid) && TocCopy(r.tocTree) == r.tocTree
  {
    BuildersItemFree(c, cwd);
    GridCopyFresh(PostInit(c, cwd).value.grid);
  }

  /** The defaults: no dirs, and a configuration that needs no root folder. */
  lemma DefaultConfigOk(cwd: Path)
    ensures PostInit(DefaultFields(), cwd).Ok?
    ensures PostInit(DefaultFields(), cwd).value.examplesDirs == Unset
  {
    var c := DefaultFields();
    assert FormatParams(DefaultGridOption).Ok?;
    CopiesSucceed(c);
  }

  /** The default strategies pick the last image, and take a notebook's Markdown
      images before its code-cell images; thumbnails default to 320 by 224 pixels,
      100 animation frames and qualities 80 (static) and 50 (animated); the
      per-file defaults agree with the gallery-wide ones. */
  lemma DefaultStrategies()
    ensures ThumbIdx(DefaultFields().thumbnailStrategy) == Ok(-1)
    ensures DefaultFields().notebookThumbnailStrategy == "markdown"
    ensures DefaultFields().targetPrefix == "example_"
    ensures var t := DefaultFields().thumbnailConfig;
      t.refSize == (320, 224) && t.maxAnimationFrames == 100 && t.qualityStatic == 80 && t.qualityAnimated == 50
    ensures DefaultThumbSettings.thumbnailStrategy == DefaultFields().thumbnailStrategy
    ensures DefaultThumbSettings.notebookThumbnailStrategy == DefaultFields().notebookThumbnailStrategy
    ensures DefaultThumbSettings.thumbnailConfig == DefaultFields().thumbnailConfig
  {
  }

  // ---------------------------------------------------------------------------
  // GalleryThumbnailConfig and FilesConfig

  /** `GalleryThumbnailConfig`: the per-file subset of `GalleryConfig`. */
  datatype ThumbSettings = ThumbSettings(thumbnailStrategy: String, notebookThumbnailStrategy: String,
                                         defaultThumbnailFile: Option<FileRef>,
                                         thumbnailConfig: ThumbnailConfig)

  const DefaultThumbSettings: ThumbSettings := ThumbSettings("last", "markdown", None, DefaultThumbnailConfig)

  /** `files_config`: configuration names with their file lists, in dictionary
      order. */
  type Listing = seq<(String, seq<String>)>

  /** Maps every file of one listing to its named configuration. The name is
      looked up once per file, so an unknown name raises KeyError only when the
      list is not empty. */
  function AddFiles(acc: map<String, ThumbSettings>, named: map<String, ThumbSettings>, name: String,
                    files: seq<String>): (r: Result<map<String, ThumbSettings>>)
    ensures r.Err? <==> files != [] && name !in named
  {
    if files == [] then Ok(acc)
    else if name !in named then Err(KeyError)
    else Ok(acc + map f | f in files :: named[name])
  }

  /** `FilesConfig.__post_init__`: `files_config_map`, built listing by listing. */
  function FilesMap(named: map<String, ThumbSettings>, listing: Listing): Result<map<String, ThumbSettings>>
    decreases |listing|
  {
    if listing == [] then Ok(map[])
    else
      match FilesMap(named, listing[..|listing| - 1])
      case Err(e) => Err(e)
      case Ok(acc) => AddFiles(acc, named, listing[|listing| - 1].0, listing[|listing| - 1].1)
  }

  /** The name of the last listing that mentions `file`. */
  function LastListing(listing: Listing, file: String): (r: Option<String>)
    decreases |listing|
  {
    if listing == [] then None
    else if file in listing[|listing| - 1].1 then Some(listing[|listing| - 1].0)
    else LastListing(listing[..|listing| - 1], file)
  }

  /** Every listing with files names a known configuration. */
  predicate KnownNames(named: map<String, ThumbSettings>, listing: Listing)
  {
    forall k :: 0 <= k < |listing| && listing[k].1 != [] ==> listing[k].0 in named
  }

  /** The map is built exactly when every listing with files names a known
      configuration; otherwise the lookup raises KeyError. */
  lemma {:induction false} FilesMapOk(named: map<String, ThumbSettings>, listing: Listing)
    ensures FilesMap(named, listing).Ok? <==> KnownNames(named, listing)
    ensures FilesMap(named, listing).Err? ==> FilesMap(named, listing).error == KeyError
    decreases |listing|
  {
    if listing != [] {
      var init := listing[..|listing| - 1];
      FilesMapOk(named, init);
      assert forall k :: 0 <= k < |init| ==> init[k] == listing[k];
    }
  }

  /** Every listed file maps to the configuration of the last listing naming it,
      and no other file is in the map. */
  lemma {:induction false} FilesMapLastWins(named: map<String, ThumbSettings>, listing: Listing, file: String)
    requires FilesMap(named, listing).Ok?
    ensures var m := FilesMap(named, listing).value;
      (file in m <==> LastListing(listing, file).Some?) &&
      (file in m ==> LastListing(listing, file).value in named && m[file] == named[LastListing(listing, file).value])
    decreases |listing|
  {
    if listing != [] {
      var init := listing[..|listing| - 1];
      FilesMapLastWins(named, init, file);
    }
  }

  /** `FilesConfig.get`: the configuration of a file, or the defaults. */
  function FilesGet(m: map<String, ThumbSettings>, file: String): (r: ThumbSettings)
    ensures file !in m ==> r == DefaultThumbSettings
    ensures file in m ==> r == m[file]
  {
    if file in m then m[file] else DefaultThumbSettings
  }

  /** A file no listing mentions gets the default per-file settings. */
  lemma UnlistedGetsDefault(named: map<String, ThumbSettings>, listing: Listing, file: String)
    requires FilesMap(named, listing).Ok? && LastListing(listing, file).None?
    ensures FilesGet(FilesMap(named, listing).value, file) == DefaultThumbSettings
  {
    FilesMapLastWins(named, listing, file);
  }

  /** `GalleryConfig(**thumb_config.to_dict())`: the four per-file settings over
      the defaults. */
  function FromThumbSettings(t: ThumbSettings): (r: GalleryConfig)
    ensures r.examplesDirs.Unset? && r.galleryDirs.Unset?
    ensures r.thumbnailStrategy == t.thumbnailStrategy && r.notebookThumbnailStrategy == t.notebookThumbnailStrategy
    ensures r.defaultThumbnailFile == t.defaultThumbnailFile && r.thumbnailConfig == t.thumbnailConfig
  {
    DefaultFields().(thumbnailStrategy := t.thumbnailStrategy,
                     notebookThumbnailStrategy := t.notebookThumbnailStrategy,
                     defaultThumbnailFile := t.defaultThumbnailFile,
                     thumbnailConfig := t.thumbnailConfig)
  }
}

=== FILE: directives.dfy ===
/** The option handling of `directives.py`: `_media_option` and
    `row_columns_option`, `format_option`, `ensure_config`, and the splitting of a
    section title into text and literal pieces done by `create_title_node`. */
module Directives {
  import opened Wrappers
  import opened Text
  import opened Paths
  import opened Grids
  import opened Config

  // ---------------------------------------------------------------------------
  // _media_option / row_columns_option

  /** One value of a media option: `auto` where allowed, or an integer in range. */
  predicate ValidMediaValue(v: String, allowAuto: bool, minNum: int, maxNum: int)
  {
    (allowAuto && v == "auto") || (ParseInt(v).Some? && minNum <= ParseInt(v).value <= maxNum)
  }

  /** The values an argument spells out: one value stands for all four sizes. */
  function MediaValues(argument: String): (r: seq<String>)
    ensures |SplitWs(Strip(argument))| == 1 ==> |r| == 4
    ensures |SplitWs(Strip(argument))| != 1 ==> r == SplitWs(Strip(argument))
  {
    var values := SplitWs(Strip(argument));
    if |values| == 1 then [values[0], values[0], values[0], values[0]] else values
  }

  /** Every value is valid. */
  predicate AllValid(values: seq<String>, allowAuto: bool, minNum: int, maxNum: int)
  {
    forall k :: 0 <= k < |values| ==> ValidMediaValue(values[k], allowAuto, minNum, maxNum)
  }

  /** The classes of four accepted values: the first value on its own, then one
      class per size `xs sm md lg`. */
  function SizeClasses(prefix: String, values: seq<String>): seq<String>
    requires |values| == 4
  {
    [prefix + values[0], prefix + "xs-" + values[0], prefix + "sm-" + values[1],
     prefix + "md-" + values[2], prefix + "lg-" + values[3]]
  }

  /** Every size class carries the prefix. */
  lemma SizeClassesPrefixed(prefix: String, values: seq<String>)
    requires |values| == 4
    ensures |SizeClasses(prefix, values)| == 5
    ensures forall k :: 0 <= k < 5 ==> StartsWith(SizeClasses(prefix, values)[k], prefix)
  {
    var c := SizeClasses(prefix, values);
    assert c[1] == prefix + ("xs-" + values[0]);
    assert c[2] == prefix + ("sm-" + values[1]);
    assert c[3] == prefix + ("md-" + values[2]);
    assert c[4] == prefix + ("lg-" + values[3]);
  }

  /** `_media_option`: one or four values, each valid, become their size
      classes; anything else raises ValueError. */
  function MediaOption(argument: Option<String>, prefix: String, allowAuto: bool,
                       minNum: int, maxNum: int): (r: Result<seq<String>>)
    ensures r.Ok? <==> (argument.Some? && |MediaValues(argument.value)| == 4 &&
                        AllValid(MediaValues(argument.value), allowAuto, minNum, maxNum))
    ensures r.Err? ==> r.error == ValueError
    ensures r.Ok? ==> r.value == SizeClasses(prefix, MediaValues(argument.value))
  {
    if argument.None? then Err(ValueError)
    else
      var values := MediaValues(argument.value);
      if |values| != 4 then Err(ValueError)
      else if !AllValid(values, allowAuto, minNum, maxNum) then Err(ValueError)
      else Ok(SizeClasses(prefix, values))
  }

  /** The values an argument already split into four are taken as they are. */
  lemma MediaValuesOfFour(argument: String, values: seq<String>)
    requires |values| == 4 && SplitWs(Strip(argument)) == values
    ensures MediaValues(argument) == values
  {
  }

  /** Four valid values written out with spaces come back as their size classes. */
  lemma MediaFourValues(values: seq<String>, pad: nat, prefix: String, allowAuto: bool, minNum: int, maxNum: int)
    requires |values| == 4
    requires forall k :: 0 <= k < 4 ==> values[k] != [] && NoSpace(values[k])
    requires AllValid(values, allowAuto, minNum, maxNum)
    ensures MediaOption(Some(Repeat(' ', pad) + Join(values, " ")), prefix, allowAuto, minNum, maxNum)
            == Ok(SizeClasses(prefix, values))
  {
    var j := Join(values, " ");
    JoinStripped(values, " ");
    StripIndented(pad, j);
    SplitWsJoin(values);
    MediaValuesOfFour(Repeat(' ', pad) + j, values);
  }

  /** A single value is repeated for all four sizes. */
  lemma MediaValuesOfOne(v: String)
    requires v != [] && NoSpace(v)
    ensures MediaValues(v) == [v, v, v, v]
  {
    JoinStripped([v], " ");
    StripOfStripped(v);
    SplitWsJoin([v]);
    assert Join([v], " ") == v;
  }

  /** A single valid value applies to every size. */
  lemma MediaOneValue(v: String, prefix: String, allowAuto: bool, minNum: int, maxNum: int)
    requires v != [] && NoSpace(v)
    requires ValidMediaValue(v, allowAuto, minNum, maxNum)
    ensures MediaOption(Some(v), prefix, allowAuto, minNum, maxNum) == Ok(SizeClasses(prefix, [v, v, v, v]))
  {
    MediaValuesOfOne(v);
    var values := [v, v, v, v];
    assert AllValid(values, allowAuto, minNum, maxNum);
  }

  /** Two or three values are never accepted. */
  lemma MediaTwoOrThreeRejected(argument: String, prefix: String, allowAuto: bool, minNum: int, maxNum: int)
    requires 2 <= |SplitWs(Strip(argument))| <= 3
    ensures MediaOption(Some(argument), prefix, allowAuto, minNum, maxNum) == Err(ValueError)
  {
  }

  /** `row_columns_option`: `sd-row-cols-` classes, `auto` allowed, 1 to 12. */
  function RowColumnsOption(argument: Option<String>): (r: Result<seq<String>>)
    ensures r.Err? ==> r.error == ValueError
  {
    MediaOption(argument, "sd-row-cols-", true, 1, 12)
  }

  /** An accepted column setting is five `sd-row-cols-` classes. */
  lemma RowColumnsClasses(argument: Option<String>)
    requires RowColumnsOption(argument).Ok?
    ensures |RowColumnsOption(argument).value| == 5
    ensures forall k :: 0 <= k < 5 ==> StartsWith(RowColumnsOption(argument).value[k], "sd-row-cols-")
  {
    SizeClassesPrefixed("sd-row-cols-", MediaValues(argument.value));
  }

  /** `auto` is a valid column count on every size. */
  lemma RowColumnsAuto()
    ensures RowColumnsOption(Some("auto")) == Ok(SizeClasses("sd-row-cols-", ["auto", "auto", "auto", "auto"]))
  {
    var v := "auto";
    assert NoSpace(v);
    MediaOneValue(v, "sd-row-cols-", true, 1, 12);
  }

  /** A missing argument is rejected. */
  lemma RowColumnsMissing()
    ensures RowColumnsOption(None) == Err(ValueError)
  {
  }

  // ---------------------------------------------------------------------------
  // format_option

  /** A directive option value: a list of strings, or one value. */
  datatype OptionValue = Words(items: seq<String>) | Value(v: Scalar)

  type Options = seq<(String, OptionValue)>

  /** `format_option` on one value: a list is re-split on whitespace, anything
      else becomes its `str()`. */
  function FormatValue(v: OptionValue): (r: OptionValue)
    ensures v.Words? <==> r.Words?
    ensures r.Words? ==> forall k :: 0 <= k < |r.items| ==> r.items[k] != [] && NoSpace(r.items[k])
    ensures v.Value? ==> r.v.Str?
  {
    match v
    case Words(items) => Words(SplitWs(Join(items, " ")))
    case Value(x) => Value(Str(ScalarText(x)))
  }

  /** `format_option`: every key is kept, in order, with its value formatted. */
  function FormatOption(option: Options): (r: Options)
    ensures |r| == |option|
    ensures forall k :: 0 <= k < |r| ==> r[k].0 == option[k].0 && r[k].1 == FormatValue(option[k].1)
  {
    seq(|option|, k requires 0 <= k < |option| => (option[k].0, FormatValue(option[k].1)))
  }

  /** A list of whitespace-free words is already formatted. */
  lemma FormatKeepsWords(items: seq<String>)
    requires forall k :: 0 <= k < |items| ==> items[k] != [] && NoSpace(items[k])
    ensures FormatValue(Words(items)) == Words(items)
  {
    SplitWsJoin(items);
  }

  /** Formatting an option twice is formatting it once. */
  lemma FormatOptionIdempotent(option: Options)
    ensures FormatOption(FormatOption(option)) == FormatOption(option)
  {
    var once := FormatOption(option);
    forall k | 0 <= k < |once|
      ensures FormatValue(once[k].1) == once[k].1
    {
      if once[k].1.Words? {
        FormatKeepsWords(once[k].1.items);
      }
    }
  }

  // ---------------------------------------------------------------------------
  // ensure_config

  /** What `ensure_config` may be given. A dictionary is the fields it sets over
      the defaults, plus the keys that name no field. */
  datatype ConfigArg =
    | GalleryArg(config: GalleryConfig)
    | ThumbArg(settings: ThumbSettings)
    | DictArg(fields: GalleryConfig, unknownKeys: seq<String>)
    | NoneArg
    | OtherArg

  /** `ensure_config`: a gallery configuration is used as it is; the others are
      built (and so normalised); any other value raises TypeError. */
  function EnsureConfig(arg: ConfigArg, cwd: Path): (r: Result<GalleryConfig>)
    ensures arg.GalleryArg? ==> r == Ok(arg.config)
    ensures arg.OtherArg? || (arg.DictArg? && arg.unknownKeys != []) ==> r == Err(TypeError)
    ensures arg.NoneArg? ==> r.Ok? && r.value.examplesDirs.Unset?
  {
    match arg
    case GalleryArg(c) => Ok(c)
    case DictArg(fields, unknown) => if unknown != [] then Err(TypeError) else PostInit(fields, cwd)
    case ThumbArg(t) => PostInit(FromThumbSettings(t), cwd)
    case NoneArg => DefaultConfigOk(cwd); PostInit(DefaultFields(), cwd)
    case OtherArg => Err(TypeError)
  }

  /** Per-file thumbnail settings pass into the gallery configuration unchanged,
      with no dirs set. */
  lemma ThumbSettingsKept(t: ThumbSettings, cwd: Path)
    ensures EnsureConfig(ThumbArg(t), cwd).Ok?
    ensures var c := EnsureConfig(ThumbArg(t), cwd).value;
      c.thumbnailStrategy == t.thumbnailStrategy &&
      c.notebookThumbnailStrategy == t.notebookThumbnailStrategy &&
      c.defaultThumbnailFile == t.defaultThumbnailFile &&
      c.thumbnailConfig == t.thumbnailConfig &&
      c.examplesDirs.Unset? && c.galleryDirs.Unset?
  {
    var f := FromThumbSettings(t);
    assert f.grid == DefaultFields().grid && f.gridItemCard == DefaultFields().gridItemCard;
    assert FormatParams(DefaultGridOption).Ok?;
    CopiesSucceed(f);
  }

  /** What `ensure_config` returns is returned again when passed back. */
  lemma EnsureConfigStable(arg: ConfigArg, cwd: Path)
    requires EnsureConfig(arg, cwd).Ok?
    ensures EnsureConfig(GalleryArg(EnsureConfig(arg, cwd).value), cwd) == EnsureConfig(arg, cwd)
  {
  }

  // ---------------------------------------------------------------------------
  // create_title_node

  /** The delimiter `d` starts at position `j` of `s`. */
  predicate DelimAt(s: String, d: String, j: nat)
  {
    j + |d| <= |s| && forall t :: 0 <= t < |d| ==> s[j + t] == d[t]
  }

  lemma DelimSlice(s: String, d: String, j: nat)
    requires DelimAt(s, d, j)
    ensures s[j..j + |d|] == d
  {
  }

  /** Where a code span opened before `j` closes: the first `d` at or after
      `j`, as long as no newline comes first (the regex `.` stops at a newline). */
  function CloseAt(s: String, d: String, j: nat): (r: Option<nat>)
    requires j <= |s| && |d| >= 1
    ensures r.Some? ==> j <= r.value && DelimAt(s, d, r.value)
    ensures r.Some? ==> forall t :: j <= t < r.value ==> s[t] != '\n'
    decreases |s| - j
  {
    if DelimAt(s, d, j) then Some(j)
    else if j >= |s| || s[j] == '\n' then None
    else CloseAt(s, d, j + 1)
  }

  /** A code span: where its opening and its closing delimiter start. */
  datatype Span = Span(open: nat, close: nat)

  /** The first code span starting at or after `i` (the leftmost match of the
      non-greedy pattern). */
  function MatchFrom(s: String, d: String, i: nat): (r: Option<Span>)
    requires i <= |s| && |d| >= 1
    ensures r.Some? ==> i <= r.value.open && r.value.open + |d| <= r.value.close
    ensures r.Some? ==> DelimAt(s, d, r.value.open) && DelimAt(s, d, r.value.close)
    decreases |s| - i
  {
    if DelimAt(s, d, i) && CloseAt(s, d, i + |d|).Some? then Some(Span(i, CloseAt(s, d, i + |d|).value))
    else if i >= |s| then None
    else MatchFrom(s, d, i + 1)
  }

  /** `re.split` with one capturing group, from position `i`: the text before
      the first span, its content, the text up to the next span, and so on. */
  function SplitSpans(s: String, d: String, i: nat): (r: seq<String>)
    requires i <= |s| && |d| >= 1
    ensures |r| >= 1
    decreases |s| - i, 1
  {
    var m := MatchFrom(s, d, i);
    if m.None? then [s[i..]] else SpanSplit(s, d, i, m.value)
  }

  /** The split from `i` when its first code span is `m`. */
  function SpanSplit(s: String, d: String, i: nat, m: Span): (r: seq<String>)
    requires i <= m.open && m.open + |d| <= m.close && DelimAt(s, d, m.close) && |d| >= 1
    ensures |r| >= 3
    decreases |s| - i, 0
  {
    [s[i..m.open], s[m.open + |d|..m.close]] + SplitSpans(s, d, m.close + |d|)
  }

  lemma SplitSpansStep(s: String, d: String, i: nat, a: nat, b: nat)
    requires i <= |s| && |d| >= 1 && MatchFrom(s, d, i) == Some(Span(a, b))
    ensures i <= a && a + |d| <= b && DelimAt(s, d, a) && DelimAt(s, d, b)
    ensures SplitSpans(s, d, i) == [s[i..a], s[a + |d|..b]] + SplitSpans(s, d, b + |d|)
  {
    assert SplitSpans(s, d, i) == SpanSplit(s, d, i, Span(a, b));
  }

  lemma SpanPieces(s: String, d: String, i: nat, a: nat, b: nat)
    requires i <= a && a + |d| <= b && DelimAt(s, d, a) && DelimAt(s, d, b)
    ensures s[i..] == s[i..a] + d + (s[a + |d|..b] + d + s[b + |d|..])
  {
    DelimSlice(s, d, a);
    DelimSlice(s, d, b);
    SliceSplit(s, b, b + |d|);
    SliceSplit(s, a + |d|, b);
    SliceSplit(s, a, a + |d|);
    SliceSplit(s, i, a);
  }

  lemma SliceSplit(s: String, i: nat, j: nat)
    requires i <= j <= |s|
    ensures s[i..] == s[i..j] + s[j..]
  {
  }

  lemma JoinStep(x: String, y: String, rest: seq<String>, d: String)
    requires |rest| >= 1
    ensures Join([x, y] + rest, d) == x + d + (y + d + Join(rest, d))
  {
    assert ([x, y] + rest)[1..] == [y] + rest;
    assert ([y] + rest)[1..] == rest;
  }

  lemma JoinGlue(x: String, y: String, rest: seq<String>, d: String, tailText: String, whole: String)
    requires |rest| >= 1 && Join(rest, d) == tailText
    requires whole == x + d + (y + d + tailText)
    ensures Join([x, y] + rest, d) == whole
  {
    JoinStep(x, y, rest, d);
  }

  /** Splitting loses nothing: the parts joined with the delimiter are the text. */
  lemma {:induction false} SplitSpansJoin(s: String, d: String, i: nat)
    requires i <= |s| && |d| >= 1
    ensures Join(SplitSpans(s, d, i), d) == s[i..]
    decreases |s| - i
  {
    var m := MatchFrom(s, d, i);
    if m.Some? {
      var a, b := m.value.open, m.value.close;
      assert a + |d| <= b && b + |d| <= |s|;
      var rest := SplitSpans(s, d, b + |d|);
      SplitSpansJoin(s, d, b + |d|);
      assert Join(rest, d) == s[b + |d|..];
      SplitSpansStep(s, d, i, a, b);
      var x, y := s[i..a], s[a + |d|..b];
      SpanPieces(s, d, i, a, b);
      assert s[i..] == x + d + (y + d + s[b + |d|..]);
      JoinGlue(x, y, rest, d, s[b + |d|..], s[i..]);
    } else {
      assert SplitSpans(s, d, i) == [s[i..]];
    }
  }

  /** The delimiter: double backticks (reStructuredText) when the title has
      them, single backticks (Markdown) otherwise. */
  function TitleDelimiter(title: String): (r: String)
    ensures |r| >= 1
  {
    if Contains(title, "``") then "``" else "`"
  }

  /** `re.split(pattern, title)`: the parts of a title, rejoined by the
      delimiter into the title. */
  function TitleParts(title: String): (r: seq<String>)
    ensures |r| >= 1
    ensures Join(r, TitleDelimiter(title)) == title
  {
    SplitSpansJoin(title, TitleDelimiter(title), 0);
    SplitSpans(title, TitleDelimiter(title), 0)
  }

  /** The captured contents, `re.findall(pattern, title)`: every second part. */
  function Captured(parts: seq<String>): (r: seq<String>)
    ensures |r| == |parts| / 2
    decreases |parts|
  {
    if |parts| < 2 then [] else [parts[1]] + Captured(parts[2..])
  }

  /** A part is a captured content exactly at an odd index. */
  lemma {:induction false} CapturedAt(parts: seq<String>, k: nat)
    requires k < |parts| / 2
    ensures Captured(parts)[k] == parts[2 * k + 1]
    decreases |parts|
  {
    if k > 0 {
      CapturedAt(parts[2..], k - 1);
    }
  }

  /** A node of the section title. */
  datatype TitleNode = TextNode(text: String) | LiteralNode(code: String)

  function NodeText(n: TitleNode): String
  {
    match n
    case TextNode(t) => t
    case LiteralNode(c) => c
  }

  /** The title nodes as `create_title_node` builds them: an empty part is
      skipped, and a part is literal when it equals any captured content. */
  function NodesAsWritten(parts: seq<String>, matches: seq<String>): (r: seq<TitleNode>)
    ensures forall k :: 0 <= k < |r| ==> NodeText(r[k]) != []
  {
    if parts == [] then []
    else
      var rest := NodesAsWritten(parts[1..], matches);
      if parts[0] == [] then rest
      else if parts[0] in matches then [LiteralNode(parts[0])] + rest
      else [TextNode(parts[0])] + rest
  }

  function TitleNodesAsWritten(title: String): seq<TitleNode>
  {
    var parts := TitleParts(title);
    NodesAsWritten(parts, Captured(parts))
  }

  function TextPart(x: String): seq<TitleNode>
  {
    if x == [] then [] else [TextNode(x)]
  }

  function LiteralPart(x: String): seq<TitleNode>
  {
    if x == [] then [] else [LiteralNode(x)]
  }

  /** The title nodes by position: text between spans is text, a captured span
      is literal, empty parts are skipped. */
  function NodesByPosition(parts: seq<String>): (r: seq<TitleNode>)
    ensures forall k :: 0 <= k < |r| ==> NodeText(r[k]) != []
    decreases |parts|
  {
    if parts == [] then []
    else if |parts| == 1 then TextPart(parts[0])
    else TextPart(parts[0]) + LiteralPart(parts[1]) + NodesByPosition(parts[2..])
  }

  /** The title nodes with literal pieces exactly where the title has code spans. */
  function TitleNodes(title: String): seq<TitleNode>
  {
    NodesByPosition(TitleParts(title))
  }

  /** The literal texts of a node list, in order. */
  function Literals(nodes: seq<TitleNode>): (r: seq<String>)
    ensures |r| <= |nodes|
  {
    if nodes == [] then []
    else (if nodes[0].LiteralNode? then [nodes[0].code] else []) + Literals(nodes[1..])
  }

  /** The non-empty entries of a list, in order. */
  function NonEmpty(xs: seq<String>): (r: seq<String>)
    ensures forall k :: 0 <= k < |r| ==> r[k] != []
  {
    if xs == [] then [] else (if xs[0] == [] then [] else [xs[0]]) + NonEmpty(xs[1..])
  }

  /** The concatenated text of a node list. */
  function NodesText(nodes: seq<TitleNode>): String
  {
    if nodes == [] then [] else NodeText(nodes[0]) + NodesText(nodes[1..])
  }

  lemma NodesAppend(a: seq<TitleNode>, b: seq<TitleNode>)
    ensures Literals(a + b) == Literals(a) + Literals(b)
    ensures NodesText(a + b) == NodesText(a) + NodesText(b)
  {
    LiteralsAppend(a, b);
    NodesTextAppend(a, b);
  }

  lemma {:induction false} LiteralsAppend(a: seq<TitleNode>, b: seq<TitleNode>)
    ensures Literals(a + b) == Literals(a) + Literals(b)
    decreases |a|
  {
    if a == [] {
      assert a + b == b;
    } else {
      LiteralsAppend(a[1..], b);
      var h := if a[0].LiteralNode? then [a[0].code] else [];
      assert Literals(a + b) == h + Literals(a[1..] + b) by {
        assert (a + b)[0] == a[0];
        assert (a + b)[1..] == a[1..] + b;
      }
      ConsAssoc(Literals(a + b), h, Literals(a[1..]), Literals(b));
    }
  }

  lemma {:induction false} NodesTextAppend(a: seq<TitleNode>, b: seq<TitleNode>)
    ensures NodesText(a + b) == NodesText(a) + NodesText(b)
    decreases |a|
  {
    if a == [] {
      assert a + b == b;
    } else {
      NodesTextAppend(a[1..], b);
      var h := NodeText(a[0]);
      assert NodesText(a + b) == h + NodesText(a[1..] + b) by {
        assert (a + b)[0] == a[0];
        assert (a + b)[1..] == a[1..] + b;
      }
      ConsAssoc(NodesText(a + b), h, NodesText(a[1..]), NodesText(b));
    }
  }

  lemma ConsAssoc<T>(n: seq<T>, a: seq<T>, b: seq<T>, c: seq<T>)
    requires n == a + (b + c)
    ensures n == (a + b) + c
  {
  }

  lemma PartsFacts(x: String, y: String)
    ensures Literals(TextPart(x)) == [] && NodesText(TextPart(x)) == x
    ensures Literals(LiteralPart(y)) == NonEmpty([y]) && NodesText(LiteralPart(y)) == y
  {
    assert [y][1..] == [];
  }

  lemma NonEmptyCons(y: String, xs: seq<String>)
    ensures NonEmpty([y] + xs) == NonEmpty([y]) + NonEmpty(xs)
  {
    assert ([y] + xs)[1..] == xs;
    assert [y][1..] == [];
  }

  lemma ConcatTwo(parts: seq<String>)
    requires |parts| >= 2
    ensures Concat(parts) == parts[0] + (parts[1] + Concat(parts[2..]))
  {
    assert parts[1..][1..] == parts[2..];
  }

  /** The literal pieces are exactly the non-empty code spans, in order. */
  lemma {:induction false} NodesByPositionLiterals(parts: seq<String>)
    ensures Literals(NodesByPosition(parts)) == NonEmpty(Captured(parts))
    decreases |parts|
  {
    if |parts| == 1 {
      PartsFacts(parts[0], []);
    } else if |parts| >= 2 {
      var tail := parts[2..];
      var t, l := TextPart(parts[0]), LiteralPart(parts[1]);
      assert NodesByPosition(parts) == t + l + NodesByPosition(tail);
      assert Captured(parts) == [parts[1]] + Captured(tail);
      NodesByPositionLiterals(tail);
      NodesAppend(t, l);
      NodesAppend(t + l, NodesByPosition(tail));
      PartsFacts(parts[0], parts[1]);
      NonEmptyCons(parts[1], Captured(tail));
    }
  }

  lemma NodesByPositionCons(parts: seq<String>)
    requires |parts| >= 2
    ensures NodesByPosition(parts)
      == TextPart(parts[0]) + LiteralPart(parts[1]) + NodesByPosition(parts[2..])
  {
  }

  lemma NodesTextPair(x: String, y: String)
    ensures NodesText(TextPart(x) + LiteralPart(y)) == x + y
  {
    NodesAppend(TextPart(x), LiteralPart(y));
    PartsFacts(x, y);
  }

  lemma NodesTextStep(parts: seq<String>)
    requires |parts| >= 2
    requires NodesText(NodesByPosition(parts[2..])) == Concat(parts[2..])
    ensures NodesText(NodesByPosition(parts)) == Concat(parts)
  {
    var head := TextPart(parts[0]) + LiteralPart(parts[1]);
    var rest := NodesByPosition(parts[2..]);
    var n, h, r := NodesText(NodesByPosition(parts)), NodesText(head), NodesText(rest);
    assert n == h + r by {
      NodesByPositionCons(parts);
      NodesAppend(head, rest);
    }
    assert h == parts[0] + parts[1] by {
      NodesTextPair(parts[0], parts[1]);
    }
    assert Concat(parts) == parts[0] + (parts[1] + Concat(parts[2..])) by {
      ConcatTwo(parts);
    }
    AppendAssoc(n, parts[0], parts[1], r);
  }

  lemma AppendAssoc(n: String, a: String, b: String, c: String)
    requires n == (a + b) + c
    ensures n == a + (b + c)
  {
  }

  /** The node texts are the parts run together. */
  lemma {:induction false} NodesByPositionText(parts: seq<String>)
    ensures NodesText(NodesByPosition(parts)) == Concat(parts)
    decreases |parts|
  {
    if |parts| == 1 {
      PartsFacts(parts[0], []);
      assert parts[1..] == [];
    } else if |parts| >= 2 {
      NodesByPositionText(parts[2..]);
      NodesTextStep(parts);
    }
  }

  /** For every title, the literal nodes are the non-empty code spans it holds,
      and the nodes spell out the title without its delimiters. */
  lemma TitleLiteralsAreSpans(title: String)
    ensures Literals(TitleNodes(title)) == NonEmpty(Captured(TitleParts(title)))
    ensures NodesText(TitleNodes(title)) == Concat(TitleParts(title))
  {
    NodesByPositionLiterals(TitleParts(title));
    NodesByPositionText(TitleParts(title));
  }

  /** When every captured content is among `matches` and no text between spans
      is, the code as written builds the same nodes. */
  lemma {:induction false} AsWrittenAgrees(parts: seq<String>, matches: seq<String>)
    requires forall k :: 0 <= k < |parts| && k % 2 == 1 ==> parts[k] in matches
    requires forall k :: 0 <= k < |parts| && k % 2 == 0 ==> parts[k] !in matches
    ensures NodesAsWritten(parts, matches) == NodesByPosition(parts)
    decreases |parts|
  {
    if parts != [] {
      assert parts[0] !in matches;
      if |parts| >= 2 {
        var tail := parts[2..];
        forall k | 0 <= k < |tail| && k % 2 == 1 ensures tail[k] in matches {
          assert tail[k] == parts[k + 2];
        }
        forall k | 0 <= k < |tail| && k % 2 == 0 ensures tail[k] !in matches {
          assert tail[k] == parts[k + 2];
        }
        AsWrittenAgrees(tail, matches);
        assert parts[1] in matches;
        assert parts[1..][1..] == tail;
        assert parts[1..][0] == parts[1];
      }
    }
  }

  /** A text without two backticks in a row has no double-backtick span. */
  lemma {:induction false} NoDoubleBacktick(s: String)
    requires forall i :: 0 <= i < |s| - 1 ==> !(s[i] == '`' && s[i + 1] == '`')
    ensures !Contains(s, "``")
    decreases |s|
  {
    if |s| > 0 {
      assert !StartsWith(s, "``") by {
        if |s| >= 2 {
          assert !(s[0] == '`' && s[1] == '`');
        }
      }
      NoDoubleBacktick(s[1..]);
    }
  }

  /** Where `re.search` finds the backtick spans of "x`x`". */
  lemma CounterexampleMatches()
    ensures MatchFrom("x`x`", "`", 0) == Some(Span(1, 3))
    ensures MatchFrom("x`x`", "`", 4) == None
    ensures SplitSpans("x`x`", "`", 4) == [""]
  {
    var t, d := "x`x`", "`";
    assert t[0] == 'x' && t[2] == 'x' && d[0] == '`';
    assert !DelimAt(t, d, 0) && DelimAt(t, d, 1) && !DelimAt(t, d, 2) && DelimAt(t, d, 3);
    assert CloseAt(t, d, 3) == Some(3);
    assert CloseAt(t, d, 2) == Some(3);
    assert MatchFrom(t, d, 1) == Some(Span(1, 3));
    assert t[4..] == [];
  }

  /** How "x`x`" splits around its one code span. */
  lemma CounterexampleDelimiter()
    ensures TitleDelimiter("x`x`") == "`"
  {
    NoDoubleBacktick("x`x`");
  }

  lemma CounterexampleSplit()
    ensures SplitSpans("x`x`", "`", 0) == ["x", "x", ""]
  {
    var t, d := "x`x`", "`";
    CounterexampleMatches();
    SplitSpansStep(t, d, 0, 1, 3);
    assert t[0..1] == "x" && t[2..3] == "x";
  }

  lemma CounterexampleParts()
    ensures TitleParts("x`x`") == ["x", "x", ""]
  {
    CounterexampleDelimiter();
    CounterexampleSplit();
  }

  /** The title "x`x`": the text before the span equals the span's content, so
      the code as written renders both as literal, while only the span is code. */
  lemma TitleCounterexample()
    ensures TitleParts("x`x`") == ["x", "x", ""]
    ensures TitleNodesAsWritten("x`x`") == [LiteralNode("x"), LiteralNode("x")]
    ensures TitleNodes("x`x`") == [TextNode("x"), LiteralNode("x")]
  {
    CounterexampleParts();
    var parts: seq<String> := ["x", "x", ""];
    assert Captured(parts) == ["x"];
    assert parts[1..][1..] == [""];
    assert parts[2..] == [""];
  }
}

=== FILE: grid.dfy ===
/** The reStructuredText builders of `grid.py`: the hidden `toctree` listing,
    the sphinx-design `grid`, and the `grid-item-card` template with its two
    placeholders, plus `format_params`. Each builder is an immutable record; the
    Python methods that mutate `self.pattern` return the updated record instead. */
module Grids {
  import opened Wrappers
  import opened Text
  import opened Paths

  // ---------------------------------------------------------------------------
  // Option values and `format_params`

  /** A single Python value given as an option. `Other` is any other object: its
      `str()` text and its truth value. */
  datatype Scalar =
    | Int(i: int)
    | Bool(b: bool)
    | Str(s: String)
    | Other(text: String, truthy: bool)

  /** An option value: one value, or a tuple or list of values. */
  datatype Param = One(v: Scalar) | Many(items: seq<Scalar>)

  /** Python `str(v)`. */
  function ScalarText(v: Scalar): String
  {
    match v
    case Int(i) => IntToString(i)
    case Bool(b) => if b then "True" else "False"
    case Str(s) => s
    case Other(text, _) => text
  }

  function Texts(items: seq<Scalar>): (r: seq<String>)
    ensures |r| == |items|
    ensures forall k :: 0 <= k < |r| ==> r[k] == ScalarText(items[k])
  {
    if items == [] then [] else [ScalarText(items[0])] + Texts(items[1..])
  }

  /** Python truthiness of an option value (`if self.gutter:`). */
  predicate Truthy(p: Param)
  {
    match p
    case Many(items) => items != []
    case One(Int(i)) => i != 0
    case One(Bool(b)) => b
    case One(Str(s)) => s != []
    case One(Other(_, t)) => t
  }

  /** `format_params`: a tuple or list is written space-separated, a string, int or
      bool as `str()` gives it; any other single value raises ValueError. */
  function FormatParams(p: Param): (r: Result<String>)
    ensures r.Err? <==> p.One? && p.v.Other?
    ensures r.Err? ==> r.error == ValueError
  {
    match p
    case Many(items) => Ok(Join(Texts(items), " "))
    case One(v) => if v.Other? then Err(ValueError) else Ok(ScalarText(v))
  }

  /** The words of a formatted tuple of integers are the integers' decimal forms. */
  lemma FormatParamsWords(items: seq<int>)
    ensures var r := FormatParams(Many(seq(|items|, k requires 0 <= k < |items| => Int(items[k]))));
      r.Ok? && SplitWs(r.value) == seq(|items|, k requires 0 <= k < |items| => IntToString(items[k]))
  {
    var scalars := seq(|items|, k requires 0 <= k < |items| => Int(items[k]));
    var words := seq(|items|, k requires 0 <= k < |items| => IntToString(items[k]));
    assert Texts(scalars) == words;
    forall k | 0 <= k < |words|
      ensures words[k] != [] && NoSpace(words[k])
    {
      IntToStringWord(items[k]);
    }
    SplitWsJoin(words);
  }

  lemma IntToStringWord(i: int)
    ensures IntToString(i) != [] && NoSpace(IntToString(i))
  {
    var d := NatToString(if i < 0 then -i else i);
    assert forall k :: 0 <= k < |d| ==> !IsSpace(d[k]);
    if i < 0 {
      assert IntToString(i) == "-" + d;
    }
  }

  // ---------------------------------------------------------------------------
  // Insertion-ordered option dictionaries

  datatype Setting = Setting(name: String, value: Param)

  type Dict = seq<Setting>

  function Keys(d: Dict): set<String>
  {
    if d == [] then {} else {d[0].name} + Keys(d[1..])
  }

  /** No key occurs twice. */
  predicate UniqueKeys(d: Dict)
  {
    d == [] || (d[0].name !in Keys(d[1..]) && UniqueKeys(d[1..]))
  }

  lemma {:induction false} KeysAppend(a: Dict, b: Dict)
    ensures Keys(a + b) == Keys(a) + Keys(b)
    decreases |a|
  {
    if a == [] {
      assert a + b == b;
    } else {
      assert (a + b)[0] == a[0] && (a + b)[1..] == a[1..] + b;
      KeysAppend(a[1..], b);
    }
  }

  /** `d[name]` as an `Option`. */
  function Lookup(d: Dict, name: String): (r: Option<Param>)
    ensures r.None? <==> name !in Keys(d)
  {
    if d == [] then None
    else if d[0].name == name then Some(d[0].value)
    else Lookup(d[1..], name)
  }

  /** `d[name] = value`: an existing key keeps its position, a new key goes last. */
  function DictSet(d: Dict, name: String, value: Param): (r: Dict)
    ensures Keys(r) == Keys(d) + {name}
    ensures |r| == if name in Keys(d) then |d| else |d| + 1
  {
    if d == [] then [Setting(name, value)]
    else if d[0].name == name then [Setting(name, value)] + d[1..]
    else [d[0]] + DictSet(d[1..], name, value)
  }

  /** After `d[name] = value`, `name` maps to `value` and every other key is
      unchanged; the keys stay distinct. */
  lemma {:induction false} DictSetLookup(d: Dict, name: String, value: Param, other: String)
    requires UniqueKeys(d)
    ensures Lookup(DictSet(d, name, value), name) == Some(value)
    ensures other != name ==> Lookup(DictSet(d, name, value), other) == Lookup(d, other)
    ensures UniqueKeys(DictSet(d, name, value))
    decreases |d|
  {
    if d != [] && d[0].name != name {
      DictSetLookup(d[1..], name, value, other);
      var r := DictSet(d, name, value);
      assert r[0] == d[0] && r[1..] == DictSet(d[1..], name, value);
    } else if d != [] {
      var r := DictSet(d, name, value);
      assert r[0] == Setting(name, value) && r[1..] == d[1..];
    }
  }

  /** Setting a key that is not present appends it. */
  lemma {:induction false} DictSetNew(d: Dict, name: String, value: Param)
    requires name !in Keys(d)
    ensures DictSet(d, name, value) == d + [Setting(name, value)]
    decreases |d|
  {
    if d != [] {
      assert d[0].name != name;
      DictSetNew(d[1..], name, value);
      ConsThen(d, [Setting(name, value)], DictSet(d, name, value), DictSet(d[1..], name, value));
    }
  }

  // ---------------------------------------------------------------------------
  // TocTree

  /** The toctree header every listing starts with. */
  const TocHeader: String := "\n\n.. toctree::\n    :hidden:\n\n"

  datatype TocTree = TocTree(pattern: String)

  /** `TocTree(pattern)`: an empty or missing pattern gives the default header. */
  function NewTocTree(pattern: Option<String>): (r: TocTree)
    ensures pattern.Some? && pattern.value != [] ==> r.pattern == pattern.value
    ensures pattern.None? || pattern.value == [] ==> r.pattern == TocHeader
  {
    if pattern.Some? && pattern.value != [] then TocTree(pattern.value) else TocTree(TocHeader)
  }

  /** `TocTree.add_item`: one indented line per entry. */
  function TocAddItem(t: TocTree, item: String): (r: TocTree)
    ensures StartsWith(r.pattern, t.pattern)
    ensures r.pattern[|t.pattern|..] == TocPad + item + "\n"
  {
    TocTree(t.pattern + TocPad + item + "\n")
  }

  function TocAddItems(t: TocTree, items: seq<String>): TocTree
    decreases |items|
  {
    if items == [] then t else TocAddItems(TocAddItem(t, items[0]), items[1..])
  }

  /** `TocTree.copy`: a new listing with the default header and no entries. */
  function TocCopy(t: TocTree): (r: TocTree)
    ensures r == NewTocTree(None)
  {
    TocTree(TocHeader)
  }

  /** The entries of a listing, read back from its text: the lines after the
      header, without their indentation. */
  function TocEntries(t: TocTree): seq<String>
  {
    if |t.pattern| < |TocHeader| then []
    else
      var lines := Split(t.pattern[|TocHeader|..], '\n');
      Dedent(|TocPad|, lines[..|lines| - 1])
  }

  /** The indentation of a listing entry. */
  const TocPad: String := "    "

  /** The entries of a listing whose text is the header and then `body`. */
  lemma TocEntriesOf(t: TocTree, body: String)
    requires t.pattern == TocHeader + body
    ensures var lines := Split(body, '\n'); TocEntries(t) == Dedent(|TocPad|, lines[..|lines| - 1])
  {
    StartsWithPrefix(TocHeader, body);
  }

  /** Padding is spaces only. */
  lemma PadsNoBreak()
    ensures '\n' !in TocPad && '\n' !in CardPad
  {
    assert TocPad == [' ', ' ', ' ', ' '];
    assert CardPad == TocPad + TocPad;
  }

  /** Each line without its first `n` characters. */
  function Dedent(n: nat, lines: seq<String>): (r: seq<String>)
    ensures |r| == |lines|
  {
    if lines == [] then []
    else [if |lines[0]| >= n then lines[0][n..] else []] + Dedent(n, lines[1..])
  }

  /** Each item behind `pad`. */
  function Indent(pad: String, items: seq<String>): (r: seq<String>)
    ensures |r| == |items|
    ensures forall k :: 0 <= k < |r| ==> r[k] == pad + items[k]
  {
    if items == [] then [] else [pad + items[0]] + Indent(pad, items[1..])
  }

  lemma {:induction false} DedentIndent(pad: String, items: seq<String>)
    ensures Dedent(|pad|, Indent(pad, items)) == items
    decreases |items|
  {
    if items != [] {
      assert Indent(pad, items)[1..] == Indent(pad, items[1..]);
      assert (pad + items[0])[|pad|..] == items[0];
      DedentIndent(pad, items[1..]);
    }
  }

  lemma {:induction false} TocAddItemsPattern(t: TocTree, items: seq<String>)
    ensures TocAddItems(t, items).pattern == t.pattern + Unlines(Indent(TocPad, items))
    decreases |items|
  {
    if items != [] {
      TocAddItemsPattern(TocAddItem(t, items[0]), items[1..]);
      assert Indent(TocPad, items)[1..] == Indent(TocPad, items[1..]);
      assert Unlines(Indent(TocPad, items)) == TocPad + items[0] + "\n" + Unlines(Indent(TocPad, items[1..]));
    } else {
      assert t.pattern + [] == t.pattern;
    }
  }

  lemma IndentNoBreak(pad: String, items: seq<String>)
    requires '\n' !in pad
    requires forall k :: 0 <= k < |items| ==> '\n' !in items[k]
    ensures forall k :: 0 <= k < |Indent(pad, items)| ==> '\n' !in Indent(pad, items)[k]
  {
    forall k | 0 <= k < |items|
      ensures '\n' !in Indent(pad, items)[k]
    {
      assert Indent(pad, items)[k] == pad + items[k];
    }
  }

  /** Entries added to a fresh listing are read back in order. */
  lemma TocRoundTrip(items: seq<String>)
    requires forall k :: 0 <= k < |items| ==> '\n' !in items[k]
    ensures TocEntries(TocAddItems(NewTocTree(None), items)) == items
  {
    var t := TocAddItems(NewTocTree(None), items);
    var body := Unlines(Indent(TocPad, items));
    TocAddItemsPattern(NewTocTree(None), items);
    TocEntriesOf(t, body);
    TocBodyLines(items);
    DedentIndent(TocPad, items);
  }

  /** The listing body of `items`, split at newlines and without the final
      empty piece, is the indented items. */
  lemma TocBodyLines(items: seq<String>)
    requires forall k :: 0 <= k < |items| ==> '\n' !in items[k]
    ensures var pieces := Split(Unlines(Indent(TocPad, items)), '\n');
      pieces[..|pieces| - 1] == Indent(TocPad, items)
  {
    PadsNoBreak();
    IndentNoBreak(TocPad, items);
    SplitUnlines(Indent(TocPad, items));
    Snoc(Indent(TocPad, items), []);
  }

  /** `TocTree.parse_item`: the path of `file` below `refDir` without its suffix,
      `/`-separated. Python raises ValueError when `file` is not below `refDir`,
      and when it is `refDir` itself (the relative path `.` has no name to drop a
      suffix from). */
  function TocParseItem(file: Path, refDir: Path): (r: Result<String>)
    ensures r.Ok? <==> RelativeTo(file, refDir).Some? && RelativeTo(file, refDir).value != []
    ensures r.Ok? ==> var rel := RelativeTo(file, refDir).value;
      r.value == Join(rel[..|rel| - 1] + [Stem(rel[|rel| - 1])], "/")
  {
    match RelativeTo(file, refDir)
    case None => Err(ValueError)
    case Some(rel) =>
      if rel == [] then Err(ValueError)
      else Ok(Join(rel[..|rel| - 1] + [Stem(rel[|rel| - 1])], "/"))
  }

  /** A document `stem + ext` in folders `dirs` below `refDir` is listed as its
      `/`-separated path without the suffix, which splits back into the folders and
      the stem; `refDir` itself is refused. */
  lemma TocParseItemRoundTrip(refDir: Path, dirs: seq<String>, stem: String, ext: String)
    requires stem != [] && |ext| >= 2 && ext[0] == '.' && '.' !in ext[1..]
    requires '/' !in stem && forall k :: 0 <= k < |dirs| ==> '/' !in dirs[k]
    ensures TocParseItem(Below(refDir, dirs + [stem + ext]), refDir) == Ok(Join(dirs + [stem], "/"))
    ensures Split(Join(dirs + [stem], "/"), '/') == dirs + [stem]
    ensures TocParseItem(refDir, refDir) == Err(ValueError)
  {
    assert TocParseItem(Below(refDir, dirs + [stem + ext]), refDir) == Ok(Join(dirs + [stem], "/")) by {
      TocParseItemBelow(refDir, dirs, stem + ext);
      StemOfSuffixed(stem, ext);
    }
    assert Split(Join(dirs + [stem], "/"), '/') == dirs + [stem] by {
      NoSlashSnoc(dirs, stem);
      SplitJoin(dirs + [stem], '/');
    }
    assert TocParseItem(refDir, refDir) == Err(ValueError) by {
      RelativeToBelow(refDir, []);
      assert Below(refDir, []) == refDir;
    }
  }

  lemma TocParseItemBelow(refDir: Path, dirs: seq<String>, name: String)
    ensures TocParseItem(Below(refDir, dirs + [name]), refDir) == Ok(Join(dirs + [Stem(name)], "/"))
  {
    RelativeToBelow(refDir, dirs + [name]);
    Snoc(dirs, name);
  }

  lemma NoSlashSnoc(dirs: seq<String>, stem: String)
    requires '/' !in stem && forall k :: 0 <= k < |dirs| ==> '/' !in dirs[k]
    ensures forall k :: 0 <= k < |dirs + [stem]| ==> '/' !in (dirs + [stem])[k]
  {
  }

  // ---------------------------------------------------------------------------
  // Grid

  /** The grid's layout and the option lines and items written so far. */
  datatype Grid = Grid(gridOption: Param, options: Dict, pattern: String, noItems: bool)

  /** The default columns per breakpoint (xs sm md lg). */
  const DefaultGridOption: Param := Many([Int(2), Int(3), Int(3), Int(4)])

  /** One option line, indented by `indent` spaces. */
  function OptionLine(indent: nat, name: String, value: Param): (r: Result<String>)
    ensures r.Ok? <==> FormatParams(value).Ok?
    ensures r.Ok? ==> r.value == Repeat(' ', indent) + ":" + name + ": " + FormatParams(value).value + "\n"
  {
    var text :- FormatParams(value);
    Ok(Repeat(' ', indent) + ":" + name + ": " + text + "\n")
  }

  /** `Grid.add_option`. */
  function GridAddOption(g: Grid, name: String, value: Param): (r: Result<Grid>)
    ensures r.Ok? <==> FormatParams(value).Ok?
    ensures r.Ok? ==> (r.value.options == DictSet(g.options, name, value)
      && r.value.gridOption == g.gridOption && r.value.noItems == g.noItems
      && r.value.pattern == g.pattern + OptionLine(4, name, value).value)
  {
    var line :- OptionLine(4, name, value);
    Ok(Grid(g.gridOption, DictSet(g.options, name, value), g.pattern + line, g.noItems))
  }

  /** Adds each truthy option, in the order of the Python dataclass fields. */
  function GridAddIfTruthy(g: Result<Grid>, name: String, value: Option<Param>): (r: Result<Grid>)
    ensures g.Err? ==> r == g
    ensures g.Ok? && (value.None? || !Truthy(value.value)) ==> r == g
  {
    if g.Err? || value.None? || !Truthy(value.value) then g
    else GridAddOption(g.value, name, value.value)
  }

  function GridHeader(gridOption: Param): Result<String>
  {
    var text :- FormatParams(gridOption);
    Ok("\n\n.. grid:: " + text + "\n")
  }

  /** `Grid(grid_option, gutter, margin, padding, outline, reverse)`. */
  function NewGrid(gridOption: Param, gutter: Option<Param>, margin: Option<Param>,
                   padding: Option<Param>, outline: Option<Param>, reverse: Option<Param>): (r: Result<Grid>)
    ensures FormatParams(gridOption).Err? ==> r == Err(ValueError)
    ensures r.Ok? ==> r.value.gridOption == gridOption && r.value.noItems
  {
    var header :- GridHeader(gridOption);
    var g0 := Ok(Grid(gridOption, [], header, true));
    var g1 := GridAddIfTruthy(g0, "gutter", gutter);
    var g2 := GridAddIfTruthy(g1, "margin", margin);
    var g3 := GridAddIfTruthy(g2, "padding", padding);
    var g4 := GridAddIfTruthy(g3, "outline", outline);
    GridAddIfTruthy(g4, "reverse", reverse)
  }

  /** `Grid.add_item`: the first item is preceded by an empty line. */
  function GridAddItem(g: Grid, item: String): (r: Grid)
    ensures r.options == g.options && r.gridOption == g.gridOption && !r.noItems
    ensures r.pattern == g.pattern + (if g.noItems then "\n" else "") + item + "\n"
  {
    if g.noItems then Grid(g.gridOption, g.options, g.pattern + "\n" + item + "\n", false)
    else Grid(g.gridOption, g.options, g.pattern + item + "\n", false)
  }

  function GridAddItems(g: Grid, items: seq<String>): Grid
    decreases |items|
  {
    if items == [] then g else GridAddItems(GridAddItem(g, items[0]), items[1..])
  }

  /** Adding items keeps the options and appends one line per item, the first
      behind an empty line when the grid had none. */
  lemma {:induction false} GridAddItemsPattern(g: Grid, items: seq<String>)
    ensures var r := GridAddItems(g, items);
      r.options == g.options && r.gridOption == g.gridOption &&
      r.noItems == (g.noItems && items == []) &&
      r.pattern == g.pattern + (if g.noItems && items != [] then "\n" else "") + Unlines(items)
    decreases |items|
  {
    if items == [] {
      assert g.pattern + [] + [] == g.pattern;
    } else {
      var g1 := GridAddItem(g, items[0]);
      GridAddItemsPattern(g1, items[1..]);
      assert Unlines(items) == items[0] + "\n" + Unlines(items[1..]);
      var lead: String := if g.noItems then "\n" else "";
      assert g1.pattern + [] + Unlines(items[1..]) == g.pattern + lead + Unlines(items) by {
        Assoc3(g.pattern + lead, items[0] + "\n", Unlines(items[1..]));
      }
    }
  }

  /** The items of a grid that had none are read back from its text: the text
      after the old pattern, split at newlines, is an empty line, the items, and
      the empty piece after the last newline. */
  lemma GridItemsRoundTrip(g: Grid, items: seq<String>)
    requires g.noItems && items != []
    requires forall k :: 0 <= k < |items| ==> '\n' !in items[k]
    ensures var r := GridAddItems(g, items);
      r.options == g.options && r.gridOption == g.gridOption && !r.noItems &&
      StartsWith(r.pattern, g.pattern) &&
      Split(r.pattern[|g.pattern|..], '\n') == [[]] + items + [[]]
  {
    var r := GridAddItems(g, items);
    GridAddItemsPattern(g, items);
    assert r.pattern == g.pattern + ("\n" + Unlines(items)) by {
      Assoc3(g.pattern, "\n", Unlines(items));
    }
    StartsWithPrefix(g.pattern, "\n" + Unlines(items));
    SplitAfterBreak(items);
  }

  /** Replays option settings in order, as the `copy` methods do. */
  function GridAddOptions(g: Result<Grid>, d: Dict): Result<Grid>
    decreases |d|
  {
    if d == [] || g.Err? then g else GridAddOptions(GridAddOption(g.value, d[0].name, d[0].value), d[1..])
  }

  /** `Grid.copy`: the same layout and options, no items. */
  function GridCopy(g: Grid): Result<Grid>
  {
    GridAddOptions(NewGrid(g.gridOption, None, None, None, None, None), g.options)
  }

  /** The option lines of a dictionary, when every value can be formatted. */
  function OptionLines(indent: nat, d: Dict): (r: Result<String>)
    ensures r.Err? ==> r.error == ValueError
    decreases |d|
  {
    if d == [] then Ok([])
    else
      var line :- OptionLine(indent, d[0].name, d[0].value);
      var rest :- OptionLines(indent, d[1..]);
      Ok(line + rest)
  }

  /** A grid with no items whose text is its header followed by one line per
      option: what `Grid(...)` and `add_option` with new keys produce. */
  predicate GridFresh(g: Grid)
  {
    g.noItems && UniqueKeys(g.options) && GridHeader(g.gridOption).Ok? && OptionLines(4, g.options).Ok?
    && g.pattern == GridHeader(g.gridOption).value + OptionLines(4, g.options).value
  }

  lemma {:induction false} OptionLinesAppend(indent: nat, d: Dict, s: Setting)
    requires OptionLines(indent, d).Ok? && OptionLine(indent, s.name, s.value).Ok?
    ensures OptionLines(indent, d + [s]).Ok?
    ensures OptionLines(indent, d + [s]).value == OptionLines(indent, d).value + OptionLine(indent, s.name, s.value).value
    decreases |d|
  {
    if d == [] {
      assert [] + [s] == [s];
      assert OptionLines(indent, [s]).value == OptionLine(indent, s.name, s.value).value + [];
    } else {
      assert (d + [s])[1..] == d[1..] + [s];
      OptionLinesAppend(indent, d[1..], s);
    }
  }

  /** Adding an option with a new key to a fresh grid keeps it fresh. */
  lemma GridAddOptionFresh(g: Grid, name: String, value: Param)
    requires GridFresh(g) && name !in Keys(g.options) && FormatParams(value).Ok?
    ensures GridAddOption(g, name, value).Ok? && GridFresh(GridAddOption(g, name, value).value)
  {
    var s := Setting(name, value);
    var line := OptionLine(4, name, value).value;
    var g' := GridAddOption(g, name, value).value;
    var header := GridHeader(g.gridOption).value;
    var lines := OptionLines(4, g.options).value;
    assert g'.options == g.options + [s] by {
      DictSetNew(g.options, name, value);
    }
    assert UniqueKeys(g'.options) by {
      DictSetLookup(g.options, name, value, name);
    }
    assert OptionLines(4, g'.options) == Ok(lines + line) by {
      OptionLinesAppend(4, g.options, s);
    }
    assert g'.pattern == header + (lines + line) by {
      ConcatAssoc(g'.pattern, header, lines, line);
    }
    GridFreshOf(g', header, lines + line);
  }

  lemma ConcatAssoc(n: String, a: String, b: String, c: String)
    requires n == (a + b) + c
    ensures n == a + (b + c)
  {
  }

  lemma GridFreshOf(g: Grid, header: String, lines: String)
    requires g.noItems && UniqueKeys(g.options)
    requires GridHeader(g.gridOption) == Ok(header) && OptionLines(4, g.options) == Ok(lines)
    requires g.pattern == header + lines
    ensures GridFresh(g)
  {
  }

  lemma KeysAppendOne(a: Dict, s: Setting)
    ensures Keys(a + [s]) == Keys(a) + {s.name}
  {
    KeysAppend(a, [s]);
    assert [s][1..] == [];
  }

  /** Bookkeeping for replaying the first of the settings `d` after `a`. */
  lemma KeysStep(a: Dict, d: Dict)
    requires UniqueKeys(d) && d != [] && Keys(a) !! Keys(d)
    ensures d[0].name !in Keys(a) && UniqueKeys(d[1..]) && Keys(a + [d[0]]) !! Keys(d[1..])
  {
    KeysAppendOne(a, d[0]);
  }

  lemma AppendStep<T>(a: seq<T>, d: seq<T>)
    requires d != []
    ensures (a + [d[0]]) + d[1..] == a + d
  {
    assert d == [d[0]] + d[1..];
  }

  lemma OptionLinesStep(indent: nat, d: Dict)
    requires d != [] && OptionLines(indent, d).Ok?
    ensures OptionLine(indent, d[0].name, d[0].value).Ok? && OptionLines(indent, d[1..]).Ok?
    ensures OptionLines(indent, d).value
      == OptionLine(indent, d[0].name, d[0].value).value + OptionLines(indent, d[1..]).value
  {
  }

  lemma GridAddOptionStep(g: Grid, s: Setting, line: String)
    requires s.name !in Keys(g.options) && OptionLine(4, s.name, s.value) == Ok(line)
    ensures GridAddOption(g, s.name, s.value) == Ok(Grid(g.gridOption, g.options + [s], g.pattern + line, g.noItems))
  {
    DictSetNew(g.options, s.name, s.value);
  }

  /** Replaying settings with distinct keys that the grid does not have yet adds
      them in order, one option line each. */
  lemma {:induction false} GridAddOptionsNew(g: Grid, d: Dict)
    requires g.noItems && UniqueKeys(d) && Keys(g.options) !! Keys(d) && OptionLines(4, d).Ok?
    ensures GridAddOptions(Ok(g), d)
      == Ok(Grid(g.gridOption, g.options + d, g.pattern + OptionLines(4, d).value, true))
    decreases |d|
  {
    if d == [] {
      assert g.options + d == g.options;
      assert g.pattern + [] == g.pattern;
    } else {
      OptionLinesStep(4, d);
      KeysStep(g.options, d);
      var line := OptionLine(4, d[0].name, d[0].value).value;
      GridAddOptionsNew(Grid(g.gridOption, g.options + [d[0]], g.pattern + line, true), d[1..]);
      GridAddOptionsNewStep(g, d);
    }
  }

  /** One replayed setting followed by the rest. */
  lemma GridAddOptionsNewStep(g: Grid, d: Dict)
    requires g.noItems && d != [] && d[0].name !in Keys(g.options)
    requires OptionLine(4, d[0].name, d[0].value).Ok? && OptionLines(4, d[1..]).Ok?
    requires OptionLines(4, d).Ok?
      && OptionLines(4, d).value == OptionLine(4, d[0].name, d[0].value).value + OptionLines(4, d[1..]).value
    requires var line := OptionLine(4, d[0].name, d[0].value).value;
      GridAddOptions(Ok(Grid(g.gridOption, g.options + [d[0]], g.pattern + line, true)), d[1..])
      == Ok(Grid(g.gridOption, (g.options + [d[0]]) + d[1..], (g.pattern + line) + OptionLines(4, d[1..]).value, true))
    ensures GridAddOptions(Ok(g), d)
      == Ok(Grid(g.gridOption, g.options + d, g.pattern + OptionLines(4, d).value, true))
  {
    var line := OptionLine(4, d[0].name, d[0].value).value;
    var rest := OptionLines(4, d[1..]).value;
    assert GridAddOptions(Ok(g), d) == GridAddOptions(Ok(Grid(g.gridOption, g.options + [d[0]], g.pattern + line, true)), d[1..]) by {
      GridAddOptionStep(g, d[0], line);
    }
    assert (g.options + [d[0]]) + d[1..] == g.options + d by {
      AppendStep(g.options, d);
    }
    assert (g.pattern + line) + rest == g.pattern + (line + rest);
  }

  /** The option lines can be written exactly when every value can be formatted. */
  lemma {:induction false} OptionLinesOk(indent: nat, d: Dict)
    ensures OptionLines(indent, d).Ok? <==> forall k :: 0 <= k < |d| ==> FormatParams(d[k].value).Ok?
    decreases |d|
  {
    if d != [] {
      OptionLinesOk(indent, d[1..]);
      assert forall k :: 1 <= k < |d| ==> d[k] == d[1..][k - 1];
    }
  }

  /** The option lines of two dictionaries one after the other. */
  lemma {:induction false} OptionLinesConcat(indent: nat, a: Dict, b: Dict)
    ensures OptionLines(indent, a + b).Ok? <==> OptionLines(indent, a).Ok? && OptionLines(indent, b).Ok?
    ensures OptionLines(indent, a + b).Ok? ==>
      OptionLines(indent, a + b).value == OptionLines(indent, a).value + OptionLines(indent, b).value
    decreases |a|
  {
    if a == [] {
      assert a + b == b;
    } else {
      assert (a + b)[0] == a[0] && (a + b)[1..] == a[1..] + b;
      OptionLinesConcat(indent, a[1..], b);
    }
  }

  // ---------------------------------------------------------------------------
  // The options a constructor sets

  /** The setting `name: value` when `value` is given and truthy, else nothing. */
  function Opt(name: String, value: Option<Param>): Dict
  {
    if value.Some? && Truthy(value.value) then [Setting(name, value.value)] else []
  }

  lemma KeysOpt(name: String, value: Option<Param>)
    ensures Keys(Opt(name, value)) <= {name}
  {
  }

  lemma FieldNamesDistinct()
    ensures "margin" != "gutter" && "padding" != "gutter" && "padding" != "margin"
    ensures "outline" != "gutter" && "outline" != "margin" && "outline" != "padding"
    ensures "reverse" != "gutter" && "reverse" != "margin" && "reverse" != "padding" && "reverse" != "outline"
    ensures "columns" != "margin" && "columns" != "padding"
  {
    assert "margin"[0] != "gutter"[0] && "padding"[0] != "gutter"[0] && "padding"[0] != "margin"[0];
    assert "outline"[0] != "gutter"[0] && "outline"[0] != "margin"[0] && "outline"[0] != "padding"[0];
    assert "reverse"[0] != "gutter"[0] && "reverse"[0] != "margin"[0];
    assert "reverse"[0] != "padding"[0] && "reverse"[0] != "outline"[0];
    assert "columns"[0] != "margin"[0] && "columns"[0] != "padding"[0];
  }

  /** The truthy grid settings, in the order of the dataclass fields. */
  function TruthyGridOptions(gutter: Option<Param>, margin: Option<Param>, padding: Option<Param>,
                             outline: Option<Param>, reverse: Option<Param>): Dict
  {
    Opt("gutter", gutter) + Opt("margin", margin) + Opt("padding", padding)
      + Opt("outline", outline) + Opt("reverse", reverse)
  }

  /** A grid with the settings `d` appended and their option lines written, or
      ValueError when a value cannot be formatted. */
  function GridExtend(g: Result<Grid>, d: Dict): Result<Grid>
  {
    if g.Err? then g
    else if OptionLines(4, d).Err? then Err(ValueError)
    else Ok(Grid(g.value.gridOption, g.value.options + d, g.value.pattern + OptionLines(4, d).value, g.value.noItems))
  }

  lemma GridIfTruthyExtend(g: Result<Grid>, name: String, value: Option<Param>)
    requires g.Ok? ==> name !in Keys(g.value.options)
    ensures GridAddIfTruthy(g, name, value) == GridExtend(g, Opt(name, value))
  {
    if g.Ok? {
      if value.Some? && Truthy(value.value) {
        var s := Setting(name, value.value);
        assert Opt(name, value) == [s] && [s][1..] == [];
        var line := OptionLine(4, name, value.value);
        assert OptionLines(4, [s][1..]) == Ok([]);
        assert GridAddIfTruthy(g, name, value) == GridAddOption(g.value, name, value.value);
        if line.Ok? {
          GridAddOptionStep(g.value, s, line.value);
          assert OptionLines(4, [s]) == Ok(line.value + []);
          assert line.value + [] == line.value;
        } else {
          assert OptionLines(4, [s]).Err?;
        }
      } else {
        assert g.value.options + [] == g.value.options && g.value.pattern + [] == g.value.pattern;
      }
    }
  }

  lemma GridExtendTwice(g: Result<Grid>, a: Dict, b: Dict)
    ensures GridExtend(GridExtend(g, a), b) == GridExtend(g, a + b)
  {
    if g.Ok? {
      OptionLinesConcat(4, a, b);
      assert (g.value.options + a) + b == g.value.options + (a + b);
      if OptionLines(4, a + b).Ok? {
        var x, y := OptionLines(4, a).value, OptionLines(4, b).value;
        assert (g.value.pattern + x) + y == g.value.pattern + (x + y);
      }
    }
  }

  lemma GridExtendStep(g0: Result<Grid>, p: Dict, name: String, value: Option<Param>, names: set<String>)
    requires g0.Ok? ==> g0.value.options == []
    requires Keys(p) <= names && name !in names
    ensures GridAddIfTruthy(GridExtend(g0, p), name, value) == GridExtend(g0, p + Opt(name, value))
    ensures Keys(p + Opt(name, value)) <= names + {name}
  {
    var g := GridExtend(g0, p);
    if g.Ok? {
      assert g.value.options == [] + p == p;
    }
    GridIfTruthyExtend(g, name, value);
    GridExtendTwice(g0, p, Opt(name, value));
    KeysAppend(p, Opt(name, value));
    KeysOpt(name, value);
  }

  /** `Grid(...)` writes the header and then one option line for each truthy
      setting, in field order; it raises ValueError exactly when the columns or one
      of those settings cannot be formatted. */
  lemma NewGridLines(gridOption: Param, gutter: Option<Param>, margin: Option<Param>,
                     padding: Option<Param>, outline: Option<Param>, reverse: Option<Param>)
    ensures var t := TruthyGridOptions(gutter, margin, padding, outline, reverse);
      var r := NewGrid(gridOption, gutter, margin, padding, outline, reverse);
      r.Ok? <==> GridHeader(gridOption).Ok? && OptionLines(4, t).Ok?
    ensures var t := TruthyGridOptions(gutter, margin, padding, outline, reverse);
      var r := NewGrid(gridOption, gutter, margin, padding, outline, reverse);
      r.Ok? ==> r.value == Grid(gridOption, t, GridHeader(gridOption).value + OptionLines(4, t).value, true)
    ensures var r := NewGrid(gridOption, gutter, margin, padding, outline, reverse);
      r.Err? ==> r.error == ValueError
  {
    if GridHeader(gridOption).Ok? {
      var t := TruthyGridOptions(gutter, margin, padding, outline, reverse);
      var g0 := Ok(Grid(gridOption, [], GridHeader(gridOption).value, true));
      NewGridExtend(gridOption, gutter, margin, padding, outline, reverse, g0);
      assert [] + t == t;
    }
  }

  lemma NewGridExtend(gridOption: Param, gutter: Option<Param>, margin: Option<Param>,
                      padding: Option<Param>, outline: Option<Param>, reverse: Option<Param>, g0: Result<Grid>)
    requires GridHeader(gridOption).Ok? && g0 == Ok(Grid(gridOption, [], GridHeader(gridOption).value, true))
    ensures NewGrid(gridOption, gutter, margin, padding, outline, reverse)
      == GridExtend(g0, TruthyGridOptions(gutter, margin, padding, outline, reverse))
  {
    FieldNamesDistinct();
    GridChain(g0, "gutter", gutter, "margin", margin, "padding", padding, "outline", outline, "reverse", reverse);
  }

  /** Five settings with distinct names, each added when truthy. */
  lemma GridChain(g0: Result<Grid>, n1: String, v1: Option<Param>, n2: String, v2: Option<Param>,
                  n3: String, v3: Option<Param>, n4: String, v4: Option<Param>, n5: String, v5: Option<Param>)
    requires g0.Ok? ==> g0.value.options == []
    requires n2 != n1 && n3 != n1 && n3 != n2 && n4 != n1 && n4 != n2 && n4 != n3
    requires n5 != n1 && n5 != n2 && n5 != n3 && n5 != n4
    ensures GridAddIfTruthy(GridAddIfTruthy(GridAddIfTruthy(GridAddIfTruthy(GridAddIfTruthy(
        g0, n1, v1), n2, v2), n3, v3), n4, v4), n5, v5)
      == GridExtend(g0, Opt(n1, v1) + Opt(n2, v2) + Opt(n3, v3) + Opt(n4, v4) + Opt(n5, v5))
  {
    var p1 := Opt(n1, v1);
    var p2 := p1 + Opt(n2, v2);
    var p3 := p2 + Opt(n3, v3);
    var p4 := p3 + Opt(n4, v4);
    var g1 := GridAddIfTruthy(g0, n1, v1);
    assert g1 == GridExtend(g0, p1) && Keys(p1) <= {n1} by {
      GridIfTruthyExtend(g0, n1, v1);
      KeysOpt(n1, v1);
    }
    var g2 := GridAddIfTruthy(g1, n2, v2);
    assert g2 == GridExtend(g0, p2) && Keys(p2) <= {n1, n2} by {
      GridExtendStep(g0, p1, n2, v2, {n1});
    }
    var g3 := GridAddIfTruthy(g2, n3, v3);
    assert g3 == GridExtend(g0, p3) && Keys(p3) <= {n1, n2, n3} by {
      GridExtendStep(g0, p2, n3, v3, {n1, n2});
    }
    var g4 := GridAddIfTruthy(g3, n4, v4);
    assert g4 == GridExtend(g0, p4) && Keys(p4) <= {n1, n2, n3, n4} by {
      GridExtendStep(g0, p3, n4, v4, {n1, n2, n3});
    }
    GridExtendStep(g0, p4, n5, v5, {n1, n2, n3, n4});
  }



  /** `copy` keeps the layout and the options, drops the items, and succeeds on any
      grid whose options have distinct keys and formattable values. */
  lemma GridCopyKeepsOptions(g: Grid)
    requires UniqueKeys(g.options) && FormatParams(g.gridOption).Ok?
    requires forall k :: 0 <= k < |g.options| ==> FormatParams(g.options[k].value).Ok?
    ensures GridCopy(g).Ok?
    ensures GridCopy(g).value.options == g.options && GridCopy(g).value.gridOption == g.gridOption
    ensures GridFresh(GridCopy(g).value)
  {
    var base := NewGrid(g.gridOption, None, None, None, None, None).value;
    assert base == Grid(g.gridOption, [], GridHeader(g.gridOption).value, true);
    OptionLinesOk(4, g.options);
    assert [] + g.options == g.options;
    GridAddOptionsNew(base, g.options);
  }

  /** A fresh grid is its own copy. */
  lemma GridCopyFresh(g: Grid)
    requires GridFresh(g)
    ensures GridCopy(g) == Ok(g)
  {
    var base := NewGrid(g.gridOption, None, None, None, None, None).value;
    assert base == Grid(g.gridOption, [], GridHeader(g.gridOption).value, true);
    assert [] + g.options == g.options;
    GridAddOptionsNew(base, g.options);
  }

  /** Copying twice is copying once. */
  lemma GridCopyIdempotent(g: Grid)
    requires UniqueKeys(g.options) && FormatParams(g.gridOption).Ok?
    requires forall k :: 0 <= k < |g.options| ==> FormatParams(g.options[k].value).Ok?
    ensures GridCopy(g).Ok? && GridCopy(GridCopy(g).value) == GridCopy(g)
  {
    GridCopyKeepsOptions(g);
    GridCopyFresh(GridCopy(g).value);
  }

  /** `Grid()` with the defaults. */
  lemma DefaultGridPattern()
    ensures var g := NewGrid(DefaultGridOption, None, None, None, None, None);
      g.Ok? && g.value.pattern == "\n\n.. grid:: 2 3 3 4\n" && g.value.options == []
  {
    var g := NewGrid(DefaultGridOption, None, None, None, None, None);
    assert GridHeader(DefaultGridOption) == Ok("\n\n.. grid:: 2 3 3 4\n") by {
      DefaultGridText();
      assert "\n\n.. grid:: " + "2 3 3 4" + "\n" == "\n\n.. grid:: 2 3 3 4\n";
    }
    assert g == Ok(Grid(DefaultGridOption, [], "\n\n.. grid:: 2 3 3 4\n", true)) by {
      NewGridPlain(DefaultGridOption);
    }
  }

  lemma DefaultGridText()
    ensures FormatParams(DefaultGridOption) == Ok("2 3 3 4")
  {
    assert Texts([Int(2), Int(3), Int(3), Int(4)]) == ["2", "3", "3", "4"];
    assert Join(["2", "3", "3", "4"], " ") == "2 3 3 4";
  }

  /** Without optional settings a grid is its header and nothing else. */
  lemma NewGridPlain(gridOption: Param)
    requires GridHeader(gridOption).Ok?
    ensures NewGrid(gridOption, None, None, None, None, None)
      == Ok(Grid(gridOption, [], GridHeader(gridOption).value, true))
  {
  }

  /** A zero gutter is falsy and therefore not written: `Grid(gutter=0)` is
      `Grid()`. */
  lemma ZeroGutterIgnored(gridOption: Param)
    ensures NewGrid(gridOption, Some(One(Int(0))), None, None, None, None)
      == NewGrid(gridOption, None, None, None, None, None)
  {
  }

  // ---------------------------------------------------------------------------
  // GridItemCard

  /** A `str.format` replacement field. */
  function Field(name: String): String
  {
    "{" + name + "}"
  }

  /** `grid_item_card`: a card that links to `{target_ref}` and shows `{img_path}`
      on top. */
  const CardTemplate: String :=
    CardHead + Field("target_ref") + CardImage + Field("img_path") + CardLink + Field("target_ref") + CardTail

  const CardHead: String := "\n    .. grid-item-card:: :ref:`"
  const CardImage: String := "`\n        :img-top: "
  const CardLink: String := "\n        :link: "
  const CardTail: String := "\n        :link-type: ref\n"

  datatype Card = Card(options: Dict, pattern: String, noItems: bool)

  /** `GridItemCard.add_option`: option lines are indented by eight spaces. */
  function CardAddOption(c: Card, name: String, value: Param): (r: Result<Card>)
    ensures r.Ok? <==> FormatParams(value).Ok?
    ensures r.Ok? ==> (r.value.options == DictSet(c.options, name, value) && r.value.noItems == c.noItems
      && r.value.pattern == c.pattern + OptionLine(8, name, value).value)
  {
    var line :- OptionLine(8, name, value);
    Ok(Card(DictSet(c.options, name, value), c.pattern + line, c.noItems))
  }

  function CardAddIfTruthy(c: Result<Card>, name: String, value: Option<Param>): (r: Result<Card>)
    ensures c.Err? ==> r == c
    ensures c.Ok? && (value.None? || !Truthy(value.value)) ==> r == c
  {
    if c.Err? || value.None? || !Truthy(value.value) then c
    else CardAddOption(c.value, name, value.value)
  }

  /** `GridItemCard(columns, margin, padding)`. */
  function NewCard(columns: Option<Param>, margin: Option<Param>, padding: Option<Param>): (r: Result<Card>)
    ensures columns.None? && margin.None? && padding.None? ==> r == Ok(Card([], CardTemplate, true))
    ensures r.Ok? ==> StartsWith(r.value.pattern, CardTemplate) && r.value.noItems
  {
    var c0 := Ok(Card([], CardTemplate, true));
    var c1 := CardAddIfTruthy(c0, "columns", columns);
    var c2 := CardAddIfTruthy(c1, "margin", margin);
    assert c2.Ok? ==> StartsWith(c2.value.pattern, CardTemplate);
    CardAddIfTruthy(c2, "padding", padding)
  }

  /** `GridItemCard.add_item`: items are indented by eight spaces, the first one
      after an empty line. */
  function CardAddItem(c: Card, item: String): (r: Card)
    ensures r.options == c.options && !r.noItems
    ensures r.pattern == c.pattern + (if c.noItems then "\n" else "") + CardPad + item + "\n"
  {
    if c.noItems then Card(c.options, c.pattern + "\n" + CardPad + item + "\n", false)
    else Card(c.options, c.pattern + CardPad + item + "\n", false)
  }

  /** The indentation of a card item. */
  const CardPad: String := "        "

  function CardAddItems(c: Card, items: seq<String>): Card
    decreases |items|
  {
    if items == [] then c else CardAddItems(CardAddItem(c, items[0]), items[1..])
  }

  /** Adding items keeps the options and appends one indented line per item, the
      first behind an empty line when the card had none. */
  lemma {:induction false} CardAddItemsPattern(c: Card, items: seq<String>)
    ensures var r := CardAddItems(c, items);
      r.options == c.options && r.noItems == (c.noItems && items == []) &&
      r.pattern == c.pattern + (if c.noItems && items != [] then "\n" else "") + Unlines(Indent(CardPad, items))
    decreases |items|
  {
    if items == [] {
      assert c.pattern + [] + [] == c.pattern;
    } else {
      var c1 := CardAddItem(c, items[0]);
      CardAddItemsPattern(c1, items[1..]);
      assert Indent(CardPad, items)[1..] == Indent(CardPad, items[1..]);
      assert Unlines(Indent(CardPad, items)) == CardPad + items[0] + "\n" + Unlines(Indent(CardPad, items[1..]));
      var lead: String := if c.noItems then "\n" else "";
      assert c1.pattern + [] + Unlines(Indent(CardPad, items[1..])) == c.pattern + lead + Unlines(Indent(CardPad, items)) by {
        Assoc3(c.pattern + lead, CardPad + items[0] + "\n", Unlines(Indent(CardPad, items[1..])));
      }
    }
  }

  /** The items of a card that had none are read back from its text: after the
      old pattern come an empty line, the items each indented by eight spaces, and
      the empty piece after the last newline; dropping the indentation gives the
      items. */
  lemma CardItemsRoundTrip(c: Card, items: seq<String>)
    requires c.noItems && items != []
    requires forall k :: 0 <= k < |items| ==> '\n' !in items[k]
    ensures var r := CardAddItems(c, items);
      r.options == c.options && !r.noItems && StartsWith(r.pattern, c.pattern) &&
      Split(r.pattern[|c.pattern|..], '\n') == [[]] + Indent(CardPad, items) + [[]]
    ensures Dedent(|CardPad|, Indent(CardPad, items)) == items
  {
    var r := CardAddItems(c, items);
    var lines := Indent(CardPad, items);
    CardAddItemsPattern(c, items);
    assert r.pattern == c.pattern + ("\n" + Unlines(lines)) by {
      Assoc3(c.pattern, "\n", Unlines(lines));
    }
    StartsWithPrefix(c.pattern, "\n" + Unlines(lines));
    assert Split("\n" + Unlines(lines), '\n') == [[]] + lines + [[]] by {
      PadsNoBreak();
      IndentNoBreak(CardPad, items);
      SplitAfterBreak(lines);
    }
    DedentIndent(CardPad, items);
  }


  function CardAddOptions(c: Result<Card>, d: Dict): Result<Card>
    decreases |d|
  {
    if d == [] || c.Err? then c else CardAddOptions(CardAddOption(c.value, d[0].name, d[0].value), d[1..])
  }

  /** `GridItemCard.copy`: the template and the options, no items. */
  function CardCopy(c: Card): Result<Card>
  {
    CardAddOptions(Ok(Card([], CardTemplate, true)), c.options)
  }

  lemma CardAddOptionStep(c: Card, s: Setting, line: String)
    requires s.name !in Keys(c.options) && OptionLine(8, s.name, s.value) == Ok(line)
    ensures CardAddOption(c, s.name, s.value) == Ok(Card(c.options + [s], c.pattern + line, c.noItems))
  {
    DictSetNew(c.options, s.name, s.value);
  }

  /** Replaying settings with distinct keys that the card does not have yet adds
      them in order, one option line each. */
  lemma {:induction false} CardAddOptionsNew(c: Card, d: Dict)
    requires c.noItems && UniqueKeys(d) && Keys(c.options) !! Keys(d) && OptionLines(8, d).Ok?
    ensures CardAddOptions(Ok(c), d)
      == Ok(Card(c.options + d, c.pattern + OptionLines(8, d).value, true))
    decreases |d|
  {
    if d == [] {
      assert c.options + d == c.options;
      assert c.pattern + [] == c.pattern;
    } else {
      OptionLinesStep(8, d);
      KeysStep(c.options, d);
      var line := OptionLine(8, d[0].name, d[0].value).value;
      CardAddOptionsNew(Card(c.options + [d[0]], c.pattern + line, true), d[1..]);
      CardAddOptionsNewStep(c, d);
    }
  }

  /** One replayed setting followed by the rest. */
  lemma CardAddOptionsNewStep(c: Card, d: Dict)
    requires c.noItems && d != [] && d[0].name !in Keys(c.options)
    requires OptionLine(8, d[0].name, d[0].value).Ok? && OptionLines(8, d[1..]).Ok?
    requires OptionLines(8, d).Ok?
      && OptionLines(8, d).value == OptionLine(8, d[0].name, d[0].value).value + OptionLines(8, d[1..]).value
    requires var line := OptionLine(8, d[0].name, d[0].value).value;
      CardAddOptions(Ok(Card(c.options + [d[0]], c.pattern + line, true)), d[1..])
      == Ok(Card((c.options + [d[0]]) + d[1..], (c.pattern + line) + OptionLines(8, d[1..]).value, true))
    ensures CardAddOptions(Ok(c), d)
      == Ok(Card(c.options + d, c.pattern + OptionLines(8, d).value, true))
  {
    var line := OptionLine(8, d[0].name, d[0].value).value;
    var rest := OptionLines(8, d[1..]).value;
    assert CardAddOptions(Ok(c), d) == CardAddOptions(Ok(Card(c.options + [d[0]], c.pattern + line, true)), d[1..]) by {
      CardAddOptionStep(c, d[0], line);
    }
    assert (c.options + [d[0]]) + d[1..] == c.options + d by {
      AppendStep(c.options, d);
    }
    assert (c.pattern + line) + rest == c.pattern + (line + rest);
  }

  /** The truthy card settings, in the order of the dataclass fields. */
  function TruthyCardOptions(columns: Option<Param>, margin: Option<Param>, padding: Option<Param>): Dict
  {
    Opt("columns", columns) + Opt("margin", margin) + Opt("padding", padding)
  }

  /** A card with the settings `d` appended and their option lines written, or
      ValueError when a value cannot be formatted. */
  function CardExtend(c: Result<Card>, d: Dict): Result<Card>
  {
    if c.Err? then c
    else if OptionLines(8, d).Err? then Err(ValueError)
    else Ok(Card(c.value.options + d, c.value.pattern + OptionLines(8, d).value, c.value.noItems))
  }

  lemma CardIfTruthyExtend(c: Result<Card>, name: String, value: Option<Param>)
    requires c.Ok? ==> name !in Keys(c.value.options)
    ensures CardAddIfTruthy(c, name, value) == CardExtend(c, Opt(name, value))
  {
    if c.Ok? {
      if value.Some? && Truthy(value.value) {
        var s := Setting(name, value.value);
        assert Opt(name, value) == [s] && [s][1..] == [];
        var line := OptionLine(8, name, value.value);
        assert OptionLines(8, [s][1..]) == Ok([]);
        assert CardAddIfTruthy(c, name, value) == CardAddOption(c.value, name, value.value);
        if line.Ok? {
          CardAddOptionStep(c.value, s, line.value);
          assert OptionLines(8, [s]) == Ok(line.value + []);
          assert line.value + [] == line.value;
        } else {
          assert OptionLines(8, [s]).Err?;
        }
      } else {
        assert c.value.options + [] == c.value.options && c.value.pattern + [] == c.value.pattern;
      }
    }
  }

  lemma CardExtendTwice(c: Result<Card>, a: Dict, b: Dict)
    ensures CardExtend(CardExtend(c, a), b) == CardExtend(c, a + b)
  {
    if c.Ok? {
      OptionLinesConcat(8, a, b);
      assert (c.value.options + a) + b == c.value.options + (a + b);
      if OptionLines(8, a + b).Ok? {
        var x, y := OptionLines(8, a).value, OptionLines(8, b).value;
        assert (c.value.pattern + x) + y == c.value.pattern + (x + y);
      }
    }
  }

  lemma CardExtendStep(c0: Result<Card>, p: Dict, name: String, value: Option<Param>, names: set<String>)
    requires c0.Ok? ==> c0.value.options == []
    requires Keys(p) <= names && name !in names
    ensures CardAddIfTruthy(CardExtend(c0, p), name, value) == CardExtend(c0, p + Opt(name, value))
    ensures Keys(p + Opt(name, value)) <= names + {name}
  {
    var c := CardExtend(c0, p);
    if c.Ok? {
      assert c.value.options == [] + p == p;
    }
    CardIfTruthyExtend(c, name, value);
    CardExtendTwice(c0, p, Opt(name, value));
    KeysAppend(p, Opt(name, value));
    KeysOpt(name, value);
  }

  /** Three settings with distinct names, each added when truthy. */
  lemma CardChain(c0: Result<Card>, n1: String, v1: Option<Param>, n2: String, v2: Option<Param>,
                  n3: String, v3: Option<Param>)
    requires c0.Ok? ==> c0.value.options == []
    requires n2 != n1 && n3 != n1 && n3 != n2
    ensures CardAddIfTruthy(CardAddIfTruthy(CardAddIfTruthy(c0, n1, v1), n2, v2), n3, v3)
      == CardExtend(c0, Opt(n1, v1) + Opt(n2, v2) + Opt(n3, v3))
  {
    var p1 := Opt(n1, v1);
    var p2 := p1 + Opt(n2, v2);
    var c1 := CardAddIfTruthy(c0, n1, v1);
    assert c1 == CardExtend(c0, p1) && Keys(p1) <= {n1} by {
      CardIfTruthyExtend(c0, n1, v1);
      KeysOpt(n1, v1);
    }
    var c2 := CardAddIfTruthy(c1, n2, v2);
    assert c2 == CardExtend(c0, p2) && Keys(p2) <= {n1, n2} by {
      CardExtendStep(c0, p1, n2, v2, {n1});
    }
    CardExtendStep(c0, p2, n3, v3, {n1, n2});
  }

  /** `GridItemCard(...)` writes the template and then one option line for each
      truthy setting, in field order; it raises ValueError exactly when one of those
      settings cannot be formatted. */
  lemma NewCardLines(columns: Option<Param>, margin: Option<Param>, padding: Option<Param>)
    ensures var t := TruthyCardOptions(columns, margin, padding);
      var r := NewCard(columns, margin, padding);
      r.Ok? <==> OptionLines(8, t).Ok?
    ensures var t := TruthyCardOptions(columns, margin, padding);
      var r := NewCard(columns, margin, padding);
      r.Ok? ==> r.value == Card(t, CardTemplate + OptionLines(8, t).value, true)
    ensures var r := NewCard(columns, margin, padding);
      r.Err? ==> r.error == ValueError
  {
    var t := TruthyCardOptions(columns, margin, padding);
    var c0 := Ok(Card([], CardTemplate, true));
    assert NewCard(columns, margin, padding) == CardExtend(c0, t) by {
      FieldNamesDistinct();
      CardChain(c0, "columns", columns, "margin", margin, "padding", padding);
    }
    assert [] + t == t;
  }

  /** A card's copy is the template followed by its option lines. */
  lemma CardCopyShape(c: Card)
    requires UniqueKeys(c.options)
    requires forall k :: 0 <= k < |c.options| ==> FormatParams(c.options[k].value).Ok?
    ensures CardCopy(c).Ok? && OptionLines(8, c.options).Ok?
    ensures CardCopy(c).value.options == c.options && CardCopy(c).value.noItems
    ensures CardCopy(c).value.pattern == CardTemplate + OptionLines(8, c.options).value
  {
    OptionLinesOk(8, c.options);
    assert [] + c.options == c.options;
    CardAddOptionsNew(Card([], CardTemplate, true), c.options);
  }

  // ---------------------------------------------------------------------------
  // `str.format(target_ref=..., img_path=...)` on a card's text

  predicate NoBraces(s: String)
  {
    '{' !in s && '}' !in s
  }

  /** The value of one replacement field. Fields other than the two names raise
      what Python raises for a plain field: IndexError for an automatic or numeric
      field, KeyError for any other name, ValueError for a `{` inside a field. */
  function FieldValue(field: String, targetRef: String, imgPath: String): (r: Result<String>)
    ensures r.Ok? <==> field == "target_ref" || field == "img_path"
  {
    if field == "target_ref" then Ok(targetRef)
    else if field == "img_path" then Ok(imgPath)
    else if '{' in field then Err(ValueError)
    else if field == [] || IsDigits(field) then Err(IndexError)
    else Err(KeyError)
  }

  function Prepend(p: String, r: Result<String>): (r': Result<String>)
    ensures r'.Ok? <==> r.Ok?
    ensures r'.Err? ==> r' == r
    ensures r'.Ok? ==> r'.value == p + r.value
  {
    if r.Ok? then Ok(p + r.value) else r
  }

  /** One step of `format` at the start of `s`: the text produced by a literal
      character, a doubled brace or a replacement field, and how many characters
      that step consumes. */
  function FormatToken(s: String, targetRef: String, imgPath: String): (r: Result<(String, nat)>)
    requires s != []
    ensures r.Ok? ==> 1 <= r.value.1 <= |s|
  {
    if s[0] == '{' then
      if |s| > 1 && s[1] == '{' then Ok(("{", 2))
      else
        var j := FindChar(s[1..], '}');
        if j == |s| - 1 then Err(ValueError)
        else
          var v :- FieldValue(s[1..j + 1], targetRef, imgPath);
          Ok((v, j + 2))
    else if s[0] == '}' then
      if |s| > 1 && s[1] == '}' then Ok(("}", 2)) else Err(ValueError)
    else Ok(([s[0]], 1))
  }

  /** `s.format(target_ref=targetRef, img_path=imgPath)`: `{{` and `}}` are literal
      braces, a lone `}` or an unclosed `{` raises ValueError. */
  function Format(s: String, targetRef: String, imgPath: String): Result<String>
    decreases |s|
  {
    if s == [] then Ok([])
    else
      var t :- FormatToken(s, targetRef, imgPath);
      Prepend(t.0, Format(s[t.1..], targetRef, imgPath))
  }

  /** `GridItemCard.format`. */
  function CardFormat(c: Card, targetRef: String, imgPath: String): Result<String>
  {
    Format(c.pattern, targetRef, imgPath)
  }

  /** Doubles every brace, so that `format` gives the text back. */
  function Escape(s: String): String
  {
    if s == [] then []
    else (if s[0] == '{' || s[0] == '}' then [s[0], s[0]] else [s[0]]) + Escape(s[1..])
  }

  lemma PrependPrepend(a: String, b: String, r: Result<String>)
    ensures Prepend(a, Prepend(b, r)) == Prepend(a + b, r)
  {
    if r.Ok? {
      assert a + (b + r.value) == (a + b) + r.value;
    }
  }

  /** One character that is not a brace is copied. */
  lemma FormatCharStep(c: char, t: String, targetRef: String, imgPath: String)
    requires c != '{' && c != '}'
    ensures Format([c] + t, targetRef, imgPath) == Prepend([c], Format(t, targetRef, imgPath))
  {
    var s := [c] + t;
    assert s[0] == c;
    assert FormatToken(s, targetRef, imgPath) == Ok(([c], 1));
    assert s[1..] == t;
  }

  /** A doubled brace is one literal brace. */
  lemma FormatBraceStep(c: char, t: String, targetRef: String, imgPath: String)
    requires c == '{' || c == '}'
    ensures Format([c, c] + t, targetRef, imgPath) == Prepend([c], Format(t, targetRef, imgPath))
  {
    var s := [c, c] + t;
    assert s[0] == c && s[1] == c;
    assert FormatToken(s, targetRef, imgPath) == Ok(([c], 2));
    assert s[2..] == t;
  }

  /** A field naming one of the two arguments is replaced by its value. */
  lemma FormatFieldStep(name: String, t: String, targetRef: String, imgPath: String)
    requires name == "target_ref" || name == "img_path"
    ensures Format(Field(name) + t, targetRef, imgPath)
      == Prepend(FieldValue(name, targetRef, imgPath).value, Format(t, targetRef, imgPath))
  {
    var s := Field(name) + t;
    assert s[0] == '{' && s[1] != '{';
    assert s[1..] == name + ("}" + t);
    FindCharAfter(name, "}" + t, '}');
    assert s[1..|name| + 1] == name;
    assert FormatToken(s, targetRef, imgPath) == Ok((FieldValue(name, targetRef, imgPath).value, |name| + 2));
    assert s[|name| + 2..] == t;
  }

  lemma PrependEmpty(r: Result<String>)
    ensures Prepend([], r) == r
  {
    if r.Ok? {
      assert [] + r.value == r.value;
    }
  }

  /** The escaped first character of `s` formats back to that character. */
  lemma EscapeHeadStep(s: String, rest: String, targetRef: String, imgPath: String)
    requires |s| > 0
    ensures Format(Escape(s) + rest, targetRef, imgPath)
         == Prepend([s[0]], Format(Escape(s[1..]) + rest, targetRef, imgPath))
  {
    var t := Escape(s[1..]) + rest;
    if s[0] == '{' || s[0] == '}' {
      assert Escape(s) + rest == [s[0], s[0]] + t;
      FormatBraceStep(s[0], t, targetRef, imgPath);
    } else {
      assert Escape(s) + rest == [s[0]] + t;
      FormatCharStep(s[0], t, targetRef, imgPath);
    }
  }

  lemma FormatEscapeStep(s: String, rest: String, targetRef: String, imgPath: String)
    requires |s| > 0
    requires Format(Escape(s[1..]) + rest, targetRef, imgPath) == Prepend(s[1..], Format(rest, targetRef, imgPath))
    ensures Format(Escape(s) + rest, targetRef, imgPath) == Prepend(s, Format(rest, targetRef, imgPath))
  {
    var fr := Format(rest, targetRef, imgPath);
    assert Format(Escape(s) + rest, targetRef, imgPath) == Prepend([s[0]], Prepend(s[1..], fr)) by {
      EscapeHeadStep(s, rest, targetRef, imgPath);
    }
    assert Prepend([s[0]], Prepend(s[1..], fr)) == Prepend(s, fr) by {
      PrependPrepend([s[0]], s[1..], fr);
      assert [s[0]] + s[1..] == s;
    }
  }

  lemma {:induction false} FormatEscape(s: String, rest: String, targetRef: String, imgPath: String)
    ensures Format(Escape(s) + rest, targetRef, imgPath) == Prepend(s, Format(rest, targetRef, imgPath))
    decreases |s|
  {
    if s == [] {
      assert Escape(s) + rest == rest;
      PrependEmpty(Format(rest, targetRef, imgPath));
    } else {
      FormatEscape(s[1..], rest, targetRef, imgPath);
      FormatEscapeStep(s, rest, targetRef, imgPath);
    }
  }

  /** Escaped text survives `format` unchanged. */
  lemma FormatOfEscaped(s: String, targetRef: String, imgPath: String)
    ensures Format(Escape(s), targetRef, imgPath) == Ok(s)
  {
    FormatEscape(s, [], targetRef, imgPath);
    assert Escape(s) + [] == Escape(s);
    assert s + [] == s;
  }

  lemma {:induction false} FormatPlain(a: String, rest: String, targetRef: String, imgPath: String)
    requires NoBraces(a)
    ensures Format(a + rest, targetRef, imgPath) == Prepend(a, Format(rest, targetRef, imgPath))
    decreases |a|
  {
    if a == [] {
      assert a + rest == rest;
      PrependEmpty(Format(rest, targetRef, imgPath));
    } else {
      assert a + rest == [a[0]] + (a[1..] + rest);
      FormatCharStep(a[0], a[1..] + rest, targetRef, imgPath);
      FormatPlain(a[1..], rest, targetRef, imgPath);
      PrependPrepend([a[0]], a[1..], Format(rest, targetRef, imgPath));
      assert [a[0]] + a[1..] == a;
    }
  }

  /** Brace-free text is left as it is. */
  lemma FormatNoBraces(a: String, targetRef: String, imgPath: String)
    requires NoBraces(a)
    ensures Format(a, targetRef, imgPath) == Ok(a)
  {
    FormatPlain(a, [], targetRef, imgPath);
    assert a + [] == a;
  }

  /** Brace-free text followed by a field: the text, then the field's value. */
  lemma FormatPieceField(p: String, name: String, t: String, out: String, targetRef: String, imgPath: String)
    requires NoBraces(p) && (name == "target_ref" || name == "img_path")
    requires Format(t, targetRef, imgPath) == Ok(out)
    ensures Format(p + (Field(name) + t), targetRef, imgPath)
      == Ok(p + (FieldValue(name, targetRef, imgPath).value + out))
  {
    FormatFieldStep(name, t, targetRef, imgPath);
    FormatPlain(p, Field(name) + t, targetRef, imgPath);
  }

  lemma CardHeadNoBraces()
    ensures NoBraces(CardHead)
  {
  }

  lemma CardImageNoBraces()
    ensures NoBraces(CardImage)
  {
  }

  lemma CardLinkNoBraces()
    ensures NoBraces(CardLink)
  {
  }

  lemma CardTailNoBraces()
    ensures NoBraces(CardTail)
  {
  }

  /** The card template followed by `rest`, with the concatenation nested to the
      right. */
  lemma CardTemplateThen(rest: String)
    ensures CardTemplate + rest == CardHead + (Field("target_ref") + (CardImage + (Field("img_path")
      + (CardLink + (Field("target_ref") + (CardTail + rest))))))
  {
    Nest7(CardHead, Field("target_ref"), CardImage, Field("img_path"), CardLink, Field("target_ref"),
      CardTail, rest);
  }

  /** Formatting a card whose options and items hold no braces fills in the link
      target and the image path and leaves the rest as written. */
  lemma CardFormatFills(c: Card, targetRef: String, imgPath: String)
    requires StartsWith(c.pattern, CardTemplate) && NoBraces(c.pattern[|CardTemplate|..])
    ensures CardFormat(c, targetRef, imgPath) == Ok(CardHead + (targetRef + (CardImage + (imgPath
      + (CardLink + (targetRef + (CardTail + c.pattern[|CardTemplate|..])))))))
  {
    var rest := c.pattern[|CardTemplate|..];
    CardHeadNoBraces();
    CardImageNoBraces();
    CardLinkNoBraces();
    CardTailNoBraces();
    assert c.pattern == CardTemplate + rest;
    CardTemplateThen(rest);
    var t3 := CardTail + rest;
    FormatNoBraces(t3, targetRef, imgPath);
    var t2 := CardLink + (Field("target_ref") + t3);
    FormatPieceField(CardLink, "target_ref", t3, t3, targetRef, imgPath);
    var t1 := CardImage + (Field("img_path") + t2);
    FormatPieceField(CardImage, "img_path", t2, CardLink + (targetRef + t3), targetRef, imgPath);
    FormatPieceField(CardHead, "target_ref", t1, CardImage + (imgPath + (CardLink + (targetRef + t3))),
      targetRef, imgPath);
  }
}

=== FILE: headers.dfy ===
/** Title and tooltip extraction from example sources (`utils.py`): the first
    heading of a Markdown document or the first underlined title of a
    reStructuredText document, and the first paragraph after it as the tooltip.
    Also the section-title renderer and the special-character filter applied to
    titles and tooltips. */
module Headers {
  import opened Wrappers
  import opened Text

  // ---------------------------------------------------------------------------
  // Underlines

  /** `set(s)`. */
  function Chars(s: String): set<char>
  {
    set i | 0 <= i < |s| :: s[i]
  }

  predicate AllChar(s: String, c: char)
  {
    forall i :: 0 <= i < |s| ==> s[i] == c
  }

  /** One underline character repeated: a non-empty run of `-` or of `=`. */
  predicate IsSignLine(s: String)
  {
    s != [] && (AllChar(s, '-') || AllChar(s, '='))
  }

  /** `_is_rst_title_line`. */
  predicate IsRstTitleLine(line: String)
  {
    IsSignLine(Strip(line))
  }

  /** The sign-line test as the source states it: `set(s)` has one element, `-`
      or `=`. */
  lemma SignLineIff(s: String)
    ensures IsSignLine(s) <==> Chars(s) == {'-'} || Chars(s) == {'='}
  {
    if IsSignLine(s) {
      var c := s[0];
      assert c in Chars(s);
      forall x | x in Chars(s)
        ensures x == c
      {
        var i :| 0 <= i < |s| && s[i] == x;
      }
      assert Chars(s) == {c};
    }
    if Chars(s) == {'-'} || Chars(s) == {'='} {
      var c := if Chars(s) == {'-'} then '-' else '=';
      assert c in Chars(s);
      forall i | 0 <= i < |s|
        ensures s[i] == c
      {
        assert s[i] in Chars(s);
      }
    }
  }

  /** A run of one underline character is a title line. */
  lemma UnderlineIsTitleLine(c: char, n: nat)
    requires c == '-' || c == '='
    requires n > 0
    ensures IsSignLine(Repeat(c, n)) && Strip(Repeat(c, n)) == Repeat(c, n)
    ensures IsRstTitleLine(Repeat(c, n))
  {
    var u := Repeat(c, n);
    assert AllChar(u, c);
    StripOfStripped(u);
  }

  /** `_is_rst_title_line` strips its argument again; on a stripped line that is
      the sign-line test itself. */
  lemma TitleLineOfStripped(c: String)
    requires IsStripped(c)
    ensures IsRstTitleLine(c) <==> IsSignLine(c)
  {
    StripOfStripped(c);
  }

  /** A sign line needs no stripping. */
  lemma SignLineStripped(s: String)
    requires IsSignLine(s)
    ensures IsStripped(s) && Strip(s) == s && s != []
  {
    StripOfStripped(s);
  }

  // ---------------------------------------------------------------------------
  // `_parse_rst_title`

  /** The loop of `_parse_rst_title` over the stripped lines `cs`: the last sign
      line seen, and the other lines in order. */
  function SignAndCandidates(cs: seq<String>, sign: Option<String>, cands: seq<String>)
    : (r: (Option<String>, seq<String>))
    requires sign.Some? ==> IsSignLine(sign.value)
    requires forall k :: 0 <= k < |cands| ==> !IsSignLine(cands[k])
    ensures r.0.Some? ==> IsSignLine(r.0.value)
    ensures sign.Some? ==> r.0.Some?
    ensures forall k :: 0 <= k < |r.1| ==> !IsSignLine(r.1[k]) && (r.1[k] in cands || r.1[k] in cs)
    ensures |cands| <= |r.1| <= |cands| + |cs|
    decreases |cs|
  {
    if cs == [] then (sign, cands)
    else if IsSignLine(cs[0]) then SignAndCandidates(cs[1..], Some(cs[0]), cands)
    else SignAndCandidates(cs[1..], sign, cands + [cs[0]])
  }

  /** The lines of length `n`, in order. */
  function WithLength(lines: seq<String>, n: nat): (r: seq<String>)
    ensures forall x :: x in r <==> x in lines && |x| == n
    ensures |r| <= |lines|
  {
    if lines == [] then []
    else (if |lines[0]| == n then [lines[0]] else []) + WithLength(lines[1..], n)
  }

  /** `_parse_rst_title` as written: with an underline and at least one other line,
      the title is the first line as long as the underline, and `title_list[0]`
      raises IndexError when no line is that long. */
  function ParseRstTitleAsWritten(lines: seq<String>): (r: Result<(String, seq<String>)>)
    ensures r.Err? ==> r.error == IndexError
  {
    var sc := SignAndCandidates(Strips(lines), None, []);
    if |sc.1| == 0 || sc.0.None? then Ok(([], []))
    else
      var titles := WithLength(sc.1, |sc.0.value|);
      if titles == [] then Err(IndexError) else Ok((titles[0], [titles[0], sc.0.value]))
  }

  /** `_parse_rst_title` with the missing case handled like the other "no title"
      cases: the title and the two lines that make it up, or `("", [])`. */
  function ParseRstTitle(lines: seq<String>): (r: (String, seq<String>))
    ensures r.0 == [] <==> r.1 == []
    ensures r.1 != [] ==> |r.1| == 2 && r.1[0] == r.0 && IsSignLine(r.1[1]) && |r.0| == |r.1[1]|
    ensures r.1 != [] ==> !IsSignLine(r.0) && IsStripped(r.0)
  {
    var sc := SignAndCandidates(Strips(lines), None, []);
    if |sc.1| == 0 || sc.0.None? then ([], [])
    else
      var titles := WithLength(sc.1, |sc.0.value|);
      if titles == [] then ([], [])
      else
        assert titles[0] in titles;
        StripsAreStripped(lines);
        SignLineStripped(sc.0.value);
        (titles[0], [titles[0], sc.0.value])
  }

  /** Wherever the code as written returns, the corrected version returns the same;
      where it raises, the corrected version reports no title. */
  lemma ParseRstTitleAgrees(lines: seq<String>)
    ensures ParseRstTitleAsWritten(lines).Ok? ==> ParseRstTitle(lines) == ParseRstTitleAsWritten(lines).value
    ensures ParseRstTitleAsWritten(lines).Err? ==> ParseRstTitle(lines) == ([], [])
  {
  }

  // ---------------------------------------------------------------------------
  // `_parse_rst_title` by positions in the stripped lines

  /** `cs[j]` is a sign line and no later line is one. */
  predicate LastSignAt(cs: seq<String>, j: int)
  {
    0 <= j < |cs| && IsSignLine(cs[j]) && forall k :: j < k < |cs| ==> !IsSignLine(cs[k])
  }

  /** `cs[i]` is the first line of length `n` that is not a sign line. */
  predicate FirstOfLengthAt(cs: seq<String>, i: int, n: nat)
  {
    0 <= i < |cs| && !IsSignLine(cs[i]) && |cs[i]| == n &&
    forall k :: 0 <= k < i ==> IsSignLine(cs[k]) || |cs[k]| != n
  }

  /** Where the last sign line is, if there is one. */
  function LastSignIdx(cs: seq<String>): (r: Option<nat>)
    ensures r.Some? ==> LastSignAt(cs, r.value)
    ensures r.None? ==> forall k :: 0 <= k < |cs| ==> !IsSignLine(cs[k])
    decreases |cs|
  {
    if cs == [] then None
    else
      match LastSignIdx(cs[1..])
      case Some(j) => Some(j + 1)
      case None => if IsSignLine(cs[0]) then Some(0) else None
  }

  /** Where the first line of length `n` that is not a sign line is, if there is one. */
  function FirstWithLength(cs: seq<String>, n: nat): (r: Option<nat>)
    ensures r.Some? ==> FirstOfLengthAt(cs, r.value, n)
    ensures r.None? ==> forall k :: 0 <= k < |cs| ==> IsSignLine(cs[k]) || |cs[k]| != n
    decreases |cs|
  {
    if cs == [] then None
    else if !IsSignLine(cs[0]) && |cs[0]| == n then Some(0)
    else
      match FirstWithLength(cs[1..], n)
      case Some(i) => Some(i + 1)
      case None => None
  }

  /** The lines that are not sign lines, in order. */
  function NonSigns(cs: seq<String>): seq<String>
  {
    if cs == [] then [] else (if IsSignLine(cs[0]) then [] else [cs[0]]) + NonSigns(cs[1..])
  }

  /** The last sign line of `cs`, or `sign` when there is none. */
  function LastSignOr(cs: seq<String>, sign: Option<String>): Option<String>
  {
    match LastSignIdx(cs)
    case Some(j) => Some(cs[j])
    case None => sign
  }

  /** The title by positions: the first non-sign line as long as the last sign line,
      with the two lines, or `("", [])` when either is missing. */
  function RstTitleByPosition(cs: seq<String>): (String, seq<String>)
  {
    match LastSignIdx(cs)
    case None => ([], [])
    case Some(j) =>
      match FirstWithLength(cs, |cs[j]|)
      case None => ([], [])
      case Some(i) => (cs[i], [cs[i], cs[j]])
  }

  /** The loop of `_parse_rst_title` keeps the last sign line and the non-sign lines. */
  lemma {:induction false} SignAndCandidatesIs(cs: seq<String>, sign: Option<String>, cands: seq<String>)
    requires sign.Some? ==> IsSignLine(sign.value)
    requires forall k :: 0 <= k < |cands| ==> !IsSignLine(cands[k])
    ensures SignAndCandidates(cs, sign, cands) == (LastSignOr(cs, sign), cands + NonSigns(cs))
    decreases |cs|
  {
    if cs == [] {
      assert cands + [] == cands;
    } else if IsSignLine(cs[0]) {
      SignAndCandidatesIs(cs[1..], Some(cs[0]), cands);
      assert NonSigns(cs) == [] + NonSigns(cs[1..]) == NonSigns(cs[1..]);
      assert SignAndCandidates(cs, sign, cands) == SignAndCandidates(cs[1..], Some(cs[0]), cands);
      LastSignOrSign(cs, sign);
    } else {
      var c' := cands + [cs[0]];
      assert forall k :: 0 <= k < |c'| ==> !IsSignLine(c'[k]);
      SignAndCandidatesIs(cs[1..], sign, c');
      assert c' + NonSigns(cs[1..]) == cands + ([cs[0]] + NonSigns(cs[1..]));
      LastSignOrCandidate(cs, sign);
    }
  }

  lemma LastSignOrSign(cs: seq<String>, sign: Option<String>)
    requires cs != [] && IsSignLine(cs[0])
    ensures LastSignOr(cs[1..], Some(cs[0])) == LastSignOr(cs, sign)
  {
    match LastSignIdx(cs[1..])
    case Some(j) => assert cs[1..][j] == cs[j + 1];
    case None =>
  }

  lemma LastSignOrCandidate(cs: seq<String>, sign: Option<String>)
    requires cs != [] && !IsSignLine(cs[0])
    ensures LastSignOr(cs[1..], sign) == LastSignOr(cs, sign)
  {
    match LastSignIdx(cs[1..])
    case Some(j) => assert cs[1..][j] == cs[j + 1];
    case None =>
  }

  /** Filtering the non-sign lines by length finds the first such line of `cs`. */
  lemma {:induction false} WithLengthNonSigns(cs: seq<String>, n: nat)
    ensures WithLength(NonSigns(cs), n) == [] <==> FirstWithLength(cs, n).None?
    ensures FirstWithLength(cs, n).Some? ==> WithLength(NonSigns(cs), n)[0] == cs[FirstWithLength(cs, n).value]
    decreases |cs|
  {
    if cs != [] {
      WithLengthNonSigns(cs[1..], n);
      if IsSignLine(cs[0]) {
        WithLengthSignHead(cs, n);
      } else {
        WithLengthTextHead(cs, n);
      }
    }
  }

  lemma WithLengthSignHead(cs: seq<String>, n: nat)
    requires cs != [] && IsSignLine(cs[0])
    ensures NonSigns(cs) == NonSigns(cs[1..])
    ensures FirstWithLength(cs, n) == (match FirstWithLength(cs[1..], n) case Some(i) => Some(i + 1) case None => None)
  {
    assert NonSigns(cs) == [] + NonSigns(cs[1..]);
  }

  lemma WithLengthTextHead(cs: seq<String>, n: nat)
    requires cs != [] && !IsSignLine(cs[0])
    requires WithLength(NonSigns(cs[1..]), n) == [] <==> FirstWithLength(cs[1..], n).None?
    requires FirstWithLength(cs[1..], n).Some? ==>
      WithLength(NonSigns(cs[1..]), n)[0] == cs[1..][FirstWithLength(cs[1..], n).value]
    ensures WithLength(NonSigns(cs), n) == [] <==> FirstWithLength(cs, n).None?
    ensures FirstWithLength(cs, n).Some? ==> WithLength(NonSigns(cs), n)[0] == cs[FirstWithLength(cs, n).value]
  {
    var ns := NonSigns(cs);
    assert ns == [cs[0]] + NonSigns(cs[1..]);
    assert ns[0] == cs[0] && ns[1..] == NonSigns(cs[1..]);
    match FirstWithLength(cs[1..], n)
    case Some(i) => assert cs[1..][i] == cs[i + 1];
    case None =>
  }

  /** `_parse_rst_title`, corrected, is the title by positions. */
  lemma ParseRstTitleByPosition(lines: seq<String>)
    ensures ParseRstTitle(lines) == RstTitleByPosition(Strips(lines))
  {
    var cs := Strips(lines);
    var sc := SignAndCandidates(cs, None, []);
    assert sc == (LastSignOr(cs, None), NonSigns(cs)) by {
      SignAndCandidatesIs(cs, None, []);
      assert [] + NonSigns(cs) == NonSigns(cs);
    }
    match LastSignIdx(cs)
    case None =>
    case Some(j) =>
      assert sc.0 == Some(cs[j]);
      assert WithLength(NonSigns(cs), |cs[j]|) == [] <==> FirstWithLength(cs, |cs[j]|).None? by {
        WithLengthNonSigns(cs, |cs[j]|);
      }
      assert FirstWithLength(cs, |cs[j]|).Some? ==>
        WithLength(NonSigns(cs), |cs[j]|)[0] == cs[FirstWithLength(cs, |cs[j]|).value] by {
        WithLengthNonSigns(cs, |cs[j]|);
      }
      assert WithLength([], |cs[j]|) == [];
  }

  lemma LastSignUnique(cs: seq<String>, j: int, j': int)
    requires LastSignAt(cs, j) && LastSignAt(cs, j')
    ensures j == j'
  {
  }

  /** What `_parse_rst_title` (corrected) finds, over the stripped lines `cs`: the
      underline is the LAST sign line, the title the FIRST non-sign line of the same
      length, and there is no title exactly when no non-sign line is as long as the
      last sign line (in particular when there is no sign line at all). */
  lemma ParseRstTitleSpec(lines: seq<String>)
    ensures var cs := Strips(lines); var r := ParseRstTitle(lines);
      r.1 != [] ==> exists j, i :: LastSignAt(cs, j) && FirstOfLengthAt(cs, i, |cs[j]|) && r == (cs[i], [cs[i], cs[j]])
    ensures var cs := Strips(lines); var r := ParseRstTitle(lines);
      r.1 == [] <==> forall j, i :: LastSignAt(cs, j) && 0 <= i < |cs| && !IsSignLine(cs[i]) ==> |cs[i]| != |cs[j]|
  {
    var cs := Strips(lines);
    var r := ParseRstTitle(lines);
    ParseRstTitleByPosition(lines);
    match LastSignIdx(cs)
    case None =>
      assert forall j :: !LastSignAt(cs, j);
    case Some(j0) =>
      forall j | LastSignAt(cs, j)
        ensures j == j0
      {
        LastSignUnique(cs, j, j0);
      }
      match FirstWithLength(cs, |cs[j0]|)
      case None =>
      case Some(i0) =>
        assert r == (cs[i0], [cs[i0], cs[j0]]);
        assert LastSignAt(cs, j0) && FirstOfLengthAt(cs, i0, |cs[j0]|);
  }

  /** When the code as written raises, over the stripped lines `cs`: there is a sign
      line and a line that is not one, and no such line is as long as the last sign
      line. */
  lemma ParseRstTitleRaises(lines: seq<String>)
    ensures var cs := Strips(lines);
      ParseRstTitleAsWritten(lines).Err? <==>
        (exists j :: LastSignAt(cs, j)) && (exists i :: 0 <= i < |cs| && !IsSignLine(cs[i])) &&
        forall j, i :: LastSignAt(cs, j) && 0 <= i < |cs| && !IsSignLine(cs[i]) ==> |cs[i]| != |cs[j]|
  {
    var cs := Strips(lines);
    RaisesByPosition(lines);
    assert NonSigns(cs) != [] <==> exists i :: 0 <= i < |cs| && !IsSignLine(cs[i]) by {
      NonSignsEmpty(cs);
    }
    match LastSignIdx(cs)
    case None =>
      assert forall j :: !LastSignAt(cs, j);
    case Some(j0) =>
      assert LastSignAt(cs, j0);
      var n := |cs[j0]|;
      assert (forall j, i :: LastSignAt(cs, j) && 0 <= i < |cs| && !IsSignLine(cs[i]) ==> |cs[i]| != |cs[j]|)
        <==> FirstWithLength(cs, n).None? by {
        forall j | LastSignAt(cs, j)
          ensures j == j0
        {
          LastSignUnique(cs, j, j0);
        }
        match FirstWithLength(cs, n)
        case None =>
        case Some(i0) =>
          assert FirstOfLengthAt(cs, i0, n);
      }
  }

  /** The raise of the code as written, by positions. */
  lemma RaisesByPosition(lines: seq<String>)
    ensures var cs := Strips(lines);
      ParseRstTitleAsWritten(lines).Err? <==>
        NonSigns(cs) != [] && LastSignIdx(cs).Some? && FirstWithLength(cs, |cs[LastSignIdx(cs).value]|).None?
  {
    var cs := Strips(lines);
    var sc := SignAndCandidates(cs, None, []);
    assert sc == (LastSignOr(cs, None), NonSigns(cs)) by {
      SignAndCandidatesIs(cs, None, []);
      assert [] + NonSigns(cs) == NonSigns(cs);
    }
    match LastSignIdx(cs)
    case None =>
    case Some(j0) =>
      assert WithLength(NonSigns(cs), |cs[j0]|) == [] <==> FirstWithLength(cs, |cs[j0]|).None? by {
        WithLengthNonSigns(cs, |cs[j0]|);
      }
  }

  lemma {:induction false} NonSignsEmpty(cs: seq<String>)
    ensures NonSigns(cs) == [] <==> forall k :: 0 <= k < |cs| ==> IsSignLine(cs[k])
    decreases |cs|
  {
    if cs != [] {
      NonSignsEmpty(cs[1..]);
      assert forall k :: 1 <= k < |cs| ==> cs[k] == cs[1..][k - 1];
    }
  }

  /** One step of the loop of `_parse_rst_title` on a line that is not a sign line. */
  lemma CandidateStep(c: String, rest: seq<String>, cs: seq<String>, sign: Option<String>,
                      cands: seq<String>)
    requires sign.Some? ==> IsSignLine(sign.value)
    requires forall k :: 0 <= k < |cands| ==> !IsSignLine(cands[k])
    requires !IsSignLine(c) && cs == [c] + rest
    ensures SignAndCandidates(cs, sign, cands) == SignAndCandidates(rest, sign, cands + [c])
  {
    assert cs[0] == c && cs[1..] == rest;
  }

  /** One step of the loop of `_parse_rst_title` on a sign line. */
  lemma SignStep(c: String, rest: seq<String>, cs: seq<String>, sign: Option<String>,
                 cands: seq<String>)
    requires sign.Some? ==> IsSignLine(sign.value)
    requires forall k :: 0 <= k < |cands| ==> !IsSignLine(cands[k])
    requires IsSignLine(c) && cs == [c] + rest
    ensures SignAndCandidates(cs, sign, cands) == SignAndCandidates(rest, Some(c), cands)
  {
    assert cs[0] == c && cs[1..] == rest;
  }

  lemma EmptyNotSign()
    ensures !IsSignLine([]) && IsStripped([])
  {
  }

  /** The loop of `_parse_rst_title` over a title and its underline. */
  lemma TitleUnderlineCandidates(t: String, u: String)
    requires !IsSignLine(t) && IsSignLine(u)
    ensures SignAndCandidates([t, u], None, []) == (Some(u), [t])
  {
    assert [] + [t] == [t];
    CandidateStep(t, [u], [t, u], None, []);
    SignStep(u, [], [u], None, [t]);
  }

  /** An underline longer than its title, which reStructuredText accepts, or
      shorter, makes the code as written raise IndexError; the corrected version
      reports no title. */
  lemma UnderlineLengthRaises(t: String, u: String)
    requires TextLine(t) && !IsSignLine(t) && IsSignLine(u) && |u| != |t|
    ensures ParseRstTitleAsWritten([t, u]) == Err(IndexError)
    ensures ParseRstTitle([t, u]) == ([], [])
  {
    SignLineStripped(u);
    StripsOfStripped([t, u]);
    TitleUnderlineCandidates(t, u);
    assert WithLength([], |u|) == [];
    assert WithLength([t], |u|) == [];
  }

  /** Through `extract_title_and_tooltip`: a `.rst` file holding just a title and an
      underline of another length raises IndexError, where the corrected extractor
      finds no title and no tooltip. */
  lemma UnderlineLengthExtract(t: String, u: String)
    requires TextLine(t) && NoLineBreak(t) && !IsSignLine(t) && IsSignLine(u) && |u| != |t|
    ensures ExtractTitleAndTooltip(".rst", t + "\n" + u) == Err(IndexError)
    ensures RstTitleTooltip(t + "\n" + u) == ([], [])
  {
    TitleUnderlineSplit(t, u);
    UnderlineLengthRaises(t, u);
    StripOfStripped(t);
    SignLineStripped(u);
    assert Around(Some(t), [u]) == [t, u];
    assert [u][1..] == [];
    RstSkipStepAsWritten(None, t, [u], [t, u]);
    RstSkipStep(None, t, [u], [t, u]);
  }

  lemma TitleUnderlineSplit(t: String, u: String)
    requires NoLineBreak(t) && IsSignLine(u)
    ensures SplitLines(t + "\n" + u) == [t, u]
  {
    assert NoLineBreak(u) by {
      assert forall i :: 0 <= i < |u| ==> u[i] == '-' || u[i] == '=';
    }
    var lines := [t, u];
    assert lines[1..] == [u];
    assert Join(lines, "\n") == t + "\n" + u;
    SplitLinesJoin(lines);
  }

  /** The smallest such document: `T` underlined by `--`. */
  lemma ParseRstTitleIndexError()
    ensures ParseRstTitleAsWritten(["T", "--"]) == Err(IndexError)
    ensures ParseRstTitle(["T", "--"]) == ([], [])
  {
    var t: String := "T";
    var u := Repeat('-', 2);
    assert u == "--";
    UnderlineIsTitleLine('-', 2);
    assert t[0] == 'T';
    UnderlineLengthRaises(t, u);
  }

  /** The loop of `_parse_rst_title` over a title, its underline and a blank line. */
  lemma TitleBlockCandidates(t: String, u: String)
    requires TextLine(t) && !IsSignLine(t) && IsSignLine(u)
    ensures SignAndCandidates([t, u, []], None, []) == (Some(u), [t, []])
  {
    EmptyNotSign();
    var c1: seq<String> := [t];
    var c2: seq<String> := [t, []];
    assert [] + [t] == c1 && c1 + [[]] == c2;
    CandidateStep(t, [u, []], [t, u, []], None, []);
    SignStep(u, [[]], [u, []], None, c1);
    CandidateStep([], [], [[]], Some(u), c1);
  }

  /** A title line, its underline and a blank line parse to the title. */
  lemma ParseTitleBlock(t: String, u: String)
    requires TextLine(t) && !IsSignLine(t) && IsSignLine(u) && |u| == |t|
    ensures ParseRstTitle([t, u, []]) == (t, [t, u])
  {
    TitleBlockCandidates(t, u);
    SignLineStripped(u);
    EmptyNotSign();
    StripsOfStripped([t, u, []]);
    assert WithLength([[]], |u|) == [];
    assert WithLength([t, []], |u|) == [t];
  }

  // ---------------------------------------------------------------------------
  // Tooltips

  /** The tooltip loop shared by both formats, over the stripped lines: lines not in
      `skip` are collected until the first empty line after some text. */
  function TooltipFrom(cs: seq<String>, skip: seq<String>, acc: seq<String>): (r: seq<String>)
    ensures |acc| <= |r| && r[..|acc|] == acc
    ensures forall k :: |acc| <= k < |r| ==> r[k] != [] && r[k] !in skip
    decreases |cs|
  {
    if cs == [] then acc
    else if cs[0] in skip then TooltipFrom(cs[1..], skip, acc)
    else if cs[0] != [] then
      var r := TooltipFrom(cs[1..], skip, acc + [cs[0]]);
      assert r[..|acc| + 1][..|acc|] == r[..|acc|];
      r
    else if acc != [] then acc
    else TooltipFrom(cs[1..], skip, acc)
  }

  /** A paragraph line: stripped, not empty. */
  predicate TextLine(line: String)
  {
    line != [] && IsStripped(line)
  }

  lemma TooltipBlankStep(rest: seq<String>, skip: seq<String>, cs: seq<String>)
    requires [] !in skip && cs == [[]] + rest
    ensures TooltipFrom(cs, skip, []) == TooltipFrom(rest, skip, [])
  {
    assert cs[0] == [] && cs[1..] == rest;
  }

  /** Empty lines before the paragraph are passed over. */
  lemma {:induction false} TooltipSkipsBlanks(n: nat, rest: seq<String>, skip: seq<String>)
    requires [] !in skip
    ensures TooltipFrom(seq(n, _ => []) + rest, skip, []) == TooltipFrom(rest, skip, [])
    decreases n
  {
    var blanks: seq<String> := seq(n, _ => []);
    if n == 0 {
      assert blanks + rest == rest;
    } else {
      var tail: seq<String> := seq(n - 1, _ => []);
      assert blanks + rest == [[]] + (tail + rest);
      TooltipBlankStep(tail + rest, skip, blanks + rest);
      TooltipSkipsBlanks(n - 1, rest, skip);
    }
  }

  lemma TooltipTextStep(line: String, rest: seq<String>, skip: seq<String>, acc: seq<String>,
                        cs: seq<String>)
    requires line != [] && line !in skip && cs == [line] + rest
    ensures TooltipFrom(cs, skip, acc) == TooltipFrom(rest, skip, acc + [line])
  {
    assert cs[0] == line && cs[1..] == rest;
  }

  lemma TooltipEnd(tail: seq<String>, skip: seq<String>, acc: seq<String>)
    requires acc != [] && [] !in skip
    requires tail == [] || tail[0] == []
    ensures TooltipFrom(tail, skip, acc) == acc
  {
  }

  /** A paragraph ended by an empty line or by the end of the text is the tooltip. */
  lemma {:induction false} TooltipParagraph(para: seq<String>, tail: seq<String>, skip: seq<String>,
                                            acc: seq<String>)
    requires forall k :: 0 <= k < |para| ==> para[k] != [] && para[k] !in skip
    requires acc + para != [] && [] !in skip
    requires tail == [] || tail[0] == []
    ensures TooltipFrom(para + tail, skip, acc) == acc + para
    decreases |para|
  {
    if para == [] {
      assert para + tail == tail;
      assert acc + para == acc;
      TooltipEnd(tail, skip, acc);
    } else {
      var x, xs := para[0], para[1..];
      var acc' := acc + [x];
      var rest := xs + tail;
      ConsThen(para, tail, para + tail, rest);
      TooltipTextStep(x, rest, skip, acc, para + tail);
      TooltipParagraph(xs, tail, skip, acc');
      assert acc' + xs == acc + para by {
        assert para == [x] + xs;
      }
    }
  }

  // ---------------------------------------------------------------------------
  // Markdown

  const HeadingMark: String := "# "

  /** The loop of `_extract_md_title_and_tooltip` over the stripped lines: the first
      line that starts with `# ` and has text after it gives the title, the
      paragraph after it the tooltip. */
  function MdScan(cs: seq<String>): (r: (String, seq<String>))
    ensures r.0 != [] ==> IsStripped(r.0)
    ensures r.0 == [] ==> r.1 == []
    decreases |cs|
  {
    if cs == [] then ([], [])
    else if StartsWith(cs[0], HeadingMark) && Strip(cs[0][2..]) != [] then
      (Strip(cs[0][2..]), TooltipFrom(cs[1..], [], []))
    else MdScan(cs[1..])
  }

  /** `_extract_md_title_and_tooltip`. */
  function MdTitleTooltip(content: String): (String, String)
  {
    var r := MdScan(Strips(SplitLines(content)));
    (r.0, Join(r.1, " "))
  }

  lemma MdSkipStep(c: String, rest: seq<String>, cs: seq<String>)
    requires !StartsWith(c, HeadingMark) && cs == [c] + rest
    ensures MdScan(cs) == MdScan(rest)
  {
    assert cs[0] == c && cs[1..] == rest;
  }

  lemma {:induction false} MdSkip(pre: seq<String>, rest: seq<String>)
    requires forall k :: 0 <= k < |pre| ==> !StartsWith(pre[k], HeadingMark)
    ensures MdScan(pre + rest) == MdScan(rest)
    decreases |pre|
  {
    if pre != [] {
      ConsThen(pre, rest, pre + rest, pre[1..] + rest);
      MdSkipStep(pre[0], pre[1..] + rest, pre + rest);
      MdSkip(pre[1..], rest);
    } else {
      assert pre + rest == rest;
    }
  }

  lemma MdHeadingStep(t: String, rest: seq<String>, cs: seq<String>)
    requires TextLine(t) && cs == [HeadingMark + t] + rest
    ensures MdScan(cs) == (t, TooltipFrom(rest, [], []))
  {
    var h := HeadingMark + t;
    assert h[..2] == HeadingMark && h[2..] == t;
    StripOfStripped(t);
    assert cs[0] == h && cs[1..] == rest;
  }

  /** Stripped lines without a heading, the heading `# t`, empty lines, a paragraph
      and then an empty line or the end: the title is `t` and the tooltip the
      paragraph. */
  lemma MdScanShape(pre: seq<String>, t: String, n: nat, para: seq<String>, tail: seq<String>)
    requires forall k :: 0 <= k < |pre| ==> !StartsWith(pre[k], HeadingMark)
    requires TextLine(t)
    requires forall k :: 0 <= k < |para| ==> para[k] != []
    requires para != [] && (tail == [] || tail[0] == [])
    ensures MdScan(pre + ([HeadingMark + t] + (seq(n, _ => []) + (para + tail)))) == (t, para)
  {
    var after := seq(n, _ => []) + (para + tail);
    MdSkip(pre, [HeadingMark + t] + after);
    MdHeadingStep(t, after, [HeadingMark + t] + after);
    TooltipSkipsBlanks(n, para + tail, []);
    TooltipParagraph(para, tail, [], []);
    assert [] + para == para;
  }

  lemma NewlineLines(lines: seq<String>)
    requires forall k :: 0 <= k < |lines| ==> TextLine(lines[k]) && NoLineBreak(lines[k])
    ensures forall k :: 0 <= k < |lines| ==> IsStripped(lines[k]) && NoLineBreak(lines[k])
  {
  }

  /** A Markdown document `# t`, an empty line and a paragraph gives back `t` and the
      paragraph joined by spaces. */
  lemma MdTitleTooltipRoundTrip(t: String, para: seq<String>)
    requires TextLine(t) && NoLineBreak(t)
    requires para != [] && forall k :: 0 <= k < |para| ==> TextLine(para[k]) && NoLineBreak(para[k])
    ensures MdTitleTooltip(HeadingMark + t + "\n\n" + Join(para, "\n")) == (t, Join(para, " "))
  {
    var h := HeadingMark + t;
    var lines := [h] + ([[]] + para);
    MdLinesJoin(h, para, lines);
    MdLines(t, para, lines);
    MdContent(HeadingMark + t + "\n\n" + Join(para, "\n"), lines, t, para);
  }

  lemma MdContent(content: String, lines: seq<String>, t: String, para: seq<String>)
    requires SplitLines(content) == lines && Strips(lines) == lines && MdScan(lines) == (t, para)
    ensures MdTitleTooltip(content) == (t, Join(para, " "))
  {
  }

  lemma MdLines(t: String, para: seq<String>, lines: seq<String>)
    requires TextLine(t) && NoLineBreak(t)
    requires para != [] && forall k :: 0 <= k < |para| ==> TextLine(para[k]) && NoLineBreak(para[k])
    requires lines == [HeadingMark + t] + ([[]] + para)
    ensures SplitLines(Join(lines, "\n")) == lines && Strips(lines) == lines && MdScan(lines) == (t, para)
  {
    MdLinesClean(t, para, lines);
    SplitLinesJoin(lines);
    StripsOfStripped(lines);
    MdLinesScan(t, para, lines);
  }

  lemma MdLinesClean(t: String, para: seq<String>, lines: seq<String>)
    requires TextLine(t) && NoLineBreak(t)
    requires para != [] && forall k :: 0 <= k < |para| ==> TextLine(para[k]) && NoLineBreak(para[k])
    requires lines == [HeadingMark + t] + ([[]] + para)
    ensures forall k :: 0 <= k < |lines| ==> IsStripped(lines[k]) && NoLineBreak(lines[k])
    ensures lines[|lines| - 1] != []
  {
    var h := HeadingMark + t;
    HeadingLine(t);
    assert lines == [h, []] + para;
    StrippedLines([h, []], para, lines);
  }

  lemma MdLinesScan(t: String, para: seq<String>, lines: seq<String>)
    requires TextLine(t)
    requires para != [] && forall k :: 0 <= k < |para| ==> TextLine(para[k])
    requires lines == [HeadingMark + t] + ([[]] + para)
    ensures MdScan(lines) == (t, para)
  {
    assert seq(1, _ => []) + (para + []) == [[]] + para;
    assert [] + ([HeadingMark + t] + ([[]] + para)) == lines;
    MdScanShape([], t, 1, para, []);
  }

  lemma MdLinesJoin(h: String, para: seq<String>, lines: seq<String>)
    requires para != [] && lines == [h] + ([[]] + para)
    ensures Join(lines, "\n") == h + "\n\n" + Join(para, "\n")
  {
    var nl: String := "\n";
    var j := Join(para, nl);
    JoinCons([], para, nl);
    JoinCons(h, [[]] + para, nl);
    assert [] + (nl + j) == nl + j;
    assert h + "\n\n" + j == h + (nl + (nl + j)) by {
      assert "\n\n" == nl + nl;
    }
  }

  /** Stripped lines without line breaks, ending in a non-empty line. */
  lemma StrippedLines(head: seq<String>, para: seq<String>, lines: seq<String>)
    requires forall k :: 0 <= k < |head| ==> IsStripped(head[k]) && NoLineBreak(head[k])
    requires para != [] && forall k :: 0 <= k < |para| ==> TextLine(para[k]) && NoLineBreak(para[k])
    requires lines == head + para
    ensures forall k :: 0 <= k < |lines| ==> IsStripped(lines[k]) && NoLineBreak(lines[k])
    ensures lines[|lines| - 1] != []
  {
    assert lines[|lines| - 1] == para[|para| - 1];
    forall k | 0 <= k < |lines|
      ensures IsStripped(lines[k]) && NoLineBreak(lines[k])
    {
      if k >= |head| {
        assert lines[k] == para[k - |head|];
      } else {
        assert lines[k] == head[k];
      }
    }
  }

  lemma HeadingLine(t: String)
    requires TextLine(t) && NoLineBreak(t)
    ensures IsStripped(HeadingMark + t) && NoLineBreak(HeadingMark + t)
  {
    var h := HeadingMark + t;
    assert h[0] == '#' && h[1] == ' ' && h[|h| - 1] == t[|t| - 1];
  }

  // ---------------------------------------------------------------------------
  // reStructuredText

  /** The lines `_extract_rst_title_and_tooltip` passes to `_parse_rst_title` at
      `lines[0]`: the line before it, its stripped text and the line after it. */
  function Around(prev: Option<String>, lines: seq<String>): seq<String>
    requires lines != []
  {
    (if prev.Some? then [prev.value] else []) + [Strip(lines[0])] + (if |lines| > 1 then [lines[1]] else [])
  }

  /** The title found at `lines[0]`, or `("", [])` when it is not a title line or no
      title is found around it. The stripped line is tested as a sign line directly,
      which `TitleLineOfStripped` shows is `_is_rst_title_line`. */
  function TitleAt(prev: Option<String>, lines: seq<String>): (r: (String, seq<String>))
    requires lines != []
    ensures r.0 == [] <==> r.1 == []
    ensures r.0 != [] ==> IsStripped(r.0) && !IsSignLine(r.0) && IsSignLine(Strip(lines[0]))
  {
    if !IsSignLine(Strip(lines[0])) then ([], []) else ParseRstTitle(Around(prev, lines))
  }

  /** The loop of `_extract_rst_title_and_tooltip`: at the first title line that
      `_parse_rst_title` accepts together with its neighbours, the title is found;
      the paragraph after it, skipping the title's own lines, is the tooltip.
      `prev` is the line before `lines`, if any. */
  function RstScan(prev: Option<String>, lines: seq<String>): (r: (String, seq<String>))
    ensures r.0 == [] ==> r.1 == []
    ensures r.0 != [] ==> IsStripped(r.0) && !IsSignLine(r.0)
    decreases |lines|
  {
    if lines == [] then ([], [])
    else
      var p := TitleAt(prev, lines);
      if p.0 == [] then RstScan(Some(lines[0]), lines[1..])
      else (p.0, TooltipFrom(Strips(lines[1..]), p.1, []))
  }

  /** `_extract_rst_title_and_tooltip`. */
  function RstTitleTooltip(content: String): (String, String)
  {
    var r := RstScan(None, SplitLines(content));
    (r.0, Join(r.1, " "))
  }

  /** `TitleAt` as the code is written: `_parse_rst_title` raises IndexError where
      the corrected version reports no title. */
  function TitleAtAsWritten(prev: Option<String>, lines: seq<String>): (r: Result<(String, seq<String>)>)
    requires lines != []
    ensures r.Ok? ==> r.value == TitleAt(prev, lines)
    ensures r.Err? ==> r.error == IndexError && IsSignLine(Strip(lines[0])) && TitleAt(prev, lines) == ([], [])
    ensures r.Err? <==> IsSignLine(Strip(lines[0])) && ParseRstTitleAsWritten(Around(prev, lines)).Err?
  {
    if !IsSignLine(Strip(lines[0])) then Ok(([], [])) else ParseRstTitleAsWritten(Around(prev, lines))
  }

  /** The loop of `_extract_rst_title_and_tooltip` as written: the first title line
      whose neighbourhood makes `_parse_rst_title` raise ends the scan with
      IndexError; otherwise it finds what the corrected scan finds. */
  function RstScanAsWritten(prev: Option<String>, lines: seq<String>): (r: Result<(String, seq<String>)>)
    ensures r.Err? ==> r.error == IndexError
    ensures r.Ok? ==> r.value == RstScan(prev, lines)
    decreases |lines|
  {
    if lines == [] then Ok(([], []))
    else
      match TitleAtAsWritten(prev, lines)
      case Err(e) => Err(e)
      case Ok(p) =>
        if p.0 == [] then RstScanAsWritten(Some(lines[0]), lines[1..])
        else Ok((p.0, TooltipFrom(Strips(lines[1..]), p.1, [])))
  }

  /** The line before `lines[p]`: `prev` at the start. */
  function PrevAt(prev: Option<String>, lines: seq<String>, p: nat): Option<String>
    requires p <= |lines|
  {
    if p == 0 then prev else Some(lines[p - 1])
  }

  /** The code as written raises at line `p`. */
  predicate RaisesAt(prev: Option<String>, lines: seq<String>, p: nat)
  {
    p < |lines| && TitleAtAsWritten(PrevAt(prev, lines, p), lines[p..]).Err?
  }

  /** No line before `p` starts a title. */
  predicate NoTitleBefore(prev: Option<String>, lines: seq<String>, p: nat)
    requires p <= |lines|
  {
    forall q: nat :: q < p ==> TitleAt(PrevAt(prev, lines, q), lines[q..]).0 == []
  }

  /** The scan as written raises exactly when it reaches, before any title, a line
      where `_parse_rst_title` raises. */
  lemma {:induction false} RstScanRaises(prev: Option<String>, lines: seq<String>)
    ensures RstScanAsWritten(prev, lines).Err? <==>
      exists p: nat :: RaisesAt(prev, lines, p) && NoTitleBefore(prev, lines, p)
    decreases |lines|
  {
    if lines != [] {
      assert PrevAt(prev, lines, 0) == prev && lines[0..] == lines;
      match TitleAtAsWritten(prev, lines)
      case Err(_) =>
        assert RaisesAt(prev, lines, 0) && NoTitleBefore(prev, lines, 0);
      case Ok(t) =>
        if t.0 != [] {
          forall p: nat | RaisesAt(prev, lines, p)
            ensures !NoTitleBefore(prev, lines, p)
          {
            assert p != 0;
            assert TitleAt(PrevAt(prev, lines, 0), lines[0..]).0 != [];
          }
        } else {
          RstScanRaises(Some(lines[0]), lines[1..]);
          RaisesShift(prev, lines);
        }
    }
  }

  /** Past a line that starts no title, raising positions move down by one. */
  lemma RaisesShift(prev: Option<String>, lines: seq<String>)
    requires lines != [] && TitleAtAsWritten(prev, lines).Ok? && TitleAt(prev, lines).0 == []
    ensures (exists p: nat :: RaisesAt(prev, lines, p) && NoTitleBefore(prev, lines, p)) <==>
      (exists p: nat :: RaisesAt(Some(lines[0]), lines[1..], p) && NoTitleBefore(Some(lines[0]), lines[1..], p))
  {
    var prev', rest := Some(lines[0]), lines[1..];
    if exists p: nat :: RaisesAt(prev', rest, p) && NoTitleBefore(prev', rest, p) {
      var p: nat :| RaisesAt(prev', rest, p) && NoTitleBefore(prev', rest, p);
      RaisesUp(prev, lines, p);
    }
    if exists p: nat :: RaisesAt(prev, lines, p) && NoTitleBefore(prev, lines, p) {
      var p: nat :| RaisesAt(prev, lines, p) && NoTitleBefore(prev, lines, p);
      assert p != 0 by { assert PrevAt(prev, lines, 0) == prev && lines[0..] == lines; }
      RaisesDown(prev, lines, p);
    }
  }

  /** Position `p` of `lines` is position `p - 1` of its tail. */
  lemma ShiftAt(prev: Option<String>, lines: seq<String>, p: nat)
    requires 1 <= p <= |lines|
    ensures PrevAt(prev, lines, p) == PrevAt(Some(lines[0]), lines[1..], p - 1)
    ensures lines[p..] == lines[1..][p - 1..]
  {
  }

  lemma RaisesUp(prev: Option<String>, lines: seq<String>, p: nat)
    requires lines != [] && TitleAt(prev, lines).0 == []
    requires RaisesAt(Some(lines[0]), lines[1..], p) && NoTitleBefore(Some(lines[0]), lines[1..], p)
    ensures RaisesAt(prev, lines, p + 1) && NoTitleBefore(prev, lines, p + 1)
  {
    ShiftAt(prev, lines, p + 1);
    forall q: nat | q < p + 1
      ensures TitleAt(PrevAt(prev, lines, q), lines[q..]).0 == []
    {
      if q > 0 {
        ShiftAt(prev, lines, q);
        assert TitleAt(PrevAt(Some(lines[0]), lines[1..], q - 1), lines[1..][q - 1..]).0 == [];
      } else {
        assert PrevAt(prev, lines, 0) == prev && lines[0..] == lines;
      }
    }
  }

  lemma RaisesDown(prev: Option<String>, lines: seq<String>, p: nat)
    requires 1 <= p && RaisesAt(prev, lines, p) && NoTitleBefore(prev, lines, p)
    ensures RaisesAt(Some(lines[0]), lines[1..], p - 1) && NoTitleBefore(Some(lines[0]), lines[1..], p - 1)
  {
    ShiftAt(prev, lines, p);
    forall q: nat | q < p - 1
      ensures TitleAt(PrevAt(Some(lines[0]), lines[1..], q), lines[1..][q..]).0 == []
    {
      ShiftAt(prev, lines, q + 1);
      assert TitleAt(PrevAt(prev, lines, q + 1), lines[q + 1..]).0 == [];
    }
  }

  /** `_extract_rst_title_and_tooltip` as written. */
  function RstTitleTooltipAsWritten(content: String): (r: Result<(String, String)>)
    ensures r.Err? ==> r.error == IndexError
    ensures r.Ok? ==> r.value == RstTitleTooltip(content)
  {
    match RstScanAsWritten(None, SplitLines(content))
    case Err(e) => Err(e)
    case Ok(p) => Ok((p.0, Join(p.1, " ")))
  }

  lemma RstSkipStep(prev: Option<String>, line: String, rest: seq<String>, lines: seq<String>)
    requires !IsSignLine(Strip(line)) && lines == [line] + rest
    ensures RstScan(prev, lines) == RstScan(Some(line), rest)
  {
    assert lines[0] == line && lines[1..] == rest;
  }

  function LastOr(pre: seq<String>, prev: Option<String>): Option<String>
  {
    if pre == [] then prev else Some(pre[|pre| - 1])
  }

  lemma LastOrCons(pre: seq<String>, prev: Option<String>)
    requires pre != []
    ensures LastOr(pre[1..], Some(pre[0])) == LastOr(pre, prev)
  {
  }

  /** Lines none of which is a title line. */
  predicate NoTitleLines(lines: seq<String>)
  {
    lines == [] || (!IsSignLine(Strip(lines[0])) && NoTitleLines(lines[1..]))
  }

  lemma {:induction false} RstSkip(prev: Option<String>, pre: seq<String>, rest: seq<String>)
    requires NoTitleLines(pre)
    ensures RstScan(prev, pre + rest) == RstScan(LastOr(pre, prev), rest)
    decreases |pre|
  {
    if pre != [] {
      var xs := pre[1..];
      var after := xs + rest;
      assert RstScan(prev, pre + rest) == RstScan(Some(pre[0]), after) by {
        ConsSplit(pre, rest);
        RstSkipStep(prev, pre[0], after, pre + rest);
      }
      assert RstScan(Some(pre[0]), after) == RstScan(LastOr(pre, prev), rest) by {
        assert NoTitleLines(xs);
        RstSkip(Some(pre[0]), xs, rest);
        LastOrCons(pre, prev);
      }
    } else {
      assert pre + rest == rest;
    }
  }

  lemma RstSkipStepAsWritten(prev: Option<String>, line: String, rest: seq<String>, lines: seq<String>)
    requires !IsSignLine(Strip(line)) && lines == [line] + rest
    ensures RstScanAsWritten(prev, lines) == RstScanAsWritten(Some(line), rest)
  {
    assert lines[0] == line && lines[1..] == rest;
  }

  lemma {:induction false} RstSkipAsWritten(prev: Option<String>, pre: seq<String>, rest: seq<String>)
    requires NoTitleLines(pre)
    ensures RstScanAsWritten(prev, pre + rest) == RstScanAsWritten(LastOr(pre, prev), rest)
    decreases |pre|
  {
    if pre != [] {
      var xs := pre[1..];
      var after := xs + rest;
      assert RstScanAsWritten(prev, pre + rest) == RstScanAsWritten(Some(pre[0]), after) by {
        ConsSplit(pre, rest);
        RstSkipStepAsWritten(prev, pre[0], after, pre + rest);
      }
      assert RstScanAsWritten(Some(pre[0]), after) == RstScanAsWritten(LastOr(pre, prev), rest) by {
        assert NoTitleLines(xs);
        RstSkipAsWritten(Some(pre[0]), xs, rest);
        LastOrCons(pre, prev);
      }
    } else {
      assert pre + rest == rest;
    }
  }

  lemma ConsSplit(pre: seq<String>, rest: seq<String>)
    requires pre != []
    ensures pre + rest == [pre[0]] + (pre[1..] + rest)
  {
    assert pre == [pre[0]] + pre[1..];
  }

  lemma PairTail(a: String, b: String, rest: seq<String>)
    ensures ([a, b] + rest)[1..] == [b] + rest
  {
  }

  /** At a title whose underline is as long as it, the code as written does not
      raise. */

  lemma RstTitleStepAsWritten(t: String, u: String, rest: seq<String>, lines: seq<String>)
    requires TextLine(t) && !IsSignLine(t) && IsSignLine(u) && |u| == |t|
    requires lines == [u, []] + rest
    ensures RstScanAsWritten(Some(t), lines).Ok?
  {
    SignLineStripped(u);
    assert lines[0] == u && lines[1] == [];
    assert Around(Some(t), lines) == [t, u, []];
    ParseTitleBlock(t, u);
    ParseRstTitleAgrees([t, u, []]);
  }

  /** After a title line and its underline, the scan returns the title and the
      tooltip lines collected from what follows. */
  lemma RstTitleStep(t: String, u: String, lines: seq<String>)
    requires TextLine(t) && !IsSignLine(t) && IsSignLine(u) && |u| == |t|
    requires |lines| >= 2 && lines[0] == u && lines[1] == []
    ensures RstScan(Some(t), lines) == (t, TooltipFrom(Strips(lines[1..]), [t, u], []))
  {
    SignLineStripped(u);
    assert Around(Some(t), lines) == [t, u, []];
    ParseTitleBlock(t, u);
    assert TitleAt(Some(t), lines) == (t, [t, u]);
  }

  /** Lines without a title line, a title, its underline, an empty line, a paragraph
      of stripped lines other than the title's own, then an empty line or the end:
      the title and the paragraph come back. */
  lemma RstScanShape(pre: seq<String>, t: String, u: String, para: seq<String>, tail: seq<String>)
    requires NoTitleLines(pre)
    requires TextLine(t) && !IsSignLine(t) && IsSignLine(u) && |u| == |t|
    requires forall k :: 0 <= k < |para| ==> TextLine(para[k]) && para[k] != t && para[k] != u
    requires para != [] && (tail == [] || tail[0] == [])
    ensures RstScan(None, pre + ([t] + ([u, []] + (para + tail)))) == (t, para)
  {
    var lines := [u, []] + (para + tail);
    RstScanPrefix(pre, t, lines);
    RstTitleStep(t, u, lines);
    assert TooltipFrom(Strips(lines[1..]), [t, u], []) == para by {
      PairTail(u, [], para + tail);
      RstTooltip(t, u, para, tail);
    }
  }

  /** Lines without a title line and then a text line are passed over. */
  lemma {:induction false} RstScanPrefix(pre: seq<String>, t: String, block: seq<String>)
    requires NoTitleLines(pre) && TextLine(t) && !IsSignLine(t)
    ensures RstScan(None, pre + ([t] + block)) == RstScan(Some(t), block)
  {
    var prev := LastOr(pre, None);
    RstSkip(None, pre, [t] + block);
    StripOfStripped(t);
    RstSkipStep(prev, t, block, [t] + block);
  }

  /** After the underline, the empty line is passed over and the paragraph is
      collected. */
  lemma RstTooltip(t: String, u: String, para: seq<String>, tail: seq<String>)
    requires t != [] && u != []
    requires forall k :: 0 <= k < |para| ==> TextLine(para[k]) && para[k] != t && para[k] != u
    requires para != [] && (tail == [] || tail[0] == [])
    ensures TooltipFrom(Strips([[]] + (para + tail)), [t, u], []) == para
  {
    var skip := [t, u];
    var cs := Strips([[]] + (para + tail));
    var st := Strips(tail);
    StripsBlockTail(para, tail, cs, st);
    forall k | 0 <= k < |para|
      ensures para[k] != [] && para[k] !in skip
    {
    }
    TooltipBlock(para, st, skip, cs);
  }

  lemma StripsBlockTail(para: seq<String>, tail: seq<String>, cs: seq<String>, st: seq<String>)
    requires forall k :: 0 <= k < |para| ==> TextLine(para[k])
    requires tail == [] || tail[0] == []
    requires cs == Strips([[]] + (para + tail)) && st == Strips(tail)
    ensures cs == [[]] + (para + st)
    ensures st == [] || st[0] == []
  {
    StripsAppend([[]], para + tail);
    StripsAppend(para, tail);
    assert Strips([[]]) == [[]];
    StripsOfStripped(para);
    if tail != [] {
      StripsAt(tail, 0);
    }
  }

  lemma TooltipBlock(para: seq<String>, st: seq<String>, skip: seq<String>, cs: seq<String>)
    requires forall k :: 0 <= k < |para| ==> para[k] != [] && para[k] !in skip
    requires para != [] && [] !in skip && (st == [] || st[0] == [])
    requires cs == [[]] + (para + st)
    ensures TooltipFrom(cs, skip, []) == para
  {
    TooltipBlankStep(para + st, skip, cs);
    TooltipParagraph(para, st, skip, []);
    assert [] + para == para;
  }

  /** `to_section_title`: the title underlined with dashes, between blank lines. */
  function ToSectionTitle(title: String): (r: String)
    ensures |r| == 2 * |title| + 4
  {
    "\n\n" + title + "\n" + Repeat('-', |title|) + "\n"
  }

  /** Split at newlines, a section title is two empty lines, the title, its dash
      underline of the same length, and the empty rest after the last newline. */
  lemma SectionTitleLayout(title: String)
    requires '\n' !in title
    ensures Split(ToSectionTitle(title), '\n') == [[], [], title, Repeat('-', |title|), []]
  {
    var u := Repeat('-', |title|);
    var lines: seq<String> := [[], [], title, u];
    SectionTitleUnlines(title, u, lines);
    SectionLinesUnbroken(title, u, lines);
    SplitUnlines(lines);
    assert lines + [[]] == [[], [], title, u, []];
  }

  lemma SectionLinesUnbroken(title: String, u: String, lines: seq<String>)
    requires '\n' !in title && u == Repeat('-', |title|) && lines == [[], [], title, u]
    ensures forall k :: 0 <= k < |lines| ==> '\n' !in lines[k]
  {
    assert forall k :: 0 <= k < |u| ==> u[k] == '-';
  }

  lemma SectionTitleUnlines(title: String, u: String, lines: seq<String>)
    requires u == Repeat('-', |title|) && lines == [[], [], title, u]
    ensures Unlines(lines) == ToSectionTitle(title)
  {
    var nl: String := "\n";
    var l3: seq<String> := [u];
    var l2 := [title] + l3;
    var l1 := [[]] + l2;
    assert Unlines(l3) == u + nl by {
      UnlinesCons(u, [], l3);
      assert u + nl + [] == u + nl;
    }
    assert Unlines(l2) == title + nl + (u + nl) by {
      UnlinesCons(title, l3, l2);
    }
    assert Unlines(l1) == nl + (title + nl + (u + nl)) by {
      UnlinesCons([], l2, l1);
      assert [] + nl == nl;
    }
    assert Unlines(lines) == nl + (nl + (title + nl + (u + nl))) by {
      assert lines == [[]] + l1;
      UnlinesCons([], l1, lines);
      assert [] + nl == nl;
    }
    SectionTitleNewlines(nl, title, u);
  }

  lemma UnlinesCons(x: String, rest: seq<String>, lines: seq<String>)
    requires lines == [x] + rest
    ensures Unlines(lines) == x + "\n" + Unlines(rest)
  {
    assert lines[0] == x && lines[1..] == rest;
  }

  lemma SectionTitleNewlines(nl: String, t: String, u: String)
    requires nl == "\n" && u == Repeat('-', |t|)
    ensures ToSectionTitle(t) == nl + (nl + (t + nl + (u + nl)))
  {
    assert ToSectionTitle(t) == "\n\n" + t + "\n" + u + "\n";
    assert "\n\n" == nl + nl;
    Assoc6(nl, nl, t, nl, u, nl);
  }

  lemma Assoc6(a: String, b: String, c: String, d: String, e: String, f: String)
    ensures a + b + c + d + e + f == a + (b + (c + d + (e + f)))
  {
  }



  /** A section title followed by an empty line and a paragraph reads back as that
      title and paragraph. */
  lemma SectionTitleRoundTrip(t: String, para: seq<String>)
    requires TextLine(t) && NoLineBreak(t) && !IsSignLine(t)
    requires para != []
    requires forall k :: 0 <= k < |para| ==> TextLine(para[k]) && NoLineBreak(para[k])
    requires forall k :: 0 <= k < |para| ==> para[k] != t && para[k] != Repeat('-', |t|)
    ensures RstTitleTooltip(ToSectionTitle(t) + "\n" + Join(para, "\n")) == (t, Join(para, " "))
    ensures ExtractTitleAndTooltip(".rst", ToSectionTitle(t) + "\n" + Join(para, "\n")) == Ok((t, Join(para, " ")))
  {
    var u := Repeat('-', |t|);
    UnderlineIsTitleLine('-', |t|);
    var lines := [[], []] + ([t] + ([u, []] + (para + [])));
    SectionTitleLines(t, u, para, lines);
    SectionLinesSplit(t, u, para, lines);
    SectionLinesScan(t, u, para, lines);
    SectionLinesScanAsWritten(t, u, para, lines);
    RstContent(ToSectionTitle(t) + "\n" + Join(para, "\n"), lines, t, para);
  }

  lemma RstContent(content: String, lines: seq<String>, t: String, para: seq<String>)
    requires SplitLines(content) == lines && RstScan(None, lines) == (t, para)
    requires RstScanAsWritten(None, lines).Ok?
    ensures RstTitleTooltip(content) == (t, Join(para, " "))
    ensures ExtractTitleAndTooltip(".rst", content) == Ok((t, Join(para, " ")))
  {
  }

  lemma SectionLinesSplit(t: String, u: String, para: seq<String>, lines: seq<String>)
    requires TextLine(t) && NoLineBreak(t) && IsSignLine(u)
    requires para != [] && forall k :: 0 <= k < |para| ==> TextLine(para[k]) && NoLineBreak(para[k])
    requires lines == [[], []] + ([t] + ([u, []] + (para + [])))
    ensures SplitLines(Join(lines, "\n")) == lines
  {
    var head: seq<String> := [[], [], t, u, []];
    assert lines == head + para;
    SignLineStripped(u);
    assert NoLineBreak(u) by {
      assert forall i :: 0 <= i < |u| ==> u[i] == '-' || u[i] == '=';
    }
    assert forall k :: 0 <= k < |head| ==> IsStripped(head[k]) && NoLineBreak(head[k]);
    StrippedLines(head, para, lines);
    SplitLinesJoin(lines);
  }

  lemma SectionLinesScan(t: String, u: String, para: seq<String>, lines: seq<String>)
    requires TextLine(t) && !IsSignLine(t) && IsSignLine(u) && |u| == |t|
    requires para != [] && forall k :: 0 <= k < |para| ==> TextLine(para[k]) && para[k] != t && para[k] != u
    requires lines == [[], []] + ([t] + ([u, []] + (para + [])))
    ensures RstScan(None, lines) == (t, para)
  {
    var pre: seq<String> := [[], []];
    EmptyNotSign();
    assert Strip([]) == [];
    var one: seq<String> := [[]];
    assert pre[1..] == one && one[1..] == [];
    assert NoTitleLines(pre);
    RstScanShape(pre, t, u, para, []);
  }

  lemma SectionLinesScanAsWritten(t: String, u: String, para: seq<String>, lines: seq<String>)
    requires TextLine(t) && !IsSignLine(t) && IsSignLine(u) && |u| == |t|
    requires lines == [[], []] + ([t] + ([u, []] + (para + [])))
    ensures RstScanAsWritten(None, lines).Ok?
  {
    var pre: seq<String> := [[], []];
    var block := [u, []] + (para + []);
    EmptyNotSign();
    assert Strip([]) == [];
    var one: seq<String> := [[]];
    assert pre[1..] == one && one[1..] == [];
    assert NoTitleLines(pre);
    RstSkipAsWritten(None, pre, [t] + block);
    StripOfStripped(t);
    RstSkipStepAsWritten(LastOr(pre, None), t, block, [t] + block);
    RstTitleStepAsWritten(t, u, para + [], block);
  }

  lemma SectionTitleLines(t: String, u: String, para: seq<String>, lines: seq<String>)
    requires para != [] && u == Repeat('-', |t|)
    requires lines == [[], []] + ([t] + ([u, []] + (para + [])))
    ensures Join(lines, "\n") == ToSectionTitle(t) + "\n" + Join(para, "\n")
  {
    SectionTitleJoin(t, u, para, lines);
    SectionTitleNest(t, u, Join(para, "\n"));
  }

  lemma SectionTitleJoin(t: String, u: String, para: seq<String>, lines: seq<String>)
    requires para != []
    requires lines == [[], []] + ([t] + ([u, []] + (para + [])))
    ensures Join(lines, "\n") == "\n" + ("\n" + (t + ("\n" + (u + ("\n" + ("\n" + Join(para, "\n")))))))
  {
    var nl: String := "\n";
    var j5 := Join(para, nl);
    var l4 := [[]] + para;
    var l3 := [u] + l4;
    var l2 := [t] + l3;
    var l1 := [[]] + l2;
    assert lines == [[]] + l1;
    JoinCons([], para, nl);
    assert Join(l4, nl) == nl + j5;
    JoinCons(u, l4, nl);
    JoinCons(t, l3, nl);
    JoinCons([], l2, nl);
    JoinCons([], l1, nl);
    assert Join(l1, nl) == nl + Join(l2, nl);
    assert Join(lines, nl) == nl + Join(l1, nl);
  }

  lemma SectionTitleNest(t: String, u: String, j: String)
    requires u == Repeat('-', |t|)
    ensures ToSectionTitle(t) + "\n" + j == "\n" + ("\n" + (t + ("\n" + (u + ("\n" + ("\n" + j))))))
  {
    var nl: String := "\n";
    assert "\n\n" == nl + nl;
    Nest7(nl, nl, t, nl, u, nl, nl, j);
  }

  // ---------------------------------------------------------------------------
  // Dispatch by file type

  /** `extract_title_and_tooltip` on a file with suffix `suffix` and text `content`;
      for a notebook, `content` is its Markdown cells joined by newlines. */
  function ExtractTitleAndTooltip(suffix: String, content: String): (r: Result<(String, String)>)
    ensures r.Ok? ==> suffix == ".rst" || suffix == ".md" || suffix == ".ipynb"
    ensures suffix == ".rst" && r.Ok? ==> r.value == RstTitleTooltip(content)
    ensures suffix == ".rst" && r.Err? ==> r.error == IndexError
    ensures suffix == ".md" || suffix == ".ipynb" ==> r == Ok(MdTitleTooltip(content))
    ensures suffix != ".rst" && suffix != ".md" && suffix != ".ipynb" ==> r == Err(ValueError)
  {
    if suffix == ".rst" then RstTitleTooltipAsWritten(content)
    else if suffix == ".md" || suffix == ".ipynb" then Ok(MdTitleTooltip(content))
    else Err(ValueError)
  }

  // ---------------------------------------------------------------------------
  // `remove_special_chars`

  /** The characters of `[a-zA-Z0-9|:.,?!_ -]`. */
  predicate Allowed(c: char)
  {
    ('a' <= c <= 'z') || ('A' <= c <= 'Z') || ('0' <= c <= '9')
    || c == '|' || c == ':' || c == '.' || c == ',' || c == '?' || c == '!' || c == '_' || c == ' ' || c == '-'
  }

  /** `remove_special_chars`: every run of other characters is removed. */
  function RemoveSpecialChars(s: String): (r: String)
    ensures |r| <= |s|
    ensures forall i :: 0 <= i < |r| ==> Allowed(r[i])
  {
    if s == [] then [] else (if Allowed(s[0]) then [s[0]] else []) + RemoveSpecialChars(s[1..])
  }

  /** A string of allowed characters is unchanged, and only such a string. */
  lemma {:induction false} RemoveSpecialCharsKeeps(s: String)
    ensures RemoveSpecialChars(s) == s <==> forall i :: 0 <= i < |s| ==> Allowed(s[i])
    decreases |s|
  {
    if s != [] {
      RemoveSpecialCharsKeeps(s[1..]);
      if forall i :: 0 <= i < |s| ==> Allowed(s[i]) {
        assert forall i :: 0 <= i < |s[1..]| ==> Allowed(s[1..][i]);
        assert s == [s[0]] + s[1..];
      }
    }
  }

  /** The filter works character by character: it distributes over concatenation. */
  lemma {:induction false} RemoveSpecialCharsAppend(a: String, b: String)
    ensures RemoveSpecialChars(a + b) == RemoveSpecialChars(a) + RemoveSpecialChars(b)
    decreases |a|
  {
    if a == [] {
      assert a + b == b;
    } else {
      assert (a + b)[0] == a[0] && (a + b)[1..] == a[1..] + b;
      RemoveSpecialCharsAppend(a[1..], b);
    }
  }

  /** Filtering twice is filtering once. */
  lemma RemoveSpecialCharsIdempotent(s: String)
    ensures RemoveSpecialChars(RemoveSpecialChars(s)) == RemoveSpecialChars(s)
  {
    RemoveSpecialCharsKeeps(RemoveSpecialChars(s));
  }
}

=== FILE: images.dfy ===
/** Image candidates of a document (`images.py`): the `DocImages` list of
    (url, alt) pairs with its queries, `strip_str`, and the extractors for Markdown
    (conventional `![alt](url)` images, then MyST `{image}`/`{figure}` blocks) and for
    reStructuredText (`.. image::` / `.. figure::` directives). */
module Images {
  import opened Wrappers
  import opened Text

  /** One image reference: its url and its alt text (empty when there is none). */
  datatype Image = Image(url: String, alt: String)

  /** `DocImages`: the images of one document, in document order. */
  type DocImages = seq<Image>

  /** The alt text that marks the designated gallery thumbnail. */
  const ThumbnailTag: String := "gallery_thumbnail"

  /** `DocImages.urls`. */
  function Urls(d: DocImages): (r: seq<String>)
    ensures |r| == |d|
    ensures forall i :: 0 <= i < |d| ==> r[i] == d[i].url
  {
    if d == [] then [] else [d[0].url] + Urls(d[1..])
  }

  /** `d[idx]`: the url of the pair at a Python index. */
  function GetItem(d: DocImages, idx: int): (r: Result<String>)
    ensures r.Ok? <==> -|d| <= idx < |d|
    ensures r.Ok? ==> r.value == d[if idx < 0 then |d| + idx else idx].url
  {
    PyIndex(Urls(d), idx)
  }

  /** `d.where(alt)`: the positions whose alt text is `alt`, in increasing order. */
  function Where(d: DocImages, alt: String): (r: seq<nat>)
    ensures forall k :: 0 <= k < |r| ==> r[k] < |d| && d[r[k]].alt == alt
    ensures Increasing(r)
  {
    WhereFromSorted(d, alt, 0);
    WhereFrom(d, alt, 0)
  }

  /** The positions at or after `i` whose alt text is `alt`. */
  function WhereFrom(d: DocImages, alt: String, i: nat): (r: seq<nat>)
    requires i <= |d|
    ensures forall k :: 0 <= k < |r| ==> i <= r[k] < |d| && d[r[k]].alt == alt
    decreases |d| - i
  {
    if i == |d| then []
    else (if d[i].alt == alt then [i] else []) + WhereFrom(d, alt, i + 1)
  }

  predicate Increasing(r: seq<nat>)
  {
    forall k, m :: 0 <= k < m < |r| ==> r[k] < r[m]
  }

  /** The positions come in increasing order. */
  lemma {:induction false} WhereFromSorted(d: DocImages, alt: String, i: nat)
    requires i <= |d|
    ensures Increasing(WhereFrom(d, alt, i))
    decreases |d| - i
  {
    if i < |d| {
      WhereFromSorted(d, alt, i + 1);
      var h: seq<nat> := if d[i].alt == alt then [i] else [];
      var rest := WhereFrom(d, alt, i + 1);
      assert WhereFrom(d, alt, i) == h + rest;
      forall k, m | 0 <= k < m < |h + rest|
        ensures (h + rest)[k] < (h + rest)[m]
      {
        if k >= |h| {
          assert (h + rest)[k] == rest[k - |h|] && (h + rest)[m] == rest[m - |h|];
        } else {
          assert (h + rest)[k] == i && (h + rest)[m] == rest[m - |h|];
          assert rest[m - |h|] >= i + 1;
        }
      }
    }
  }

  /** Every position carrying the alt text is listed. */
  lemma {:induction false} WhereFromComplete(d: DocImages, alt: String, i: nat, j: nat)
    requires i <= j < |d| && d[j].alt == alt
    ensures j in WhereFrom(d, alt, i)
    decreases j - i
  {
    if i < j {
      WhereFromComplete(d, alt, i + 1, j);
    }
  }

  lemma WhereComplete(d: DocImages, alt: String, j: nat)
    requires j < |d| && d[j].alt == alt
    ensures j in Where(d, alt)
  {
    WhereFromComplete(d, alt, 0, j);
  }

  /** The urls at the given positions. */
  function UrlsAt(d: DocImages, idx: seq<nat>): (r: seq<String>)
    requires forall k :: 0 <= k < |idx| ==> idx[k] < |d|
    ensures |r| == |idx|
    ensures forall k :: 0 <= k < |r| ==> r[k] == d[idx[k]].url
  {
    seq(|idx|, k requires 0 <= k < |idx| => d[idx[k]].url)
  }

  /** `d.sel_urls(alt)`: the urls at the positions `where(alt)` lists, in order. */
  function SelUrls(d: DocImages, alt: String): (r: seq<String>)
    ensures |r| == |Where(d, alt)|
    ensures forall k :: 0 <= k < |r| ==> r[k] == d[Where(d, alt)[k]].url
  {
    var idx := Where(d, alt);
    if |idx| == 0 then [] else UrlsAt(d, idx)
  }

  /** Independent reference for `sel_urls`: the urls of the pairs tagged `alt`,
      read off the list front to back. */
  function TaggedUrls(d: DocImages, alt: String): seq<String>
  {
    if d == [] then []
    else (if d[0].alt == alt then [d[0].url] else []) + TaggedUrls(d[1..], alt)
  }

  lemma {:induction false} UrlsAtWhereFrom(d: DocImages, alt: String, i: nat)
    requires i <= |d|
    ensures UrlsAt(d, WhereFrom(d, alt, i)) == TaggedUrls(d[i..], alt)
    decreases |d| - i
  {
    if i < |d| {
      UrlsAtWhereFrom(d, alt, i + 1);
      assert d[i..][0] == d[i];
      assert d[i..][1..] == d[i + 1..];
    }
  }

  lemma SelUrlsIsTaggedUrls(d: DocImages, alt: String)
    ensures SelUrls(d, alt) == TaggedUrls(d, alt)
  {
    UrlsAtWhereFrom(d, alt, 0);
    assert d[0..] == d;
  }

  /** `sel_urls` is empty exactly when no pair carries the alt text. */
  lemma SelUrlsEmpty(d: DocImages, alt: String)
    ensures SelUrls(d, alt) == [] <==> forall i :: 0 <= i < |d| ==> d[i].alt != alt
  {
    assert |Where(d, alt)| > 0 ==> d[Where(d, alt)[0]].alt == alt;
    if exists i :: 0 <= i < |d| && d[i].alt == alt {
      var i :| 0 <= i < |d| && d[i].alt == alt;
      WhereComplete(d, alt, i);
      assert |SelUrls(d, alt)| > 0;
    }
  }

  /** `a + b` (`DocImages.__add__`): the pairs of `a`, then those of `b`. */
  function Add(a: DocImages, b: DocImages): (r: DocImages)
    ensures |r| == |a| + |b|
    ensures r[..|a|] == a && r[|a|..] == b
  {
    a + b
  }

  /** Positions moved right by `n`. */
  function Shift(idx: seq<nat>, n: nat): (r: seq<nat>)
    ensures |r| == |idx|
    ensures forall k :: 0 <= k < |r| ==> r[k] == idx[k] + n
  {
    seq(|idx|, k requires 0 <= k < |idx| => idx[k] + n)
  }

  lemma ShiftAppend(x: seq<nat>, y: seq<nat>, n: nat)
    ensures Shift(x + y, n) == Shift(x, n) + Shift(y, n)
  {
  }

  lemma ShiftGlue(w: seq<nat>, wb: seq<nat>, h: seq<nat>, rest: seq<nat>, tail: seq<nat>, n: nat)
    requires wb == h + rest && w == Shift(h, n) + tail && tail == Shift(rest, n)
    ensures w == Shift(wb, n)
  {
    ShiftAppend(h, rest, n);
  }

  lemma WhereFromUnfold(d: DocImages, alt: String, i: nat)
    requires i < |d|
    ensures WhereFrom(d, alt, i) == (if d[i].alt == alt then [i] else []) + WhereFrom(d, alt, i + 1)
  {
  }

  lemma WhereFromRightStep(a: DocImages, b: DocImages, alt: String, j: nat)
    requires j < |b|
    requires WhereFrom(a + b, alt, |a| + j + 1) == Shift(WhereFrom(b, alt, j + 1), |a|)
    ensures WhereFrom(a + b, alt, |a| + j) == Shift(WhereFrom(b, alt, j), |a|)
  {
    var ab, n := a + b, |a|;
    var tagged := b[j].alt == alt;
    var hb: seq<nat> := if tagged then [j] else [];
    var ha: seq<nat> := if tagged then [n + j] else [];
    var rest, tail := WhereFrom(b, alt, j + 1), WhereFrom(ab, alt, n + j + 1);
    assert WhereFrom(b, alt, j) == hb + rest by {
      WhereFromUnfold(b, alt, j);
    }
    assert WhereFrom(ab, alt, n + j) == ha + tail by {
      WhereFromUnfold(ab, alt, n + j);
      assert ab[n + j] == b[j];
    }
    assert Shift(hb, n) == ha;
    ShiftGlue(WhereFrom(ab, alt, n + j), WhereFrom(b, alt, j), hb, rest, tail, n);
  }

  lemma {:induction false} WhereFromRight(a: DocImages, b: DocImages, alt: String, j: nat)
    requires j <= |b|
    ensures WhereFrom(a + b, alt, |a| + j) == Shift(WhereFrom(b, alt, j), |a|)
    decreases |b| - j
  {
    if j < |b| {
      WhereFromRight(a, b, alt, j + 1);
      WhereFromRightStep(a, b, alt, j);
    }
  }

  lemma {:induction false} WhereFromLeft(a: DocImages, b: DocImages, alt: String, i: nat)
    requires i <= |a|
    ensures WhereFrom(a + b, alt, i) == WhereFrom(a, alt, i) + Shift(Where(b, alt), |a|)
    decreases |a| - i
  {
    if i == |a| {
      WhereFromRight(a, b, alt, 0);
    } else {
      WhereFromLeft(a, b, alt, i + 1);
      assert (a + b)[i] == a[i];
    }
  }

  /** The tagged positions of `a + b` are those of `a`, then those of `b` moved
      right by `|a|`. */
  lemma WhereAdd(a: DocImages, b: DocImages, alt: String)
    ensures Where(Add(a, b), alt) == Where(a, alt) + Shift(Where(b, alt), |a|)
  {
    WhereFromLeft(a, b, alt, 0);
  }

  /** Selecting from `a + b` selects from `a`, then from `b`. */
  lemma SelUrlsAdd(a: DocImages, b: DocImages, alt: String)
    ensures SelUrls(Add(a, b), alt) == SelUrls(a, alt) + SelUrls(b, alt)
  {
    SelUrlsIsTaggedUrls(a + b, alt);
    SelUrlsIsTaggedUrls(a, alt);
    SelUrlsIsTaggedUrls(b, alt);
    TaggedUrlsAppend(a, b, alt);
  }

  lemma {:induction false} TaggedUrlsAppend(a: DocImages, b: DocImages, alt: String)
    ensures TaggedUrls(a + b, alt) == TaggedUrls(a, alt) + TaggedUrls(b, alt)
    decreases |a|
  {
    if a == [] {
      assert a + b == b;
    } else {
      TaggedUrlsAppend(a[1..], b, alt);
      TaggedUrlsAppendStep(a, b, alt);
    }
  }

  lemma TaggedUrlsAppendStep(a: DocImages, b: DocImages, alt: String)
    requires a != []
    requires TaggedUrls(a[1..] + b, alt) == TaggedUrls(a[1..], alt) + TaggedUrls(b, alt)
    ensures TaggedUrls(a + b, alt) == TaggedUrls(a, alt) + TaggedUrls(b, alt)
  {
    var h := if a[0].alt == alt then [a[0].url] else [];
    assert TaggedUrls(a + b, alt) == h + TaggedUrls(a[1..] + b, alt) by {
      assert (a + b)[1..] == a[1..] + b;
      assert (a + b)[0] == a[0];
    }
    assert TaggedUrls(a, alt) == h + TaggedUrls(a[1..], alt);
    SeqAssoc(TaggedUrls(a + b, alt), h, TaggedUrls(a[1..], alt), TaggedUrls(b, alt));
  }

  lemma SeqAssoc(n: seq<String>, a: seq<String>, b: seq<String>, c: seq<String>)
    requires n == a + (b + c)
    ensures n == (a + b) + c
  {
  }

  /** `strip_str`: strip whitespace, then `"`, then `'`, then backticks, then
      whitespace again. */
  function StripStr(s: String): (r: String)
    ensures IsStripped(r)
    ensures |r| <= |s|
  {
    Strip(StripChar(StripChar(StripChar(Strip(s), '"'), '\''), '`'))
  }

  predicate NotQuote(c: char)
  {
    c != '"' && c != '\'' && c != '`'
  }

  /** A value `strip_str` leaves unchanged: stripped, and not starting or ending
      with a quote character. */
  predicate Clean(s: String)
  {
    IsStripped(s) && (s == [] || (NotQuote(s[0]) && NotQuote(s[|s| - 1])))
  }

  lemma StripCharNoop(s: String, c: char)
    requires s == [] || (s[0] != c && s[|s| - 1] != c)
    ensures StripChar(s, c) == s
  {
  }

  lemma StripStrClean(s: String)
    requires Clean(s)
    ensures StripStr(s) == s
  {
    StripOfStripped(s);
    StripCharNoop(s, '"');
    StripCharNoop(s, '\'');
    StripCharNoop(s, '`');
  }

  lemma StripCharQuoted(s: String, q: char)
    requires s != [] && s[0] != q && s[|s| - 1] != q
    ensures StripChar([q] + s + [q], q) == s
  {
    var x := [q] + s + [q];
    assert x[1..] == s + [q];
    assert LStripChar(x, q) == s + [q];
    assert (s + [q])[..|s|] == s;
  }

  /** Quotes around a clean value are removed. */
  lemma StripStrQuoted(s: String, q: char)
    requires Clean(s) && s != []
    requires q == '"' || q == '\'' || q == '`'
    ensures StripStr([q] + s + [q]) == s
  {
    var x := [q] + s + [q];
    assert IsStripped(x);
    StripOfStripped(x);
    StripCharQuoted(s, q);
    if q == '"' {
      StripCharNoop(s, '\'');
      StripCharNoop(s, '`');
    } else if q == '\'' {
      StripCharNoop(x, '"');
      StripCharNoop(s, '`');
    } else {
      StripCharNoop(x, '"');
      StripCharNoop(x, '\'');
    }
    StripOfStripped(s);
  }

  // ---------------------------------------------------------------------------
  // Conventional Markdown images: `re.finditer(r"!\[(.*?)\]\((.*?)\)", text)`.
  // `.` does not match a newline, and both groups are lazy.

  /** The first `](` at or after `i` before the end of the line. */
  function BracketParen(s: String, i: nat): (r: Option<nat>)
    ensures r.Some? ==> i <= r.value && r.value + 1 < |s| && s[r.value] == ']' && s[r.value + 1] == '('
    decreases |s| - i
  {
    if i + 1 >= |s| then None
    else if s[i] == '\n' then None
    else if s[i] == ']' && s[i + 1] == '(' then Some(i)
    else BracketParen(s, i + 1)
  }

  /** The first `)` at or after `i` before the end of the line. */
  function CloseParen(s: String, i: nat): (r: Option<nat>)
    ensures r.Some? ==> i <= r.value < |s| && s[r.value] == ')'
    decreases |s| - i
  {
    if i >= |s| then None
    else if s[i] == '\n' then None
    else if s[i] == ')' then Some(i)
    else CloseParen(s, i + 1)
  }

  datatype InlineHit = InlineHit(alt: String, url: String, end: nat)

  /** The match of the conventional image pattern starting at the first character. */
  function InlineAt(s: String): (r: Option<InlineHit>)
    ensures r.Some? ==> 0 < r.value.end <= |s|
  {
    if !StartsWith(s, "![") then None
    else match BracketParen(s, 2)
      case None => None
      case Some(j) =>
        match CloseParen(s, j + 2)
        case None => None
        case Some(k) => Some(InlineHit(s[2..j], s[j + 2..k], k + 1))
  }

  /** Every conventional image, in order; scanning resumes after each match. */
  function InlineImages(s: String): DocImages
    decreases |s|
  {
    if s == [] then []
    else match InlineAt(s)
      case Some(h) => [Image(StripStr(h.url), StripStr(h.alt))] + InlineImages(s[h.end..])
      case None => InlineImages(s[1..])
  }

  // ---------------------------------------------------------------------------
  // MyST image and figure blocks, as a line scanner over the newline-separated
  // pieces of the text (the last piece carries no terminating newline).

  /** The length of the `{image}`/`{figure}` fence that opens a stripped line, when
      whitespace and a url follow it. */
  function FenceOpener(head: String): Option<nat>
  {
    if StartsWith(head, "```{image}") && |head| > 10 && IsSpace(head[10]) then Some(10)
    else if StartsWith(head, "```{figure}") && |head| > 11 && IsSpace(head[11]) then Some(11)
    else None
  }

  /** The index of the first line at or after `i` that contains a closing fence. */
  function FenceClose(lines: seq<String>, i: nat): (r: Option<nat>)
    ensures r.Some? ==> i <= r.value < |lines|
    decreases |lines| - i
  {
    if i >= |lines| then None
    else if Contains(lines[i], "```") then Some(i)
    else FenceClose(lines, i + 1)
  }

  /** The value of the first `:alt:` option among option lines, or `""`. */
  function AltOf(options: seq<String>): String
  {
    if options == [] then []
    else
      var t := Strip(options[0]);
      if StartsWith(t, ":alt:") then Strip(t[5..]) else AltOf(options[1..])
  }

  function FencedFrom(lines: seq<String>): DocImages
    decreases |lines|
  {
    if |lines| <= 1 then []
    else
      var head := Strip(lines[0]);
      var opener := FenceOpener(head);
      var close := FenceClose(lines, 1);
      if opener.None? || close.None? then FencedFrom(lines[1..])
      else
        [Image(StripStr(Strip(head[opener.value..])), StripStr(AltOf(lines[1..close.value])))]
        + FencedFrom(lines[close.value + 1..])
  }

  function FencedImages(s: String): DocImages
  {
    FencedFrom(Split(s, '\n'))
  }

  /** `parse_md_images`: all conventional images in order, then all MyST blocks in
      order; the two kinds are never interleaved. A text without `!` has no
      conventional image, so only its MyST blocks are found. */
  function ParseMdImages(s: String): (r: DocImages)
    ensures '!' !in s ==> r == FencedImages(s)
  {
    NoBangNoInline(s);
    InlineImages(s) + FencedImages(s)
  }

  lemma NoBangNoInline(s: String)
    ensures '!' !in s ==> InlineImages(s) == []
  {
    if '!' !in s {
      InlineImagesSkip(s, []);
      assert s + [] == s;
    }
  }

  // ---------------------------------------------------------------------------
  // reStructuredText image and figure directives, as a line scanner.

  /** The url of a stripped `.. image::` / `.. figure::` line. */
  function RstOpener(head: String): Option<String>
  {
    if (StartsWith(head, ".. image::") || StartsWith(head, ".. figure::")) then
      var rest := if StartsWith(head, ".. image::") then head[10..] else head[11..];
      if rest != [] && IsSpace(rest[0]) && Strip(rest) != [] then Some(Strip(rest)) else None
    else None
  }

  /** An indented `:name: value` option line. */
  predicate IsOptionLine(l: String)
  {
    var t := Strip(l);
    |l| > 0 && IsSpace(l[0]) && StartsWith(t, ":") && ':' in t[1..]
  }

  /** The end of the option block that starts at line `i`: blank lines and option
      lines, each newline-terminated. */
  function OptionEnd(lines: seq<String>, i: nat): (r: nat)
    requires i <= |lines|
    ensures i <= r <= |lines|
    decreases |lines| - i
  {
    if i + 1 >= |lines| then i
    else if Strip(lines[i]) == [] || IsOptionLine(lines[i]) then OptionEnd(lines, i + 1)
    else i
  }

  function RstFrom(lines: seq<String>): DocImages
    decreases |lines|
  {
    if |lines| <= 1 then []
    else
      var opener := RstOpener(Strip(lines[0]));
      if opener.None? then RstFrom(lines[1..])
      else
        var e := OptionEnd(lines, 1);
        [Image(StripStr(opener.value), StripStr(AltOf(lines[1..e])))] + RstFrom(lines[1..])
  }

  /** `parse_rst_images`. */
  function ParseRstImages(s: String): DocImages
  {
    RstFrom(Split(s, '\n'))
  }

  // ---------------------------------------------------------------------------
  // Round trips: writing images in each syntax and parsing the text gives them back.

  /** An image that every syntax can carry verbatim: url and alt survive
      `strip_str`, neither spans lines, the url is present, and neither contains
      the characters that end its field in the patterns. */
  predicate Plain(img: Image)
  {
    Clean(img.url) && img.url != [] && Clean(img.alt)
    && '\n' !in img.url && '\n' !in img.alt
    && ')' !in img.url && ']' !in img.alt && '`' !in img.alt
  }

  predicate AllPlain(imgs: DocImages)
  {
    forall k :: 0 <= k < |imgs| ==> Plain(imgs[k])
  }

  /** `![alt](url)`. */
  function InlineLine(img: Image): String
  {
    "![" + img.alt + "](" + img.url + ")"
  }

  function InlineLines(imgs: DocImages): seq<String>
  {
    if imgs == [] then [] else [InlineLine(imgs[0])] + InlineLines(imgs[1..])
  }

  /** A MyST image block: the fence with the url, an `:alt:` option, the closing
      fence. */
  function FencedBlock(img: Image): seq<String>
  {
    ["```{image} " + img.url, ":alt: " + img.alt, "```"]
  }

  function FencedLines(imgs: DocImages): seq<String>
  {
    if imgs == [] then [] else FencedBlock(imgs[0]) + FencedLines(imgs[1..])
  }

  /** A reStructuredText image directive with an indented `:alt:` option and a
      blank line after it. */
  function RstBlock(img: Image): seq<String>
  {
    [".. image:: " + img.url, "   :alt: " + img.alt, ""]
  }

  function RstLines(imgs: DocImages): seq<String>
  {
    if imgs == [] then [] else RstBlock(imgs[0]) + RstLines(imgs[1..])
  }

  lemma {:induction false} BracketParenSkip(s: String, i: nat, j: nat)
    requires i <= j && j + 1 < |s|
    requires forall k :: i <= k < j ==> s[k] != '\n' && s[k] != ']'
    ensures BracketParen(s, i) == BracketParen(s, j)
    decreases j - i
  {
    if i < j {
      BracketParenSkip(s, i + 1, j);
    }
  }

  lemma {:induction false} CloseParenSkip(s: String, i: nat, j: nat)
    requires i <= j < |s|
    requires forall k :: i <= k < j ==> s[k] != '\n' && s[k] != ')'
    ensures CloseParen(s, i) == CloseParen(s, j)
    decreases j - i
  {
    if i < j {
      CloseParenSkip(s, i + 1, j);
    }
  }

  /** Where the pieces of a written image sit in the text. */
  lemma InlineLayout(img: Image, rest: String, s: String)
    requires s == InlineLine(img) + rest
    ensures var j, k := 2 + |img.alt|, 4 + |img.alt| + |img.url|;
      k < |s| && StartsWith(s, "![") && s[2..j] == img.alt && s[j] == ']' && s[j + 1] == '('
      && s[j + 2..k] == img.url && s[k] == ')'
      && (forall m :: 2 <= m < j ==> s[m] == img.alt[m - 2])
      && (forall m :: j + 2 <= m < k ==> s[m] == img.url[m - j - 2])
  {
    var j := 2 + |img.alt|;
    assert s == "![" + img.alt + "](" + img.url + ")" + rest;
    assert s[..2] == "![";
  }

  /** The conventional pattern matches a written image exactly. */
  lemma InlineAtLine(img: Image, rest: String)
    requires Plain(img)
    ensures InlineAt(InlineLine(img) + rest) == Some(InlineHit(img.alt, img.url, |InlineLine(img)|))
  {
    var s := InlineLine(img) + rest;
    var j, k := 2 + |img.alt|, 4 + |img.alt| + |img.url|;
    InlineLayout(img, rest, s);
    assert BracketParen(s, 2) == Some(j) by {
      BracketParenSkip(s, 2, j);
    }
    assert CloseParen(s, j + 2) == Some(k) by {
      CloseParenSkip(s, j + 2, k);
    }
    assert |InlineLine(img)| == k + 1;
  }

  lemma InlineStep(img: Image, tail: String, s: String)
    requires Plain(img) && s == InlineLine(img) + "\n" + tail
    ensures InlineImages(s) == [img] + InlineImages(tail)
  {
    var nt := "\n" + tail;
    assert s == InlineLine(img) + nt;
    InlineAtLine(img, nt);
    InlineImagesHit(s, InlineHit(img.alt, img.url, |InlineLine(img)|));
    StripStrClean(img.url);
    StripStrClean(img.alt);
    assert s[|InlineLine(img)|..] == nt;
    InlineImagesNewline(tail);
  }

  lemma InlineImagesNewline(tail: String)
    ensures InlineImages("\n" + tail) == InlineImages(tail)
  {
    var nt := "\n" + tail;
    assert nt[0] == '\n';
    assert nt[1..] == tail;
    InlineImagesMiss(nt, tail);
  }

  lemma UnlinesConsRest(lines: seq<String>, rest: String)
    requires lines != []
    ensures Unlines(lines) + rest == lines[0] + "\n" + (Unlines(lines[1..]) + rest)
  {
  }

  lemma {:induction false} InlineImagesLines(imgs: DocImages, rest: String)
    requires AllPlain(imgs)
    ensures InlineImages(Unlines(InlineLines(imgs)) + rest) == imgs + InlineImages(rest)
    decreases |imgs|
  {
    if imgs == [] {
      assert Unlines(InlineLines(imgs)) + rest == rest;
    } else {
      var tail := Unlines(InlineLines(imgs[1..])) + rest;
      UnlinesConsRest(InlineLines(imgs), rest);
      InlineStep(imgs[0], tail, Unlines(InlineLines(imgs)) + rest);
      InlineImagesLines(imgs[1..], rest);
      ConsThen(imgs, InlineImages(rest), InlineImages(Unlines(InlineLines(imgs)) + rest), InlineImages(tail));
    }
  }

  /** Conventional images written one per line are read back in order. */
  lemma InlineRoundTrip(imgs: DocImages)
    requires AllPlain(imgs)
    ensures InlineImages(Unlines(InlineLines(imgs))) == imgs
  {
    InlineImagesLines(imgs, []);
    assert Unlines(InlineLines(imgs)) + [] == Unlines(InlineLines(imgs));
  }

  lemma InlineImagesMiss(s: String, t: String)
    requires s != [] && s[0] != '!' && t == s[1..]
    ensures InlineImages(s) == InlineImages(t)
  {
  }

  lemma InlineImagesHit(s: String, h: InlineHit)
    requires InlineAt(s) == Some(h)
    ensures InlineImages(s) == [Image(StripStr(h.url), StripStr(h.alt))] + InlineImages(s[h.end..])
  {
  }

  /** A text without the character `!` holds no conventional image. */
  lemma {:induction false} InlineImagesSkip(a: String, rest: String)
    requires '!' !in a
    ensures InlineImages(a + rest) == InlineImages(rest)
    decreases |a|
  {
    if a == [] {
      assert a + rest == rest;
    } else {
      var s := a + rest;
      assert s[0] == a[0];
      assert s[1..] == a[1..] + rest;
      InlineImagesMiss(s, a[1..] + rest);
      InlineImagesSkip(a[1..], rest);
    }
  }

  lemma StripAltTag()
    ensures LStrip(":alt: ") == ":alt: "
    ensures RStrip(":alt: ") == ":alt:"
  {
    var x := ":alt: ";
    assert x[0] == ':';
    assert x[..5] == ":alt:";
    assert x[4] == ':';
  }

  lemma AltLineStripped(n: nat, alt: String)
    requires Clean(alt) && alt != []
    ensures Strip(Repeat(' ', n) + ":alt: " + alt) == ":alt: " + alt
  {
    var x := ":alt: " + alt;
    assert Repeat(' ', n) + ":alt: " + alt == Repeat(' ', n) + x;
    assert x[|x| - 1] == alt[|alt| - 1];
    assert x[0] == ':';
    StripIndented(n, x);
  }

  lemma AltValue(alt: String)
    requires Clean(alt) && alt != []
    ensures var t := ":alt: " + alt; StartsWith(t, ":alt:") && Strip(t[5..]) == alt
  {
    var t := ":alt: " + alt;
    assert t[5..] == Repeat(' ', 1) + alt;
    StripIndented(1, alt);
  }

  lemma AltLineEmpty(n: nat)
    ensures Strip(Repeat(' ', n) + ":alt: ") == ":alt:"
  {
    LStripSpaces(n, ":alt: ");
    StripAltTag();
  }

  /** An indented `:alt:` line strips to the tag and the alt text. */
  lemma AltTagLine(n: nat, alt: String)
    requires Clean(alt)
    ensures var t := Strip(Repeat(' ', n) + ":alt: " + alt);
      StartsWith(t, ":alt:") && Strip(t[5..]) == alt
  {
    if alt == [] {
      assert Repeat(' ', n) + ":alt: " + alt == Repeat(' ', n) + ":alt: ";
      AltLineEmpty(n);
    } else {
      AltLineStripped(n, alt);
      AltValue(alt);
    }
  }

  lemma AltOfHead(options: seq<String>)
    requires options != [] && StartsWith(Strip(options[0]), ":alt:")
    ensures AltOf(options) == Strip(Strip(options[0])[5..])
  {
  }

  lemma AltFirstLine(n: nat, alt: String, options: seq<String>)
    requires Clean(alt)
    requires options != [] && options[0] == Repeat(' ', n) + ":alt: " + alt
    ensures AltOf(options) == alt
  {
    AltTagLine(n, alt);
    AltOfHead(options);
  }

  /** The first `:alt:` option line, however deeply indented and whatever options
      without `:alt:` precede it, yields its non-empty one-line alt text; later lines
      are never looked at. */
  lemma {:induction false} AltLine(n: nat, alt: String, pre: seq<String>, post: seq<String>)
    requires Clean(alt) && alt != [] && '\n' !in alt
    requires forall k :: 0 <= k < |pre| ==> !Contains(pre[k], ":alt:")
    ensures AltOf(pre + [Repeat(' ', n) + ":alt: " + alt] + post) == alt
    decreases |pre|
  {
    var line := Repeat(' ', n) + ":alt: " + alt;
    var options := pre + [line] + post;
    if pre == [] {
      assert options == [line] + post;
      AltFirstLine(n, alt, options);
    } else {
      assert options[0] == pre[0];
      assert !StartsWith(Strip(pre[0]), ":alt:") by { StripNotContains(pre[0], ":alt:"); }
      assert options[1..] == pre[1..] + [line] + post;
      AltLine(n, alt, pre[1..], post);
    }
  }

  lemma NoBacktickNoFence(s: String)
    requires '`' !in s
    ensures !Contains(s, "```")
  {
    if Contains(s, "```") {
      ContainsFirst(s, "```");
    }
  }

  lemma FenceOpenLine(url: String)
    requires Clean(url) && url != []
    ensures var head := Strip("```{image} " + url);
      FenceOpener(head) == Some(10) && Strip(head[10..]) == url
  {
    var open := "```{image} " + url;
    assert open[0] == '`';
    assert open[|open| - 1] == url[|url| - 1];
    StripOfStripped(open);
    assert open[..10] == "```{image}";
    assert open[10] == ' ';
    assert open[10..] == Repeat(' ', 1) + url;
    StripIndented(1, url);
  }

  lemma FenceCloseBlock(img: Image, after: seq<String>)
    requires '`' !in img.alt
    ensures FenceClose(FencedBlock(img) + after, 1) == Some(2)
  {
    var lines := FencedBlock(img) + after;
    assert lines[1] == ":alt: " + img.alt;
    NoBacktickNoFence(":alt: " + img.alt);
    assert lines[2] == "```";
    assert StartsWith(lines[2], "```");
  }

  lemma FencedHitUrl(img: Image, after: seq<String>, lines: seq<String>)
    requires Plain(img) && lines == FencedBlock(img) + after
    ensures var head := Strip(lines[0]); |head| >= 10 && StripStr(Strip(head[10..])) == img.url
  {
    assert lines[0] == "```{image} " + img.url;
    FenceOpenLine(img.url);
    StripStrClean(img.url);
  }

  lemma FencedHitAlt(img: Image, after: seq<String>, lines: seq<String>)
    requires Plain(img) && lines == FencedBlock(img) + after
    ensures StripStr(AltOf(lines[1..2])) == img.alt
  {
    assert lines[1] == ":alt: " + img.alt;
    assert Repeat(' ', 0) + ":alt: " + img.alt == ":alt: " + img.alt;
    AltFirstLine(0, img.alt, lines[1..2]);
    StripStrClean(img.alt);
  }

  /** Replacing the first element of a list by an equal one. */
  lemma ImageCons(u: String, a: String, img: Image, xs: DocImages, ys: DocImages, r: DocImages)
    requires u == img.url && a == img.alt && xs == ys && r == [Image(u, a)] + xs
    ensures r == [img] + ys
  {
  }

  lemma FencedStep(img: Image, after: seq<String>, lines: seq<String>)
    requires Plain(img) && lines == FencedBlock(img) + after
    ensures FencedFrom(lines) == [img] + FencedFrom(after)
  {
    assert lines[0] == "```{image} " + img.url;
    FenceOpenLine(img.url);
    FenceCloseBlock(img, after);
    FencedFromHit(lines, 10, 2);
    FencedHitUrl(img, after, lines);
    FencedHitAlt(img, after, lines);
    assert lines[3..] == after;
    ImageCons(StripStr(Strip(Strip(lines[0])[10..])), StripStr(AltOf(lines[1..2])), img,
      FencedFrom(lines[3..]), FencedFrom(after), FencedFrom(lines));
  }

  lemma FencedFromHit(lines: seq<String>, n: nat, c: nat)
    requires |lines| > 1
    requires FenceOpener(Strip(lines[0])) == Some(n) && FenceClose(lines, 1) == Some(c)
    ensures FencedFrom(lines) ==
      [Image(StripStr(Strip(Strip(lines[0])[n..])), StripStr(AltOf(lines[1..c])))] + FencedFrom(lines[c + 1..])
  {
  }

  lemma {:induction false} FencedFromLines(imgs: DocImages, rest: seq<String>)
    requires AllPlain(imgs)
    ensures FencedFrom(FencedLines(imgs) + rest) == imgs + FencedFrom(rest)
    decreases |imgs|
  {
    if imgs == [] {
      assert FencedLines(imgs) + rest == rest;
    } else {
      var after := FencedLines(imgs[1..]) + rest;
      assert FencedLines(imgs) + rest == FencedBlock(imgs[0]) + after;
      FencedStep(imgs[0], after, FencedLines(imgs) + rest);
      FencedFromLines(imgs[1..], rest);
      ConsThen(imgs, FencedFrom(rest), FencedFrom(FencedLines(imgs) + rest), FencedFrom(after));
    }
  }

  /** MyST image blocks written in sequence are read back in order. */
  lemma FencedRoundTrip(imgs: DocImages)
    requires AllPlain(imgs)
    ensures FencedImages(Unlines(FencedLines(imgs))) == imgs
  {
    FencedLinesNoBreak(imgs);
    SplitUnlines(FencedLines(imgs));
    FencedFromLines(imgs, [[]]);
  }

  lemma {:induction false} FencedLinesNoBreak(imgs: DocImages)
    requires AllPlain(imgs)
    ensures forall k :: 0 <= k < |FencedLines(imgs)| ==> '\n' !in FencedLines(imgs)[k]
    decreases |imgs|
  {
    if imgs != [] {
      FencedLinesNoBreak(imgs[1..]);
    }
  }

  lemma RstOpenLine(url: String)
    requires Clean(url) && url != []
    ensures RstOpener(Strip(".. image:: " + url)) == Some(url)
  {
    var open := ".. image:: " + url;
    assert open[0] == '.';
    assert open[|open| - 1] == url[|url| - 1];
    StripOfStripped(open);
    assert StartsWith(open, ".. image::");
    assert open[10..] == Repeat(' ', 1) + url;
    StripIndented(1, url);
  }

  lemma OptionLineOf(l: String, t: String)
    requires |l| > 0 && IsSpace(l[0]) && t == Strip(l) && StartsWith(t, ":alt:")
    ensures IsOptionLine(l)
  {
    assert t[1..][3] == ':';
  }

  lemma RstAltLine(alt: String)
    requires Clean(alt)
    ensures IsOptionLine("   :alt: " + alt)
    ensures RstOpener(Strip("   :alt: " + alt)) == None
  {
    var opt := "   :alt: " + alt;
    assert opt == Repeat(' ', 3) + ":alt: " + alt;
    AltTagLine(3, alt);
    assert opt[0] == ' ';
    OptionLineOf(opt, Strip(opt));
    NotRstOpener(Strip(opt));
  }

  lemma NotRstOpener(t: String)
    requires StartsWith(t, ":alt:")
    ensures RstOpener(t) == None
  {
    assert t[0] == ':';
  }

  lemma RstFromHit(lines: seq<String>, url: String)
    requires |lines| > 1 && RstOpener(Strip(lines[0])) == Some(url)
    ensures RstFrom(lines) ==
      [Image(StripStr(url), StripStr(AltOf(lines[1..OptionEnd(lines, 1)])))] + RstFrom(lines[1..])
  {
  }

  lemma RstFromMiss(lines: seq<String>, rest: seq<String>)
    requires |lines| > 1 && RstOpener(Strip(lines[0])) == None && rest == lines[1..]
    ensures RstFrom(lines) == RstFrom(rest)
  {
  }

  lemma OptionEndPast(lines: seq<String>)
    requires |lines| > 2 && IsOptionLine(lines[1])
    ensures OptionEnd(lines, 1) >= 2
  {
  }

  lemma AltFromSlice(lines: seq<String>, e: nat, alt: String)
    requires 2 <= e <= |lines| && Clean(alt)
    requires lines[1] == "   :alt: " + alt
    ensures AltOf(lines[1..e]) == alt
  {
    assert lines[1] == Repeat(' ', 3) + ":alt: " + alt;
    AltFirstLine(3, alt, lines[1..e]);
  }

  lemma RstHitValues(img: Image, after: seq<String>, lines: seq<String>)
    requires Plain(img) && after != [] && lines == RstBlock(img) + after
    ensures OptionEnd(lines, 1) >= 2
    ensures StripStr(img.url) == img.url
    ensures StripStr(AltOf(lines[1..OptionEnd(lines, 1)])) == img.alt
  {
    assert lines[1] == "   :alt: " + img.alt;
    RstAltLine(img.alt);
    OptionEndPast(lines);
    AltFromSlice(lines, OptionEnd(lines, 1), img.alt);
    StripStrClean(img.url);
    StripStrClean(img.alt);
  }

  lemma RstSkipOptions(img: Image, after: seq<String>, lines: seq<String>)
    requires Plain(img) && after != [] && lines == RstBlock(img) + after
    ensures RstFrom(lines[1..]) == RstFrom(after)
  {
    assert lines[1] == "   :alt: " + img.alt && lines[2] == [];
    RstAltLine(img.alt);
    RstFromMiss(lines[1..], lines[2..]);
    assert Strip(lines[2]) == [];
    RstFromMiss(lines[2..], after);
  }

  lemma RstStep(img: Image, after: seq<String>, lines: seq<String>)
    requires Plain(img) && after != [] && lines == RstBlock(img) + after
    ensures RstFrom(lines) == [img] + RstFrom(after)
  {
    var opt := "   :alt: " + img.alt;
    assert lines[0] == ".. image:: " + img.url && lines[1] == opt && lines[2] == [];
    RstOpenLine(img.url);
    RstAltLine(img.alt);
    RstFromHit(lines, img.url);
    RstHitValues(img, after, lines);
    RstSkipOptions(img, after, lines);
    ImageCons(StripStr(img.url), StripStr(AltOf(lines[1..OptionEnd(lines, 1)])), img,
      RstFrom(lines[1..]), RstFrom(after), RstFrom(lines));
  }

  lemma {:induction false} RstFromLines(imgs: DocImages, rest: seq<String>)
    requires AllPlain(imgs) && rest != []
    ensures RstFrom(RstLines(imgs) + rest) == imgs + RstFrom(rest)
    decreases |imgs|
  {
    if imgs == [] {
      assert RstLines(imgs) + rest == rest;
    } else {
      RstFromLines(imgs[1..], rest);
      RstFromCons(imgs, rest);
    }
  }

  /** The inductive step of `RstFromLines`. */
  lemma RstFromCons(imgs: DocImages, rest: seq<String>)
    requires AllPlain(imgs) && imgs != [] && rest != []
    requires RstFrom(RstLines(imgs[1..]) + rest) == imgs[1..] + RstFrom(rest)
    ensures RstFrom(RstLines(imgs) + rest) == imgs + RstFrom(rest)
  {
    RstFromHead(imgs, rest);
    ConsThen(imgs, RstFrom(rest), RstFrom(RstLines(imgs) + rest), RstFrom(RstLines(imgs[1..]) + rest));
  }

  lemma RstFromHead(imgs: DocImages, rest: seq<String>)
    requires AllPlain(imgs) && imgs != [] && rest != []
    ensures RstFrom(RstLines(imgs) + rest) == [imgs[0]] + RstFrom(RstLines(imgs[1..]) + rest)
  {
    var after := RstLines(imgs[1..]) + rest;
    Assoc3(RstBlock(imgs[0]), RstLines(imgs[1..]), rest);
    RstStep(imgs[0], after, RstLines(imgs) + rest);
  }

  lemma {:induction false} RstLinesNoBreak(imgs: DocImages)
    requires AllPlain(imgs)
    ensures forall k :: 0 <= k < |RstLines(imgs)| ==> '\n' !in RstLines(imgs)[k]
    decreases |imgs|
  {
    if imgs != [] {
      RstLinesNoBreak(imgs[1..]);
    }
  }

  /** reStructuredText image directives with non-empty alt texts, written in
      sequence, are read back in order. */
  lemma RstRoundTrip(imgs: DocImages)
    requires AllPlain(imgs)
    requires forall k :: 0 <= k < |imgs| ==> imgs[k].alt != []
    ensures ParseRstImages(Unlines(RstLines(imgs))) == imgs
  {
    RstLinesNoBreak(imgs);
    SplitUnlines(RstLines(imgs));
    RstFromLines(imgs, [[]]);
  }

  // ---------------------------------------------------------------------------
  // A block without an `:alt:` option still yields an entry, with alt `""`.

  /** Option lines none of which is an `:alt:` option give the empty alt. */
  lemma {:induction false} AltMissing(options: seq<String>)
    requires forall k :: 0 <= k < |options| ==> !StartsWith(Strip(options[k]), ":alt:")
    ensures AltOf(options) == []
    decreases |options|
  {
    if options != [] {
      assert !StartsWith(Strip(options[0]), ":alt:");
      AltMissing(options[1..]);
    }
  }

  lemma StripStrEmpty()
    ensures StripStr([]) == []
  {
    var r := StripStr([]);
    assert |r| <= 0;
  }

  /** A MyST image block made of the opening and closing fences only. */
  lemma FencedNoAlt(url: String, after: seq<String>, lines: seq<String>)
    requires Clean(url) && url != [] && lines == ["```{image} " + url, "```"] + after
    ensures FencedFrom(lines) == [Image(url, [])] + FencedFrom(after)
  {
    assert |lines| >= 2 && lines[0] == "```{image} " + url && lines[1] == "```" && lines[2..] == after;
    FencedBareHit(url, after, lines);
  }

  lemma FencedBareHit(url: String, after: seq<String>, lines: seq<String>)
    requires Clean(url) && url != []
    requires |lines| >= 2 && lines[0] == "```{image} " + url && lines[1] == "```" && lines[2..] == after
    ensures FencedFrom(lines) == [Image(url, [])] + FencedFrom(after)
  {
    FenceOpenLine(url);
    FenceCloseBare(lines);
    FencedFromHit(lines, 10, 1);
    AltNone(lines, 1);
    StripStrClean(url);
    ImageCons(StripStr(Strip(Strip(lines[0])[10..])), StripStr(AltOf(lines[1..1])), Image(url, []),
      FencedFrom(lines[2..]), FencedFrom(after), FencedFrom(lines));
  }

  lemma FenceCloseBare(lines: seq<String>)
    requires |lines| >= 2 && lines[1] == "```"
    ensures FenceClose(lines, 1) == Some(1)
  {
    assert StartsWith(lines[1], "```");
  }

  /** An empty option block gives the empty alt. */
  lemma AltNone(lines: seq<String>, n: nat)
    requires n <= |lines|
    ensures StripStr(AltOf(lines[n..n])) == []
  {
    assert lines[n..n] == [];
    StripStrEmpty();
  }

  /** A reStructuredText image directive followed by a blank line and then a
      non-blank line that does not start with a colon yields the url with an empty
      alt text. */
  lemma RstNoAlt(url: String, after: seq<String>, lines: seq<String>)
    requires Clean(url) && url != []
    requires after != [] && Strip(after[0]) != [] && !StartsWith(Strip(after[0]), ":")
    requires lines == [".. image:: " + url, ""] + after
    ensures RstFrom(lines) == [Image(url, [])] + RstFrom(after)
  {
    assert !IsOptionLine(after[0]);
    assert |lines| >= 3 && lines[0] == ".. image:: " + url && lines[1] == [] && lines[2..] == after;
    RstBareHit(url, after, lines);
  }

  lemma RstBareHit(url: String, after: seq<String>, lines: seq<String>)
    requires Clean(url) && url != []
    requires after != [] && Strip(after[0]) != [] && !IsOptionLine(after[0])
    requires |lines| >= 3 && lines[0] == ".. image:: " + url && lines[1] == [] && lines[2..] == after
    ensures RstFrom(lines) == [Image(url, [])] + RstFrom(after)
  {
    RstOpenLine(url);
    RstFromHit(lines, url);
    BlankOptionBlock(lines, after);
    StripStrClean(url);
    RstFromMiss(lines[1..], lines[2..]);
    ImageCons(StripStr(url), StripStr(AltOf(lines[1..OptionEnd(lines, 1)])), Image(url, []),
      RstFrom(lines[1..]), RstFrom(after), RstFrom(lines));
  }

  /** A blank line followed by a line that ends the options is an option block
      without `:alt:`. */
  lemma BlankOptionBlock(lines: seq<String>, after: seq<String>)
    requires after != [] && Strip(after[0]) != [] && !IsOptionLine(after[0])
    requires |lines| >= 3 && lines[1] == [] && lines[2..] == after
    ensures OptionEnd(lines, 1) == 2
    ensures StripStr(AltOf(lines[1..2])) == []
  {
    assert lines[2] == after[0];
    BlankThenEnd(lines);
    BlankAlt(lines);
  }

  lemma BlankThenEnd(lines: seq<String>)
    requires |lines| >= 3 && lines[1] == [] && Strip(lines[2]) != [] && !IsOptionLine(lines[2])
    ensures OptionEnd(lines, 1) == 2
  {
    assert Strip(lines[1]) == [];
    assert OptionEnd(lines, 2) == 2;
  }

  lemma BlankAlt(lines: seq<String>)
    requires |lines| >= 2 && lines[1] == []
    ensures StripStr(AltOf(lines[1..2])) == []
  {
    var o := lines[1..2];
    assert o == [[]];
    assert Strip(o[0]) == [];
    AltMissing(o);
    StripStrEmpty();
  }

  // ---------------------------------------------------------------------------
  // The two Markdown syntaxes are collected separately.

  predicate NoBang(img: Image)
  {
    '!' !in img.url && '!' !in img.alt
  }

  lemma {:induction false} FencedLinesNoBang(imgs: DocImages)
    requires forall k :: 0 <= k < |imgs| ==> NoBang(imgs[k])
    ensures '!' !in Unlines(FencedLines(imgs))
    decreases |imgs|
  {
    if imgs != [] {
      FencedLinesNoBang(imgs[1..]);
      UnlinesAppend(FencedBlock(imgs[0]), FencedLines(imgs[1..]));
      FencedBlockNoBang(imgs[0]);
    }
  }

  lemma FencedBlockNoBang(img: Image)
    requires NoBang(img)
    ensures '!' !in Unlines(FencedBlock(img))
  {
    var b := FencedBlock(img);
    assert b[1..][1..][1..] == [];
    assert Unlines(b[1..][1..]) == b[2] + "\n";
    assert Unlines(b[1..]) == b[1] + "\n" + Unlines(b[1..][1..]);
    assert Unlines(b) == b[0] + "\n" + Unlines(b[1..]);
  }

  lemma {:induction false} InlineLinesNoBreak(imgs: DocImages)
    requires AllPlain(imgs)
    ensures forall k :: 0 <= k < |InlineLines(imgs)| ==> '\n' !in InlineLines(imgs)[k]
    decreases |imgs|
  {
    if imgs != [] {
      InlineLinesNoBreak(imgs[1..]);
    }
  }

  lemma FencedFromMiss(lines: seq<String>, rest: seq<String>)
    requires |lines| > 1 && FenceOpener(Strip(lines[0])).None? && rest == lines[1..]
    ensures FencedFrom(lines) == FencedFrom(rest)
  {
  }

  lemma InlineLineNoFence(img: Image)
    requires Plain(img)
    ensures FenceOpener(Strip(InlineLine(img))).None?
  {
    var l := InlineLine(img);
    assert l[0] == '!' && l[|l| - 1] == ')';
    StripOfStripped(l);
  }

  lemma {:induction false} FencedFromInline(imgs: DocImages, rest: seq<String>)
    requires AllPlain(imgs) && rest != []
    ensures FencedFrom(InlineLines(imgs) + rest) == FencedFrom(rest)
    decreases |imgs|
  {
    if imgs == [] {
      assert InlineLines(imgs) + rest == rest;
    } else {
      FencedFromInline(imgs[1..], rest);
      FencedFromInlineCons(imgs, rest);
    }
  }

  /** The inductive step of `FencedFromInline`: a conventional image line is skipped. */
  lemma FencedFromInlineCons(imgs: DocImages, rest: seq<String>)
    requires AllPlain(imgs) && imgs != [] && rest != []
    ensures FencedFrom(InlineLines(imgs) + rest) == FencedFrom(InlineLines(imgs[1..]) + rest)
  {
    var lines := InlineLines(imgs) + rest;
    assert lines[0] == InlineLine(imgs[0]);
    assert lines[1..] == InlineLines(imgs[1..]) + rest;
    InlineLineNoFence(imgs[0]);
    FencedFromMiss(lines, InlineLines(imgs[1..]) + rest);
  }

  lemma MdInlinePart(blocks: DocImages, inline: DocImages)
    requires AllPlain(inline)
    requires forall k :: 0 <= k < |blocks| ==> NoBang(blocks[k])
    ensures InlineImages(Unlines(FencedLines(blocks)) + Unlines(InlineLines(inline))) == inline
  {
    FencedLinesNoBang(blocks);
    InlineImagesSkip(Unlines(FencedLines(blocks)), Unlines(InlineLines(inline)));
    InlineRoundTrip(inline);
  }

  lemma MdFencedPart(blocks: DocImages, inline: DocImages)
    requires AllPlain(blocks) && AllPlain(inline)
    ensures FencedImages(Unlines(FencedLines(blocks)) + Unlines(InlineLines(inline))) == blocks
  {
    var fl, il := FencedLines(blocks), InlineLines(inline);
    UnlinesAppend(fl, il);
    FencedLinesNoBreak(blocks);
    InlineLinesNoBreak(inline);
    SplitUnlines(fl + il);
    assert fl + il + [[]] == fl + (il + [[]]);
    FencedFromLines(blocks, il + [[]]);
    FencedFromInline(inline, [[]]);
    assert blocks + [] == blocks;
  }

  /** `parse_md_images` lists the conventional images before the MyST blocks even
      when the blocks come first in the text. */
  lemma MdKindsNotInterleaved(blocks: DocImages, inline: DocImages)
    requires AllPlain(blocks) && AllPlain(inline)
    requires forall k :: 0 <= k < |blocks| ==> NoBang(blocks[k])
    ensures ParseMdImages(Unlines(FencedLines(blocks)) + Unlines(InlineLines(inline))) == inline + blocks
  {
    MdInlinePart(blocks, inline);
    MdFencedPart(blocks, inline);
  }
  /** Conventional images written first and MyST blocks after them are read back
      by `parse_md_images` as exactly the images that were written, in that order. */
  lemma MdRoundTrip(inline: DocImages, blocks: DocImages)
    requires AllPlain(inline) && AllPlain(blocks)
    requires forall k :: 0 <= k < |blocks| ==> NoBang(blocks[k])
    ensures ParseMdImages(Unlines(InlineLines(inline)) + Unlines(FencedLines(blocks))) == inline + blocks
  {
    MdRoundTripInline(inline, blocks);
    MdRoundTripFenced(inline, blocks);
  }

  lemma MdRoundTripInline(inline: DocImages, blocks: DocImages)
    requires AllPlain(inline)
    requires forall k :: 0 <= k < |blocks| ==> NoBang(blocks[k])
    ensures InlineImages(Unlines(InlineLines(inline)) + Unlines(FencedLines(blocks))) == inline
  {
    var f := Unlines(FencedLines(blocks));
    InlineImagesLines(inline, f);
    FencedLinesNoBang(blocks);
    InlineImagesSkip(f, []);
    assert f + [] == f;
    assert InlineImages([]) == [];
    assert inline + [] == inline;
  }

  lemma MdRoundTripFenced(inline: DocImages, blocks: DocImages)
    requires AllPlain(inline) && AllPlain(blocks)
    ensures FencedImages(Unlines(InlineLines(inline)) + Unlines(FencedLines(blocks))) == blocks
  {
    var il, fl := InlineLines(inline), FencedLines(blocks);
    UnlinesAppend(il, fl);
    InlineLinesNoBreak(inline);
    FencedLinesNoBreak(blocks);
    SplitUnlines(il + fl);
    assert il + fl + [[]] == il + (fl + [[]]);
    FencedFromInline(inline, fl + [[]]);
    FencedFromLines(blocks, [[]]);
    assert blocks + [] == blocks;
  }
}

=== FILE: naming.dfy ===
/** How the gallery names its output: number prefixes dropped from folders and
    file names, lower-cased cross-reference targets, the example file type, the
    output paths of examples and section index files, thumbnail links, and the
    create-then-append writing of index files. */
module Naming {
  import opened Wrappers
  import opened Text
  import opened Paths

  // ---------------------------------------------------------------------------
  // Number prefixes

  /** `r` is `s` with a leading run of digits removed, together with the `-` after
      it when there is one. */
  predicate DroppedNumPrefix(s: String, r: String)
  {
    |r| <= |s| && s[|s| - |r|..] == r &&
    var p := s[..|s| - |r|];
    (r == [] && IsDigits(p)) || (|p| >= 2 && p[|p| - 1] == '-' && IsDigits(p[..|p| - 1]))
  }

  /** The first `c`-separated piece of `s`, and what `c.join` makes of the rest. */
  lemma SplitHead(s: String, c: char)
    ensures var i := FindChar(s, c);
      Split(s, c)[0] == s[..i] &&
      (i == |s| ==> Split(s, c) == [s]) &&
      (i < |s| ==> Join(Split(s, c)[1..], [c]) == s[i + 1..])
  {
    var i := FindChar(s, c);
    if i < |s| {
      JoinSplit(s[i + 1..], c);
      assert Split(s, c)[1..] == Split(s[i + 1..], c);
    }
  }

  /** The name part of `remove_num_prefix`: `s` loses its first `-`-separated piece
      when that piece is all digits. */
  function WithoutNumPrefix(s: String): (r: String)
    ensures r == s || DroppedNumPrefix(s, r)
  {
    var parts := Split(s, '-');
    SplitHead(s, '-');
    if IsDigits(parts[0]) then
      var r := Join(parts[1..], "-");
      var i := FindChar(s, '-');
      assert r == s[|s| - |r|..];
      r
    else s
  }

  lemma DigitsLack(d: String, c: char)
    requires IsDigits(d) && !IsAsciiDigit(c)
    ensures c !in d
  {
    forall i | 0 <= i < |d|
      ensures d[i] != c
    {
    }
  }

  /** A leading run of digits and its dash are removed, and only those. */
  lemma NumPrefixDropped(d: String, rest: String)
    requires IsDigits(d)
    ensures WithoutNumPrefix(d + "-" + rest) == rest
  {
    DigitsLack(d, '-');
    SplitCons(d, rest, '-');
    JoinSplit(rest, '-');
    assert Split(d + "-" + rest, '-')[1..] == Split(rest, '-');
  }

  /** A name made of digits only is emptied. */
  lemma DigitsOnlyEmptied(d: String)
    requires IsDigits(d)
    ensures WithoutNumPrefix(d) == []
  {
    DigitsLack(d, '-');
    FindCharAfter(d, [], '-');
    assert d + [] == d;
  }

  /** A name that does not start with a digit is kept. */
  lemma NoLeadingDigitKept(s: String)
    requires s == [] || !IsAsciiDigit(s[0])
    ensures WithoutNumPrefix(s) == s
  {
    SplitHead(s, '-');
    var head := Split(s, '-')[0];
    if head != [] {
      assert head[0] == s[0];
    }
  }

  /** `remove_num_prefix(file)`: the parent folder's stem and the file name, each
      without its number prefix. */
  function RemoveNumPrefix(file: Path): (r: (String, String))
    ensures var folder := Stem(Name(Parent(file)));
      r.0 == folder || DroppedNumPrefix(folder, r.0)
    ensures r.1 == Name(file) || DroppedNumPrefix(Name(file), r.1)
  {
    (WithoutNumPrefix(Stem(Name(Parent(file)))), WithoutNumPrefix(Name(file)))
  }

  /** `p / name`: an empty name leaves the path as it is. */
  function JoinPath(p: Path, name: String): (r: Path)
    ensures name != [] ==> Parent(r) == p && Name(r) == name
  {
    if name == [] then p else Child(p, name)
  }

  // ---------------------------------------------------------------------------
  // Cross-reference targets

  predicate NoUpper(s: String)
  {
    forall i :: 0 <= i < |s| ==> !('A' <= s[i] <= 'Z')
  }

  /** `ExampleConverter.target_ref`: the lower-cased prefix and gallery file stem. */
  function TargetRef(prefix: String, galleryFile: Path): (r: String)
    ensures |r| == |prefix| + |Stem(Name(galleryFile))|
    ensures NoUpper(r)
    ensures forall i :: 0 <= i < |r| ==> r[i] == LowerChar((prefix + Stem(Name(galleryFile)))[i])
  {
    Lower(prefix + Stem(Name(galleryFile)))
  }

  /** Lower-casing a target again changes nothing. */
  lemma TargetRefFolded(prefix: String, galleryFile: Path)
    ensures Lower(TargetRef(prefix, galleryFile)) == TargetRef(prefix, galleryFile)
  {
    var r := TargetRef(prefix, galleryFile);
    assert forall i :: 0 <= i < |r| ==> Lower(r)[i] == r[i];
  }

  /** Gallery files whose stems differ only in letter case share one target. */
  lemma TargetRefCaseBlind(prefix: String, a: Path, b: Path)
    requires Lower(Stem(Name(a))) == Lower(Stem(Name(b)))
    ensures TargetRef(prefix, a) == TargetRef(prefix, b)
  {
    LowerAppend(prefix, Stem(Name(a)));
    LowerAppend(prefix, Stem(Name(b)));
  }

  lemma LowerAppend(a: String, b: String)
    ensures Lower(a + b) == Lower(a) + Lower(b)
  {
    var x := Lower(a + b);
    var y := Lower(a) + Lower(b);
    forall i | 0 <= i < |x|
      ensures x[i] == y[i]
    {
      if i < |a| {
        assert (a + b)[i] == a[i];
      } else {
        assert (a + b)[i] == b[i - |a|];
      }
    }
  }

  datatype FileType = Notebook | Markdown | Rst

  /** The suffix of each kind of example file. */
  function Extension(t: FileType): String
  {
    match t
    case Notebook => ".ipynb"
    case Markdown => ".md"
    case Rst => ".rst"
  }

  /** `ExampleConverter._parse_example_type`: the file type from the suffix. */
  function ParseExampleType(name: String): (r: Result<FileType>)
    ensures r.Ok? <==> Suffix(name) == ".ipynb" || Suffix(name) == ".md" || Suffix(name) == ".rst"
    ensures r.Ok? ==> Extension(r.value) == Suffix(name)
    ensures r.Err? ==> r.error == ValueError
  {
    var suffix := Suffix(name);
    if suffix == ".ipynb" then Ok(Notebook)
    else if suffix == ".md" then Ok(Markdown)
    else if suffix == ".rst" then Ok(Rst)
    else Err(ValueError)
  }

  lemma ExtensionShape(t: FileType)
    ensures var e := Extension(t); |e| >= 2 && e[0] == '.' && '.' !in e[1..]
  {
  }

  /** The suffix of `stem + ext` is `ext` when the stem is not empty. */
  lemma SuffixOfAppend(stem: String, ext: String)
    requires stem != [] && |ext| >= 2 && ext[0] == '.' && '.' !in ext[1..]
    ensures Suffix(stem + ext) == ext
  {
    var s := stem + ext;
    var k := |stem|;
    assert s[k] == '.';
    assert s[k] in s;
    forall i | k < i < |s|
      ensures s[i] != '.'
    {
      assert s[i] == ext[1..][i - k - 1];
    }
    var li := LastIndexOf(s, '.');
    assert li == Some(k);
  }

  /** A name with a non-empty stem and one of the three suffixes has that type. */
  lemma ExampleTypeOfName(stem: String, t: FileType)
    requires stem != []
    ensures ParseExampleType(stem + Extension(t)) == Ok(t)
  {
    ExtensionShape(t);
    SuffixOfAppend(stem, Extension(t));
  }

  /** `ExampleConverter.target_str`: a MyST label for notebooks and Markdown, an RST
      label for RST. */
  function TargetStr(t: FileType, ref: String): String
  {
    if t == Notebook || t == Markdown then "(" + ref + ")=" else ".. _" + ref + ":"
  }

  /** The label a line declares, in MyST (`(ref)=`) or RST (`.. _ref:`) form. */
  function LabelOf(line: String): (r: Option<String>)
    ensures r.Some? ==> |r.value| < |line|
  {
    if |line| >= 3 && line[0] == '(' && line[|line| - 2..] == ")=" then Some(line[1..|line| - 2])
    else if |line| >= 5 && line[..4] == ".. _" && line[|line| - 1] == ':' then Some(line[4..|line| - 1])
    else None
  }

  /** The target line of an example declares exactly its target reference. */
  lemma TargetStrLabel(t: FileType, ref: String)
    ensures LabelOf(TargetStr(t, ref)) == Some(ref)
  {
    var s := TargetStr(t, ref);
    if t == Rst {
      assert s[..4] == ".. _";
      assert s[4..|s| - 1] == ref;
    } else {
      assert s[|s| - 2..] == ")=";
      assert s[1..|s| - 2] == ref;
    }
  }

  /** `target_str` of `GalleryGenerator` and `SectionGenerator`: an RST label named
      after the folder of the index file. */
  function HeaderTargetRef(prefix: String, indexFile: Path): (r: String)
    ensures NoUpper(r)
  {
    Lower(prefix + Stem(Name(Parent(indexFile))) + "_header")
  }

  function HeaderTargetStr(prefix: String, indexFile: Path): String
  {
    ".. _" + HeaderTargetRef(prefix, indexFile) + ":"
  }

  /** The header target line declares the header reference, in RST form. */
  lemma HeaderTargetLabel(prefix: String, indexFile: Path)
    ensures LabelOf(HeaderTargetStr(prefix, indexFile)) == Some(HeaderTargetRef(prefix, indexFile))
    ensures HeaderTargetStr(prefix, indexFile) == TargetStr(Rst, HeaderTargetRef(prefix, indexFile))
  {
    TargetStrLabel(Rst, HeaderTargetRef(prefix, indexFile));
  }

  // ---------------------------------------------------------------------------
  // Output paths

  const ThumbsDirName: String := "myst_sphinx_gallery_thumbs"
  const NoImageName: String := "no_image.webp"
  const IndexName: String := "index.rst"

  /** `ExampleConverter.thumb_dir`. */
  function ThumbDir(galleryDir: Path): Path
  {
    Child(galleryDir, ThumbsDirName)
  }

  /** `ExampleConverter.no_image_thumb`. */
  function NoImageThumb(galleryDir: Path): Path
  {
    Child(ThumbDir(galleryDir), NoImageName)
  }

  /** `ExampleConverter.thumb_file_rel`: the link of a thumbnail, rooted at the
      gallery folder. A file outside the gallery folder raises ValueError; the
      gallery folder itself is the relative path `.`. */
  function ThumbFileRel(galleryDir: Path, thumbFile: Path): (r: Result<String>)
    ensures r.Ok? <==> RelativeTo(thumbFile, galleryDir).Some?
    ensures r.Err? ==> r.error == ValueError
    ensures thumbFile == galleryDir ==> r == Ok("/" + Stem(Name(galleryDir)) + "/" + ".")
  {
    match RelativeTo(thumbFile, galleryDir)
    case None => Err(ValueError)
    case Some(rel) =>
      var posix := if rel == [] then "." else Join(rel, "/");
      Ok("/" + Stem(Name(galleryDir)) + "/" + posix)
  }

  /** Read back at its slashes, a thumbnail link names the gallery folder and then
      the thumbnail's path below it. */
  lemma ThumbFileRelParts(galleryDir: Path, rel: seq<String>)
    requires rel != []
    requires '/' !in Stem(Name(galleryDir))
    requires forall k :: 0 <= k < |rel| ==> '/' !in rel[k]
    ensures ThumbFileRel(galleryDir, Below(galleryDir, rel)).Ok?
    ensures Split(ThumbFileRel(galleryDir, Below(galleryDir, rel)).value, '/') ==
      [[], Stem(Name(galleryDir))] + rel
  {
    var g := galleryDir;
    var p := Below(g, rel);
    assert p.parts[..|g.parts|] == g.parts;
    assert RelativeTo(p, g) == Some(rel);
    var stem := Stem(Name(g));
    var j := Join(rel, "/");
    var t := stem + ['/'] + j;
    assert Split(t, '/') == [stem] + rel by { SplitCons(stem, j, '/'); SplitJoin(rel, '/'); }
    assert Split([] + ['/'] + t, '/') == [[]] + Split(t, '/') by { SplitCons([], t, '/'); }
    SlashLayout(stem, j);
    Cons3<String>([], stem, [], rel);
  }

  lemma SlashLayout(stem: String, j: String)
    ensures "/" + stem + "/" + j == [] + ['/'] + (stem + ['/'] + j)
  {
    var n: String := ['/'];
    assert "/" == n;
    Assoc3(n + stem, n, j);
    Assoc3(n, stem, n + j);
  }

  /** The link of a thumbnail saved in the thumbnail folder. */
  lemma ThumbLink(galleryDir: Path, name: String)
    ensures ThumbFileRel(galleryDir, Child(ThumbDir(galleryDir), name)) ==
      Ok("/" + Stem(Name(galleryDir)) + "/" + ThumbsDirName + "/" + name)
  {
    var g := galleryDir;
    var p := Child(ThumbDir(g), name);
    assert p == Below(g, [ThumbsDirName, name]);
    RelativeToBelow(g, [ThumbsDirName, name]);
    var a := "/" + Stem(Name(g)) + "/";
    assert Join([ThumbsDirName, name], "/") == ThumbsDirName + "/" + name;
    assert a + (ThumbsDirName + "/" + name) == a + ThumbsDirName + "/" + name;
  }

  /** A folder present when `_parse_paths` runs: one of `folders`, or the gallery
      folder or one of its ancestors, which the converter has just created. */
  predicate FolderPresent(folders: set<Path>, galleryDir: Path, p: Path)
  {
    p in folders || RelativeTo(galleryDir, p).Some?
  }

  /** `ExampleConverter._parse_paths`: the output file of an example and its path
      relative to the examples folder. The example must sit exactly one folder
      below the examples folder. `samefile` reads both folders from the file
      system: a grandparent that is not present raises FileNotFoundError, another
      folder than the gallery folder raises ValueError. `folders` are the folders
      present in the output tree. */
  function ParsePaths(exampleFile: Path, examplesDir: Path, galleryDir: Path, folders: set<Path>)
    : (r: Result<(Path, seq<String>)>)
    ensures r.Ok? ==> Below(examplesDir, r.value.1) == exampleFile
    ensures r.Ok? ==> Parent(Parent(Below(galleryDir, r.value.1))) == galleryDir
    ensures r.Err? ==> r.error == ValueError || r.error == FileNotFoundError
    ensures r == Err(FileNotFoundError) <==>
      (RelativeTo(exampleFile, examplesDir).Some? &&
       !FolderPresent(folders, galleryDir, Parent(Parent(Below(galleryDir, RelativeTo(exampleFile, examplesDir).value)))))
  {
    match RelativeTo(exampleFile, examplesDir)
    case None => Err(ValueError)
    case Some(rel) =>
      var galleryFile := Below(galleryDir, rel);
      if !FolderPresent(folders, galleryDir, Parent(Parent(galleryFile))) then Err(FileNotFoundError)
      else if Parent(Parent(galleryFile)) != galleryDir then Err(ValueError)
      else
        var (folder, name) := RemoveNumPrefix(galleryFile);
        Ok((JoinPath(JoinPath(galleryDir, folder), name), rel))
  }

  /** Below a folder other than `/`, an example is accepted exactly when it is two
      levels below the examples folder. */
  lemma ParsePathsLevels(exampleFile: Path, examplesDir: Path, galleryDir: Path, folders: set<Path>)
    requires RelativeTo(exampleFile, examplesDir).Some?
    requires galleryDir.parts != []
    ensures ParsePaths(exampleFile, examplesDir, galleryDir, folders).Ok? <==>
      |RelativeTo(exampleFile, examplesDir).value| == 2
  {
    var rel := RelativeTo(exampleFile, examplesDir).value;
    var g := galleryDir;
    var f := Below(g, rel);
    if |rel| == 2 {
      assert Parent(f).parts == g.parts + [rel[0]];
      assert Parent(Parent(f)).parts == g.parts;
    } else if |rel| == 0 {
      assert f == g;
      assert |Parent(Parent(f)).parts| < |g.parts|;
    } else if |rel| == 1 {
      assert Parent(f).parts == g.parts;
      assert |Parent(Parent(f)).parts| < |g.parts|;
    } else {
      assert |Parent(Parent(f)).parts| == |g.parts| + |rel| - 2;
    }
  }

  lemma TwoBelow(g: Path, a: String, b: String)
    ensures Parent(Below(g, [a, b])) == Child(g, a)
    ensures Parent(Parent(Below(g, [a, b]))) == g
    ensures Name(Below(g, [a, b])) == b
  {
    assert Below(g, [a, b]).parts[..|g.parts| + 1] == g.parts + [a];
  }

  lemma StemNoDot(s: String)
    requires '.' !in s
    ensures Stem(s) == s
  {
  }

  lemma NumberedNoDot(d: String, folder: String)
    requires IsDigits(d) && '.' !in folder
    ensures '.' !in d + "-" + folder
  {
    DigitsLack(d, '.');
  }

  /** Numbered folders and files lose their numbers in the gallery:
      `01-basic/02-plot.md` becomes `basic/plot.md`. */
  lemma ParsePathsDropsNumbers(examplesDir: Path, galleryDir: Path, folders: set<Path>,
                               d1: String, folder: String, d2: String, name: String)
    requires IsDigits(d1) && IsDigits(d2)
    requires folder != [] && name != [] && '.' !in folder
    ensures var file := Below(examplesDir, [d1 + "-" + folder, d2 + "-" + name]);
      ParsePaths(file, examplesDir, galleryDir, folders) ==
        Ok((Below(galleryDir, [folder, name]), [d1 + "-" + folder, d2 + "-" + name]))
  {
    var a, b := d1 + "-" + folder, d2 + "-" + name;
    RelativeToBelow(examplesDir, [a, b]);
    TwoBelow(galleryDir, a, b);
    NumberedNoDot(d1, folder);
    StemNoDot(a);
    NumPrefixDropped(d1, folder);
    NumPrefixDropped(d2, name);
    RelativeToBelow(galleryDir, []);
    assert Below(galleryDir, []) == galleryDir;
    assert Child(Child(galleryDir, folder), name) == Below(galleryDir, [folder, name]);
  }

  /** An example two folders below the examples folder: its gallery grandparent
      `a` is not the gallery folder, so Python raises ValueError when that folder
      is present, and FileNotFoundError from `samefile` when it is not, as on a
      fresh build. */
  lemma ParsePathsTooDeep(examplesDir: Path, galleryDir: Path, folders: set<Path>,
                          a: String, b: String, c: String)
    ensures ParsePaths(Below(examplesDir, [a, b, c]), examplesDir, galleryDir, folders) ==
      Err(if Child(galleryDir, a) in folders then ValueError else FileNotFoundError)
  {
    var f := Below(galleryDir, [a, b, c]);
    RelativeToBelow(examplesDir, [a, b, c]);
    assert Parent(Parent(f)) == Child(galleryDir, a) by {
      assert Parent(f).parts == galleryDir.parts + [a, b];
      assert (galleryDir.parts + [a, b])[..|galleryDir.parts| + 1] == galleryDir.parts + [a];
    }
    assert RelativeTo(galleryDir, Child(galleryDir, a)).None?;
  }

  lemma IndexNameKept()
    ensures WithoutNumPrefix(IndexName) == IndexName
  {
    NoLeadingDigitKept(IndexName);
  }

  /** `SectionGenerator._parse_index_file`: `index.rst` in the output folder of the
      section, whose name loses its number prefix. */
  function SectionIndexFile(headerFile: Path, examplesDir: Path, galleryDir: Path): (r: Result<Path>)
    ensures r.Ok? ==> Name(r.value) == IndexName
    ensures r.Err? ==> r.error == ValueError
  {
    IndexNameKept();
    IndexFileNamed(headerFile, examplesDir, galleryDir, IndexName)
  }

  /** The steps of `_parse_index_file` with the file name `n` in place of
      `index.rst`. */
  function IndexFileNamed(headerFile: Path, examplesDir: Path, galleryDir: Path, n: String): Result<Path>
  {
    match RelativeTo(headerFile, examplesDir)
    case None => Err(ValueError)
    case Some(rel) =>
      var f := Below(galleryDir, rel);
      if Name(f) == [] then Err(ValueError)
      else
        var (folder, name) := RemoveNumPrefix(Child(Parent(f), n));
        Ok(JoinPath(JoinPath(galleryDir, folder), name))
  }

  /** The numbered folder of a file loses its number. */
  lemma NumberedFolder(g: Path, d: String, folder: String, name: String)
    requires IsDigits(d) && '.' !in folder
    ensures RemoveNumPrefix(Below(g, [d + "-" + folder, name])) ==
      (folder, WithoutNumPrefix(name))
  {
    var a := d + "-" + folder;
    TwoBelow(g, a, name);
    NumberedNoDot(d, folder);
    StemNoDot(a);
    NumPrefixDropped(d, folder);
  }

  /** The header `01-basic/GALLERY_HEADER.rst` gives the index file
      `basic/index.rst`. */
  lemma SectionIndexOf(examplesDir: Path, galleryDir: Path, d: String, folder: String, header: String)
    requires IsDigits(d) && folder != [] && '.' !in folder && header != []
    ensures var file := Below(examplesDir, [d + "-" + folder, header]);
      SectionIndexFile(file, examplesDir, galleryDir) == Ok(Below(galleryDir, [folder, IndexName]))
  {
    IndexFileOfNumbered(examplesDir, galleryDir, d, folder, header, IndexName);
  }

  lemma IndexFileOfNumbered(examplesDir: Path, galleryDir: Path, d: String, folder: String, header: String,
                            n: String)
    requires IsDigits(d) && folder != [] && '.' !in folder && header != []
    requires n != [] && !IsAsciiDigit(n[0])
    ensures var file := Below(examplesDir, [d + "-" + folder, header]);
      IndexFileNamed(file, examplesDir, galleryDir, n) == Ok(Below(galleryDir, [folder, n]))
  {
    var a := d + "-" + folder;
    RelativeToBelow(examplesDir, [a, header]);
    TwoBelow(galleryDir, a, header);
    assert Child(Parent(Below(galleryDir, [a, header])), n) == Below(galleryDir, [a, n]);
    NumberedFolder(galleryDir, d, folder, n);
    NoLeadingDigitKept(n);
    IndexFileOfRel(Below(examplesDir, [a, header]), examplesDir, galleryDir, [a, header], folder, n);
  }

  lemma IndexFileOfRel(file: Path, examplesDir: Path, galleryDir: Path, rel: seq<String>, folder: String,
                       n: String)
    requires RelativeTo(file, examplesDir) == Some(rel)
    requires Name(Below(galleryDir, rel)) != [] && folder != [] && n != []
    requires RemoveNumPrefix(Child(Parent(Below(galleryDir, rel)), n)) == (folder, n)
    ensures IndexFileNamed(file, examplesDir, galleryDir, n) == Ok(Below(galleryDir, [folder, n]))
  {
    assert Child(Child(galleryDir, folder), n) == Below(galleryDir, [folder, n]);
  }

  /** The target of a section index file names the section folder. */
  lemma SectionTargetRef(galleryDir: Path, folder: String, prefix: String)
    requires '.' !in folder
    ensures HeaderTargetRef(prefix, Below(galleryDir, [folder, IndexName])) ==
      Lower(prefix + folder + "_header")
  {
    TwoBelow(galleryDir, folder, IndexName);
    StemNoDot(folder);
  }

  // ---------------------------------------------------------------------------
  // Index files

  /** The text files of the output tree. */
  type Files = map<Path, String>

  /** `write_index_file`: a missing index file is created from the header text with
      `prepend` before it and `append` after it; an existing one only gets `append`
      added at its end. */
  function WriteIndexFile(files: Files, headerText: String, indexFile: Path, append: String,
                          prepend: String): (r: Files)
    ensures r.Keys == files.Keys + {indexFile}
    ensures forall p :: p in files && p != indexFile ==> r[p] == files[p]
    ensures indexFile in files ==>
      |r[indexFile]| == |files[indexFile]| + |append| && r[indexFile][..|files[indexFile]|] == files[indexFile]
    ensures indexFile in files ==> r[indexFile][|files[indexFile]|..] == append
    ensures indexFile !in files ==> |r[indexFile]| == |prepend| + |headerText| + |append| + 3
  {
    if indexFile !in files then files[indexFile := prepend + "\n\n" + headerText + "\n" + append]
    else
      DropPrefix(files[indexFile], append);
      files[indexFile := files[indexFile] + append]
  }

  /** Split at newlines, a newly written index file is the `prepend` line, an empty
      line, the one-line header text, and then the lines of `append`. */
  lemma WriteIndexFileLayout(files: Files, headerText: String, indexFile: Path, append: String,
                             prepend: String)
    requires indexFile !in files
    requires '\n' !in prepend && '\n' !in headerText
    ensures Split(WriteIndexFile(files, headerText, indexFile, append, prepend)[indexFile], '\n') ==
      [prepend, [], headerText] + Split(append, '\n')
  {
    NewIndexLayout(prepend, headerText, append);
  }

  lemma NewIndexLayout(prepend: String, headerText: String, append: String)
    requires '\n' !in prepend && '\n' !in headerText
    ensures Split(prepend + "\n\n" + headerText + "\n" + append, '\n') ==
      [prepend, [], headerText] + Split(append, '\n')
  {
    var rest := Split(append, '\n');
    var t3 := headerText + ['\n'] + append;
    var t2 := [] + ['\n'] + t3;
    assert Split(t3, '\n') == [headerText] + rest by { SplitCons(headerText, append, '\n'); }
    assert Split(t2, '\n') == [[]] + Split(t3, '\n') by { SplitCons([], t3, '\n'); }
    assert Split(prepend + ['\n'] + t2, '\n') == [prepend] + Split(t2, '\n') by {
      SplitCons(prepend, t2, '\n');
    }
    NewIndexText(prepend, headerText, append);
    Cons3(prepend, [], headerText, rest);
  }

  lemma NewIndexText(p: String, h: String, a: String)
    ensures p + "\n\n" + h + "\n" + a == p + ['\n'] + ([] + ['\n'] + (h + ['\n'] + a))
  {
    var n: String := ['\n'];
    var u := h + n + a;
    assert "\n" == n && "\n\n" == n + n;
    calc {
      p + "\n\n" + h + "\n" + a;
      p + (n + n) + h + n + a;
      { Assoc3(p + (n + n), h + n, a); Assoc3(p + (n + n), h, n); }
      p + (n + n) + u;
      { Assoc3(p, n + n, u); Assoc3(n, n, u); Assoc3(p, n, n + u); }
      p + n + (n + u);
    }
    assert [] + n + u == n + u;
  }

  /** Appending twice is appending the two strings at once. */
  lemma AppendTwice(files: Files, headerText: String, indexFile: Path, a: String, b: String, p: String, q: String)
    requires indexFile in files
    ensures WriteIndexFile(WriteIndexFile(files, headerText, indexFile, a, p), headerText, indexFile, b, q) ==
      WriteIndexFile(files, headerText, indexFile, a + b, p)
  {
    assert files[indexFile] + a + b == files[indexFile] + (a + b);
  }

  /** `convert_section_header_file` and `convert_to_index_file`: remove the index
      file, write it with the target line and the toc tree, then append the body
      (the section grid, or the gallery's sections). */
  function ConvertIndexFile(files: Files, headerText: String, indexFile: Path, toc: String,
                            target: String, body: String): (r: Files)
    ensures r.Keys == files.Keys + {indexFile}
  {
    var cleared := map p | p in files && p != indexFile :: files[p];
    var created := WriteIndexFile(cleared, headerText, indexFile, toc, target);
    WriteIndexFile(created, headerText, indexFile, body, "")
  }

  /** Whatever was there before, the index file ends up as the target line, an
      empty line, the header text, the toc tree and the body; no other file
      changes. */
  lemma ConvertIndexFileContent(files: Files, headerText: String, indexFile: Path, toc: String,
                                target: String, body: String)
    ensures var r := ConvertIndexFile(files, headerText, indexFile, toc, target, body);
      r[indexFile] == target + "\n\n" + headerText + "\n" + toc + body &&
      forall p :: p in files && p != indexFile ==> r[p] == files[p]
  {
    var cleared := map p | p in files && p != indexFile :: files[p];
    assert indexFile !in cleared;
  }
}

=== FILE: paths.dfy ===
/** The part of `pathlib` the gallery relies on: file names, stems and suffixes,
    parents, relative paths, and the "resolve" conversion of `utils.abs_path`.
    Symbolic links are not followed: `..` is resolved lexically. */
module Paths {
  import opened Wrappers
  import opened Text

  /** An absolute POSIX path, as its components below `/`. */
  datatype Path = Path(parts: seq<String>)

  function Child(p: Path, name: String): Path
  {
    Path(p.parts + [name])
  }

  function Below(p: Path, rel: seq<String>): Path
  {
    Path(p.parts + rel)
  }

  /** `p.name`: the last component, empty for `/`. */
  function Name(p: Path): String
  {
    if p.parts == [] then [] else p.parts[|p.parts| - 1]
  }

  /** `p.parent`: `/` is its own parent. */
  function Parent(p: Path): Path
  {
    if p.parts == [] then p else Path(p.parts[..|p.parts| - 1])
  }

  /** Index of the last `c` in `s`. */
  function LastIndexOf(s: String, c: char): (r: Option<nat>)
    ensures r.Some? ==> r.value < |s| && s[r.value] == c
    ensures r.Some? ==> forall i :: r.value < i < |s| ==> s[i] != c
    ensures r.None? ==> c !in s
    decreases |s|
  {
    if s == [] then None
    else if s[|s| - 1] == c then Some(|s| - 1)
    else LastIndexOf(s[..|s| - 1], c)
  }

  /** Where the suffix of a file name starts, if it has one: the last dot, provided
      it is neither the first nor the last character. */
  function SuffixStart(name: String): Option<nat>
  {
    match LastIndexOf(name, '.')
    case Some(i) => if 0 < i < |name| - 1 then Some(i) else None
    case None => None
  }

  /** `PurePath(name).suffix`. */
  function Suffix(name: String): (r: String)
    ensures r == [] || (r[0] == '.' && |r| >= 2 && '.' !in r[1..])
  {
    match SuffixStart(name)
    case Some(i) => name[i..]
    case None => []
  }

  /** `PurePath(name).stem`. */
  function Stem(name: String): (r: String)
    ensures |r| <= |name|
  {
    match SuffixStart(name)
    case Some(i) => name[..i]
    case None => name
  }

  /** A file name is its stem followed by its suffix, and the stem of a name
      without suffix is the name itself. */
  lemma StemSuffix(name: String)
    ensures Stem(name) + Suffix(name) == name
    ensures Suffix(name) == [] ==> Stem(name) == name
  {
  }

  /** A name made of a non-empty stem and a suffix (a dot, then at least one
      character, and no further dot) has that stem and that suffix. */
  lemma StemOfSuffixed(stem: String, ext: String)
    requires stem != [] && |ext| >= 2 && ext[0] == '.' && '.' !in ext[1..]
    ensures Stem(stem + ext) == stem && Suffix(stem + ext) == ext
  {
    var name := stem + ext;
    assert name[|stem|] == '.';
    assert LastIndexOf(name, '.') == Some(|stem|);
    assert name[..|stem|] == stem && name[|stem|..] == ext;
  }

  /** `p.relative_to(base)` as components, `None` where Python raises ValueError. */
  function RelativeTo(p: Path, base: Path): (r: Option<seq<String>>)
    ensures r.Some? <==> |base.parts| <= |p.parts| && p.parts[..|base.parts|] == base.parts
    ensures r.Some? ==> Below(base, r.value) == p
  {
    if |base.parts| <= |p.parts| && p.parts[..|base.parts|] == base.parts
    then Some(p.parts[|base.parts|..])
    else None
  }

  /** A path below `base` is relative to it by the components it was built from. */
  lemma RelativeToBelow(base: Path, rel: seq<String>)
    ensures RelativeTo(Below(base, rel), base) == Some(rel)
  {
    assert Below(base, rel).parts[..|base.parts|] == base.parts;
  }

  /** Components of a relative path string, as `Path(s).parts` keeps them: empty
      components (repeated or leading slashes) and `.` components are dropped. */
  function Components(s: String): seq<String>
  {
    Clean(Split(s, '/'))
  }

  function Clean(raw: seq<String>): (r: seq<String>)
    ensures forall k :: 0 <= k < |r| ==> r[k] != [] && r[k] != "."
    ensures |r| <= |raw|
  {
    if raw == [] then []
    else if raw[0] == [] || raw[0] == "." then Clean(raw[1..])
    else [raw[0]] + Clean(raw[1..])
  }

  /** Lexical resolution of `..`: each one removes the component before it, and
      `..` at the root stays at the root. */
  function Normalize(acc: seq<String>, rest: seq<String>): seq<String>
    decreases |rest|
  {
    if rest == [] then acc
    else if rest[0] == ".." then Normalize(if acc == [] then [] else acc[..|acc| - 1], rest[1..])
    else if rest[0] == [] || rest[0] == "." then Normalize(acc, rest[1..])
    else Normalize(acc + [rest[0]], rest[1..])
  }

  /** The directory the configured root names: an absolute root is taken as is,
      a relative one below the working directory `cwd`. */
  function RootParts(rootDir: String, cwd: Path): seq<String>
  {
    Normalize([], (if StartsWith(rootDir, "/") then [] else cwd.parts) + Components(rootDir))
  }

  /** The rewrite `abs_path` applies before joining: a leading `/` becomes `./`. */
  function UnderRoot(path: String): (r: String)
    ensures !StartsWith(r, "/")
  {
    if StartsWith(path, "/") then
      assert ("." + path)[0] == '.';
      "." + path
    else path
  }

  /** The "resolve" method of `utils.abs_path`: `(Path(root_dir) / path).resolve()`
      after the leading-slash rewrite. */
  function AbsResolve(path: String, rootDir: String, cwd: Path): Path
  {
    Path(Normalize(RootParts(rootDir, cwd), Components(UnderRoot(path))))
  }

  /** `utils.abs_path(path, root_dir, method)`, with `method` named `mode`. The
      "rglob" method searches the file system; its search result is the parameter
      `rglobMatches`. */
  function AbsPath(path: String, rootDir: Option<String>, mode: String, cwd: Path,
                   rglobMatches: seq<Path>): (r: Result<Path>)
    ensures rootDir.Some? && mode == "resolve" ==> r == Ok(AbsResolve(path, rootDir.value, cwd))
    ensures rootDir.Some? && mode == "rglob" ==>
      r == (if rglobMatches == [] then Err(FileNotFoundError) else Ok(rglobMatches[0]))
    ensures mode != "resolve" && mode != "rglob" ==> r == Err(ValueError)
    ensures rootDir.None? && (mode == "resolve" || mode == "rglob") ==> r == Err(TypeError)
  {
    if mode == "resolve" then
      if rootDir.None? then Err(TypeError) else Ok(AbsResolve(path, rootDir.value, cwd))
    else if mode == "rglob" then
      if rootDir.None? then Err(TypeError)
      else if rglobMatches == [] then Err(FileNotFoundError)
      else Ok(rglobMatches[0])
    else Err(ValueError)
  }

  // ---------------------------------------------------------------------------
  // Facts

  lemma {:induction false} CleanSplitDotSlash(s: String)
    requires StartsWith(s, "/")
    ensures Components("." + s) == Components(s)
  {
    var x := "." + s;
    assert x[0] == '.' && x[1] == '/';
    FindCharAfter(".", s, '/');
    assert FindChar(s, '/') == 0;
    assert Split(x, '/') == ["."] + Split(x[2..], '/');
    assert x[2..] == s[1..];
    assert Split(s, '/') == [[]] + Split(s[1..], '/');
  }

  /** A leading slash does not take `abs_path` out of the root: `/a/b` and `a/b`
      resolve to the same path. */
  lemma LeadingSlashStaysUnderRoot(path: String, rootDir: String, cwd: Path)
    ensures AbsResolve("/" + path, rootDir, cwd) == AbsResolve(path, rootDir, cwd)
  {
    var s := "/" + path;
    assert StartsWith(s, "/");
    CleanSplitDotSlash(s);
    var x := "/" + path;
    assert x[1..] == path;
    assert Split(x, '/') == [[]] + Split(path, '/');
    if StartsWith(path, "/") {
      CleanSplitDotSlash(path);
    }
  }

  predicate NoParentRef(parts: seq<String>)
  {
    forall k :: 0 <= k < |parts| ==> parts[k] != ".."
  }

  lemma {:induction false} NormalizeExtends(acc: seq<String>, rest: seq<String>)
    requires NoParentRef(rest)
    ensures |acc| <= |Normalize(acc, rest)|
    ensures Normalize(acc, rest)[..|acc|] == acc
    decreases |rest|
  {
    if rest != [] {
      assert NoParentRef(rest[1..]);
      if rest[0] == [] || rest[0] == "." {
        NormalizeExtends(acc, rest[1..]);
      } else {
        NormalizeExtends(acc + [rest[0]], rest[1..]);
        assert (acc + [rest[0]])[..|acc|] == acc;
      }
    }
  }

  /** A path without `..` components resolves to a path below the root. */
  lemma ResolveStaysUnderRoot(path: String, rootDir: String, cwd: Path)
    requires NoParentRef(Components(UnderRoot(path)))
    ensures var r := AbsResolve(path, rootDir, cwd).parts;
      var root := RootParts(rootDir, cwd);
      |root| <= |r| && r[..|root|] == root
  {
    NormalizeExtends(RootParts(rootDir, cwd), Components(UnderRoot(path)));
  }
}

=== FILE: selection.dfy ===
/** Thumbnail selection of `ExampleConverter`: the index the strategy picks, the
    priority of images tagged `gallery_thumbnail`, the fallback between Markdown
    images and code-cell images of notebooks, and the shared `no_image.webp`
    thumbnail that is encoded at most once per gallery folder.

    Encoding a thumbnail (the `Thumbnail` class) is not modelled: an encoding is
    recorded as its source and destination, and the destination the encoder picks
    for a document image is a parameter. */
module Selection {
  import opened Wrappers
  import opened Text
  import opened Paths
  import opened Images
  import opened Naming

  /** `ExampleConverter.thumb_idx`: "first" is index 0, "last" is index -1, and any
      other strategy raises ValueError. */
  function ThumbIdx(strategy: String): (r: Result<int>)
    ensures r == Ok(0) <==> strategy == "first"
    ensures r == Ok(-1) <==> strategy == "last"
    ensures r.Err? <==> strategy != "first" && strategy != "last"
    ensures r.Err? ==> r.error == ValueError
  {
    if strategy == "first" then Ok(0)
    else if strategy == "last" then Ok(-1)
    else Err(ValueError)
  }

  /** The url `_parse_doc_thumb` picks at index `idx`: among the urls tagged
      `gallery_thumbnail` when there are any, else among all urls. */
  function PickDocUrl(images: DocImages, idx: int): Result<String>
  {
    var thumbs := SelUrls(images, ThumbnailTag);
    if |thumbs| > 0 then PyIndex(thumbs, idx) else GetItem(images, idx)
  }

  /** A tagged image wins whenever there is one: the pick is the first or last
      tagged image. */
  lemma PickTagged(images: DocImages)
    requires |Where(images, ThumbnailTag)| > 0
    ensures var w := Where(images, ThumbnailTag);
      PickDocUrl(images, 0) == Ok(images[w[0]].url) &&
      PickDocUrl(images, -1) == Ok(images[w[|w| - 1]].url) &&
      images[w[0]].alt == ThumbnailTag && images[w[|w| - 1]].alt == ThumbnailTag
  {
  }

  /** Without tagged images the pick is the first or last image of the document. */
  lemma PickUntagged(images: DocImages)
    requires |images| > 0 && |Where(images, ThumbnailTag)| == 0
    ensures PickDocUrl(images, 0) == Ok(images[0].url)
    ensures PickDocUrl(images, -1) == Ok(images[|images| - 1].url)
  {
  }

  /** The picked url belongs to a tagged image whenever one exists. */
  lemma PickIsTagged(images: DocImages, idx: int)
    requires idx == 0 || idx == -1
    requires exists k :: 0 <= k < |images| && images[k].alt == ThumbnailTag
    ensures PickDocUrl(images, idx).Ok?
    ensures exists k ::
      0 <= k < |images| && images[k].alt == ThumbnailTag && images[k].url == PickDocUrl(images, idx).value
  {
    var j :| 0 <= j < |images| && images[j].alt == ThumbnailTag;
    WhereComplete(images, ThumbnailTag, j);
    var w := Where(images, ThumbnailTag);
    var k := if idx == 0 then w[0] else w[|w| - 1];
    assert images[k].alt == ThumbnailTag && images[k].url == PickDocUrl(images, idx).value;
  }

  // ---------------------------------------------------------------------------
  // Encoding state

  /** What a thumbnail is encoded from: an image file a document refers to, the
      image of a code-cell output (by its data), or the default image. */
  datatype Source = DocImage(file: Path) | CellImage(data: String) | DefaultImage(file: Path)

  datatype Encoding = Encoding(source: Source, dest: Path)

  /** The files present in the output tree, the thumbnails encoded so far, and the
      thumbnail the current card links to. */
  datatype Build = Build(files: set<Path>, encodings: seq<Encoding>, thumb: Option<Path>)

  /** The gallery-wide settings of an `ExampleConverter`. `cwd` is the working
      directory `resolve` starts from when the root folder is relative. */
  datatype Converter = Converter(galleryDir: Path, strategy: String, notebookStrategy: String,
                                 defaultThumb: Path, rootDir: Option<String>, cwd: Path)

  /** The part of an example the thumbnail depends on: its stem, its type, its text
      (a notebook's Markdown cells joined), its code-cell output images, and where
      the encoder saves a document image. */
  datatype Example = Example(stem: String, fileType: FileType, content: String, cells: seq<String>,
                             docDest: Path)

  /** `_use_default_thumbnail`: the card links to `no_image.webp`, which is encoded
      from the default image only when it is not there yet. */
  function UseDefault(c: Converter, b: Build): (r: Build)
    ensures r.thumb == Some(NoImageThumb(c.galleryDir))
    ensures NoImageThumb(c.galleryDir) in r.files && b.files <= r.files
    ensures NoImageThumb(c.galleryDir) in b.files ==> r.encodings == b.encodings && r.files == b.files
    ensures NoImageThumb(c.galleryDir) !in b.files ==>
      r.encodings == b.encodings + [Encoding(DefaultImage(c.defaultThumb), NoImageThumb(c.galleryDir))]
  {
    var noImage := NoImageThumb(c.galleryDir);
    if noImage in b.files then b.(thumb := Some(noImage))
    else Build(b.files + {noImage}, b.encodings + [Encoding(DefaultImage(c.defaultThumb), noImage)], Some(noImage))
  }

  /** Using the default twice is using it once. */
  lemma UseDefaultIdempotent(c: Converter, b: Build)
    ensures UseDefault(c, UseDefault(c, b)) == UseDefault(c, b)
  {
  }

  /** `_parse_doc_thumb`: whether the document had a candidate, and the new state.
      The url goes through `abs_path` with the "resolve" method. With a known
      strategy and a root folder, a document with images is encoded from exactly
      one of them: the first or last image tagged `gallery_thumbnail` when there
      is one, else the first or last image; its url is resolved below the root
      folder, and the card links to the saved copy. */
  function ParseDocThumb(c: Converter, b: Build, images: DocImages, docDest: Path): (r: Result<(bool, Build)>)
    ensures r.Ok? ==> (r.value.0 <==> |images| > 0)
    ensures r.Ok? && !r.value.0 ==> r.value.1 == UseDefault(c, b)
    ensures r.Ok? && r.value.0 ==> r.value.1.thumb == Some(docDest)
    ensures r.Err? ==> |images| > 0
    ensures |images| > 0 && c.strategy != "first" && c.strategy != "last" ==> r == Err(ValueError)
    ensures |images| > 0 && (c.strategy == "first" || c.strategy == "last") && c.rootDir.Some? ==>
      var w := Where(images, ThumbnailTag);
      var k := if |w| > 0 then (if c.strategy == "first" then w[0] else w[|w| - 1])
               else (if c.strategy == "first" then 0 else |images| - 1);
      (|w| > 0 ==> images[k].alt == ThumbnailTag) &&
      r == Ok((true, Build(b.files + {docDest},
                           b.encodings + [Encoding(DocImage(AbsResolve(images[k].url, c.rootDir.value, c.cwd)), docDest)],
                           Some(docDest))))
  {
    if |images| > 0 then
      match ThumbIdx(c.strategy)
      case Err(e) => Err(e)
      case Ok(idx) =>
        match PickDocUrl(images, idx)
        case Err(e) => Err(e)
        case Ok(url) =>
          match AbsPath(url, c.rootDir, "resolve", c.cwd, [])
          case Err(e) => Err(e)
          case Ok(src) =>
            Ok((true, Build(b.files + {docDest}, b.encodings + [Encoding(DocImage(src), docDest)], Some(docDest))))
    else Ok((false, UseDefault(c, b)))
  }

  /** Where a code-cell thumbnail is saved: `<stem>.webp` in the thumbnail folder. */
  function CellDest(c: Converter, stem: String): Path
  {
    Child(ThumbDir(c.galleryDir), stem + ".webp")
  }

  /** `_parse_cell_thumb`. */
  function ParseCellThumb(c: Converter, b: Build, stem: String, cells: seq<String>): (r: Result<(bool, Build)>)
    ensures r.Ok? ==> (r.value.0 <==> |cells| > 0)
    ensures r.Ok? && !r.value.0 ==> r.value.1 == UseDefault(c, b)
    ensures r.Ok? && r.value.0 ==> r.value.1.thumb == Some(CellDest(c, stem))
    ensures r.Err? ==> |cells| > 0
    ensures |cells| > 0 && (c.strategy == "first" || c.strategy == "last") ==>
      var img := if c.strategy == "first" then cells[0] else cells[|cells| - 1];
      r == Ok((true, Build(b.files + {CellDest(c, stem)},
                           b.encodings + [Encoding(CellImage(img), CellDest(c, stem))],
                           Some(CellDest(c, stem)))))
    ensures |cells| > 0 && c.strategy != "first" && c.strategy != "last" ==> r == Err(ValueError)
  {
    if |cells| > 0 then
      match ThumbIdx(c.strategy)
      case Err(e) => Err(e)
      case Ok(idx) =>
        match PyIndex(cells, idx)
        case Err(e) => Err(e)
        case Ok(img) =>
          var dest := CellDest(c, stem);
          Ok((true, Build(b.files + {dest}, b.encodings + [Encoding(CellImage(img), dest)], Some(dest))))
    else Ok((false, UseDefault(c, b)))
  }

  /** The other source, consulted only when the first found nothing. */
  function Otherwise(first: Result<(bool, Build)>, second: Build -> Result<(bool, Build)>): Result<Build>
  {
    match first
    case Err(e) => Err(e)
    case Ok((found, b)) =>
      if found then Ok(b)
      else
        match second(b)
        case Err(e) => Err(e)
        case Ok((_, b')) => Ok(b')
  }

  /** The state after `_parse_doc_thumb`, whether or not it found an image. */
  function DocThumb(c: Converter, b: Build, images: DocImages, docDest: Path): (r: Result<Build>)
    ensures r.Ok? <==> ParseDocThumb(c, b, images, docDest).Ok?
    ensures r.Ok? ==> r.value == ParseDocThumb(c, b, images, docDest).value.1
  {
    match ParseDocThumb(c, b, images, docDest)
    case Err(e) => Err(e)
    case Ok((_, b')) => Ok(b')
  }

  /** The notebook branch of `_parse_thumb`: Markdown images then code-cell images
      ("markdown"), or the reverse ("code"); any other strategy raises ValueError. */
  function NotebookThumb(c: Converter, b: Build, ex: Example): Result<Build>
  {
    if c.notebookStrategy == "markdown" then
      Otherwise(ParseDocThumb(c, b, ParseMdImages(ex.content), ex.docDest),
                b' => ParseCellThumb(c, b', ex.stem, ex.cells))
    else if c.notebookStrategy == "code" then
      Otherwise(ParseCellThumb(c, b, ex.stem, ex.cells),
                b' => ParseDocThumb(c, b', ParseMdImages(ex.content), ex.docDest))
    else Err(ValueError)
  }

  /** `_parse_thumb`: Markdown and RST files use their document images, notebooks
      follow the notebook strategy. */
  function ParseThumb(c: Converter, b: Build, ex: Example): Result<Build>
  {
    match ex.fileType
    case Markdown => DocThumb(c, b, ParseMdImages(ex.content), ex.docDest)
    case Rst => DocThumb(c, b, ParseRstImages(ex.content), ex.docDest)
    case Notebook => NotebookThumb(c, b, ex)
  }

  // ---------------------------------------------------------------------------
  // Properties of `_parse_thumb`

  /** A notebook strategy other than "markdown" or "code" is rejected, whatever the
      notebook holds. */
  lemma NotebookStrategyChecked(c: Converter, b: Build, ex: Example)
    requires ex.fileType == Notebook && c.notebookStrategy != "markdown" && c.notebookStrategy != "code"
    ensures ParseThumb(c, b, ex) == Err(ValueError)
  {
  }

  /** Markdown and RST files never read the notebook strategy. */
  lemma TextFilesIgnoreNotebookStrategy(c: Converter, b: Build, ex: Example, s: String)
    requires ex.fileType != Notebook
    ensures ParseThumb(c, b, ex) == ParseThumb(c.(notebookStrategy := s), b, ex)
  {
    var c' := c.(notebookStrategy := s);
    ParseDocThumbSettings(c, c', b, ParseMdImages(ex.content), ex.docDest);
    ParseDocThumbSettings(c, c', b, ParseRstImages(ex.content), ex.docDest);
  }

  lemma ParseDocThumbSettings(c: Converter, c': Converter, b: Build, images: DocImages, dest: Path)
    requires c' == c.(notebookStrategy := c'.notebookStrategy)
    ensures ParseDocThumb(c, b, images, dest) == ParseDocThumb(c', b, images, dest)
  {
  }

  /** A document without images never reads the thumbnail strategy: even an unknown
      strategy gives the default thumbnail. */
  lemma NoImagesNoStrategy(c: Converter, b: Build, ex: Example)
    requires ex.fileType == Markdown && ParseMdImages(ex.content) == []
    ensures ParseThumb(c, b, ex) == Ok(UseDefault(c, b))
  {
  }

  /** With strategy "markdown", Markdown images win; the code cells are consulted
      only when there are none. */
  lemma MarkdownFirst(c: Converter, b: Build, ex: Example)
    requires ex.fileType == Notebook && c.notebookStrategy == "markdown"
    requires c.strategy == "first" || c.strategy == "last"
    requires c.rootDir.Some?
    ensures ParseThumb(c, b, ex).Ok?
    ensures |ParseMdImages(ex.content)| > 0 ==> ParseThumb(c, b, ex).value.thumb == Some(ex.docDest)
    ensures |ParseMdImages(ex.content)| == 0 && |ex.cells| > 0 ==>
      ParseThumb(c, b, ex).value.thumb == Some(CellDest(c, ex.stem))
    ensures |ParseMdImages(ex.content)| == 0 && |ex.cells| == 0 ==>
      ParseThumb(c, b, ex).value.thumb == Some(NoImageThumb(c.galleryDir))
  {
    var images := ParseMdImages(ex.content);
    var first := ParseDocThumb(c, b, ParseMdImages(ex.content), ex.docDest);
    var second := b' => ParseCellThumb(c, b', ex.stem, ex.cells);
    assert ParseThumb(c, b, ex) == Otherwise(first, second);
    if |images| > 0 {
      DocPickOk(c, images);
      OtherwiseFirst(first, second);
    } else {
      if |ex.cells| > 0 {
        CellPickOk(c, ex.cells);
      }
      OtherwiseSecond(first, second);
    }
  }

  /** With strategy "code", code-cell images win; the Markdown images are consulted
      only when there are none. */
  lemma CodeFirst(c: Converter, b: Build, ex: Example)
    requires ex.fileType == Notebook && c.notebookStrategy == "code"
    requires c.strategy == "first" || c.strategy == "last"
    requires c.rootDir.Some?
    ensures ParseThumb(c, b, ex).Ok?
    ensures |ex.cells| > 0 ==> ParseThumb(c, b, ex).value.thumb == Some(CellDest(c, ex.stem))
    ensures |ex.cells| == 0 && |ParseMdImages(ex.content)| > 0 ==>
      ParseThumb(c, b, ex).value.thumb == Some(ex.docDest)
    ensures |ex.cells| == 0 && |ParseMdImages(ex.content)| == 0 ==>
      ParseThumb(c, b, ex).value.thumb == Some(NoImageThumb(c.galleryDir))
  {
    var images := ParseMdImages(ex.content);
    var first := ParseCellThumb(c, b, ex.stem, ex.cells);
    var second := b' => ParseDocThumb(c, b', ParseMdImages(ex.content), ex.docDest);
    assert ParseThumb(c, b, ex) == Otherwise(first, second) by {
      assert c.notebookStrategy != "markdown";
    }
    if |ex.cells| > 0 {
      CellPickOk(c, ex.cells);
      OtherwiseFirst(first, second);
    } else {
      if |images| > 0 {
        DocPickOk(c, images);
      }
      OtherwiseSecond(first, second);
    }
  }

  /** Under "markdown", a notebook without Markdown images but with code-cell
      images still has `no_image.webp` encoded (when missing) before its card is
      pointed at the code-cell thumbnail. */
  lemma MarkdownMissEncodesDefault(c: Converter, b: Build, ex: Example)
    requires ex.fileType == Notebook && c.notebookStrategy == "markdown"
    requires c.strategy == "first" || c.strategy == "last"
    requires ParseMdImages(ex.content) == [] && |ex.cells| > 0
    requires NoImageThumb(c.galleryDir) !in b.files
    ensures ParseThumb(c, b, ex).Ok?
    ensures ParseThumb(c, b, ex).value.thumb == Some(CellDest(c, ex.stem))
    ensures Encoding(DefaultImage(c.defaultThumb), NoImageThumb(c.galleryDir)) in ParseThumb(c, b, ex).value.encodings
  {
    CellPickOk(c, ex.cells);
    var d := UseDefault(c, b);
    var r := ParseCellThumb(c, d, ex.stem, ex.cells);
    assert r.value.1.encodings[|b.encodings|] == d.encodings[|b.encodings|];
  }

  lemma DocPickOk(c: Converter, images: DocImages)
    requires |images| > 0 && (c.strategy == "first" || c.strategy == "last") && c.rootDir.Some?
    ensures forall b: Build, dest: Path :: ParseDocThumb(c, b, images, dest).Ok?
  {
    var idx := ThumbIdx(c.strategy).value;
    assert PickDocUrl(images, idx).Ok?;
  }

  lemma CellPickOk(c: Converter, cells: seq<String>)
    requires |cells| > 0 && (c.strategy == "first" || c.strategy == "last")
    ensures forall b: Build, stem: String :: ParseCellThumb(c, b, stem, cells).Ok?
  {
  }

  // ---------------------------------------------------------------------------
  // The default thumbnail is encoded at most once

  /** How many encodings are of the default image. */
  function DefaultCount(es: seq<Encoding>): nat
  {
    if es == [] then 0
    else DefaultCount(es[..|es| - 1]) + (if es[|es| - 1].source.DefaultImage? then 1 else 0)
  }

  /** At most one default encoding, and `no_image.webp` exists once there is one. */
  predicate DefaultOnce(c: Converter, b: Build)
  {
    DefaultCount(b.encodings) <= 1 &&
    (DefaultCount(b.encodings) == 1 ==> NoImageThumb(c.galleryDir) in b.files)
  }

  /** From `b` to `b'` no file disappears, and once `no_image.webp` exists no
      further default encoding is added. */
  predicate Settled(c: Converter, b: Build, b': Build)
  {
    b.files <= b'.files &&
    (NoImageThumb(c.galleryDir) in b.files ==> DefaultCount(b'.encodings) == DefaultCount(b.encodings))
  }

  lemma DefaultCountAppend(es: seq<Encoding>, e: Encoding)
    ensures DefaultCount(es + [e]) == DefaultCount(es) + (if e.source.DefaultImage? then 1 else 0)
  {
    assert (es + [e])[..|es|] == es;
  }

  lemma UseDefaultKeeps(c: Converter, b: Build)
    requires DefaultOnce(c, b)
    ensures DefaultOnce(c, UseDefault(c, b))
    ensures Settled(c, b, UseDefault(c, b))
  {
    var noImage := NoImageThumb(c.galleryDir);
    if noImage !in b.files {
      DefaultCountAppend(b.encodings, Encoding(DefaultImage(c.defaultThumb), noImage));
    }
  }

  lemma ParseDocThumbKeeps(c: Converter, b: Build, images: DocImages, dest: Path)
    requires DefaultOnce(c, b)
    ensures var r := ParseDocThumb(c, b, images, dest); r.Ok? ==> DefaultOnce(c, r.value.1)
    ensures var r := ParseDocThumb(c, b, images, dest); r.Ok? ==> Settled(c, b, r.value.1)
  {
    var r := ParseDocThumb(c, b, images, dest);
    if |images| == 0 {
      UseDefaultKeeps(c, b);
    } else if r.Ok? {
      DefaultCountAppend(b.encodings, r.value.1.encodings[|b.encodings|]);
      assert r.value.1.encodings == b.encodings + [r.value.1.encodings[|b.encodings|]];
    }
  }

  lemma ParseCellThumbKeeps(c: Converter, b: Build, stem: String, cells: seq<String>)
    requires DefaultOnce(c, b)
    ensures var r := ParseCellThumb(c, b, stem, cells); r.Ok? ==> DefaultOnce(c, r.value.1)
    ensures var r := ParseCellThumb(c, b, stem, cells); r.Ok? ==> Settled(c, b, r.value.1)
  {
    var r := ParseCellThumb(c, b, stem, cells);
    if |cells| == 0 {
      UseDefaultKeeps(c, b);
    } else if r.Ok? {
      DefaultCountAppend(b.encodings, r.value.1.encodings[|b.encodings|]);
      assert r.value.1.encodings == b.encodings + [r.value.1.encodings[|b.encodings|]];
    }
  }

  lemma DocThumbKeeps(c: Converter, b: Build, images: DocImages, dest: Path)
    requires DefaultOnce(c, b)
    ensures var r := DocThumb(c, b, images, dest); r.Ok? ==> DefaultOnce(c, r.value)
    ensures var r := DocThumb(c, b, images, dest); r.Ok? ==> Settled(c, b, r.value)
  {
    ParseDocThumbKeeps(c, b, images, dest);
  }

  /** Looking at one source and, when it found nothing, at the other keeps the
      default encoded at most once. */
  /** The first source's state when it found an image. */
  lemma OtherwiseFirst(first: Result<(bool, Build)>, second: Build -> Result<(bool, Build)>)
    requires first.Ok? && first.value.0
    ensures Otherwise(first, second) == Ok(first.value.1)
  {
  }

  /** The second source's state when the first found nothing. */
  lemma OtherwiseSecond(first: Result<(bool, Build)>, second: Build -> Result<(bool, Build)>)
    requires first.Ok? && !first.value.0 && second(first.value.1).Ok?
    ensures Otherwise(first, second) == Ok(second(first.value.1).value.1)
  {
  }

  lemma OtherwiseKeeps(c: Converter, b: Build, first: Result<(bool, Build)>, second: Build -> Result<(bool, Build)>)
    requires first.Ok? ==> DefaultOnce(c, first.value.1) && Settled(c, b, first.value.1)
    requires first.Ok? && !first.value.0 && second(first.value.1).Ok?
      ==> DefaultOnce(c, second(first.value.1).value.1) && Settled(c, first.value.1, second(first.value.1).value.1)
    ensures Otherwise(first, second).Ok? ==> DefaultOnce(c, Otherwise(first, second).value)
    ensures Otherwise(first, second).Ok? ==> Settled(c, b, Otherwise(first, second).value)
  {
  }

  lemma MarkdownFirstKeeps(c: Converter, b: Build, ex: Example)
    requires DefaultOnce(c, b)
    ensures var second := b' => ParseCellThumb(c, b', ex.stem, ex.cells);
      var r := Otherwise(ParseDocThumb(c, b, ParseMdImages(ex.content), ex.docDest), second);
      r.Ok? ==> DefaultOnce(c, r.value) && Settled(c, b, r.value)
  {
    var first := ParseDocThumb(c, b, ParseMdImages(ex.content), ex.docDest);
    var second := b' => ParseCellThumb(c, b', ex.stem, ex.cells);
    ParseDocThumbKeeps(c, b, ParseMdImages(ex.content), ex.docDest);
    if first.Ok? {
      ParseCellThumbKeeps(c, first.value.1, ex.stem, ex.cells);
    }
    OtherwiseKeeps(c, b, first, second);
  }

  lemma CodeFirstKeeps(c: Converter, b: Build, ex: Example)
    requires DefaultOnce(c, b)
    ensures var second := b' => ParseDocThumb(c, b', ParseMdImages(ex.content), ex.docDest);
      var r := Otherwise(ParseCellThumb(c, b, ex.stem, ex.cells), second);
      r.Ok? ==> DefaultOnce(c, r.value) && Settled(c, b, r.value)
  {
    var first := ParseCellThumb(c, b, ex.stem, ex.cells);
    var second := b' => ParseDocThumb(c, b', ParseMdImages(ex.content), ex.docDest);
    ParseCellThumbKeeps(c, b, ex.stem, ex.cells);
    if first.Ok? {
      ParseDocThumbKeeps(c, first.value.1, ParseMdImages(ex.content), ex.docDest);
    }
    OtherwiseKeeps(c, b, first, second);
  }

  lemma NotebookThumbKeeps(c: Converter, b: Build, ex: Example)
    requires DefaultOnce(c, b)
    ensures var r := NotebookThumb(c, b, ex); r.Ok? ==> DefaultOnce(c, r.value) && Settled(c, b, r.value)
  {
    if c.notebookStrategy == "markdown" {
      MarkdownFirstKeeps(c, b, ex);
    } else if c.notebookStrategy == "code" {
      CodeFirstKeeps(c, b, ex);
    }
  }

  /** One example keeps the default encoded at most once, keeps every file, and
      adds no default encoding when `no_image.webp` is already there. */
  lemma ParseThumbKeeps(c: Converter, b: Build, ex: Example)
    requires DefaultOnce(c, b)
    ensures ParseThumb(c, b, ex).Ok? ==> DefaultOnce(c, ParseThumb(c, b, ex).value)
    ensures ParseThumb(c, b, ex).Ok? ==> b.files <= ParseThumb(c, b, ex).value.files
    ensures ParseThumb(c, b, ex).Ok? && NoImageThumb(c.galleryDir) in b.files ==>
      DefaultCount(ParseThumb(c, b, ex).value.encodings) == DefaultCount(b.encodings)
  {
    match ex.fileType
    case Markdown => DocThumbKeeps(c, b, ParseMdImages(ex.content), ex.docDest);
    case Rst => DocThumbKeeps(c, b, ParseRstImages(ex.content), ex.docDest);
    case Notebook => NotebookThumbKeeps(c, b, ex);
  }

  /** The thumbnails of a section's examples, one after the other; the first error
      stops the run. */
  function ParseThumbs(c: Converter, b: Build, examples: seq<Example>): Result<Build>
    decreases |examples|
  {
    if examples == [] then Ok(b)
    else
      match ParseThumb(c, b, examples[0])
      case Err(e) => Err(e)
      case Ok(b') => ParseThumbs(c, b', examples[1..])
  }

  /** However many examples lack images, `no_image.webp` is encoded from the default
      image at most once, and only when it was not there to begin with. */
  lemma {:induction false} DefaultEncodedOnce(c: Converter, b: Build, examples: seq<Example>)
    requires DefaultOnce(c, b)
    ensures ParseThumbs(c, b, examples).Ok? ==> DefaultOnce(c, ParseThumbs(c, b, examples).value)
    ensures ParseThumbs(c, b, examples).Ok? ==> b.files <= ParseThumbs(c, b, examples).value.files
    ensures ParseThumbs(c, b, examples).Ok? && NoImageThumb(c.galleryDir) in b.files ==>
      DefaultCount(ParseThumbs(c, b, examples).value.encodings) == DefaultCount(b.encodings)
    decreases |examples|
  {
    if examples != [] {
      ParseThumbKeeps(c, b, examples[0]);
      var r := ParseThumb(c, b, examples[0]);
      if r.Ok? {
        DefaultEncodedOnce(c, r.value, examples[1..]);
      }
    }
  }

  /** The card of an example without any image links to the shared thumbnail. */
  lemma NoImageLink(c: Converter, b: Build)
    ensures ThumbFileRel(c.galleryDir, UseDefault(c, b).thumb.value) ==
      Ok("/" + Stem(Name(c.galleryDir)) + "/" + ThumbsDirName + "/" + NoImageName)
  {
    ThumbLink(c.galleryDir, NoImageName);
  }
}

=== FILE: text.dfy ===
/** The Python `str` operations the gallery code relies on, stated over `seq<char>`:
    `strip`, `lstrip`, `split(sep)`, `split()`, `splitlines`, `join`, `expandtabs`,
    `startswith`, `in`, `lower`, `isdigit`, `int(...)` and `str(int)`. */
module Text {
  import opened Wrappers

  type String = seq<char>

  /** `str.isspace()` of a single character (the full Python whitespace set). */
  predicate IsSpace(c: char)
  {
    c == ' ' || c == '\t' || c == '\n' || c == '\r' || c == '\U{000B}' || c == '\U{000C}'
    || ('\U{001C}' <= c <= '\U{001F}') || c == '\U{0085}' || c == '\U{00A0}'
    || c == '\U{1680}' || ('\U{2000}' <= c <= '\U{200A}') || c == '\U{2028}'
    || c == '\U{2029}' || c == '\U{202F}' || c == '\U{205F}' || c == '\U{3000}'
  }

  /** A line boundary of `str.splitlines()`; `"\r\n"` counts as one boundary. */
  predicate IsLineBreak(c: char)
  {
    c == '\n' || c == '\r' || c == '\U{000B}' || c == '\U{000C}'
    || ('\U{001C}' <= c <= '\U{001E}') || c == '\U{0085}' || c == '\U{2028}' || c == '\U{2029}'
  }

  predicate NoSpace(s: String)
  {
    forall i :: 0 <= i < |s| ==> !IsSpace(s[i])
  }

  predicate NoLineBreak(s: String)
  {
    forall i :: 0 <= i < |s| ==> !IsLineBreak(s[i])
  }

  /** A string `strip()` leaves unchanged. */
  predicate IsStripped(s: String)
  {
    s == [] || (!IsSpace(s[0]) && !IsSpace(s[|s| - 1]))
  }

  predicate StartsWith(s: String, prefix: String)
  {
    |prefix| <= |s| && forall i :: 0 <= i < |prefix| ==> s[i] == prefix[i]
  }

  /** Python `sub in s`. */
  predicate Contains(s: String, sub: String)
    decreases |s|
  {
    StartsWith(s, sub) || (|s| > 0 && Contains(s[1..], sub))
  }

  function Repeat(c: char, n: nat): (r: String)
    ensures |r| == n
    ensures forall i :: 0 <= i < n ==> r[i] == c
  {
    if n == 0 then [] else [c] + Repeat(c, n - 1)
  }

  /** `s.lstrip()`: drops the longest all-whitespace prefix. */
  function LStrip(s: String): (r: String)
    ensures |r| <= |s| && r == s[|s| - |r|..]
    ensures forall i :: 0 <= i < |s| - |r| ==> IsSpace(s[i])
    ensures r == [] || !IsSpace(r[0])
    decreases |s|
  {
    if |s| > 0 && IsSpace(s[0]) then LStrip(s[1..]) else s
  }

  /** `s.rstrip()`: drops the longest all-whitespace suffix. */
  function RStrip(s: String): (r: String)
    ensures |r| <= |s| && r == s[..|r|]
    ensures forall i :: |r| <= i < |s| ==> IsSpace(s[i])
    ensures r == [] || !IsSpace(r[|r| - 1])
    decreases |s|
  {
    if |s| > 0 && IsSpace(s[|s| - 1]) then RStrip(s[..|s| - 1]) else s
  }

  /** `s.strip()`. */
  function Strip(s: String): (r: String)
    ensures IsStripped(r)
    ensures |r| <= |s|
  {
    RStrip(LStrip(s))
  }

  /** `[line.strip() for line in lines]`. */
  function Strips(lines: seq<String>): (r: seq<String>)
    ensures |r| == |lines|
  {
    seq(|lines|, k requires 0 <= k < |lines| => Strip(lines[k]))
  }

  lemma StripsAt(lines: seq<String>, k: nat)
    requires k < |lines|
    ensures Strips(lines)[k] == Strip(lines[k])
  {
  }

  lemma StripsAreStripped(lines: seq<String>)
    ensures forall x :: x in Strips(lines) ==> IsStripped(x)
  {
    forall x | x in Strips(lines)
      ensures IsStripped(x)
    {
      var k :| 0 <= k < |lines| && Strips(lines)[k] == x;
      StripsAt(lines, k);
    }
  }

  lemma StripsOfStripped(lines: seq<String>)
    requires forall k :: 0 <= k < |lines| ==> IsStripped(lines[k])
    ensures Strips(lines) == lines
  {
    forall k | 0 <= k < |lines|
      ensures Strips(lines)[k] == lines[k]
    {
      StripOfStripped(lines[k]);
    }
  }

  /** Strips is determined by the stripped lines one by one. */
  lemma StripsPointwise(lines: seq<String>, want: seq<String>)
    requires |lines| == |want|
    requires forall k :: 0 <= k < |lines| ==> Strip(lines[k]) == want[k]
    ensures Strips(lines) == want
  {
    forall k | 0 <= k < |lines|
      ensures Strips(lines)[k] == want[k]
    {
      StripsAt(lines, k);
    }
  }

  lemma StripsAppend(a: seq<String>, b: seq<String>)
    ensures Strips(a + b) == Strips(a) + Strips(b)
  {
    var want := Strips(a) + Strips(b);
    forall k | 0 <= k < |a + b|
      ensures Strip((a + b)[k]) == want[k]
    {
      if k < |a| {
        assert (a + b)[k] == a[k];
        StripsAt(a, k);
      } else {
        assert (a + b)[k] == b[k - |a|];
        StripsAt(b, k - |a|);
      }
    }
    StripsPointwise(a + b, want);
  }

  /** `s.lstrip(c)` for a one-character argument. */
  function LStripChar(s: String, c: char): (r: String)
    ensures |r| <= |s| && r == s[|s| - |r|..]
    ensures forall i :: 0 <= i < |s| - |r| ==> s[i] == c
    ensures r == [] || r[0] != c
    decreases |s|
  {
    if |s| > 0 && s[0] == c then LStripChar(s[1..], c) else s
  }

  /** `s.rstrip(c)` for a one-character argument. */
  function RStripChar(s: String, c: char): (r: String)
    ensures |r| <= |s| && r == s[..|r|]
    ensures forall i :: |r| <= i < |s| ==> s[i] == c
    ensures r == [] || r[|r| - 1] != c
    decreases |s|
  {
    if |s| > 0 && s[|s| - 1] == c then RStripChar(s[..|s| - 1], c) else s
  }

  /** `s.strip(c)` for a one-character argument. */
  function StripChar(s: String, c: char): (r: String)
    ensures r == [] || (r[0] != c && r[|r| - 1] != c)
  {
    RStripChar(LStripChar(s, c), c)
  }

  /** Index of the first `c` in `s`, or `|s|` when there is none. */
  function FindChar(s: String, c: char): (r: nat)
    ensures r <= |s|
    ensures r < |s| ==> s[r] == c
    ensures forall i :: 0 <= i < r ==> s[i] != c
    decreases |s|
  {
    if s == [] then 0 else if s[0] == c then 0 else 1 + FindChar(s[1..], c)
  }

  /** `s.split(c)` for a one-character separator: never empty, no piece holds `c`. */
  function Split(s: String, c: char): (r: seq<String>)
    ensures |r| >= 1
    ensures forall k :: 0 <= k < |r| ==> c !in r[k]
    decreases |s|
  {
    var i := FindChar(s, c);
    if i == |s| then [s] else [s[..i]] + Split(s[i + 1..], c)
  }

  /** `sep.join(parts)`. */
  function Join(parts: seq<String>, sep: String): String
  {
    if |parts| == 0 then []
    else if |parts| == 1 then parts[0]
    else parts[0] + sep + Join(parts[1..], sep)
  }

  /** Lines each followed by a newline (`"".join(l + "\n" for l in lines)`). */
  function Unlines(lines: seq<String>): (r: String)
    ensures lines == [] <==> r == []
  {
    if lines == [] then [] else lines[0] + "\n" + Unlines(lines[1..])
  }

  /** Concatenation of all parts (`"".join(parts)`). */
  function Concat(parts: seq<String>): String
  {
    if |parts| == 0 then [] else parts[0] + Concat(parts[1..])
  }

  /** Index of the first line boundary, or `|s|`. */
  function FirstBreak(s: String): (r: nat)
    ensures r <= |s|
    ensures r < |s| ==> IsLineBreak(s[r])
    ensures forall i :: 0 <= i < r ==> !IsLineBreak(s[i])
    decreases |s|
  {
    if s == [] then 0 else if IsLineBreak(s[0]) then 0 else 1 + FirstBreak(s[1..])
  }

  /** `s.splitlines()`: pieces between line boundaries, no trailing empty piece. */
  function SplitLines(s: String): (r: seq<String>)
    ensures forall k :: 0 <= k < |r| ==> NoLineBreak(r[k])
    ensures s == [] <==> r == []
    decreases |s|
  {
    if s == [] then []
    else
      var i := FirstBreak(s);
      if i == |s| then [s]
      else
        var width := if s[i] == '\r' && i + 1 < |s| && s[i + 1] == '\n' then 2 else 1;
        [s[..i]] + SplitLines(s[i + width..])
  }

  /** Index of the first whitespace character, or `|s|`. */
  function FirstSpace(s: String): (r: nat)
    ensures r <= |s|
    ensures r < |s| ==> IsSpace(s[r])
    ensures forall i :: 0 <= i < r ==> !IsSpace(s[i])
    decreases |s|
  {
    if s == [] then 0 else if IsSpace(s[0]) then 0 else 1 + FirstSpace(s[1..])
  }

  lemma FirstToken(t: String)
    requires t != [] && !IsSpace(t[0])
    ensures 0 < FirstSpace(t) && NoSpace(t[..FirstSpace(t)])
  {
  }

  predicate Tokens(r: seq<String>)
  {
    forall k :: 0 <= k < |r| ==> r[k] != [] && NoSpace(r[k])
  }

  lemma TokensCons(x: String, rest: seq<String>)
    requires x != [] && NoSpace(x) && Tokens(rest)
    ensures Tokens([x] + rest)
  {
  }

  /** `s.split()`: the maximal runs of non-whitespace characters, in order. */
  function SplitWs(s: String): (r: seq<String>)
    ensures Tokens(r)
    decreases |s|
  {
    var t := LStrip(s);
    if t == [] then []
    else
      var i := FirstSpace(t);
      FirstToken(t);
      TokensCons(t[..i], SplitWs(t[i..]));
      [t[..i]] + SplitWs(t[i..])
  }

  /** `s.expandtabs(4)` starting at column `col`: a tab advances to the next
      multiple of four, a newline or carriage return resets the column. */
  function ExpandTabsFrom(s: String, col: nat): (r: String)
    ensures '\t' !in r
    decreases |s|
  {
    if s == [] then []
    else if s[0] == '\t' then
      var n := 4 - col % 4;
      Repeat(' ', n) + ExpandTabsFrom(s[1..], col + n)
    else if s[0] == '\n' || s[0] == '\r' then [s[0]] + ExpandTabsFrom(s[1..], 0)
    else [s[0]] + ExpandTabsFrom(s[1..], col + 1)
  }

  function ExpandTabs(s: String): String
  {
    ExpandTabsFrom(s, 0)
  }

  predicate IsAsciiDigit(c: char)
  {
    '0' <= c <= '9'
  }

  /** `s.isdigit()` restricted to ASCII digits. */
  predicate IsDigits(s: String)
  {
    |s| > 0 && forall i :: 0 <= i < |s| ==> IsAsciiDigit(s[i])
  }

  function LowerChar(c: char): char
  {
    if 'A' <= c <= 'Z' then (c as int + 32) as char else c
  }

  /** `s.lower()` for ASCII letters. */
  function Lower(s: String): (r: String)
    ensures |r| == |s|
    ensures forall i :: 0 <= i < |s| ==> r[i] == LowerChar(s[i])
  {
    if s == [] then [] else [LowerChar(s[0])] + Lower(s[1..])
  }

  /** The value of a string of ASCII digits. */
  function DigitsValue(s: String): nat
    requires forall i :: 0 <= i < |s| ==> IsAsciiDigit(s[i])
    decreases |s|
  {
    if s == [] then 0
    else
      assert IsAsciiDigit(s[|s| - 1]);
      DigitsValue(s[..|s| - 1]) * 10 + (s[|s| - 1] as int - '0' as int)
  }

  /** Digits with single underscores allowed between them, as `int()` accepts. */
  predicate IsIntBody(s: String)
  {
    |s| > 0 && IsAsciiDigit(s[0]) && IsAsciiDigit(s[|s| - 1])
    && (forall i :: 0 <= i < |s| ==> IsAsciiDigit(s[i]) || s[i] == '_')
    && (forall i :: 0 <= i < |s| - 1 ==> !(s[i] == '_' && s[i + 1] == '_'))
  }

  function DropUnderscores(s: String): (r: String)
    ensures forall i :: 0 <= i < |r| ==> r[i] != '_'
  {
    if s == [] then [] else (if s[0] == '_' then [] else [s[0]]) + DropUnderscores(s[1..])
  }

  lemma DropUnderscoresDigits(s: String)
    requires forall i :: 0 <= i < |s| ==> IsAsciiDigit(s[i]) || s[i] == '_'
    ensures forall i :: 0 <= i < |DropUnderscores(s)| ==> IsAsciiDigit(DropUnderscores(s)[i])
  {
    if s != [] {
      DropUnderscoresDigits(s[1..]);
    }
  }

  /** Python `int(s)` for base-10 text: optional surrounding whitespace, an optional
      sign, and digits with single underscores between them. */
  function ParseInt(s: String): (r: Option<int>)
    ensures r.Some? ==> Strip(s) != []
  {
    var t := Strip(s);
    var negative := |t| > 0 && t[0] == '-';
    var body := if |t| > 0 && (t[0] == '-' || t[0] == '+') then t[1..] else t;
    if !IsIntBody(body) then None
    else
      DropUnderscoresDigits(body);
      var v: int := DigitsValue(DropUnderscores(body));
      Some(if negative then -v else v)
  }

  function DigitChar(d: nat): char
    requires d < 10
  {
    ('0' as int + d) as char
  }

  function NatToString(n: nat): (r: String)
    ensures |r| > 0
    ensures forall i :: 0 <= i < |r| ==> IsAsciiDigit(r[i])
  {
    if n < 10 then [DigitChar(n)] else NatToString(n / 10) + [DigitChar(n % 10)]
  }

  /** `str(i)` for an integer. */
  function IntToString(i: int): String
  {
    if i < 0 then "-" + NatToString(-i) else NatToString(i)
  }

  // ---------------------------------------------------------------------------
  // Facts about the primitives

  lemma {:induction false} FindCharAfter(a: String, b: String, c: char)
    requires c !in a
    ensures FindChar(a + b, c) == |a| + FindChar(b, c)
    decreases |a|
  {
    if a != [] {
      assert (a + b)[0] == a[0] && a[0] != c;
      assert (a + b)[1..] == a[1..] + b;
      assert c !in a[1..];
      FindCharAfter(a[1..], b, c);
    } else {
      assert a + b == b;
    }
  }

  lemma JoinCons(x: String, rest: seq<String>, sep: String)
    requires |rest| >= 1
    ensures Join([x] + rest, sep) == x + sep + Join(rest, sep)
  {
    assert ([x] + rest)[1..] == rest;
  }

  lemma SplitAtFirst(s: String, c: char)
    requires FindChar(s, c) < |s|
    ensures Split(s, c) == [s[..FindChar(s, c)]] + Split(s[FindChar(s, c) + 1..], c)
    ensures s == s[..FindChar(s, c)] + [c] + s[FindChar(s, c) + 1..]
  {
    var i := FindChar(s, c);
    assert s[i] == c;
    Around(s, i);
  }

  /** `c.join(s.split(c)) == s`. */
  lemma {:induction false} JoinSplit(s: String, c: char)
    ensures Join(Split(s, c), [c]) == s
    decreases |s|
  {
    var i := FindChar(s, c);
    if i < |s| {
      var rest := Split(s[i + 1..], c);
      JoinSplit(s[i + 1..], c);
      SplitAtFirst(s, c);
      JoinCons(s[..i], rest, [c]);
    }
  }

  /** `(c.join(parts)).split(c) == parts` when no part contains `c`. */
  lemma {:induction false} SplitJoin(parts: seq<String>, c: char)
    requires |parts| >= 1
    requires forall k :: 0 <= k < |parts| ==> c !in parts[k]
    ensures Split(Join(parts, [c]), c) == parts
    decreases |parts|
  {
    if |parts| == 1 {
      FindCharAfter(parts[0], [], c);
      assert parts[0] + [] == parts[0];
    } else {
      SplitJoin(parts[1..], c);
      SplitCons(parts[0], Join(parts[1..], [c]), c);
      assert parts == [parts[0]] + parts[1..];
    }
  }

  lemma {:induction false} FirstBreakAfter(a: String, b: String)
    requires NoLineBreak(a)
    ensures FirstBreak(a + b) == |a| + FirstBreak(b)
    decreases |a|
  {
    if a != [] {
      assert (a + b)[0] == a[0] && !IsLineBreak(a[0]);
      assert (a + b)[1..] == a[1..] + b;
      FirstBreakAfter(a[1..], b);
    } else {
      assert a + b == b;
    }
  }

  /** Splitting text that starts with a line and a newline. */
  lemma SplitLinesCons(a: String, b: String)
    requires NoLineBreak(a)
    ensures SplitLines(a + "\n" + b) == [a] + SplitLines(b)
  {
    var s := a + "\n" + b;
    FirstBreakAfter(a, "\n" + b);
    assert s == a + ("\n" + b);
    assert s[|a|] == '\n';
    assert s[..|a|] == a;
    assert s[|a| + 1..] == b;
  }

  /** `"\n".join(lines).splitlines() == lines` for lines without boundaries whose
      last line is not empty. */
  lemma {:induction false} SplitLinesJoin(lines: seq<String>)
    requires forall k :: 0 <= k < |lines| ==> NoLineBreak(lines[k])
    requires lines == [] || lines[|lines| - 1] != []
    ensures SplitLines(Join(lines, "\n")) == lines
    decreases |lines|
  {
    if |lines| == 1 {
      FirstBreakAfter(lines[0], []);
      assert lines[0] + [] == lines[0];
    } else if |lines| > 1 {
      SplitLinesJoin(lines[1..]);
      SplitLinesCons(lines[0], Join(lines[1..], "\n"));
      assert lines == [lines[0]] + lines[1..];
    }
  }

  lemma {:induction false} FirstSpaceAfter(a: String, b: String)
    requires NoSpace(a)
    ensures FirstSpace(a + b) == |a| + FirstSpace(b)
    decreases |a|
  {
    if a != [] {
      assert (a + b)[0] == a[0] && !IsSpace(a[0]);
      assert (a + b)[1..] == a[1..] + b;
      FirstSpaceAfter(a[1..], b);
    } else {
      assert a + b == b;
    }
  }

  lemma {:induction false} LStripSpaces(n: nat, s: String)
    ensures LStrip(Repeat(' ', n) + s) == LStrip(s)
    decreases n
  {
    if n > 0 {
      LStripSpaces(n - 1, s);
      LStripSpace(n, s);
    } else {
      assert Repeat(' ', n) + s == s;
    }
  }

  /** The inductive step of `LStripSpaces`: one more leading space is stripped too. */
  lemma LStripSpace(n: nat, s: String)
    requires n > 0 && LStrip(Repeat(' ', n - 1) + s) == LStrip(s)
    ensures LStrip(Repeat(' ', n) + s) == LStrip(s)
  {
    var t := Repeat(' ', n - 1) + s;
    assert Repeat(' ', n) + s == [' '] + t by { Assoc3([' '], Repeat(' ', n - 1), s); }
    assert LStrip([' '] + t) == LStrip(t) by { assert ([' '] + t)[1..] == t; }
  }

  lemma SplitWsCons(t: String, rest: String)
    requires t != [] && NoSpace(t)
    requires rest == [] || IsSpace(rest[0])
    ensures SplitWs(t + rest) == [t] + SplitWs(rest)
  {
    var x := t + rest;
    assert x[0] == t[0];
    assert LStrip(x) == x;
    FirstSpaceAfter(t, rest);
    assert x[..|t|] == t;
    assert x[|t|..] == rest;
  }

  lemma SplitWsLeadingSpace(j: String)
    ensures SplitWs(" " + j) == SplitWs(j)
  {
    var x := " " + j;
    assert x[1..] == j;
    assert LStrip(x) == LStrip(j);
  }

  lemma SplitWsJoinStep(t: String, tail: String)
    requires t != [] && NoSpace(t)
    ensures SplitWs(t + " " + tail) == [t] + SplitWs(tail)
  {
    assert t + " " + tail == t + (" " + tail);
    SplitWsCons(t, " " + tail);
    SplitWsLeadingSpace(tail);
  }

  lemma SplitWsOne(t: String)
    requires t != [] && NoSpace(t)
    ensures SplitWs(Join([t], " ")) == [t]
  {
    SplitWsCons(t, []);
    assert t + [] == t;
  }

  lemma SplitWsJoinCons(tokens: seq<String>)
    requires |tokens| >= 2 && tokens[0] != [] && NoSpace(tokens[0])
    requires SplitWs(Join(tokens[1..], " ")) == tokens[1..]
    ensures SplitWs(Join(tokens, " ")) == tokens
  {
    var tail := Join(tokens[1..], " ");
    var j := Join(tokens, " ");
    assert j == tokens[0] + " " + tail;
    assert SplitWs(j) == [tokens[0]] + SplitWs(tail) by {
      SplitWsJoinStep(tokens[0], tail);
    }
    assert tokens == [tokens[0]] + tokens[1..];
  }

  /** `" ".join(tokens).split() == tokens` for non-empty tokens without whitespace. */
  lemma {:induction false} SplitWsJoin(tokens: seq<String>)
    requires Tokens(tokens)
    ensures SplitWs(Join(tokens, " ")) == tokens
    decreases |tokens|
  {
    if tokens == [] {
      assert SplitWs([]) == [];
    } else if |tokens| == 1 {
      SplitWsOne(tokens[0]);
      assert tokens == [tokens[0]];
    } else {
      SplitWsJoin(tokens[1..]);
      SplitWsJoinCons(tokens);
    }
  }

  /** `expandtabs` leaves tab-free text unchanged. */
  lemma {:induction false} ExpandTabsNoTab(s: String, col: nat)
    requires '\t' !in s
    ensures ExpandTabsFrom(s, col) == s
    decreases |s|
  {
    if s != [] {
      assert '\t' !in s[1..];
      if s[0] == '\n' || s[0] == '\r' {
        ExpandTabsNoTab(s[1..], 0);
      } else {
        ExpandTabsNoTab(s[1..], col + 1);
      }
      assert s == [s[0]] + s[1..];
    }
  }

  lemma StripOfStripped(s: String)
    requires IsStripped(s)
    ensures Strip(s) == s
  {
  }

  lemma StripIndented(n: nat, s: String)
    requires IsStripped(s)
    ensures Strip(Repeat(' ', n) + s) == s
  {
    LStripSpaces(n, s);
  }

  lemma StartsWithConcat(a: String, b: String, p: String)
    requires StartsWith(a, p)
    ensures StartsWith(a + b, p)
  {
  }

  lemma ContainsFirst(s: String, sub: String)
    requires sub != [] && Contains(s, sub)
    ensures sub[0] in s
    decreases |s|
  {
    if !StartsWith(s, sub) {
      ContainsFirst(s[1..], sub);
    } else {
      assert s[0] == sub[0];
    }
  }

  /** A string contains every string that starts at one of its positions. */
  lemma {:induction false} ContainsAt(s: String, sub: String, i: nat)
    requires i <= |s| && StartsWith(s[i..], sub)
    ensures Contains(s, sub)
    decreases i
  {
    if i > 0 {
      assert s[1..][i - 1..] == s[i..];
      ContainsAt(s[1..], sub, i - 1);
    }
  }

  /** A string that does not contain `sub` does not start with it once stripped. */
  lemma StripNotContains(s: String, sub: String)
    requires !Contains(s, sub)
    ensures !StartsWith(Strip(s), sub)
  {
    var l := LStrip(s);
    var i := |s| - |l|;
    if StartsWith(Strip(s), sub) {
      assert StartsWith(s[i..], sub) by {
        assert l == s[i..];
        assert Strip(s) == l[..|Strip(s)|];
      }
      ContainsAt(s, sub, i);
    }
  }

  /** A character in neither the parts nor the separator is not in the join. */
  lemma {:induction false} JoinNoChar(parts: seq<String>, sep: String, c: char)
    requires forall k :: 0 <= k < |parts| ==> c !in parts[k]
    requires c !in sep
    ensures c !in Join(parts, sep)
    decreases |parts|
  {
    if |parts| > 1 {
      JoinNoChar(parts[1..], sep, c);
    }
  }

  /** The join begins with the first part. */
  lemma JoinFirst(parts: seq<String>, sep: String)
    requires |parts| >= 1 && parts[0] != []
    ensures Join(parts, sep) != [] && Join(parts, sep)[0] == parts[0][0]
  {
  }

  /** The join ends with the last part. */
  lemma {:induction false} JoinLast(parts: seq<String>, sep: String)
    requires |parts| >= 1 && parts[|parts| - 1] != []
    ensures var j := Join(parts, sep);
      j != [] && j[|j| - 1] == parts[|parts| - 1][|parts[|parts| - 1]| - 1]
    decreases |parts|
  {
    if |parts| > 1 {
      JoinLast(parts[1..], sep);
    }
  }

  /** A join whose first part starts and whose last part ends with a non-space is
      stripped. */
  lemma JoinStripped(parts: seq<String>, sep: String)
    requires |parts| >= 1 && parts[0] != [] && parts[|parts| - 1] != []
    requires !IsSpace(parts[0][0]) && !IsSpace(parts[|parts| - 1][|parts[|parts| - 1]| - 1])
    ensures IsStripped(Join(parts, sep))
  {
    JoinFirst(parts, sep);
    JoinLast(parts, sep);
  }

  lemma {:induction false} UnlinesAppend(a: seq<String>, b: seq<String>)
    ensures Unlines(a + b) == Unlines(a) + Unlines(b)
    decreases |a|
  {
    if a == [] {
      assert a + b == b;
    } else {
      assert (a + b)[0] == a[0];
      assert (a + b)[1..] == a[1..] + b;
      UnlinesAppend(a[1..], b);
    }
  }

  lemma SplitCons(a: String, tail: String, c: char)
    requires c !in a
    ensures Split(a + [c] + tail, c) == [a] + Split(tail, c)
  {
    var s := a + [c] + tail;
    assert s == a + ([c] + tail);
    FindCharAfter(a, [c] + tail, c);
    assert s[..|a|] == a;
    assert s[|a| + 1..] == tail;
  }

  /** A newline followed by newline-terminated lines splits into an empty line,
      the lines, and a final empty piece. */
  lemma SplitAfterBreak(lines: seq<String>)
    requires forall k :: 0 <= k < |lines| ==> '\n' !in lines[k]
    ensures Split("\n" + Unlines(lines), '\n') == [[]] + lines + [[]]
  {
    SplitAfterNewline(Unlines(lines));
    SplitUnlines(lines);
    Assoc3([[]], lines, [[]]);
  }

  lemma SplitAfterNewline(u: String)
    ensures Split("\n" + u, '\n') == [[]] + Split(u, '\n')
  {
    assert [] + ['\n'] + u == "\n" + u;
    SplitCons([], u, '\n');
  }

  lemma StartsWithPrefix(a: String, b: String)
    ensures StartsWith(a + b, a) && (a + b)[|a|..] == b
  {
  }

  /** Splitting newline-terminated lines at newlines gives the lines back, and a
      final empty piece. */
  lemma {:induction false} SplitUnlines(lines: seq<String>)
    requires forall k :: 0 <= k < |lines| ==> '\n' !in lines[k]
    ensures Split(Unlines(lines), '\n') == lines + [[]]
    decreases |lines|
  {
    if lines != [] {
      SplitCons(lines[0], Unlines(lines[1..]), '\n');
      SplitUnlines(lines[1..]);
      ConsThen(lines, [[]], Split(Unlines(lines), '\n'), Split(Unlines(lines[1..]), '\n'));
    }
  }
}

=== FILE: wrappers.dfy ===
/** Failure-carrying values used across the model. Python exceptions raised by the
    gallery code become `Err` values naming the exception class. */
module Wrappers {

  datatype Option<+T> = None | Some(value: T)
  {
    function GetOr(default: T): T
    {
      match this
      case Some(v) => v
      case None => default
    }
  }

  /** The Python exception classes the modelled code raises. */
  datatype Error =
    | ValueError
    | TypeError
    | IndexError
    | KeyError
    | FileNotFoundError

  datatype Result<+T> = Ok(value: T) | Err(error: Error)
  {
    predicate IsFailure()
    {
      Err?
    }

    function PropagateFailure<U>(): Result<U>
      requires Err?
    {
      Err(error)
    }

    function Extract(): T
      requires Ok?
    {
      value
    }
  }

  /** Python's `s[i]` on a list: a negative index counts from the end, and an index
      outside `-|s| .. |s| - 1` raises IndexError. */
  function PyIndex<T>(s: seq<T>, i: int): (r: Result<T>)
    ensures r.Ok? <==> -|s| <= i < |s|
    ensures r.Ok? ==> r.value == s[if i < 0 then |s| + i else i]
  {
    if 0 <= i < |s| then Ok(s[i])
    else if -|s| <= i < 0 then Ok(s[|s| + i])
    else Err(IndexError)
  }

  /** List bookkeeping for inductive proofs, stated over plain variables so that
      it is discharged apart from the definitions of the lists involved. */
  lemma ConsThen<T>(xs: seq<T>, z: seq<T>, x: seq<T>, y: seq<T>)
    requires xs != [] && x == [xs[0]] + y && y == xs[1..] + z
    ensures x == xs + z
  {
    assert xs == [xs[0]] + xs[1..];
  }

  lemma Snoc<T>(a: seq<T>, x: T)
    ensures (a + [x])[..|a|] == a && (a + [x])[|a|] == x
  {
  }

  lemma DropPrefix<T>(a: seq<T>, b: seq<T>)
    ensures |a| <= |a + b| && (a + b)[..|a|] == a && (a + b)[|a|..] == b
  {
  }

  lemma Assoc3<T>(a: seq<T>, b: seq<T>, c: seq<T>)
    ensures (a + b) + c == a + (b + c)
  {
  }

  lemma Around<T>(s: seq<T>, i: nat)
    requires i < |s|
    ensures s == s[..i] + [s[i]] + s[i + 1..]
  {
  }

  lemma Cons3<T>(x: T, y: T, z: T, rest: seq<T>)
    ensures [x] + ([y] + ([z] + rest)) == [x, y, z] + rest
  {
  }

  /** Right-nests a concatenation of eight pieces. */
  lemma Nest7<T>(a: seq<T>, b: seq<T>, c: seq<T>, d: seq<T>, e: seq<T>, f: seq<T>, g: seq<T>, rest: seq<T>)
    ensures a + b + c + d + e + f + g + rest == a + (b + (c + (d + (e + (f + (g + rest))))))
  {
  }
}
